=== FILE: README.md ===
# devmind core, modelled in Dafny

devmind is a Django/Celery back end. This project models its core as pure
functions over immutable state, and proves properties of those functions.

**Data collector (`devmind/data_collector`)**
- Each user has one collector config per platform, for example Jira. The config holds the credentials, two cron schedules, a retention period and a `runtime_state` of timestamps.
- A collect run computes a scan window from that state. It asks the platform provider for the items updated in the window and upserts one raw-data record per source id; a record's content hash decides between update and skip.
- The run then reconciles each touched record's attachments against the provider's list. It writes files to a blob store, dedupes by the provider's file id and deletes stale rows and files. It backfills records that lack attachments, and finally advances the config's watermark.
- Validation runs mark records that vanished upstream. Cleanup runs delete records older than the retention period.
- Beat sync keeps two periodic tasks per config in line with its cron settings.
- The HTTP views check the requested ranges and configs before queueing tasks.

**Task manager (`devmind/task_manager`)**
- A cache-based duplicate-run lock.
- The tracker of Celery task executions, which syncs with Celery's result backend.
- A bounded log collector.

**Cloud billing (`devmind/cloud_billing`)**
- Hourly collection of the month-to-date cost of each cloud provider.
- Alert rules on the cost increase and the growth against the previous hour.
- The serializers' validation rules and the masking of secrets in logs.
- The statistics view.
- The Huawei (domestic and international), Azure and Alibaba providers: configuration normalisation, billing periods, totals and error classification.

**Other parts of devmind**
- The OAuth account adapter's profile extraction and user population.
- The content filter's word and field checks.
- The periodic-task registry.
- Global app configs, with their type checks and serializers.
- The LLM call tracker.

Some models stand in for things Dafny cannot compute:
- Times are integer seconds, and days are whole numbers of 86400 seconds. The current time is a parameter.
- The cache, the database and the filesystem are immutable maps.
- The network, the cloud SDKs, the Jira server, md5, sha256 and uuid4 are function parameters (oracles). The model states what it does with whatever they answer.
- Python values stored in JSON columns are the `Json.Value` datatype, and Python truthiness is `Json.Truthy`.
- Costs are `real`.

Behaviours of the code that a reader might not expect, which the model follows:
- `run_collect` with only one of `start`/`end` falls back to the automatic window; only the HTTP collect view rejects a half-open range.
- Records marked deleted by validation are never un-marked when they are collected again.
- An attachment reported with an empty file id counts as reported, which keeps id-less rows, but it is stored with a null id.
- The data-collector tasks take their run lock from a package that is not part of this model. `CollectRun.GuardedRunCollect` models it with the semantics of `devmind/task_manager/task_lock.py`.

## Model

| member | source | states |
|---|---|---|
| CollectorModel.NewConfig | devmind/data_collector/models.py:46-54 | a new config takes the `is_enabled` and `version` the request sent, and otherwise starts enabled at version 0; owner, platform, key and value are the ones given |
| CollectorModel.NewRecord | devmind/data_collector/tasks.py:394-407 | a record created from a collected item is live, has no attachments, and was first and last seen at the run's `now` |
| CollectorModel.NullIdsMayRepeat | devmind/data_collector/models.py:190-196 | the attachment uniqueness constraint is conditional: any number of rows without a provider file id satisfy it |
| Storage.Root | devmind/data_collector/conf.py:6-18 | a configured `DATA_COLLECTOR_ROOT` is the storage root as given; with none configured the root is `/opt/storage/data_collector` |
| Storage.PathJoin | devmind/data_collector/services/storage.py:16-18 | POSIX path joining: an absolute right part replaces the left, otherwise exactly one slash separates the two |
| Storage.FilePathShape | devmind/data_collector/services/storage.py:21-30 | for a root without a trailing slash the file path is exactly `{root}/raw_data/{record uuid}/{attachment uuid}` |
| Storage.FilePathInjective | devmind/data_collector/services/storage.py:21-30 | two attachments of one record with different uuids never share a file on disk |
| Storage.FileUrlInjective | devmind/data_collector/services/storage.py:33-41 | the URL determines the record and the attachment: different pairs of slash-free uuids get different URLs |
| Storage.AttachmentDir | devmind/data_collector/services/storage.py:11-18 | a record's attachment directory ends in `raw_data/` followed by the record uuid |
| Storage.AttachmentFilePath | devmind/data_collector/services/storage.py:21-30 | an attachment's file lies directly inside its record's attachment directory, named by the attachment uuid |
| Storage.AttachmentFileUrl | devmind/data_collector/services/storage.py:33-41 | the URL is the fixed media prefix, then the record uuid, then the attachment uuid, whatever the storage root |
| Storage.EnsureAttachmentDir | devmind/data_collector/services/storage.py:44-50 | the returned path is the record's attachment directory and the directory set afterwards is the old one plus that path |
| Storage.EnsureAttachmentDirIdempotent | devmind/data_collector/services/storage.py:44-50 | with `exist_ok`, ensuring the directory twice gives the same state and path as once |
| Stamps.ParseStampText | devmind/data_collector/tasks.py:437-441 | a watermark written with `isoformat()` parses back to the same instant |
| AttachmentSync.NormId | devmind/data_collector/tasks.py:63-65 | an attachment has a stored id exactly when it reports one, cut to at most 255 characters |
| AttachmentSync.ReportedIds | devmind/data_collector/tasks.py:55-59 | the current id set holds exactly the normalised ids of the reported attachments that carry one, the empty id included |
| AttachmentSync.FileNameOf | devmind/data_collector/tasks.py:69-73 | the stored file name is never empty and at most 512 characters long |
| AttachmentSync.FindById | devmind/data_collector/tasks.py:89-95 | the lookup finds a row stored under the id, or reports that no row has it |
| AttachmentSync.SourceTime | devmind/data_collector/tasks.py:79-84 | text timestamps become null exactly when `parse_datetime` cannot read them; other values are kept |
| AttachmentSync.SyncOne | devmind/data_collector/tasks.py:62-140 | an empty download changes nothing; otherwise the record's directory is created and a uuid drawn unless a row is reused; a failed write leaves rows, files and the count as they were; a working write stores the content, counts one, and writes the row (uuid, id kept only when non-empty, cleaned name, path, type, reported size or content length, content digest, source times) in place of the reused row or appended, leaving every other row as it was |
| AttachmentSync.SyncAll | devmind/data_collector/tasks.py:62-140 | the synced count grows by at most the number of reported attachments |
| AttachmentSync.KeepFresh | devmind/data_collector/tasks.py:142-162 | a row stays exactly when it is not stale |
| AttachmentSync.CountStale | devmind/data_collector/tasks.py:151-162 | the removed count plus the rows kept is the number of rows before |
| AttachmentSync.RemoveFiles | devmind/data_collector/tasks.py:152-160 | best-effort file removal only deletes files and never creates one or touches directories |
| AttachmentSync.SyncRecord | devmind/data_collector/tasks.py:46-53 | a failed fetch returns (0, 0) and changes nothing; otherwise the synced count is at most the number of reported attachments |
| AttachmentSync.SyncRecordKeepsIdsUnique | devmind/data_collector/models.py:190-196 | the sync keeps the conditional unique constraint on (record, provider file id) |
| AttachmentSync.NoReportedIdsRemovesAll | devmind/data_collector/tasks.py:149-150 | when no reported attachment carries an id, every row of the record is removed, including rows written in the same pass |
| AttachmentSync.SurvivorsAreReported | devmind/data_collector/tasks.py:142-148 | when some id is reported, each surviving row with a non-empty id has a reported id, and every id-less row survives |
| AttachmentSync.SyncAllPreservesPositions | devmind/data_collector/tasks.py:121-132 | the upsert loop never moves or re-keys an existing row |
| AttachmentSync.UuidReuse | devmind/data_collector/tasks.py:89-97 | a stored row whose id is reported again is still there with the same uuid |
| AttachmentSync.ReportedIdsStored | devmind/data_collector/tasks.py:89-132 | with working downloads and writes, every non-empty reported id has a row after the sync |
| AttachmentSync.Convergence | devmind/data_collector/tasks.py:41-170 | reconciliation converges: with working downloads and writes, and some id reported, a non-empty id has a row afterwards exactly when it was reported |
| CollectWindow.ManualWindow | devmind/data_collector/tasks.py:245-283 | over instants read as integer text, an explicit range is accepted exactly when both bounds parse and start is before end, and is then the two parsed bounds; an unparsable bound gives the format error; no readable pair of bounds crashes |
| CollectWindow.InitialRangeDays | devmind/data_collector/tasks.py:285-290 | the first run reaches back 90 days exactly for `3m` and 30 days for anything else |
| CollectWindow.IncrementalStart | devmind/data_collector/tasks.py:297-315 | a set but unreadable watermark crashes; otherwise the start is the earlier of the watermark and one day before now, or 30 days back when unset |
| CollectWindow.ComputeWindow | devmind/data_collector/tasks.py:241-319 | a scanned window is never empty; only both bounds together can be rejected; an automatic window ends now and starts at least one day earlier |
| CollectWindow.FirstRunWindow | devmind/data_collector/tasks.py:284-296 | without `first_collect_at` the window is exactly 90 days for `3m` or 30 days otherwise, ending now |
| CollectWindow.ResumesAtWatermark | devmind/data_collector/tasks.py:297-315 | a later run starts at the watermark when it is at least a day old, and one day back otherwise |
| AttachmentSync.SyncOneStoresId | devmind/data_collector/tasks.py:89-132 | with a working download and write, the step for an attachment with a non-empty id leaves a row stored under that id |
| CollectPersist.PersistItem | devmind/data_collector/tasks.py:383-435 | one item bumps exactly one counter; an item without a truthy id is skipped and changes nothing; a new key is created with the item's payload, a fresh uuid, no attachments and `now` as both sightings; a known key with a new hash takes the new payload and counts as updated; an unchanged hash only moves `last_collected_at`; other records are untouched |
| CollectPersist.PersistAll | devmind/data_collector/tasks.py:383-435 | the counters add up to the number of items and no record disappears |
| CollectPersist.PersistAllKeepsAttachments | devmind/data_collector/tasks.py:394-435 | the upsert never changes a record's attachment rows, and new records start with none |
| CollectPersist.PersistAllKeys | devmind/data_collector/tasks.py:383-435 | the pass stores exactly the old keys plus the keys of items with an id, leaves untouched records as they were, and grows the store by the created count |
| CollectPersist.PersistAllSettles | devmind/data_collector/tasks.py:408-435 | when items with one id agree on the hash, every item is settled after the pass: its record holds its hash and was last seen now |
| CollectPersist.SettledPassIsNoop | devmind/data_collector/tasks.py:412-431 | a pass over settled items creates and updates nothing and leaves the store as it was |
| CollectPersist.RepeatedCollectIsIdempotent | devmind/data_collector/tasks.py:383-435 | collecting the same items twice at the same instant gives the same records, and the second pass creates and updates nothing |
| CollectPersist.MatchedPassOnlyRestamps | devmind/data_collector/tasks.py:412-435 | a pass at any instant over items whose hashes are already stored creates and updates nothing and changes each record only in `last_collected_at` |
| CollectPersist.RecollectOnlyRestamps | devmind/data_collector/tasks.py:383-435 | collecting the same items again at a later instant creates and updates nothing, moves the items' `last_collected_at` to the new instant and leaves every other field and record as the first pass left it |
| CollectPersist.CommitRuntime | devmind/data_collector/tasks.py:437-444 | after a successful collect the start, end and success stamps are `now`, `first_collect_at` is set only when it was unset, other runtime keys and other config keys are kept; a non-object runtime state raises |
| CollectRun.SyncStored | devmind/data_collector/tasks.py:448-451 | syncing one record's attachments changes only that record's attachment rows |
| CollectRun.SyncEach | devmind/data_collector/tasks.py:448-486 | the sync loop changes only attachment rows, and only of the records it visits |
| CollectRun.BackfillSelect | devmind/data_collector/tasks.py:453-480 | the backfill list holds only records of this user and platform that list attachments, were not written in this run and have fewer rows than listed, and every such record the scan visits is in it |
| CollectRun.BackfillIsExactlyTheSelection | devmind/data_collector/tasks.py:453-480 | when the scan enumerates the store, a record is backfilled exactly when it meets the backfill condition |
| CollectRun.WrittenKeys | devmind/data_collector/tasks.py:454 | the persisted-id set holds exactly the keys of the records created or updated in this run |
| CollectRun.ProjectKeys | devmind/data_collector/tasks.py:348 | a missing or falsy `project_keys` means no project filter |
| CollectRun.Ingest | devmind/data_collector/tasks.py:381-486 | the transaction stores the stamped config, the records are the upsert's up to attachment rows, and every item is counted once |
| CollectRun.RunCollect | devmind/data_collector/tasks.py:201-542 | a run that does not succeed leaves the store as it was; a missing config returns `Config not found`; the set of configs never changes and other configs are untouched |
| CollectRun.GuardedRunCollect | devmind/task_manager/task_lock.py:189-245 | a run skipped by the duplicate-run lock changes neither the store nor the lock cache |
| CollectRun.RunKeepsIdsUnique | devmind/data_collector/models.py:190-196 | a whole run keeps the conditional attachment uniqueness constraint on every record |
| CollectRun.RunStoreIsIngested | devmind/data_collector/tasks.py:232-444 | a run either leaves the store alone or found its config, a window, a provider and items, and stored the result of ingesting them with the stamped config |
| CollectRun.RunUpsertsAndCommits | devmind/data_collector/tasks.py:381-444 | a successful run with a provider stores exactly the collected items' keys, leaves other records alone up to attachment rows, and stamps the config's runtime state |
| CollectRun.NextRunResumes | devmind/data_collector/tasks.py:297-315 | after a successful run the next automatic run starts at this run's time, or one day back when that is less than a day ago |
| CollectRun.NoProviderNoChange | devmind/data_collector/tasks.py:335-340 | a platform without a provider changes nothing and reports 0 created and 0 updated |
| Jira.JqlDateRange | devmind/data_collector/services/providers/jira.py:21-39 | the range is the UTC date of the start and the day after the UTC date of the end, both as `YYYY-MM-DD`; it fails exactly when a date falls outside the calendar's range |
| Jira.JqlRangeCoversWindow | devmind/data_collector/services/providers/jira.py:28-39 | every instant between start and end falls on a date no earlier than the start date and strictly before the exclusive end date |
| Jira.Client | devmind/data_collector/services/providers/jira.py:42-58 | a missing base URL is refused; an accepted base URL is non-empty without a trailing slash; cloud auth needs truthy email and token, legacy auth truthy username and password, and those are the credentials used |
| Jira.Authenticate | devmind/data_collector/services/providers/jira.py:110-120 | authentication succeeds exactly when the auth dict is non-empty, a client can be built and the server accepts `myself` |
| Jira.AttachmentList | devmind/data_collector/services/providers/jira.py:86 | a falsy attachment field gives no attachments, a list is kept as is, and a string is listed character by character |
| Jira.IssueToItem | devmind/data_collector/services/providers/jira.py:80-104 | an issue without a key gives no item; an item has exactly the six collector fields, the issue key as id, the payload of issue, comments and attachments, the hash of that payload, and the project as filter metadata |
| Jira.HashDependsOnlyOnPayload | devmind/data_collector/services/providers/jira.py:87-93 | two items with the same raw payload have the same hash |
| Jira.IssueItem | devmind/data_collector/services/providers/jira.py:182-199 | an issue contributes an item only when it has a key, and that item is well formed |
| Jira.ItemsOfAppend | devmind/data_collector/services/providers/jira.py:172-207 | the items of consecutive pages are the concatenation of each page's items |
| Jira.CollectPage | devmind/data_collector/services/providers/jira.py:182-199 | the loop over one page returns exactly that page's items in order |
| Jira.CollectPages | devmind/data_collector/services/providers/jira.py:166-209 | the pagination loop raises exactly when one of its page requests raises; otherwise it returns the items of every issue it scanned, in order |
| Jira.ScannedConsistent | devmind/data_collector/services/providers/jira.py:172-207 | against a server whose total and pages agree, the loop visits every issue exactly once, in order |
| Jira.Jql | devmind/data_collector/services/providers/jira.py:150-157 | the query always starts with the date clause and adds a project clause exactly when project keys are given |
| Jira.Collect | devmind/data_collector/services/providers/jira.py:135-209 | collect raises when the date range or the client cannot be built, and otherwise exactly when a page request of the search raises (a failed `search_issues` or a `total` that `int()` refuses); otherwise it returns the items of the scanned issues, every one well formed |
| Jira.ItemsAreWellFormed | devmind/data_collector/services/providers/jira.py:182-199 | every collected item has a truthy id and the hash of its own payload |
| Jira.Missing | devmind/data_collector/services/providers/jira.py:225-231 | the missing list holds exactly the ids the server no longer has |
| Jira.Validate | devmind/data_collector/services/providers/jira.py:211-234 | no ids or no client gives an empty list; otherwise an id is reported exactly when the server no longer has it |
| Jira.IdText | devmind/data_collector/tasks.py:63-65 | a text id is kept as is, and only null has no id |
| Jira.MetaOf | devmind/data_collector/services/providers/jira.py:247-255 | the id is `str()` of the attachment's `id` (absent when null); text `filename`, `content` and `mimeType` and an integer `size` are carried over as given, and a missing one is absent |
| Jira.FetchAttachments | devmind/data_collector/services/providers/jira.py:236-256 | a falsy attachment list gives none; a list of objects gives one metadata entry per attachment in order; anything else raises |
| Jira.Download | devmind/data_collector/services/providers/jira.py:258-277 | no URL or no client gives no content; otherwise the content is what the server returns for the URL |
| Providers.GetProvider | devmind/data_collector/services/providers/__init__.py:8-18 | `jira` and `feishu` resolve to their providers and every other platform to none |
| Providers.Authenticate | devmind/data_collector/services/providers/feishu.py:13-19 | an empty auth dict never authenticates; Feishu accepts any non-empty one |
| Providers.Collect | devmind/data_collector/services/providers/feishu.py:21-33 | Feishu collects nothing and Jira collects through its search loop |
| Providers.Validate | devmind/data_collector/services/providers/feishu.py:35-47 | a provider reports only ids it was asked about, and Feishu reports none |
| Providers.FetchAttachments | devmind/data_collector/services/providers/feishu.py:49-53 | Feishu lists no attachments |
| Providers.Download | devmind/data_collector/services/providers/base.py:69-78 | the base download, which Feishu inherits, returns no content |
| Retention.RetentionSeconds | devmind/data_collector/tasks.py:590-591 | a falsy retention gives 180 days, a non-zero integer that many days, and text, list or object retentions make `timedelta` raise |
| Retention.Cutoff | devmind/data_collector/tasks.py:588-591 | the cutoff is now minus the retention, and only exists when it stays inside the datetime range |
| Retention.Expired | devmind/data_collector/tasks.py:595-599 | a record is due for cleanup when it belongs to the config's user and platform and was last collected before the cutoff; a record never collected is not |
| Retention.Survivors | devmind/data_collector/tasks.py:594-609 | a record survives exactly when it is not an expired record of this config, and survivors are unchanged |
| Retention.DoomedPathsAreExpiredFiles | devmind/data_collector/tasks.py:601-608 | a file is removed only when it is the non-empty path of an attachment of an expired record |
| Retention.RemovePaths | devmind/data_collector/tasks.py:603-608 | a file disappears exactly when it is doomed and removable; every other file and all directories stay |
| Retention.Sweep | devmind/data_collector/tasks.py:594-609 | the sweep keeps the survivors, counts the deleted records and removes the doomed files |
| Retention.RunCleanup | devmind/data_collector/tasks.py:549-630 | a missing config returns `Config not found`; a raising cleanup leaves the records and configs as they were; other configs are never touched |
| Retention.CleanupAt | devmind/data_collector/tasks.py:594-630 | a cleanup that finishes reports success; one that raises leaves records and configs unchanged |
| Retention.CleanupDeletesExpired | devmind/data_collector/tasks.py:590-609 | a successful cleanup deletes exactly the expired records of the config, reports their number and removes their files |
| Retention.SurvivorsCount | devmind/data_collector/tasks.py:600 | the deleted count is never negative: survivors are at most the records before |
| Retention.CleanupStampsRuntime | devmind/data_collector/tasks.py:610-613 | cleanup stamps `last_cleanup_at` with now and keeps every other runtime and config key |
| Retention.CleanupKeepsOthers | devmind/data_collector/tasks.py:595-599 | records of other users or platforms, and records never collected, survive the cleanup unchanged |
| Retention.DefaultRetention | devmind/data_collector/tasks.py:590-599 | without a retention setting a record of the config is deleted exactly when it was last seen more than 180 days ago |
| Retention.GuardedRunCleanup | devmind/task_manager/task_lock.py:189-245 | a cleanup skipped by the duplicate-run lock changes neither the store nor the lock cache |
| Retention.CandidateIds | devmind/data_collector/tasks.py:675-683 | the ids checked are exactly those of live records of the config last seen inside the range |
| Retention.MarkDeleted | devmind/data_collector/tasks.py:699-704 | records of the config whose id is missing are tombstoned; nothing else changes and no record is removed |
| Retention.RunValidate | devmind/data_collector/tasks.py:634-726 | a missing config returns `Config not found`; validation never adds or removes records or touches configs or files, and it marks at most as many records as it validated |
| Retention.Reported | devmind/data_collector/tasks.py:685-697 | the provider reports only ids it was given, and a platform without a provider reports none |
| Retention.ValidateTombstonesMissing | devmind/data_collector/tasks.py:665-704 | with a Jira config and readable bounds, a record ends tombstoned exactly when it already was, or it belongs to the config and some candidate with its id is gone from the server (rows outside the range share the mark) |
| Retention.NoProviderMarksNothing | devmind/data_collector/tasks.py:685-704 | a platform without a provider leaves the store unchanged |
| ConfigUpdate.DefaultRuntime | devmind/data_collector/serializers.py:16-24 | the default runtime state has exactly the six stamp keys, all null |
| ConfigUpdate.FillRuntime | devmind/data_collector/serializers.py:94-96 | missing stamp keys are added as null and existing keys are kept |
| ConfigUpdate.ValidateValue | devmind/data_collector/serializers.py:79-97 | a non-object value and a non-object runtime state are rejected with their messages; an accepted value keeps every other key and has a complete runtime state |
| ConfigUpdate.ValidateValueIdempotent | devmind/data_collector/serializers.py:79-97 | validating an already validated value changes nothing |
| ConfigUpdate.Blank | devmind/data_collector/serializers.py:69 | a falsy secret is blank, a text secret is blank exactly when it is all whitespace, and any other truthy value makes `strip` raise |
| ConfigUpdate.RestoreSecrets | devmind/data_collector/serializers.py:68-70 | restoring secrets adds the secret keys and leaves every other key as merged |
| ConfigUpdate.MergeValue | devmind/data_collector/serializers.py:54-72 | the merged value holds the keys of the current value, of the incoming value, and the runtime state |
| ConfigUpdate.Update | devmind/data_collector/serializers.py:48-77 | a stale version is a conflict, and only a stale version is; an accepted update bumps the version by exactly one, keeps uuid and owner, applies each sent field, and keeps the value when none is sent; the (user, platform) constraint of the final `save` is checked by `ConfigViews.Commit`, which sees the other configs |
| ConfigUpdate.NewValue | devmind/data_collector/serializers.py:54-72 | without an incoming value the stored value is kept; the only failure is a crash |
| ConfigUpdate.UpdateMergesShallowly | devmind/data_collector/serializers.py:57 | outside `runtime_state` and `auth`, each incoming top-level key replaces the stored one and every other stored key is kept |
| ConfigUpdate.UpdateKeepsRuntime | devmind/data_collector/serializers.py:58-59 | a client can never overwrite the runtime state: it stays the stored one, or the default when there was none |
| ConfigUpdate.UpdateRestoresSecrets | devmind/data_collector/serializers.py:60-71 | a blank `password` or `api_token` after the auth merge falls back to the stored secret; other auth keys are the merged ones |
| ConfigUpdate.OmittedPasswordSurvives | devmind/data_collector/serializers.py:60-71 | an auth update that does not send a password keeps the stored password |
| RecordView.DisplayTitle | devmind/data_collector/serializers.py:117-130 | an empty payload or a non-Jira platform shows the source id; a title is never falsy unless the id is empty |
| RecordView.JiraTitleIsSummary | devmind/data_collector/serializers.py:124-129 | a Jira record with a truthy summary shows that summary |
| RecordView.AttachmentCount | devmind/data_collector/serializers.py:167-172 | the count is the length of a listed `attachments` field and 0 otherwise; a truthy payload that is not an object raises |
| RecordView.BackfillMatchesCount | devmind/data_collector/tasks.py:467-480 | a record is backfilled exactly when it was not written this run and has fewer rows than the list view counts |
| BeatSync.CronRoundTrip | devmind/data_collector/services/beat_sync.py:16-35 | five space-free fields written out as a cron line parse back to the same crontab |
| BeatSync.DefaultsParse | devmind/data_collector/services/beat_sync.py:48-64 | the defaults `0 */2 * * *` and `0 3 * * *` are valid five-field cron lines |
| BeatSync.CronSetting | devmind/data_collector/services/beat_sync.py:47-49 | a falsy cron setting falls back to its default and a text setting is used as given |
| BeatSync.Schedules | devmind/data_collector/services/beat_sync.py:56-66 | both crontabs are the parsed settings when both parse; if either does not parse, both tasks use the default schedules |
| BeatSync.CronSettings | devmind/data_collector/services/beat_sync.py:46-49 | an empty value uses both defaults; an object value yields both settings exactly when each one is usable |
| BeatSync.Upsert | devmind/data_collector/services/beat_sync.py:68-80 | the collect and cleanup tasks named after the config are created or replaced with their task path, kwargs, crontab and enabled flag; other tasks stay |
| BeatSync.Sync | devmind/data_collector/services/beat_sync.py:38-86 | a sync succeeds exactly when the cron settings are usable, writes both named tasks with the config's uuid kwargs and enabled flag, and touches no other task |
| BeatSync.SyncSchedules | devmind/data_collector/services/beat_sync.py:56-66 | the synced tasks carry the parsed crontabs, or both defaults when either setting is invalid |
| BeatSync.EmptyValueGetsDefaults | devmind/data_collector/services/beat_sync.py:47-49 | a config with an empty value is scheduled every two hours and cleaned at 03:00 |
| BeatSync.PrefixesDiffer | devmind/data_collector/services/beat_sync.py:10-11 | the collect and cleanup task names of one config never collide |
| BeatSync.SyncIdempotent | devmind/data_collector/services/beat_sync.py:38-86 | syncing the same config twice gives the same Beat state as once |
| BeatSync.UpsertIdempotent | devmind/data_collector/services/beat_sync.py:68-80 | `update_or_create` with the same defaults twice is the same as once |
| BeatSync.Unsync | devmind/data_collector/services/beat_sync.py:89-101 | unsync removes exactly the config's two tasks and keeps the other tasks and the crontabs |
| BeatSync.UnsyncAfterSync | devmind/data_collector/services/beat_sync.py:38-101 | removing a newly synced config restores the Beat table |
| ConfigViews.Lookup | devmind/data_collector/views/config.py:69-72 | a config is found exactly when its uuid exists and it belongs to the requesting user |
| ConfigViews.WholeDays | devmind/data_collector/views/config.py:155-156 | `timedelta.days` of a positive span is the number of whole days it contains |
| ConfigViews.CollectKwargs | devmind/data_collector/views/config.py:160-163 | the queued collect job always gets the config uuid, and gets both bounds, unchanged, exactly when both are sent |
| ConfigViews.CheckBounds | devmind/data_collector/views/config.py:138-159 | no bounds pass; only one bound, or a falsy one, is rejected as `must be provided together`; failures are rejections or crashes |
| ConfigViews.CollectView | devmind/data_collector/views/config.py:131-177 | an unknown or foreign config is not found, and a queued task carries the kwargs built from the request |
| ConfigViews.CollectAcceptsExactly | devmind/data_collector/views/config.py:138-159 | two non-empty bounds are queued exactly when both parse, start is before end and the span is at most 90 whole days |
| ConfigViews.OneBoundRejected | devmind/data_collector/views/config.py:138-142 | sending only one bound, or an empty one, is rejected |
| ConfigViews.QueuedRangeIsScanned | devmind/data_collector/views/config.py:138-164 | a range the view queues is accepted by the collect job and scanned exactly |
| ConfigViews.IsUniqueViolation | devmind/data_collector/views/config.py:85-89 | a database error counts as a duplicate platform exactly when it names the constraint or mentions `unique` in any case |
| ConfigViews.Create | devmind/data_collector/views/config.py:79-93 | a created config is new, for a platform the user had no config for, with the sent `is_enabled` and `version` or the defaults, and Beat is synced with it; a duplicate platform is reported exactly when the value validates, the user already has that platform and the error is a unique violation |
| ConfigViews.CreateDisabledSyncsDisabled | devmind/data_collector/services/beat_sync.py:50-78 | a config created with `is_enabled` false is stored disabled and both of its Beat tasks are written disabled |
| ConfigViews.CreateKeepsConfigsUnique | devmind/data_collector/models.py:62-67 | creating a config keeps (user, platform) unique |
| ConfigViews.UpdateView | devmind/data_collector/views/config.py:95-98 | a saved update bumps the version by one, leaves no other config of the user on its platform, and re-syncs Beat; a version conflict happens exactly on a stale version; a move onto a platform the user already holds fails |
| ConfigViews.UpdateKeepsConfigsUnique | devmind/data_collector/models.py:62-67 | a saved update, platform switches included, keeps (user, platform) unique |
| ConfigViews.Commit | devmind/data_collector/views/config.py:95-98 | the save and the Beat sync commit together: the config is stored exactly when no other config of the user has its platform and the sync succeeds |
| ConfigViews.Destroy | devmind/data_collector/views/config.py:100-103 | deleting removes exactly that config and its two Beat tasks |
| ConfigViews.DestroyUndoesCreate | devmind/data_collector/views/config.py:79-103 | deleting a newly created config restores the configs and the Beat task table |
| ConfigViews.AuthConfig | devmind/data_collector/views/config.py:208-211 | the auth dict gets a top-level `base_url` when one is set, and otherwise is the stored auth unchanged |
| ConfigViews.Authenticated | devmind/data_collector/views/config.py:218-225 | the response is 200 with the provider's verdict and `Connection OK.` or `Authentication failed.` |
| ConfigViews.ValidatePayload | devmind/data_collector/views/config.py:195-230 | a missing platform or value is a 400; a valid verdict needs a known platform whose provider accepts the auth |
| ConfigViews.UnknownPlatformInvalid | devmind/data_collector/views/config.py:212-217 | an unregistered platform gives `Unknown platform.` with status 200 |
| ConfigViews.ValidateStored | devmind/data_collector/views/config.py:302-329 | a stored config is found exactly when it belongs to the user, and is valid only when its provider accepts its auth |
| ConfigViews.ValidateView | devmind/data_collector/views/config.py:350-369 | a found config is rejected exactly when a bound is falsy; a queued validation carries the uuid and both bounds unchanged |
| TaskLock.LockKey | devmind/task_manager/task_lock.py:16-33 | the cache key is `task_manager_task_lock:` followed by the lock name, so different names give different keys |
| TaskLock.Acquire | devmind/task_manager/task_lock.py:19-47 | acquiring succeeds exactly when the cache works and the key is absent, and only then adds the key |
| TaskLock.IsLocked | devmind/task_manager/task_lock.py:72-88 | a task counts as locked exactly when the cache answers and holds its lock key; a failing cache reports it unlocked |
| TaskLock.Release | devmind/task_manager/task_lock.py:50-69 | releasing reports success exactly when the delete works, and then the key is gone and nothing else changed |
| TaskLock.ExtractLockParam | devmind/task_manager/task_lock.py:92-117 | a truthy keyword argument wins; otherwise the first positional argument, or the second when the first is a bound task, and none when a bound task has no second |
| TaskLock.BuildLockName | devmind/task_manager/task_lock.py:120-157 | a falsy value keeps the base name; a value of up to 200 characters is appended after `_`; a longer one is replaced by the first 16 hex digits of its MD5, so the name never grows by more than 201 characters |
| TaskLock.GuardName | devmind/task_manager/task_lock.py:191-206 | without a lock parameter the base name is used |
| TaskLock.Guard | devmind/task_manager/task_lock.py:208-239 | a held lock skips with `task_already_running`, a failed acquire skips with `lock_acquisition_failed`; otherwise the wrapped function runs once, its result or exception is passed on, and the lock is released in `finally` |
| TaskLock.LockReleasedOnEveryPath | devmind/task_manager/task_lock.py:234-239 | whether the wrapped function returns or raises, the cache ends as it started unless the delete itself fails; a skipped call changes neither cache nor state |
| TaskLock.NoConcurrentRun | devmind/task_manager/task_lock.py:212-221 | while the lock is held a second call is skipped and never runs the wrapped function |
| TaskTracker.StatusSets | devmind/task_manager/constants.py:18-59 | there are six distinct statuses; completed (SUCCESS, FAILURE, REVOKED) and running (STARTED, RETRY) are disjoint and PENDING is in neither |
| TaskTracker.Duration | devmind/task_manager/models.py:140-149 | a duration exists exactly when the execution started, and runs to the finish time or, while unfinished, to now |
| TaskTracker.Register | devmind/task_manager/services/task_tracker.py:28-76 | an already registered id is returned unchanged; a new one is stored PENDING, unstarted, with empty defaults for missing arguments and metadata |
| TaskTracker.RegisterIdempotent | devmind/task_manager/services/task_tracker.py:53-64 | registering the same id twice, with any arguments, changes nothing the second time |
| TaskTracker.RegisterKeepsWellKeyed | devmind/task_manager/services/task_tracker.py:53-64 | every stored execution stays under its own task id |
| TaskTracker.Stamp | devmind/task_manager/services/task_tracker.py:108-112 | `started_at` is set only by STARTED when unset, `finished_at` only by a completed status when unset, both to now, and never overwritten |
| TaskTracker.MergeMetadata | devmind/task_manager/services/task_tracker.py:123-126 | new metadata is merged over the stored dict, or becomes the dict when none was stored; a non-dict stored value raises |
| TaskTracker.Update | devmind/task_manager/services/task_tracker.py:79-140 | an unknown id is not found; the update keeps identity fields, sets the status, and replaces result, error and traceback only when given |
| TaskTracker.UpdateKeepsWellKeyed | devmind/task_manager/services/task_tracker.py:103-128 | updating keeps every execution under its own task id |
| TaskTracker.TimestampsSetOnce | devmind/task_manager/services/task_tracker.py:108-112 | the first STARTED or completed update fixes its timestamp and a later update does not move it |
| TaskTracker.LifecycleDuration | devmind/task_manager/models.py:140-163 | register, start at t1 and succeed at t2: the execution is completed, not running, and lasted t2 - t1 |
| TaskTracker.CeleryStatus | devmind/task_manager/services/task_tracker.py:157-167 | every Celery state maps to one of the six statuses, known ones to themselves and unknown ones to PENDING |
| TaskTracker.CeleryArguments | devmind/task_manager/services/task_tracker.py:170-188 | a traceback is never passed on; a result comes only from a ready task, an error only from a ready FAILURE; reading the result fails only for a ready SUCCESS |
| TaskTracker.IntendedArguments | devmind/task_manager/services/task_tracker.py:170-188 | corrected reading: the arguments are missing exactly when the as-written reading fails, the result is always a plain value, a failure keeps its error text, and an unreadable failure's non-empty trace is passed on as the traceback |
| TaskTracker.Sync | devmind/task_manager/services/task_tracker.py:143-207 | an unknown id is missing; an unchanged status returns the stored row; a status change is written exactly when the Celery result is a plain value, and the traceback is never changed |
| TaskTracker.FailedTaskNeverSynced | devmind/task_manager/services/task_tracker.py:177-196 | a task that failed with an exception is never recorded as FAILURE: storing the exception object as the result raises and the sync returns nothing |
| TaskTracker.SyncIntended | devmind/task_manager/services/task_tracker.py:143-207 | with the failure recorded as an error, a status change fails only when the Celery result cannot be read at all |
| TaskTracker.FailedTaskSyncedWhenIntended | devmind/task_manager/services/task_tracker.py:177-196 | with the corrected sync a failed task is recorded as FAILURE with the exception's text and a finish time |
| LogCollector.New | devmind/task_manager/utils/log_collector.py:19-27 | a new collector is empty with the given bound |
| LogCollector.Add | devmind/task_manager/utils/log_collector.py:29-53 | an entry is appended, after dropping the oldest when the buffer is full; the bound is kept; a bound of 0 or less on an empty buffer makes the pop raise |
| LogCollector.MakeEntry | devmind/task_manager/utils/log_collector.py:44-51 | the entry has the level, message and time, and an `exception` only for a non-empty exception text |
| LogCollector.AddAllKeepsNewest | devmind/task_manager/utils/log_collector.py:29-69 | with a positive bound, any sequence of log calls keeps exactly the newest `max_records` messages in order, within the bound |
| LogCollector.AddStep | devmind/task_manager/utils/log_collector.py:41-53 | one add keeps the buffer bounded and holds the newest messages |
| LogCollector.GetLogs | devmind/task_manager/utils/log_collector.py:71-78 | the logs are the buffer's entries in order |
| LogCollector.WarningsAndErrors | devmind/task_manager/utils/log_collector.py:80-90 | exactly the WARNING, ERROR and CRITICAL entries are returned |
| LogCollector.WarningsAndErrorsOrdered | devmind/task_manager/utils/log_collector.py:87-90 | the filtered entries keep their original order |
| LogCollector.GetSummary | devmind/task_manager/utils/log_collector.py:92-108 | the total is the buffer size, each level that occurs is counted exactly, no absent level appears, and the counts add up to the total |
| LogCollector.TallyCounts | devmind/task_manager/utils/log_collector.py:104-106 | the per-level tally has exactly the levels present, each with its count, summing to the number of entries |
| LogCollector.Clear | devmind/task_manager/utils/log_collector.py:110-112 | clearing empties the buffer and keeps the bound |
| BillingModel.PeriodOf | devmind/cloud_billing/tasks.py:58 | the period is the `YYYY-MM` rendering of the date: seven characters with a dash at position 4 |
| BillingModel.PreviousSlot | devmind/cloud_billing/tasks.py:231-237 | the previous slot is the hour before in the same period, or hour 23 at midnight |
| BillingModel.PreviousSlotAtMidnight | devmind/cloud_billing/tasks.py:234-237 | at midnight the previous period is yesterday's month: the same month except on the 1st, then the month before, and December of the year before on 1 January |
| BillingModel.Clean | devmind/cloud_billing/models.py:220-229 | a rule is clean exactly when some threshold is set and non-zero; otherwise the fixed message is raised |
| BillingModel.SaveRule | devmind/cloud_billing/models.py:231-236 | a rule is stored exactly when it is clean, under its provider; otherwise nothing is written and the message is returned |
| BillingModel.SaveKeepsRulesClean | devmind/cloud_billing/models.py:220-236 | saving never puts a rule without a threshold in the table |
| BillingModel.ShowBilling | devmind/cloud_billing/models.py:149-153 | the text starts with the display name and ends with the two-digit hour and `:00` |
| BillingModel.RuleParts | devmind/cloud_billing/models.py:238-246 | one part per set threshold, in the order cost, growth with a `%`, growth amount |
| BillingModel.CleanRuleShowsThreshold | devmind/cloud_billing/models.py:220-246 | a rule that passes `clean` always shows at least one threshold |
| BillingCollect.Selected | devmind/cloud_billing/tasks.py:43-48 | exactly the active providers, restricted to the given id when it is truthy |
| BillingCollect.RowOf | devmind/cloud_billing/tasks.py:103-107 | the row takes the answer's figures with defaults 0, `USD`, an empty dict and an empty account id |
| BillingCollect.Decide | devmind/cloud_billing/tasks.py:70-162 | a provider is skipped exactly when its config is empty, the fetch raised or its status is not `success`, with the matching error text; otherwise its row and success entry are produced |
| BillingCollect.Upsert | devmind/cloud_billing/tasks.py:109-142 | the slot is created or overwritten with the new figures, keeping the first collection time; no other slot changes |
| BillingCollect.UpsertReusesSlot | devmind/cloud_billing/tasks.py:109-127 | `get_or_create` on (provider, period, hour) never adds a second row for a slot: an existing slot keeps the row count and takes the new account id, and only a new slot adds one row |
| BillingCollect.Apply | devmind/cloud_billing/tasks.py:61-162 | every processed provider lands in exactly one of success or failed |
| BillingCollect.RunAll | devmind/cloud_billing/tasks.py:61-162 | the loop adds one outcome per provider |
| BillingCollect.CollectBilling | devmind/cloud_billing/tasks.py:20-180 | the result lists are those of the loop over the selected providers and the total counts them all |
| BillingCollect.RunAllSlots | devmind/cloud_billing/tasks.py:109-127 | a stored slot that no collected provider of this run writes keeps its row |
| BillingCollect.RunAllCollectedAt | devmind/cloud_billing/models.py:131-132 | no row is removed, and each row keeps its first collection time or gets `now` when created |
| BillingCollect.CollectedProviderRow | devmind/cloud_billing/tasks.py:103-127 | after the run a collected provider's slot holds that provider's figures |
| BillingCollect.RunAllAbsent | devmind/cloud_billing/tasks.py:109-120 | a slot is created only by a provider that was collected into it |
| BillingCollect.AlertsAreCollected | devmind/cloud_billing/tasks.py:144-150 | an alert check is queued once per success, and only for collected providers |
| BillingCollect.RecollectIdempotent | devmind/cloud_billing/tasks.py:109-127 | running the same collection again in the same hour, with the same answers, leaves the table as the first run left it |
| BillingCollect.RerunStable | devmind/cloud_billing/tasks.py:122-127 | overwriting slots that already hold the same figures changes nothing |
| BillingAlert.CurrentSlot | devmind/cloud_billing/tasks.py:214-222 | the current slot is the provider's at the current hour |
| BillingAlert.Gather | devmind/cloud_billing/tasks.py:199-266 | the lookups fail in the source's order: provider not found, no active rule, no current data, no previous data, previous cost not positive; otherwise the figures are returned |
| BillingAlert.Reasons | devmind/cloud_billing/tasks.py:271-302 | there is a reason exactly when a set cost threshold is exceeded by the increase or a set growth threshold by the percentage, the cost reason first |
| BillingAlert.ReasonsAsWritten | devmind/cloud_billing/tasks.py:274-290 | `Decimal(str(None))` raises, so the reasons are computed only when both the cost and growth thresholds are present |
| BillingAlert.AsWrittenAgreesWhenBothSet | devmind/cloud_billing/tasks.py:274-302 | with both thresholds present the code as written gives the intended reasons |
| BillingAlert.Language | devmind/cloud_billing/tasks.py:314-320 | the language is `zh-hans` unless the webhook config is a dict with a `language` entry |
| BillingAlert.Finish | devmind/cloud_billing/tasks.py:304-365 | with no reason nothing is stored; a percentage too wide for its 5-digit column returns the store error and writes nothing; otherwise one pending alert record with the figures and message is appended |
| BillingAlert.CheckAlert | devmind/cloud_billing/tasks.py:184-379 | a failed lookup returns its reason and changes nothing; an alert is raised exactly when a set threshold is exceeded and the percentage fits its column, and then exactly one pending record for the provider is appended and nothing else changes; an exceeded threshold with a percentage that does not fit returns the store error and changes nothing |
| BillingAlert.WideGrowthIsNotRecorded | devmind/cloud_billing/models.py:286-290 | a rise from 0.50 to 10.00 (1900%) cannot be stored in `increase_percent`, so the check reports the error and records nothing |
| BillingAlert.CheckAlertAsWritten | devmind/cloud_billing/tasks.py:274-290 | a rule missing the cost or growth threshold returns the conversion error and writes nothing |
| BillingAlert.AsWrittenMatchesWhenBothSet | devmind/cloud_billing/tasks.py:274-290 | with both thresholds present the code as written behaves as intended |
| BillingAlert.GrowthOnlyRuleNeverAlertsAsWritten | devmind/cloud_billing/tasks.py:274 | a clean rule with only a growth threshold, with cost doubling, raises no alert as written, though the intended check alerts |
| ProviderService.FirstTruthy | devmind/cloud_billing/services/provider_service.py:39-47 | the `or` chain gives the first truthy value among the keys, and a falsy value only when every key is falsy |
| ProviderService.KindOf | devmind/cloud_billing/services/provider_service.py:38-108 | each of the five known type names selects its own branch and no other name does |
| ProviderService.DropBlank | devmind/cloud_billing/services/provider_service.py:129-133 | exactly the entries that are neither None nor the empty string are kept, unchanged |
| ProviderService.KnownFields | devmind/cloud_billing/services/provider_service.py:38-107 | a field is present exactly when one of its source keys holds a truthy value, which it then takes; `is_international` is present only for a truthy `huawei-intl` flag |
| ProviderService.Normalize | devmind/cloud_billing/services/provider_service.py:18-138 | an unknown type keeps the config minus blank values; a known type gives only truthy fields, each from its first truthy source key |
| ProviderService.NormalizedFieldsPerType | devmind/cloud_billing/services/provider_service.py:38-124 | AWS and Alibaba give at most key, secret and region; Huawei adds project id and the international flag; Azure gives only its four fields |
| ProviderService.SpecificCode | devmind/cloud_billing/services/provider_service.py:290-325 | a provider rule yields only that provider's codes, and `huawei-intl` or an unknown type has no specific rule |
| ProviderService.GenericCode | devmind/cloud_billing/services/provider_service.py:327-336 | the generic rules give `validation_failed` exactly when no ssl, timeout, connection or network keyword occurs, and ssl takes precedence |
| ProviderService.ErrorCode | devmind/cloud_billing/services/provider_service.py:270-336 | an empty message gives `validation_failed`; otherwise a matching provider rule wins, then the generic rules on the lower-cased message |
| ProviderService.LowerIdempotent | devmind/cloud_billing/services/provider_service.py:288 | lower-casing twice is lower-casing once |
| ProviderService.ErrorCodeIgnoresCase | devmind/cloud_billing/services/provider_service.py:288 | the error code does not depend on the case of the message |
| ProviderService.HuaweiIntlUsesGenericRules | devmind/cloud_billing/services/provider_service.py:304-329 | an SSL message gives `huawei_ssl_error` for `huawei` but the generic `ssl_error` for `huawei-intl` |
| ProviderService.ValidateCredentials | devmind/cloud_billing/services/provider_service.py:203-268 | valid exactly when the client is built and reports valid, and then no error code and the account id if it could be read; a refusal gives `validation_failed`; a raise gives the code of its message and an empty account id |
| ConfigMasking.AnyOccurs | devmind/cloud_billing/utils/logging.py:40-43 | true exactly when some keyword occurs in the lower-cased key |
| ConfigMasking.Sensitive | devmind/cloud_billing/utils/logging.py:38-43 | a key is sensitive when some listed keyword occurs in its lower-cased form |
| ConfigMasking.MaskValue | devmind/cloud_billing/utils/logging.py:45-52 | a falsy value or a key without a sensitive keyword is kept; a longer string keeps its first four characters followed by `***`, anything else becomes `***` |
| ConfigMasking.Mask | devmind/cloud_billing/utils/logging.py:6-54 | a falsy value or a non-dict is returned unchanged; a dict keeps its keys, each value masked by its own key |
| ConfigMasking.MaskRevealsAtMostFour | devmind/cloud_billing/utils/logging.py:45-50 | a masked secret is at most seven characters, ends in `***`, and shows no more than a prefix of the original |
| ConfigMasking.MaskIdempotent | devmind/cloud_billing/utils/logging.py:6-54 | masking an already masked config changes nothing |
| ConfigMasking.MaskObject | devmind/cloud_billing/utils/logging.py:57-85 | None stays None, an object with attributes is masked like its dict, anything else becomes its text |
| BillingSerializers.ValidateName | devmind/cloud_billing/serializers.py:35-45 | a name passes exactly when it is the edited provider's own name or no provider has it |
| BillingSerializers.AcceptedCreateKeepsNamesUnique | devmind/cloud_billing/serializers.py:35-45 | adding a provider whose name passed keeps names unique |
| BillingSerializers.AcceptedRenameKeepsNamesUnique | devmind/cloud_billing/serializers.py:35-45 | renaming a provider to a name that passed keeps names unique |
| BillingSerializers.ValidateConfig | devmind/cloud_billing/serializers.py:47-53 | a config passes exactly when it is a dict |
| BillingSerializers.Checked | devmind/cloud_billing/serializers.py:134-140 | the checked threshold is the incoming one when set, otherwise the stored one on update |
| BillingSerializers.ValidateRule | devmind/cloud_billing/serializers.py:130-146 | the request fails exactly when neither the checked cost nor the checked growth threshold is set |
| BillingSerializers.Apply | devmind/cloud_billing/serializers.py:102-128 | a partial update replaces the sent thresholds and keeps everything else |
| BillingSerializers.ZeroingOnlyThresholdPassesValidationButFailsSave | devmind/cloud_billing/serializers.py:134-136 | setting the only threshold to 0 passes `validate`, which falls back to the stored value, and then the model's save refuses the rule |
| BillingSerializers.ValidateRuleIntended | devmind/cloud_billing/serializers.py:130-146 | the corrected check judges the thresholds the row will actually have after the update |
| BillingSerializers.IntendedUpdateAlwaysSaves | devmind/cloud_billing/models.py:220-236 | an update the corrected check accepts is always accepted by the model's save |
| BillingSerializers.ChecksAgreeWithoutFalsyValues | devmind/cloud_billing/serializers.py:130-146 | when no sent threshold is zero or null the written and the corrected checks agree |
| BillingStats.DateBoundsAreWholeDays | devmind/cloud_billing/views/billing.py:65-79 | the start date keeps its day from midnight on and the end date keeps every instant of its day and nothing later |
| BillingStats.ListKeeps | devmind/cloud_billing/views/billing.py:61-79 | a row passes the list filters when it matches the read provider id, the truthy period and both date bounds |
| BillingStats.Filter | devmind/cloud_billing/views/billing.py:61-79 | exactly the rows that match every truthy parameter are kept; a `provider_id` of "0" is truthy and keeps only provider 0 |
| BillingStats.ReadId | devmind/cloud_billing/views/billing.py:56-62 | an absent or empty `provider_id` adds no filter; any other text is read by `int()`, and text it refuses is kept as the error's text |
| BillingStats.ProviderMatches | devmind/cloud_billing/views/billing.py:61-62 | a read provider id keeps only that provider's rows; no id keeps every row |
| BillingStats.ZeroIdFilters | devmind/cloud_billing/views/billing.py:61-62 | the text "0" names provider 0 and keeps exactly its rows, instead of switching the filter off |
| BillingStats.QueryError | devmind/cloud_billing/views/billing.py:61-79 | the first parameter whose filter raises, in the order the filters are built: provider id, start date, end date |
| BillingStats.ListRows | devmind/cloud_billing/views/billing.py:50-81 | a provider id `int()` refuses, a malformed start or a malformed end date fails the request, in that order; otherwise the result is exactly the rows that pass the filters |
| BillingStats.FindKey | devmind/cloud_billing/views/billing.py:131 | the search finds the kept row with the key, or reports that none has it |
| BillingStats.Offer | devmind/cloud_billing/views/billing.py:120-132 | one more row keeps one row per key, adds only the new row, and the result covers the new row and everything covered before |
| BillingStats.KeepLatest | devmind/cloud_billing/views/billing.py:120-132 | one row per (provider, account, period) key, taken from the input, and no input row is newer (higher hour, then later collection) than the row kept for its key |
| BillingStats.KeepLatestIsTheLatest | devmind/cloud_billing/views/billing.py:120-132 | a row that no other row of its key is newer than is the one kept |
| BillingStats.Average | devmind/cloud_billing/views/billing.py:143-152 | the average times the number of distinct (provider, account) pairs is the total, and it is 0 without any pair |
| BillingStats.GroupByYear | devmind/cloud_billing/views/billing.py:159-169 | year grouping applies exactly when both periods are truthy, split into two parts, share the year, and run from month 01 to month 12 |
| BillingStats.WholeYearGroupsByYear | devmind/cloud_billing/views/billing.py:159-169 | `YYYY-01` to `YYYY-12` is grouped by year |
| BillingStats.CostByPeriod | devmind/cloud_billing/views/billing.py:179-209 | there is a group exactly for each period key that some kept row has |
| BillingStats.CostByPeriodSums | devmind/cloud_billing/views/billing.py:199-209 | each group's figure is the sum of the costs of the kept rows in the group |
| BillingStats.GroupsPartitionTotal | devmind/cloud_billing/views/billing.py:136-209 | summed over all groups the period figures give the total cost |
| BillingStats.AddServices | devmind/cloud_billing/views/billing.py:212-218 | adding one row's services gives every service the sum of its old figure and the row's |
| BillingStats.CostByService | devmind/cloud_billing/views/billing.py:211-218 | there is an entry exactly for each service some kept row lists |
| BillingStats.CostByServiceSums | devmind/cloud_billing/views/billing.py:211-218 | each service's figure is the sum of its cost over the kept rows |
| BillingStats.ByProvider | devmind/cloud_billing/views/billing.py:220-239 | there is one entry per (provider, account) pair, carrying its ids and the provider's display name |
| BillingStats.ByProviderFigures | devmind/cloud_billing/views/billing.py:225-239 | an entry counts the kept rows of its pair, and its cost is the largest of them or 0 when all are negative |
| BillingStats.CountPairAbsent | devmind/cloud_billing/views/billing.py:225-239 | a pair without kept rows counts none |
| BillingStats.StatsKeeps | devmind/cloud_billing/views/billing.py:100-114 | a row passes the statistics filters when it passes the list filters and its period lies, as text, within the truthy period bounds |
| BillingStats.FilterStats | devmind/cloud_billing/views/billing.py:100-114 | exactly the rows passing the list filters and the period range bounds, compared as text, are kept |
| BillingStats.ComputeStats | devmind/cloud_billing/views/billing.py:90-248 | fails exactly when the list query fails, with the same error; otherwise `count` is the number of filtered rows, not kept ones, and every other figure is computed over the latest row per key |
| CloudPeriod.Unpack | devmind/cloud_billing/clouds/azure_provider.py:173 | unpacking succeeds exactly for two integer parts; otherwise it names the first part `int()` refuses, or the wrong number of parts |
| CloudPeriod.ParsePeriod | devmind/cloud_billing/clouds/azure_provider.py:172-177 | an accepted period is two integers joined by one dash, with the month between 1 and 12 |
| CloudPeriod.ParsePeriodOfHalves | devmind/cloud_billing/clouds/azure_provider.py:172-177 | two integer texts joined by a dash are accepted exactly when the month is in range, with those numbers |
| CloudPeriod.CurrentMonthParses | devmind/cloud_billing/clouds/azure_provider.py:167-177 | the default period, the current month, always passes and reads back as that year and month |
| CloudPeriod.ValidatePeriod | devmind/cloud_billing/clouds/huawei_provider.py:153-177 | no period gives the current month; a given period is accepted unchanged exactly when it parses, otherwise the error is `Invalid period format: ` followed by the reason |
| CloudPeriod.AzurePeriodDates | devmind/cloud_billing/clouds/azure_provider.py:181-202 | the range runs from day 01 to the month's last day; it fails only when the next month's first day is past the largest year a date may have |
| CloudPeriod.AlibabaValidatePeriod | devmind/cloud_billing/clouds/alibaba_provider.py:98-122 | no period gives the current month; a given one is accepted unchanged exactly when it has the strict `%Y-%m` shape, otherwise `Invalid period format. Use YYYY-MM` |
| CloudPeriod.StrictPeriodParses | devmind/cloud_billing/clouds/alibaba_provider.py:113-120 | a period of the strict shape always passes the later month check, so that check never fails |
| CloudPeriod.StrictCurrentMonth | devmind/cloud_billing/clouds/alibaba_provider.py:110-116 | the current month always has the strict shape |
| CloudPeriod.AlibabaPeriodDates | devmind/cloud_billing/clouds/alibaba_provider.py:124-140 | the range runs from the first to the last day of the month, and fails only for December of the largest year |
| CloudPeriod.BillingCycleNamesSameMonth | devmind/cloud_billing/clouds/alibaba_provider.py:158-159 | the billing cycle cut from the start date is the requested month again |
| CloudConfig.IntSetting | devmind/cloud_billing/clouds/huawei_provider.py:65-68 | a number that differs from its default is kept; one left at the default is replaced by the environment's, and a non-integer there raises |
| CloudConfig.Limits | devmind/cloud_billing/clouds/huawei_provider.py:96-100 | the limits pass exactly when the timeout is positive and the retry count is not negative, the timeout checked first |
| CloudConfig.Report | devmind/cloud_billing/clouds/huawei_provider.py:309-368 | the report is `success` with data and no error exactly when the steps succeeded, and `error` with the failure's text and no data otherwise |
| HuaweiCloud.Configure | devmind/cloud_billing/clouds/huawei_provider.py:55-100 | an accepted configuration has non-empty key, secret and region, positive timeout and non-negative retries, each taken from the argument or the environment, with the edition's default region |
| HuaweiCloud.ArgumentsOverrideEnvironment | devmind/cloud_billing/clouds/huawei_provider.py:55-68 | with every argument given and both numbers off their defaults the environment plays no part |
| HuaweiCloud.RegionDefaults | devmind/cloud_billing/clouds/huawei_provider.py:61-62 | without a region argument or variable the region is `cn-north-1`, or `ap-southeast-1` for the international client |
| HuaweiCloud.AccountId | devmind/cloud_billing/clouds/huawei_provider.py:370-376 | the account id is the project id when it is non-empty, else `default`, and never empty |
| HuaweiCloud.ConvertAmount | devmind/cloud_billing/clouds/huawei_provider.py:138-151 | an amount in fen (measure 3) is divided by 100; any other unit is kept |
| HuaweiCloud.ItemOf | devmind/cloud_billing/clouds/huawei_provider.py:242-277 | a bill is skipped exactly when `float()` refuses its amount; otherwise its item has the service name, the converted amount, a missing amount counting as 0 and a missing unit as fen |
| HuaweiCloud.Items | devmind/cloud_billing/clouds/huawei_provider.py:242-277 | there is at most one item per bill |
| HuaweiCloud.Breakdown | devmind/cloud_billing/clouds/huawei_provider.py:259-261 | the breakdown has exactly the service names of the items |
| HuaweiCloud.CalculateTotalCost | devmind/cloud_billing/clouds/huawei_provider.py:219-284 | the currency defaults to `CNY` (`USD` for the international client), the total is the sum of the item amounts and the breakdown sums them per service |
| HuaweiCloud.SumCostsIsTotal | devmind/cloud_billing/clouds/huawei_provider.py:249-261 | summing the per-service costs over all distinct names gives the total |
| HuaweiCloud.BreakdownSumsToTotal | devmind/cloud_billing/clouds/huawei_provider.py:249-261 | the breakdown's figures add up to the total cost |
| HuaweiCloud.Collected | devmind/cloud_billing/clouds/huawei_provider.py:317-331 | the data holds the items, their total and breakdown, the response currency or the default, and the account id |
| HuaweiCloud.FetchAsWritten | devmind/cloud_billing/clouds/huawei_provider.py:197-217 | as written a response without bill sums fails, because the debug line takes `len(None)` |
| HuaweiCloud.Fetch | devmind/cloud_billing/clouds/huawei_provider.py:197-217 | the corrected query passes on every response the API returns |
| HuaweiCloud.BillingInfoAsWritten | devmind/cloud_billing/clouds/huawei_provider.py:286-368 | as written the report succeeds only when the period is valid and the response carries bill sums |
| HuaweiCloud.BillingInfo | devmind/cloud_billing/clouds/huawei_provider.py:286-368 | the report succeeds exactly when the period is valid and the query answers, with the collected data; an invalid period reports its own error |
| HuaweiCloud.NoBillSumsIsAnError | devmind/cloud_billing/clouds/huawei_provider.py:207-240 | a month without bill sums is reported as `object of type 'NoneType' has no len()` as written, while the empty-sum branch intends a zero total in the default currency |
| HuaweiCloud.ValidateCredentialsAsWritten | devmind/cloud_billing/clouds/huawei_provider.py:378-398 | as written the credentials count as valid only when this month's response carries bill sums |
| HuaweiCloud.ValidateCredentials | devmind/cloud_billing/clouds/huawei_provider.py:378-398 | the credentials are valid exactly when this month's query answers |
| AzureCloud.Configure | devmind/cloud_billing/clouds/azure_provider.py:47-98 | an accepted configuration has all four ids non-empty, each from the argument or the environment, with a positive timeout and non-negative retries |
| AzureCloud.ArgumentsOverrideEnvironment | devmind/cloud_billing/clouds/azure_provider.py:47-60 | with every argument given and both numbers off their defaults the environment plays no part |
| AzureCloud.TotalCost | devmind/cloud_billing/clouds/azure_provider.py:231-252 | the total is the sum of the costs and fails exactly when a cost is not a number; the currency is the first detail's, or `USD` without details |
| AzureCloud.TotalCostOfConcat | devmind/cloud_billing/clouds/azure_provider.py:242-246 | the total over two lists of details is the sum of their totals, and the currency comes from the first non-empty list |
| AzureCloud.BillingInfo | devmind/cloud_billing/clouds/azure_provider.py:254-303 | the report is well formed, a successful one names the subscription as the account, and an invalid period reports its own error |
| AzureCloud.CurrentMonthReport | devmind/cloud_billing/clouds/azure_provider.py:279-295 | for the current month the usage is queried from day 01 to the last day, and the report succeeds exactly when the query answers with numeric costs, giving their total and currency |
| AzureCloud.ValidateCredentials | devmind/cloud_billing/clouds/azure_provider.py:320-337 | the credentials are valid exactly when the subscription lookup succeeds |
| AlibabaCloud.Configure | devmind/cloud_billing/clouds/alibaba_provider.py:27-68 | accepted exactly when key, secret and region are non-empty after the environment fallback; the timeout and retries are taken as given, unchecked |
| AlibabaCloud.ArgumentsOverrideEnvironment | devmind/cloud_billing/clouds/alibaba_provider.py:52-60 | with every argument given the environment plays no part |
| AlibabaCloud.Finish | devmind/cloud_billing/clouds/alibaba_provider.py:177-208 | the data is built exactly when the query answered with a numeric total and the owner id was read |
| AlibabaCloud.BillingInfo | devmind/cloud_billing/clouds/alibaba_provider.py:181-215 | the report is well formed, success needs the owner id, and a malformed period reports the strict-format error |
| AlibabaCloud.ReportQueriesTheMonth | devmind/cloud_billing/clouds/alibaba_provider.py:181-208 | for a well-formed period the report succeeds exactly when that month's bill has a numeric total and the owner id is read |
| AlibabaCloud.ValidateCredentials | devmind/cloud_billing/clouds/alibaba_provider.py:234-245 | the credentials are valid exactly when the owner id can be read |
| OAuthAccounts.ExtractNames | devmind/accounts/adapters.py:66-106 | Google names come from `given_name` and `family_name`, stripped, with empty as none; other providers split `name` only when the user has no names, otherwise the user's names are returned with empty as none |
| OAuthAccounts.SplitName | devmind/accounts/adapters.py:100-104 | a trimmed full name always yields a first word without whitespace, and a remainder, when there is one, that is trimmed |
| OAuthAccounts.SplitNameOfTwo | devmind/accounts/adapters.py:100-102 | a word, one space and a trimmed rest split back into that word and that rest |
| OAuthAccounts.SplitNameOfWord | devmind/accounts/adapters.py:103-104 | a single word becomes the first name with no last name |
| OAuthAccounts.NamesSplitAtFirstSpace | devmind/accounts/adapters.py:97-102 | for a non-Google user without names, `first rest` gives first name `first` and last name `rest` |
| OAuthAccounts.SingleWordName | devmind/accounts/adapters.py:97-104 | for a non-Google user without names, a one-word `name` gives only a first name |
| OAuthAccounts.UpdateUserNames | devmind/accounts/adapters.py:108-139 | only a non-empty name that differs is written, nothing else of the user changes, `updated` says whether anything changed, and exactly the changed fields are saved, only for a persisted user |
| OAuthAccounts.UpdateUserNamesIdempotent | devmind/accounts/adapters.py:108-139 | writing the same names again changes and saves nothing |
| OAuthAccounts.Candidate | devmind/accounts/adapters.py:180-186 | the first candidate is the base name and the k-th is the base, `_` and k |
| OAuthAccounts.CandidatesDistinct | devmind/accounts/adapters.py:184-186 | different counters give different candidates, so the loop never retries a name |
| OAuthAccounts.UniqueUsername | devmind/accounts/adapters.py:180-188 | the chosen username is free, is the base itself when that is free, and is the first free candidate in counter order |
| OAuthAccounts.BaseUsername | devmind/accounts/adapters.py:174-178 | with an email the base is the part before the first `@`, without one it is `user_` and eight hex digits |
| OAuthAccounts.PopulateUser | devmind/accounts/adapters.py:141-191 | the names are those the update writes, email and persistence are untouched, an existing username is kept, and an empty one is replaced by a free candidate built from the email |
| ContentFilter.StandaloneFrom | devmind/core/utils/content_filter.py:59-71 | the single-word search succeeds exactly when the word occurs from the given position at a word boundary, not followed by a hyphen and a letter, and followed by a non-word character or the end |
| ContentFilter.Scan | devmind/core/utils/content_filter.py:40-74 | the loop returns the first non-empty filter word that hits, or none when no non-empty word hits |
| ContentFilter.ContainsFilterWords | devmind/core/utils/content_filter.py:15-74 | no words or no text never match; otherwise the text matches exactly when some non-empty word hits, and the first such word is returned |
| ContentFilter.FirstHitUnique | devmind/core/utils/content_filter.py:40-72 | there is only one first matching word |
| ContentFilter.HitIgnoresCase | devmind/core/utils/content_filter.py:38-71 | whether a word hits does not depend on the case of the text or of the word |
| ContentFilter.PhraseFoundAnywhere | devmind/core/utils/content_filter.py:48-50 | a phrase with a space matches wherever it occurs, even inside other words |
| ContentFilter.StandaloneWordFound | devmind/core/utils/content_filter.py:59-71 | a lower-case word between non-word characters, not followed by a hyphen, is found |
| ContentFilter.HyphenatedTermNotFound | devmind/core/utils/content_filter.py:53-69 | a word followed by a hyphen and a letter, as in `naked-POC`, does not match at that position |
| ContentFilter.Found | devmind/core/utils/content_filter.py:109-122 | the found fields are exactly those with non-empty text that contains a filter word |
| ContentFilter.FirstMatched | devmind/core/utils/content_filter.py:121-122 | a matched word is reported exactly when some field was found |
| ContentFilter.FirstMatchedIsFirstField | devmind/core/utils/content_filter.py:112-122 | the reported word is the one matched in the first field that hits |
| ContentFilter.CheckFields | devmind/core/utils/content_filter.py:77-140 | the item passes exactly when there are no filter words or no field hits; a failure names the first matched word and lists the found fields |
| ContentFilter.PassesIffNoFieldHits | devmind/core/utils/content_filter.py:99-140 | the item passes exactly when no non-empty field contains a filter word |
| PeriodicRegistry.Clear | devmind/core/periodic_registry.py:68-72 | clearing leaves no entries, so the length is 0 |
| PeriodicRegistry.Add | devmind/core/periodic_registry.py:74-101 | the entry is stored under its name, replacing an earlier one, with missing kwargs as `{}`; other entries are untouched and a new name goes last in the order |
| PeriodicRegistry.AddCounts | devmind/core/periodic_registry.py:71-101 | adding grows the length by one for a new name and not at all for a known one |
| PeriodicRegistry.IntervalEvery | devmind/core/periodic_registry.py:44-52 | the interval is the whole seconds, truncated, and at least 1, so anything under two seconds runs every second |
| PeriodicRegistry.ScheduleOf | devmind/core/periodic_registry.py:113-141 | a crontab keeps its five fields, seconds and `run_every` become an interval of at least one second, and any other schedule falls back to the all-`*` crontab |
| PeriodicRegistry.Applied | devmind/core/periodic_registry.py:129-150 | a new task gets every field from the entry; an existing task gets only task, args and kwargs, and keeps its schedule, queue and enabled flag |
| PeriodicRegistry.ApplyOne | devmind/core/periodic_registry.py:143-150 | only the named row is created or updated |
| PeriodicRegistry.Expected | devmind/core/periodic_registry.py:153-162 | after `apply` the table holds its old rows plus every registered name whose write did not raise |
| PeriodicRegistry.Apply | devmind/core/periodic_registry.py:153-162 | the loop, which logs and skips a raising write, leaves exactly the expected table |
| PeriodicRegistry.ApplyIdempotent | devmind/core/periodic_registry.py:153-162 | applying twice leaves the table as applying once |
| PeriodicRegistry.ApplyKeepsUserFields | devmind/core/periodic_registry.py:146-150 | an existing row keeps its schedule, queue and enabled flag; a written one takes the code's task, args and kwargs, and a failed one is unchanged |
| AppConfig.CheckType | devmind/app_config/models.py:126-156 | a value passes exactly when it has the type's Python class, with booleans passing as numbers; otherwise the type's message is raised on `value` |
| AppConfig.OnlyNullFitsNoType | devmind/app_config/models.py:126-156 | every value but null fits some type, and a boolean fits both number and boolean |
| AppConfig.Save | devmind/app_config/models.py:158-163 | over non-blank values, a row is written exactly when its value is not null, its key is not another row's and its value matches its type |
| AppConfig.SaveKeepsTableValid | devmind/app_config/models.py:158-163 | saving keeps keys unique and every value of its declared type |
| AppConfig.Display | devmind/app_config/models.py:123-124 | the text is the key, followed by the category in parentheses when there is one |
| AppConfig.ValidateKey | devmind/app_config/serializers.py:43-54 | a key passes exactly when no row other than the edited one has it |
| AppConfig.ValidateNewKey | devmind/app_config/serializers.py:103-111 | on create a key passes exactly when no row has it |
| AppConfig.KeyChecksAgree | devmind/app_config/serializers.py:43-111 | on create both checks agree, and an edited row may always keep its own key |
| AppConfig.AcceptedKeyKeepsKeysUnique | devmind/app_config/serializers.py:43-54 | writing a row whose key passed keeps keys unique |
| AppConfig.ValidateValue | devmind/app_config/serializers.py:56-62 | a value passes unchanged exactly when it is not null |
| AppConfig.ValidateUpdate | devmind/app_config/serializers.py:131-165 | an update fails exactly when it sends a non-null value and a type that does not match it |
| AppConfig.ApplyUpdate | devmind/app_config/serializers.py:114-130 | a partial update replaces the sent fields and keeps the key and everything else |
| AppConfig.FullUpdateChecksAgree | devmind/app_config/serializers.py:131-165 | when both value and type are sent, the serializer accepts exactly what the model's save accepts |
| AppConfig.TypeOnlyUpdateReachesSave | devmind/app_config/serializers.py:138 | an update that changes only the type passes the serializer and is then refused by the model's save |
| LlmTracker.DefaultTemperature | devmind/llm_tracker/llm_tracker.py:66-76 | without a configured temperature Gemini uses 0.7 and every other provider 1.0 |
| LlmTracker.ResponseFormat | devmind/llm_tracker/llm_tracker.py:85-90 | a format that is passed and not None is always sent; without one JSON mode sends `json_object` and otherwise none is sent |
| LlmTracker.BuildRequest | devmind/llm_tracker/llm_tracker.py:54-90 | the request carries the messages, and the max tokens and temperature passed, or, when left out or None, the provider config's, or 60000 and the provider default |
| LlmTracker.Measurable | devmind/llm_tracker/llm_tracker.py:93 | the character count can be taken: every message is a dict whose content, when present, has a length |
| LlmTracker.ActualModel | devmind/llm_tracker/llm_tracker.py:116-119 | the model name comes from a dict `response_metadata` only, and no response has none |
| LlmTracker.Content | devmind/llm_tracker/llm_tracker.py:121-149 | a message's content, `str()` of a truthy object without content, or None |
| LlmTracker.Metadata | devmind/llm_tracker/llm_tracker.py:264-289 | the record's metadata: node name, source type and path, and the first truthy task id, with a dict `metadata` of the state laid over them |
| LlmTracker.ReadUsage | devmind/llm_tracker/llm_tracker.py:112-173 | a chat message with a dict of usage gives its counts, each 0 when absent, and detail counts only from dict details; anything else gives zeros; the model is `model_name` or `unknown` |
| LlmTracker.Answer | devmind/llm_tracker/llm_tracker.py:103-157 | None is an error naming the node; otherwise the text is returned exactly when the content is truthy and not blank, else `LLM returned empty response` |
| LlmTracker.MetadataKeys | devmind/llm_tracker/llm_tracker.py:264-289 | the saved metadata holds the node name unless it is falsy or `unknown`, and the source type, task id and path only when truthy |
| LlmTracker.TaskIdIsFirstTruthy | devmind/llm_tracker/llm_tracker.py:276-282 | the source task id is the first truthy of `source_task_id`, `celery_task_id` and `task_id`, as text |
| LlmTracker.ExtraMetadataWins | devmind/llm_tracker/llm_tracker.py:287-289 | a key of a dict `metadata` in the state overrides the derived value |
| LlmTracker.Save | devmind/llm_tracker/llm_tracker.py:244-310 | one record is written when the write succeeds and none otherwise, with the metadata, success flag, error and user id |
| LlmTracker.Append | devmind/llm_tracker/llm_tracker.py:175-228 | a call entry is appended only when a state was passed |
| LlmTracker.Track | devmind/llm_tracker/llm_tracker.py:100-242 | the call is sent once; with a state exactly one entry is appended for the node, marked successful exactly when the call succeeds, a failure recorded with its error, model `unknown` and zero tokens; a success returns the answer and usage read from the reply |
| LlmTracker.CallAndTrack | devmind/llm_tracker/llm_tracker.py:27-242 | empty messages and content without a length raise before anything is sent or recorded; otherwise the built request is sent, and one usage record is written when the write succeeds |
| LlmTracker.OneEntryPerCall | devmind/llm_tracker/llm_tracker.py:175-228 | every sent call adds exactly one entry to the state, after the earlier ones, successful exactly when the call is |
| LlmTracker.RecordedNodeIsTheCallers | devmind/llm_tracker/llm_tracker.py:92 | the saved record names the caller's node, because the node name is forced into the state |
| LlmTracker.SuccessRecordsUsage | devmind/llm_tracker/llm_tracker.py:189-207 | a successful call saves the same counts and model it returns, and a plain object without usage records zeros |

## Left out

- Celery and Beat plumbing is not modelled: `shared_task`, `.delay`, `PeriodicTasks.update_changed`, progress metadata and `translation.override`. Only the results and the state changes are modelled.
- Cache TTL expiry of the run locks is not modelled. A lock disappears only through an explicit release.
- `transaction.atomic` and concurrent writers are not modelled. Each atomic block is one state transition, and the version check of a config update is one step.
- Filesystem calls are modelled as a map from path to bytes whose writes may fail (`canWrite`). Directories are a set that only grows (`Storage.EnsureAttachmentDir`); a `makedirs` that fails on permissions or a full disk is left out, and so are file responses.
- Network and SDK clients are oracles: the Jira HTTP session and `_get_all_comments`, and the Huawei, Azure and Alibaba SDK queries. Their request and response encodings are not modelled.
- `send_alert_notification`, the webhook senders and the notification service are left out. They format messages and perform HTTP I/O.
- `devmind/llm_tracker/llm_service.py` is left out. It is a network client; the tracker takes its answer as a parameter.
- `devmind/llm_tracker/llm_usage_stats.py` is left out. Its ORM aggregates have no logic of their own.
- The cache read-through in `devmind/app_config/utils.py` is left out.
- SHA-256, MD5 and uuid4 are uninterpreted functions. Hash collisions are not modelled.
- ISO 8601 parsing and formatting are partial functions supplied as parameters or as `Stamps` helpers. Time zones are not modelled.
- Floats and Decimals are modelled as reals. Rounding, `quantize` and float formatting are not modelled; `Json.Show` renders a float, a list or a dict as `...`.
- Python's `re` and `str.lower` are modelled on ASCII only. The content filter's word boundaries use a word-character predicate; Unicode and CJK word rules are out of scope.
- Exception messages are abstract strings wherever their exact text is built from a foreign object.
- `latest_by_provider_account` in `devmind/cloud_billing/views/billing.py` is left out. It is a plain ORM query with no rule of its own.
- `ProviderService.create_provider`, `get_billing_info` and `get_account_id` are left out as separate members. They delegate to the provider classes modelled in `HuaweiCloud`, `AzureCloud` and `AlibabaCloud`, and re-raise their errors.
- The Jira project listing (`list_projects`, `fetch_projects`) and the provider registry's module discovery are left out. Only the collection contract is modelled.
- `django_celery_beat`'s `from_schedule`, time zones and interval units are left out. `PeriodicRegistry` treats schedule rows as values, and `fails` is an oracle for the rows whose save raises.
- Django's field validation beyond the rules the code states explicitly is left out. This covers the `blank` check on JSON values and the choice validation of `value_type`.
- `pre_social_login` of the accounts adapter is left out. It depends on the allauth session flow.
- The OAuth profile data is modelled as text fields only. Avatars and other binary data are not modelled.
- HTTP views, admin, migrations, settings, urls and management commands are left out, apart from three that are modelled: the config view's checks (`ConfigViews`), the record serializer's derived fields (`RecordView`) and the billing statistics view (`BillingStats`).
- BillingStats.ListRows: the rows come back in table order; the list's `order_by('-period', '-hour')` is not modelled, since the statistics re-order by key anyway.
- BillingStats.ListRows: a `start_date` is either a whole day or malformed. A start carrying a time of day, which the database field reads as that instant, is not modelled.
- BillingAlert.PercentFits: the model follows the declared width of `increase_percent` (5 digits, 2 decimals), which a backend that checks numeric precision, such as PostgreSQL, enforces. A backend that stores any width, such as SQLite, would keep the record instead. The other cost columns (20 digits) are taken to be wide enough.
- CollectWindow.ManualWindow: instants are integer text, so every text either names an instant or fails to parse. Django's `parse_datetime` has a third case: well-formed text for an impossible date, such as `2024-02-30T00:00:00`, raises `ValueError`. `run_collect` does not catch it (tasks.py:245-247), so such a bound crashes the run; the model has no such text and promises no crash only for the texts it has.
- Stamps.ParseStamp: the same impossible-date `ValueError` is not modelled wherever `parse_datetime` is called, including attachment source times, the validation range and the collect view's bounds.
- BillingModel.BillingStore: the table is keyed by (provider, period, hour), the key the collector upserts on. The declared unique key also includes `account_id` (models.py:140), so rows that differ only in account could exist if written by other code; the store cannot hold them. The statistics view works on a list of rows and does not depend on this.
- CollectPersist.KeyOf: a source id is compared as the value the provider gave, not as its `str()`, which the database applies to the text column. Ids that differ only in type, such as 5 and "5", would be one row in the database and two records in the model. The Jira provider always gives text ids.
- HuaweiCloud.ItemOf: a missing SDK attribute falls back to the code's `getattr` default (amount 0, measure fen, "Unknown" names). SDK objects usually carry every attribute with None instead: a None amount is modelled as `Invalid`, so the bill is skipped as `float(None)` raises, but a None service or resource name, which the code renders as "None", is not modelled. Nor is a None `measure_id`: it is not 3, so the code keeps the amount undivided, where the model's missing measure counts as fen. A response whose `currency` attribute is None is likewise not modelled: the code reports None as the currency, the model its default.
- Jira.MetaOf: the attachment fields are taken to have the types the Jira REST API sends: text `filename`, `content` and `mimeType`, and an integer `size`. A value of another type becomes absent in the model. The code differs on such values. A truthy non-text `filename` makes `.strip()` raise in the attachment loop, after the records are committed (data_collector/tasks.py:69-71). A truthy non-text `mimeType` raises on slicing or is stored as a slice (tasks.py:77). A non-integer `size` is kept and coerced by the column (tasks.py:74-76). A truthy non-text `content` URL makes the download's error handler raise on `url[:80]` (services/providers/jira.py:273).
- BillingSerializers.ValidateName: the `NameTaken` message is the one `validate_name` raises. Through the serializer, the `UniqueValidator` that DRF generates for the `unique=True` name field runs first and rejects a taken name with its own message. Which names are accepted is the same either way.
- Retention.RunCleanup: one instant stands for the two `timezone.now()` calls, the cutoff at tasks.py:591 and the `last_cleanup_at` stamp at tasks.py:610. The microseconds between them are not modelled.
- AppConfig.Save: `full_clean()` also refuses the blank JSON values `""`, `[]` and `{}`, since the `value` field is not `blank=True`. The model accepts them when they match the declared type, so its "exactly when" covers non-blank values only.
- BillingAlert.CheckAlert: one clock reading stands for the separate `datetime.now()` calls that pick the current period and hour and the previous day (cloud_billing/tasks.py:214-215 and :236), and for the alert record's creation stamp. A run that crosses an hour or month boundary between those calls is not modelled.
- AppConfig.ValidateUpdate: the serializer field already refuses a null `value` with a 400 before `validate` runs. The model lets the null through and `AppConfig.Save` refuses it, so the request fails either way but with another message.
- PeriodicRegistry.Applied: the `get_or_create` of the `CrontabSchedule` or `IntervalSchedule` row that runs for every task, existing ones included, is not modelled. Schedule rows are values, and only the periodic-task row is tracked.
- BillingModel.PeriodOf: years are zero-padded to four digits. `strftime('%Y')` may leave years below 1000 unpadded on some platforms; billing periods are current dates.
- Jira.Collect: pagination is proved exact only for a search whose reported `total` stays the same across pages (`Jira.Consistent`). The code assumes the same.
- CollectWindow.ComputeWindow: a `runtime_state` that is set but is not an object is modelled as a crash. The exact exception is not modelled.
- Tests that disagree with the code are not followed. The billing service tests expect `message` keys and an error mapping, and the alert-task test expects a lock; the code has neither. The accounts management test expects pagination that the view lacks.

## Findings

| source | as written | input that shows it | evidently intended | confidence | as-written member | corrected member |
|---|---|---|---|---|---|---|
| devmind/task_manager/services/task_tracker.py:175-196 | a finished FAILURE passes `async_result.result`, the failed job's exception object, on as `result`; the JSON column refuses it, and the broad `except` returns None | a tracked RUNNING task whose Celery state becomes FAILURE with an exception as its result | the row records FAILURE with the exception text as its error | medium, not executed | TaskTracker.Sync; lemma TaskTracker.FailedTaskNeverSynced | TaskTracker.SyncIntended; lemma TaskTracker.FailedTaskSyncedWhenIntended |
| devmind/task_manager/services/task_tracker.py:181-188 | when reading the result raises, `result` is still None, so `getattr(result, '__traceback__')` is None and no traceback is ever recorded | a FAILURE whose stored result cannot be read back | the traceback of the failed read is recorded | medium, not executed | TaskTracker.CeleryArguments | TaskTracker.IntendedArguments |
| devmind/cloud_billing/tasks.py:274-290 | `Decimal(str(threshold))` runs before the `if threshold` guard, and `Decimal("None")` raises, so a rule with a null threshold is never checked | a rule with `cost_threshold` null and `growth_threshold` 10, with the cost rising from 100 to 200 | a null threshold is skipped and the other one is still checked | high, not executed | BillingAlert.CheckAlertAsWritten; lemma BillingAlert.GrowthOnlyRuleNeverAlertsAsWritten | BillingAlert.CheckAlert |
| devmind/cloud_billing/serializers.py:134-140 | an update that sends a falsy threshold is checked against the stored threshold, but the falsy value is what gets saved | a rule whose only threshold is cost 10, updated with `cost_threshold` 0 | the check looks at the values the update will save | high, not executed | BillingSerializers.ValidateRule; lemma BillingSerializers.ZeroingOnlyThresholdPassesValidationButFailsSave | BillingSerializers.ValidateRuleIntended; lemma BillingSerializers.IntendedUpdateAlwaysSaves |
| devmind/cloud_billing/clouds/huawei_provider.py:207-210 | a response whose `bill_sums` is None is logged as "no billing data" and then fails in `len(response.bill_sums)`, so the month is reported as an error | a month for which the SDK answers with `bill_sums` None | a month without bill sums is a zero total | medium, not executed | HuaweiCloud.FetchAsWritten; lemma HuaweiCloud.NoBillSumsIsAnError | HuaweiCloud.Fetch; HuaweiCloud.BillingInfo |

=== FILE: app_config.dfy ===
/** Global configuration entries (app_config/models.py) and the request
    checks of their API serializers (app_config/serializers.py). */
module AppConfig {
  import opened Wrappers
  import Json

  /** The five `value_type` choices; "string" is the default. */
  datatype ValueType = String | Number | Boolean | Object | Array

  const DefaultType: ValueType := String

  /** One `GlobalConfig` row. */
  datatype Entry = Entry(key: string, value: Json.Value, valueType: ValueType,
                         category: string, description: string, isActive: bool)

  /** Python's `isinstance` check behind each choice. `bool` is a subclass
      of `int`, so a boolean passes the number check. */
  predicate Matches(t: ValueType, v: Json.Value) {
    match t
    case String => v.Str?
    case Number => v.Int? || v.Num? || v.Bool?
    case Boolean => v.Bool?
    case Object => v.Obj?
    case Array => v.List?
  }

  /** The field that fails and the message `clean` raises. */
  datatype TypeError = TypeError(field: string, message: string)

  function Message(t: ValueType): string {
    match t
    case String => "Value must be a string when value_type is \"string\""
    case Number => "Value must be a number when value_type is \"number\""
    case Boolean => "Value must be a boolean when value_type is \"boolean\""
    case Object => "Value must be an object (dict) when value_type is \"object\""
    case Array => "Value must be an array (list) when value_type is \"array\""
  }

  /** `GlobalConfig.clean` and, for a `value_type` already supplied, the
      update serializer's `validate`: the value must have the chosen type. */
  function CheckType(t: ValueType, v: Json.Value): (r: Option<TypeError>)
    ensures r.None? <==> Matches(t, v)
    ensures r.Some? ==> r.value == TypeError("value", Message(t))
  {
    if Matches(t, v) then None else Some(TypeError("value", Message(t)))
  }

  /** Every value has at least one type it may be stored under, except
      null; and a number check that accepts a value rejects no boolean. */
  lemma OnlyNullFitsNoType(v: Json.Value)
    ensures v.Null? <==> forall t: ValueType :: !Matches(t, v)
    ensures v.Bool? ==> Matches(Number, v) && Matches(Boolean, v)
  {
    if !v.Null? {
      var t := match v
        case Str(_) => String
        case Int(_) => Number
        case Num(_) => Number
        case Bool(_) => Boolean
        case Obj(_) => Object
        case List(_) => Array
        case Null => String;
      assert Matches(t, v);
    }
  }

  /** The table, keyed by primary key. */
  type Table = map<nat, Entry>

  /** Keys are unique across rows (the `unique=True` on `key`). */
  predicate KeysUnique(tbl: Table) {
    forall a, b :: a in tbl && b in tbl && tbl[a].key == tbl[b].key ==> a == b
  }

  /** Every stored value has its row's type. */
  predicate WellTyped(tbl: Table) {
    forall pk :: pk in tbl ==> Matches(tbl[pk].valueType, tbl[pk].value)
  }

  /** Some row other than `self` has `key`. */
  predicate KeyUsedByOther(tbl: Table, self: Option<nat>, key: string) {
    exists pk :: pk in tbl && Some(pk) != self && tbl[pk].key == key
  }

  /** Why a `save` was refused. */
  datatype SaveError = Clean(error: TypeError) | DuplicateKey | NullValue

  /** `GlobalConfig.save`: `full_clean` first, so a null value, a key that
      another row has, or a value of the wrong type is never written; then
      the row is stored under its primary key. */
  function Save(tbl: Table, pk: nat, e: Entry): (r: Result<Table, SaveError>)
    ensures r.Ok? <==> !e.value.Null? && !KeyUsedByOther(tbl, Some(pk), e.key) && Matches(e.valueType, e.value)
    ensures r.Ok? ==> r.value == tbl[pk := e]
    ensures r.Err? ==> r.error == NullValue || r.error == DuplicateKey || r.error.Clean?
  {
    if e.value.Null? then Err(NullValue)
    else if KeyUsedByOther(tbl, Some(pk), e.key) then Err(DuplicateKey)
    else
      match CheckType(e.valueType, e.value)
      case Some(err) => Err(Clean(err))
      case None => Ok(tbl[pk := e])
  }

  /** Saving keeps the table well typed and its keys unique. */
  lemma SaveKeepsTableValid(tbl: Table, pk: nat, e: Entry)
    requires KeysUnique(tbl) && WellTyped(tbl)
    requires Save(tbl, pk, e).Ok?
    ensures KeysUnique(Save(tbl, pk, e).value) && WellTyped(Save(tbl, pk, e).value)
  {
    var t := Save(tbl, pk, e).value;
    forall a, b | a in t && b in t && t[a].key == t[b].key
      ensures a == b
    {
      if a != pk && b != pk {
        assert t[a] == tbl[a] && t[b] == tbl[b];
      }
    }
  }

  /** `__str__`: "key (category)", or the key alone when the category is
      empty. */
  function Display(e: Entry): (s: string)
    ensures |e.category| == 0 ==> s == e.key
    ensures |e.category| > 0 ==> |s| == |e.key| + |e.category| + 3
    ensures s[..|e.key|] == e.key
    ensures |e.category| > 0 ==> s[|e.key|..|e.key| + 2] == " (" && s[|s| - 1] == ')'
                                 && s[|e.key| + 2..|s| - 1] == e.category
  {
    if |e.category| > 0 then e.key + " (" + e.category + ")" else e.key
  }

  const KeyTaken: string := "A configuration with this key already exists."
  const NullRejected: string := "Value cannot be null."

  /** `GlobalConfigSerializer.validate_key`: the key may not belong to any
      row but the one being edited (`self`, None on create). */
  function ValidateKey(tbl: Table, self: Option<nat>, key: string): (r: Result<string, string>)
    ensures r.Ok? <==> !KeyUsedByOther(tbl, self, key)
    ensures r.Ok? ==> r.value == key
    ensures r.Err? ==> r.error == KeyTaken
  {
    if KeyUsedByOther(tbl, self, key) then Err(KeyTaken) else Ok(key)
  }

  /** `GlobalConfigCreateSerializer.validate_key`: any row with the key
      refuses it. */
  function ValidateNewKey(tbl: Table, key: string): (r: Result<string, string>)
    ensures r.Ok? <==> forall pk :: pk in tbl ==> tbl[pk].key != key
    ensures r.Ok? ==> r.value == key
    ensures r.Err? ==> r.error == KeyTaken
  {
    if exists pk :: pk in tbl && tbl[pk].key == key then Err(KeyTaken) else Ok(key)
  }

  /** On create the two key checks agree; on an edit the general one also
      lets the row keep its own key. */
  lemma KeyChecksAgree(tbl: Table, pk: nat, key: string)
    ensures ValidateKey(tbl, None, key).Ok? <==> ValidateNewKey(tbl, key).Ok?
    ensures KeysUnique(tbl) && pk in tbl ==> ValidateKey(tbl, Some(pk), tbl[pk].key).Ok?
  {
  }

  /** A key that passes the general check can be written into the table
      without breaking uniqueness. */
  lemma AcceptedKeyKeepsKeysUnique(tbl: Table, pk: nat, e: Entry)
    requires KeysUnique(tbl) && ValidateKey(tbl, Some(pk), e.key).Ok?
    ensures KeysUnique(tbl[pk := e])
  {
    var t := tbl[pk := e];
    forall a, b | a in t && b in t && t[a].key == t[b].key
      ensures a == b
    {
      if a != pk && b != pk {
        assert t[a] == tbl[a] && t[b] == tbl[b];
      }
    }
  }

  /** `validate_value`: null is refused, anything else passes unchanged. */
  function ValidateValue(v: Json.Value): (r: Result<Json.Value, string>)
    ensures r.Ok? <==> !v.Null?
    ensures r.Ok? ==> r.value == v
    ensures r.Err? ==> r.error == NullRejected
  {
    if v.Null? then Err(NullRejected) else Ok(v)
  }

  /** The fields of an update request; None means "not sent". */
  datatype Update = Update(value: Option<Json.Value>, valueType: Option<ValueType>,
                           category: Option<string>, description: Option<string>,
                           isActive: Option<bool>)

  /** `GlobalConfigUpdateSerializer.validate`: the type check runs only when
      the request carries both a non-null value and a value type. */
  function ValidateUpdate(u: Update): (r: Result<Update, TypeError>)
    ensures r.Err? <==> u.value.Some? && !u.value.value.Null? && u.valueType.Some?
                        && !Matches(u.valueType.value, u.value.value)
    ensures r.Ok? ==> r.value == u
  {
    if u.value.Some? && !u.value.value.Null? && u.valueType.Some? then
      match CheckType(u.valueType.value, u.value.value)
      case Some(err) => Err(err)
      case None => Ok(u)
    else Ok(u)
  }

  /** The row the partial update writes: each sent field replaces the
      stored one. */
  function ApplyUpdate(e: Entry, u: Update): (r: Entry)
    ensures r.key == e.key
    ensures r.value == (if u.value.Some? then u.value.value else e.value)
    ensures r.valueType == (if u.valueType.Some? then u.valueType.value else e.valueType)
    ensures r.category == (if u.category.Some? then u.category.value else e.category)
    ensures r.description == (if u.description.Some? then u.description.value else e.description)
    ensures r.isActive == (if u.isActive.Some? then u.isActive.value else e.isActive)
  {
    Entry(e.key,
          if u.value.Some? then u.value.value else e.value,
          if u.valueType.Some? then u.valueType.value else e.valueType,
          if u.category.Some? then u.category.value else e.category,
          if u.description.Some? then u.description.value else e.description,
          if u.isActive.Some? then u.isActive.value else e.isActive)
  }

  /** When a request sends both a non-null value and a type, the serializer
      accepts it exactly when the model's save would. */
  lemma FullUpdateChecksAgree(tbl: Table, pk: nat, u: Update)
    requires pk in tbl && KeysUnique(tbl)
    requires u.value.Some? && !u.value.value.Null? && u.valueType.Some?
    ensures ValidateUpdate(u).Ok? <==> Save(tbl, pk, ApplyUpdate(tbl[pk], u)).Ok?
  {
    assert !KeyUsedByOther(tbl, Some(pk), tbl[pk].key);
  }

  /** A request that changes only the type passes the serializer, and the
      model's save then refuses it: a string entry switched to "number". */
  lemma TypeOnlyUpdateReachesSave()
    ensures var e := Entry("api_timeout", Json.Str("30"), String, "", "", true);
            var u := Update(None, Some(Number), None, None, None);
            ValidateUpdate(u).Ok? && Save(map[1 := e], 1, ApplyUpdate(e, u)).Err?
  {
    var e := Entry("api_timeout", Json.Str("30"), String, "", "", true);
    var u := Update(None, Some(Number), None, None, None);
    assert !KeyUsedByOther(map[1 := e], Some(1), e.key);
  }
}

=== FILE: attachment_sync.dfy ===
/** Attachment reconciliation for one raw record (`_sync_attachments_for_record`
    in data_collector/tasks.py): every reported attachment whose content
    downloads and whose file can be written is upserted, reusing the stored
    row (and its on-disk uuid) when its provider id matches; then the rows the
    provider no longer reports are removed, files best effort.

    The environment is explicit: `download` is the provider's content fetch
    (empty bytes standing for `None`/empty), `md5` the digest, `newUuid` the
    uuid4 oracle indexed by how many uuids were drawn, `canWrite` and
    `canRemove` whether the filesystem accepts a write or a removal. */
module AttachmentSync {
  import opened Wrappers
  import opened Json
  import opened Text
  import opened CollectorModel
  import Storage
  import Stamps

  /** One attachment description returned by `fetch_attachments`. */
  datatype AttMeta = AttMeta(
    sourceFileId: Option<string>,
    fileName: Option<string>,
    fileUrl: Option<string>,
    fileType: Option<string>,
    fileSize: Option<int>,
    sourceCreatedAt: Value,
    sourceUpdatedAt: Value)

  datatype Env = Env(
    root: string,
    download: AttMeta -> seq<int>,
    md5: seq<int> -> string,
    newUuid: nat -> string,
    canWrite: string -> bool,
    canRemove: string -> bool)

  /** The part of the filesystem the sync touches. */
  datatype Disk = Disk(dirs: set<string>, files: map<string, seq<int>>)

  /** The state threaded through the upsert loop. */
  datatype Pass = Pass(rows: seq<Attachment>, disk: Disk, drawn: nat, synced: nat)

  datatype SyncResult = SyncResult(rows: seq<Attachment>, disk: Disk, drawn: nat, synced: nat, removed: nat)

  /** The id a reported attachment is stored under: its text cut to the
      column width. */
  function NormId(m: AttMeta): (r: Option<string>)
    ensures r.Some? <==> m.sourceFileId.Some?
    ensures r.Some? ==> |r.value| <= SourceFileIdWidth
  {
    match m.sourceFileId
    case None => None
    case Some(s) => Some(Take(s, SourceFileIdWidth))
  }

  /** `current_source_ids`: the normalised ids of all reported attachments,
      including the empty id. */
  function ReportedIds(metas: seq<AttMeta>): (ids: set<string>)
    ensures forall x :: x in ids <==> exists i :: 0 <= i < |metas| && NormId(metas[i]) == Some(x)
  {
    if |metas| == 0 then {}
    else
      var rest := ReportedIds(metas[1..]);
      assert forall i :: 1 <= i < |metas| ==> metas[1..][i - 1] == metas[i];
      match NormId(metas[0])
      case None => rest
      case Some(x) => {x} + rest
  }

  /** The stored file name: the reported name stripped, `"attachment"` when
      it is missing or blank, cut to the column width. */
  function FileNameOf(name: Option<string>): (r: string)
    ensures 0 < |r| <= FileNameWidth
  {
    var given := match name
                 case Some(s) => if |s| > 0 then s else "attachment"
                 case None => "attachment";
    var stripped := Strip(given);
    Take(if |stripped| > 0 then stripped else "attachment", FileNameWidth)
  }

  /** The index of the first row stored under provider id `id`. */
  function FindById(rows: seq<Attachment>, id: string): (r: Option<nat>)
    ensures r.Some? ==> r.value < |rows| && rows[r.value].sourceFileId == Some(id)
    ensures r.None? ==> forall i :: 0 <= i < |rows| ==> rows[i].sourceFileId != Some(id)
  {
    if |rows| == 0 then None
    else if rows[0].sourceFileId == Some(id) then Some(0)
    else
      match FindById(rows[1..], id)
      case None => None
      case Some(k) => Some(k + 1)
  }

  /** Whether the id is one the code treats as present (`if source_file_id:`). */
  predicate HasId(id: Option<string>) {
    id.Some? && |id.value| > 0
  }

  /** A source timestamp as stored: text is read with `parse_datetime`
      (an instant, or `None` when unreadable); other values are kept. */
  function SourceTime(v: Value): (r: Value)
    ensures !v.Str? ==> r == v
    ensures v.Str? ==> (r == Null <==> Stamps.ParseStamp(v.s).None?)
  {
    match v
    case Str(s) => (match Stamps.ParseStamp(s) case Some(t) => Int(t) case None => Null)
    case _ => v
  }

  /** The stored row a reported attachment reuses: the first one stored
      under its id, when that id is non-empty. */
  function Reused(rows: seq<Attachment>, m: AttMeta): (r: Option<nat>)
    ensures r.Some? ==> HasId(NormId(m)) && r.value < |rows| && rows[r.value].sourceFileId == NormId(m)
    ensures r.None? && HasId(NormId(m)) ==> forall i :: 0 <= i < |rows| ==> rows[i].sourceFileId != NormId(m)
  {
    var sid := NormId(m);
    if HasId(sid) then FindById(rows, sid.value) else None
  }

  /** The position the step writes: the reused row's, or one past the end. */
  function Slot(p: Pass, m: AttMeta): nat {
    match Reused(p.rows, m)
    case Some(k) => k
    case None => |p.rows|
  }

  /** The uuid the attachment is filed under: the reused row's, otherwise
      the next uuid drawn. */
  function UuidFor(env: Env, p: Pass, m: AttMeta): string {
    match Reused(p.rows, m)
    case Some(k) => p.rows[k].uuid
    case None => env.newUuid(p.drawn)
  }

  /** The file the step writes the content to. */
  function WritePath(env: Env, recUuid: string, p: Pass, m: AttMeta): string {
    Storage.AttachmentFilePath(env.root, recUuid, UuidFor(env, p, m))
  }

  /** The row the upsert stores for `m`: filed under `UuidFor`, kept under
      its id only when that id is non-empty, named by `FileNameOf`, pointing
      at the written file, with the reported size (the content's length when
      none is reported) and the digest of the downloaded content. */
  predicate Describes(row: Attachment, env: Env, recUuid: string, p: Pass, m: AttMeta) {
    var content := env.download(m);
    var sid := NormId(m);
    row.uuid == UuidFor(env, p, m)
    && row.sourceFileId == (if HasId(sid) then sid else None)
    && row.fileName == FileNameOf(m.fileName)
    && row.filePath == Take(WritePath(env, recUuid, p, m), FilePathWidth)
    && row.fileUrl == Take(Storage.AttachmentFileUrl(recUuid, UuidFor(env, p, m)), FilePathWidth)
    && row.fileType == Take(m.fileType.GetOr(""), FileTypeWidth)
    && row.fileSize == m.fileSize.GetOr(|content|)
    && row.fileMd5 == env.md5(content)
    && row.sourceCreatedAt == SourceTime(m.sourceCreatedAt)
    && row.sourceUpdatedAt == SourceTime(m.sourceUpdatedAt)
  }

  /** One iteration of the upsert loop. An empty download skips the
      attachment. Otherwise the record's directory is created and a uuid is
      chosen (a fresh one is drawn unless a row is reused); a failed write
      skips the attachment, keeping the directory and the drawn uuid; a
      successful one stores the content and writes the row in place of the
      reused one, or appends it. */
  function SyncOne(env: Env, recUuid: string, p: Pass, m: AttMeta): (q: Pass)
    ensures q.synced == p.synced || q.synced == p.synced + 1
    ensures |q.rows| == |p.rows| || |q.rows| == |p.rows| + 1
    ensures |env.download(m)| == 0 ==> q == p
    ensures |env.download(m)| > 0 ==>
              q.disk.dirs == p.disk.dirs + {Storage.AttachmentDir(env.root, recUuid)}
              && q.drawn == (if Reused(p.rows, m).Some? then p.drawn else p.drawn + 1)
    ensures |env.download(m)| > 0 && !env.canWrite(WritePath(env, recUuid, p, m)) ==>
              q.rows == p.rows && q.disk.files == p.disk.files && q.synced == p.synced
    ensures |env.download(m)| > 0 && env.canWrite(WritePath(env, recUuid, p, m)) ==>
              q.synced == p.synced + 1
              && q.disk.files == p.disk.files[WritePath(env, recUuid, p, m) := env.download(m)]
              && |q.rows| == (if Reused(p.rows, m).Some? then |p.rows| else |p.rows| + 1)
              && Slot(p, m) < |q.rows|
              && Describes(q.rows[Slot(p, m)], env, recUuid, p, m)
              && (forall i :: 0 <= i < |p.rows| && i != Slot(p, m) ==> q.rows[i] == p.rows[i])
  {
    var sid := NormId(m);
    var content := env.download(m);
    if |content| == 0 then p
    else
      var (dirs, _) := Storage.EnsureAttachmentDir(p.disk.dirs, env.root, recUuid);
      var existing := if HasId(sid) then FindById(p.rows, sid.value) else None;
      var attUuid := if existing.Some? then p.rows[existing.value].uuid else env.newUuid(p.drawn);
      var drawn := if existing.Some? then p.drawn else p.drawn + 1;
      var path := Storage.AttachmentFilePath(env.root, recUuid, attUuid);
      if !env.canWrite(path) then Pass(p.rows, Disk(dirs, p.disk.files), drawn, p.synced)
      else
        var url := Storage.AttachmentFileUrl(recUuid, attUuid);
        var row := Attachment(
          attUuid, if HasId(sid) then sid else None, FileNameOf(m.fileName),
          Take(path, FilePathWidth), Take(url, FilePathWidth),
          Take(m.fileType.GetOr(""), FileTypeWidth), m.fileSize.GetOr(|content|),
          env.md5(content), SourceTime(m.sourceCreatedAt), SourceTime(m.sourceUpdatedAt));
        var rows := if existing.Some? then p.rows[existing.value := row] else p.rows + [row];
        Pass(rows, Disk(dirs, p.disk.files[path := content]), drawn, p.synced + 1)
  }

  /** The upsert loop over every reported attachment, in order. */
  function SyncAll(env: Env, recUuid: string, p: Pass, metas: seq<AttMeta>): (q: Pass)
    ensures p.synced <= q.synced <= p.synced + |metas|
    decreases |metas|
  {
    if |metas| == 0 then p
    else SyncAll(env, recUuid, SyncOne(env, recUuid, p, metas[0]), metas[1..])
  }

  /** Whether a row is removed once the loop is done: every row when no
      reported attachment carried an id; otherwise the rows with a non-empty
      id that was not reported. */
  predicate Stale(row: Attachment, reported: set<string>) {
    if reported == {} then true
    else row.sourceFileId.Some? && row.sourceFileId.value != "" && row.sourceFileId.value !in reported
  }

  /** The rows that stay, in their order. */
  function KeepFresh(rows: seq<Attachment>, reported: set<string>): (r: seq<Attachment>)
    ensures |r| <= |rows|
    ensures forall a :: a in r <==> a in rows && !Stale(a, reported)
  {
    if |rows| == 0 then []
    else if Stale(rows[0], reported) then KeepFresh(rows[1..], reported)
    else [rows[0]] + KeepFresh(rows[1..], reported)
  }

  /** The number of rows removed. */
  function CountStale(rows: seq<Attachment>, reported: set<string>): (n: nat)
    ensures n + |KeepFresh(rows, reported)| == |rows|
  {
    if |rows| == 0 then 0
    else (if Stale(rows[0], reported) then 1 else 0) + CountStale(rows[1..], reported)
  }

  /** Best-effort file removal for the stale rows: a file that exists is
      deleted when the filesystem allows it. */
  function RemoveFiles(env: Env, disk: Disk, rows: seq<Attachment>, reported: set<string>): (d: Disk)
    ensures d.dirs == disk.dirs
    ensures d.files.Keys <= disk.files.Keys
    decreases |rows|
  {
    if |rows| == 0 then disk
    else
      var row := rows[0];
      var d1 := if Stale(row, reported) && |row.filePath| > 0 && row.filePath in disk.files
                   && env.canRemove(row.filePath)
                then Disk(disk.dirs, disk.files - {row.filePath})
                else disk;
      RemoveFiles(env, d1, rows[1..], reported)
  }

  /** `_sync_attachments_for_record`: `fetched` is `None` when
      `fetch_attachments` raised, and then nothing is touched. */
  function SyncRecord(env: Env, recUuid: string, rows: seq<Attachment>, disk: Disk, drawn: nat,
                      fetched: Option<seq<AttMeta>>): (r: SyncResult)
    ensures fetched.None? ==> r == SyncResult(rows, disk, drawn, 0, 0)
    ensures fetched.Some? ==> r.synced <= |fetched.value|
  {
    match fetched
    case None => SyncResult(rows, disk, drawn, 0, 0)
    case Some(metas) =>
      var reported := ReportedIds(metas);
      var p := SyncAll(env, recUuid, Pass(rows, disk, drawn, 0), metas);
      SyncResult(KeepFresh(p.rows, reported), RemoveFiles(env, p.disk, p.rows, reported),
                 p.drawn, p.synced, CountStale(p.rows, reported))
  }

  // ---- properties --------------------------------------------------------

  /** The upsert keeps the conditional unique constraint: a row with an id is
      only appended when no row has that id yet. */
  lemma SyncOneKeepsIdsUnique(env: Env, recUuid: string, p: Pass, m: AttMeta)
    requires AttachmentIdsUnique(p.rows)
    ensures AttachmentIdsUnique(SyncOne(env, recUuid, p, m).rows)
  {
    var q := SyncOne(env, recUuid, p, m);
    var sid := NormId(m);
    var content := env.download(m);
    if |content| > 0 {
      var existing := if HasId(sid) then FindById(p.rows, sid.value) else None;
      if existing.None? && |q.rows| == |p.rows| + 1 {
        assert q.rows[..|p.rows|] == p.rows;
        forall i, j | 0 <= i < j < |q.rows| && q.rows[i].sourceFileId.Some?
          ensures q.rows[i].sourceFileId != q.rows[j].sourceFileId
        {
          if j == |p.rows| && HasId(sid) {
            assert q.rows[j].sourceFileId == sid;
          }
        }
      }
    }
  }

  lemma {:induction false} SyncAllKeepsIdsUnique(env: Env, recUuid: string, p: Pass, metas: seq<AttMeta>)
    requires AttachmentIdsUnique(p.rows)
    ensures AttachmentIdsUnique(SyncAll(env, recUuid, p, metas).rows)
    decreases |metas|
  {
    if |metas| > 0 {
      SyncOneKeepsIdsUnique(env, recUuid, p, metas[0]);
      SyncAllKeepsIdsUnique(env, recUuid, SyncOne(env, recUuid, p, metas[0]), metas[1..]);
    }
  }

  /** Keeping a subsequence keeps the constraint. */
  lemma {:induction false} KeepFreshKeepsIdsUnique(rows: seq<Attachment>, reported: set<string>)
    requires AttachmentIdsUnique(rows)
    ensures AttachmentIdsUnique(KeepFresh(rows, reported))
    decreases |rows|
  {
    if |rows| > 0 {
      assert AttachmentIdsUnique(rows[1..]) by {
        forall i, j | 0 <= i < j < |rows[1..]| && rows[1..][i].sourceFileId.Some?
          ensures rows[1..][i].sourceFileId != rows[1..][j].sourceFileId
        {
          assert rows[1..][i] == rows[i + 1] && rows[1..][j] == rows[j + 1];
        }
      }
      KeepFreshKeepsIdsUnique(rows[1..], reported);
      var tail := KeepFresh(rows[1..], reported);
      if !Stale(rows[0], reported) {
        var r := [rows[0]] + tail;
        forall i, j | 0 <= i < j < |r| && r[i].sourceFileId.Some?
          ensures r[i].sourceFileId != r[j].sourceFileId
        {
          if i == 0 {
            assert r[j] in tail;
            assert r[j] in rows[1..];
            var k :| 0 <= k < |rows[1..]| && rows[1..][k] == r[j];
            assert rows[k + 1] == r[j];
          } else {
            assert r[i] == tail[i - 1] && r[j] == tail[j - 1];
          }
        }
      }
    }
  }

  /** The sync keeps the conditional unique constraint on a record's rows. */
  lemma SyncRecordKeepsIdsUnique(env: Env, recUuid: string, rows: seq<Attachment>, disk: Disk, drawn: nat,
                                 fetched: Option<seq<AttMeta>>)
    requires AttachmentIdsUnique(rows)
    ensures AttachmentIdsUnique(SyncRecord(env, recUuid, rows, disk, drawn, fetched).rows)
  {
    if fetched.Some? {
      var p := SyncAll(env, recUuid, Pass(rows, disk, drawn, 0), fetched.value);
      SyncAllKeepsIdsUnique(env, recUuid, Pass(rows, disk, drawn, 0), fetched.value);
      KeepFreshKeepsIdsUnique(p.rows, ReportedIds(fetched.value));
    }
  }

  /** When no reported attachment carries an id (an empty list included),
      every row of the record is removed, even rows written in this pass. */
  lemma NoReportedIdsRemovesAll(env: Env, recUuid: string, rows: seq<Attachment>, disk: Disk, drawn: nat,
                                metas: seq<AttMeta>)
    requires forall i :: 0 <= i < |metas| ==> metas[i].sourceFileId.None?
    ensures SyncRecord(env, recUuid, rows, disk, drawn, Some(metas)).rows == []
  {
    var reported := ReportedIds(metas);
    assert reported == {};
    var p := SyncAll(env, recUuid, Pass(rows, disk, drawn, 0), metas);
    AllStaleWithoutIds(p.rows);
  }

  lemma {:induction false} AllStaleWithoutIds(rows: seq<Attachment>)
    ensures KeepFresh(rows, {}) == []
    decreases |rows|
  {
    if |rows| > 0 {
      AllStaleWithoutIds(rows[1..]);
    }
  }

  /** When some reported attachment carries an id, every row that survives
      has no id, or the empty id, or a reported id; and every row without an
      id that was there before survives. */
  lemma SurvivorsAreReported(env: Env, recUuid: string, rows: seq<Attachment>, disk: Disk, drawn: nat,
                             metas: seq<AttMeta>)
    requires exists i :: 0 <= i < |metas| && metas[i].sourceFileId.Some?
    ensures var r := SyncRecord(env, recUuid, rows, disk, drawn, Some(metas));
            (forall a :: a in r.rows && a.sourceFileId.Some? && a.sourceFileId.value != "" ==>
               a.sourceFileId.value in ReportedIds(metas))
            && (forall a :: a in rows && a.sourceFileId.None? ==> a in r.rows)
  {
    var reported := ReportedIds(metas);
    var i :| 0 <= i < |metas| && metas[i].sourceFileId.Some?;
    assert NormId(metas[i]).value in reported;
    var p := SyncAll(env, recUuid, Pass(rows, disk, drawn, 0), metas);
    SyncAllKeepsNullRows(env, recUuid, Pass(rows, disk, drawn, 0), metas);
  }

  /** Rows without an id are never rewritten by the upsert loop. */
  lemma {:induction false} SyncAllKeepsNullRows(env: Env, recUuid: string, p: Pass, metas: seq<AttMeta>)
    ensures forall a :: a in p.rows && a.sourceFileId.None? ==> a in SyncAll(env, recUuid, p, metas).rows
    decreases |metas|
  {
    if |metas| > 0 {
      var q := SyncOne(env, recUuid, p, metas[0]);
      assert forall a :: a in p.rows && a.sourceFileId.None? ==> a in q.rows by {
        forall a | a in p.rows && a.sourceFileId.None? ensures a in q.rows {
          var k :| 0 <= k < |p.rows| && p.rows[k] == a;
          SyncOneKeepsNullRow(env, recUuid, p, metas[0], k);
        }
      }
      SyncAllKeepsNullRows(env, recUuid, q, metas[1..]);
    }
  }

  lemma SyncOneKeepsNullRow(env: Env, recUuid: string, p: Pass, m: AttMeta, k: nat)
    requires k < |p.rows| && p.rows[k].sourceFileId.None?
    ensures p.rows[k] in SyncOne(env, recUuid, p, m).rows
  {
    var q := SyncOne(env, recUuid, p, m);
    var sid := NormId(m);
    if |env.download(m)| > 0 {
      var existing := if HasId(sid) then FindById(p.rows, sid.value) else None;
      if existing.Some? {
        assert existing.value != k;
        if |q.rows| == |p.rows| {
          assert q.rows[k] == p.rows[k];
        }
      } else {
        if |q.rows| == |p.rows| + 1 {
          assert q.rows[k] == p.rows[k];
        }
      }
    }
  }

  /** The upsert never moves or re-keys a row: each existing position keeps
      its uuid and its provider id. */
  lemma SyncOnePreservesPositions(env: Env, recUuid: string, p: Pass, m: AttMeta)
    ensures var q := SyncOne(env, recUuid, p, m);
            |p.rows| <= |q.rows|
            && forall k :: 0 <= k < |p.rows| ==>
                 q.rows[k].uuid == p.rows[k].uuid && q.rows[k].sourceFileId == p.rows[k].sourceFileId
  {
  }

  lemma {:induction false} SyncAllPreservesPositions(env: Env, recUuid: string, p: Pass, metas: seq<AttMeta>)
    ensures var q := SyncAll(env, recUuid, p, metas);
            |p.rows| <= |q.rows|
            && forall k :: 0 <= k < |p.rows| ==>
                 q.rows[k].uuid == p.rows[k].uuid && q.rows[k].sourceFileId == p.rows[k].sourceFileId
    decreases |metas|
  {
    if |metas| > 0 {
      SyncOnePreservesPositions(env, recUuid, p, metas[0]);
      SyncAllPreservesPositions(env, recUuid, SyncOne(env, recUuid, p, metas[0]), metas[1..]);
    }
  }

  /** The on-disk uuid is reused: a stored row whose id is reported again
      is still there afterwards, under the same uuid. */
  lemma UuidReuse(env: Env, recUuid: string, rows: seq<Attachment>, disk: Disk, drawn: nat,
                  metas: seq<AttMeta>, k: nat)
    requires k < |rows| && rows[k].sourceFileId.Some?
    requires rows[k].sourceFileId.value in ReportedIds(metas)
    ensures exists b :: b in SyncRecord(env, recUuid, rows, disk, drawn, Some(metas)).rows
                        && b.uuid == rows[k].uuid && b.sourceFileId == rows[k].sourceFileId
  {
    var reported := ReportedIds(metas);
    var p := SyncAll(env, recUuid, Pass(rows, disk, drawn, 0), metas);
    SyncAllPreservesPositions(env, recUuid, Pass(rows, disk, drawn, 0), metas);
    var b := p.rows[k];
    assert b in p.rows && !Stale(b, reported);
    assert b in KeepFresh(p.rows, reported);
  }

  /** With working downloads and writes, the step for an attachment with a
      non-empty id leaves a row under that id. */
  lemma SyncOneStoresId(env: Env, recUuid: string, p: Pass, m: AttMeta)
    requires |env.download(m)| > 0
    requires forall path :: env.canWrite(path)
    requires HasId(NormId(m))
    ensures exists k :: 0 <= k < |SyncOne(env, recUuid, p, m).rows|
                        && SyncOne(env, recUuid, p, m).rows[k].sourceFileId == NormId(m)
  {
    var q := SyncOne(env, recUuid, p, m);
    var sid := NormId(m);
    var existing := FindById(p.rows, sid.value);
    if existing.Some? {
      assert q.rows[existing.value].sourceFileId == sid;
    } else {
      assert q.rows[|p.rows|].sourceFileId == sid;
    }
  }

  lemma {:induction false} SyncAllStoresIds(env: Env, recUuid: string, p: Pass, metas: seq<AttMeta>)
    requires forall m :: |env.download(m)| > 0
    requires forall path :: env.canWrite(path)
    ensures forall i :: 0 <= i < |metas| && HasId(NormId(metas[i])) ==>
              exists k :: 0 <= k < |SyncAll(env, recUuid, p, metas).rows|
                          && SyncAll(env, recUuid, p, metas).rows[k].sourceFileId == NormId(metas[i])
    decreases |metas|
  {
    if |metas| > 0 {
      var q := SyncOne(env, recUuid, p, metas[0]);
      var r := SyncAll(env, recUuid, q, metas[1..]);
      assert r == SyncAll(env, recUuid, p, metas);
      SyncAllStoresIds(env, recUuid, q, metas[1..]);
      SyncAllPreservesPositions(env, recUuid, q, metas[1..]);
      forall i | 0 <= i < |metas| && HasId(NormId(metas[i]))
        ensures exists k :: 0 <= k < |r.rows| && r.rows[k].sourceFileId == NormId(metas[i])
      {
        if i == 0 {
          SyncOneStoresId(env, recUuid, p, metas[0]);
          var k :| 0 <= k < |q.rows| && q.rows[k].sourceFileId == NormId(metas[0]);
          assert r.rows[k].sourceFileId == NormId(metas[0]);
        } else {
          assert metas[1..][i - 1] == metas[i];
        }
      }
    }
  }

  /** With working downloads and writes, every non-empty reported id has a
      row once the sync is done. */
  lemma ReportedIdsStored(env: Env, recUuid: string, rows: seq<Attachment>, disk: Disk, drawn: nat,
                          metas: seq<AttMeta>, x: string)
    requires forall m :: |env.download(m)| > 0
    requires forall path :: env.canWrite(path)
    requires x != "" && x in ReportedIds(metas)
    ensures exists a :: a in SyncRecord(env, recUuid, rows, disk, drawn, Some(metas)).rows
                        && a.sourceFileId == Some(x)
  {
    var reported := ReportedIds(metas);
    var p := SyncAll(env, recUuid, Pass(rows, disk, drawn, 0), metas);
    SyncAllStoresIds(env, recUuid, Pass(rows, disk, drawn, 0), metas);
    var i :| 0 <= i < |metas| && NormId(metas[i]) == Some(x);
    assert HasId(NormId(metas[i]));
    var k :| 0 <= k < |p.rows| && p.rows[k].sourceFileId == Some(x);
    assert p.rows[k] in p.rows && !Stale(p.rows[k], reported);
  }

  /** Reconciliation converges on the reported ids: when every download
      and write succeeds and some attachment is reported with an id, the
      record ends with a row for a non-empty id exactly when that id was
      reported. */
  lemma Convergence(env: Env, recUuid: string, rows: seq<Attachment>, disk: Disk, drawn: nat,
                    metas: seq<AttMeta>, x: string)
    requires forall m :: |env.download(m)| > 0
    requires forall path :: env.canWrite(path)
    requires exists i :: 0 <= i < |metas| && metas[i].sourceFileId.Some?
    requires x != ""
    ensures x in ReportedIds(metas) <==>
            exists a :: a in SyncRecord(env, recUuid, rows, disk, drawn, Some(metas)).rows
                        && a.sourceFileId == Some(x)
  {
    SurvivorsAreReported(env, recUuid, rows, disk, drawn, metas);
    if x in ReportedIds(metas) {
      ReportedIdsStored(env, recUuid, rows, disk, drawn, metas, x);
    }
  }
}

=== FILE: beat_sync.dfy ===
/** Keeping the periodic-task scheduler in step with a collector config
    (data_collector/services/beat_sync.py): each config owns a collect task
    and a cleanup task, both scheduled by five-field cron expressions. */
module BeatSync {
  import opened Wrappers
  import opened Json
  import opened Text
  import opened CollectorModel

  const CollectPrefix: string := "data_collector_collect_config_"
  const CleanupPrefix: string := "data_collector_cleanup_config_"
  const CollectTask: string := "data_collector.tasks.run_collect"
  const CleanupTask: string := "data_collector.tasks.run_cleanup"

  /** A crontab schedule: minute, hour, day of month, month, day of week. */
  datatype Crontab = Crontab(minute: string, hour: string, dayOfMonth: string, monthOfYear: string,
                             dayOfWeek: string)

  /** The default schedules: every two hours on the hour, and daily at 03:00. */
  const DefaultScheduleTab: Crontab := Crontab("0", "*/2", "*", "*", "*")
  const DefaultCleanupTab: Crontab := Crontab("0", "3", "*", "*", "*")

  // The default expressions as text: "0 */2 * * *" and "0 3 * * *".
  const DefaultScheduleCron: string := CronText(DefaultScheduleTab)
  const DefaultCleanupCron: string := CronText(DefaultCleanupTab)

  datatype PeriodicTask = PeriodicTask(task: string, kwargs: string, crontab: Crontab, enabled: bool)

  /** The scheduler's tables: crontab rows and periodic tasks by name. */
  datatype Beat = Beat(crontabs: set<Crontab>, tasks: map<string, PeriodicTask>)

  /** `_crontab_from_string` without the row it creates: exactly five
      whitespace-separated fields, in cron order. */
  function ParseCron(expr: string): Option<Crontab> {
    var parts := Words(Strip(expr));
    if |parts| != 5 then None else Some(Crontab(parts[0], parts[1], parts[2], parts[3], parts[4]))
  }

  /** A crontab's fields in cron order. */
  function Fields(c: Crontab): seq<string> {
    [c.minute, c.hour, c.dayOfMonth, c.monthOfYear, c.dayOfWeek]
  }

  /** The expression a crontab is written as: its fields, one space apart. */
  function CronText(c: Crontab): string {
    Join(Fields(c), " ")
  }

  predicate FieldOk(f: string) {
    |f| > 0 && NoSpace(f)
  }

  predicate AllFieldsOk(ws: seq<string>) {
    forall k :: 0 <= k < |ws| ==> FieldOk(ws[k])
  }

  /** Writing a crontab out and parsing it gives it back. */
  lemma CronRoundTrip(c: Crontab)
    requires FieldOk(c.minute) && FieldOk(c.hour) && FieldOk(c.dayOfMonth)
    requires FieldOk(c.monthOfYear) && FieldOk(c.dayOfWeek)
    ensures ParseCron(CronText(c)) == Some(c)
  {
    var ws := Fields(c);
    assert AllFieldsOk(ws);
    WordsJoin(ws);
    JoinEnds(ws);
    assert Strip(CronText(c)) == CronText(c);
  }

  /** Space-joined words split back into the same words. */
  lemma {:induction false} WordsJoin(ws: seq<string>)
    requires AllFieldsOk(ws)
    ensures Words(Join(ws, " ")) == ws
  {
    if |ws| == 0 {
      assert StripLeft("") == "";
    } else if |ws| == 1 {
      WordsOne(ws[0]);
    } else {
      assert FieldOk(ws[0]);
      WordsJoin(ws[1..]);
      WordsCons(ws[0], Join(ws[1..], " "));
    }
  }

  /** A join of non-empty words starts with the first word's first character
      and ends with the last word's last character. */
  lemma {:induction false} JoinEnds(ws: seq<string>)
    requires |ws| > 0 && AllFieldsOk(ws)
    ensures var t := Join(ws, " ");
            |t| > 0 && t[0] == ws[0][0] && t[|t| - 1] == ws[|ws| - 1][|ws[|ws| - 1]| - 1]
  {
    assert FieldOk(ws[0]);
    if |ws| > 1 {
      JoinEnds(ws[1..]);
    }
  }

  lemma {:induction false} WordEndOf(w: string, rest: string)
    requires NoSpace(w)
    requires |rest| == 0 || IsSpace(rest[0])
    ensures WordEnd(w + rest) == |w|
    decreases |w|
  {
    var t := w + rest;
    if |w| > 0 {
      assert t[0] == w[0] && !IsSpace(w[0]);
      assert t[1..] == w[1..] + rest;
      assert NoSpace(w[1..]) by {
        assert forall i :: 0 <= i < |w[1..]| ==> w[1..][i] == w[i + 1];
      }
      WordEndOf(w[1..], rest);
    } else {
      assert t == rest;
    }
  }

  lemma WordsOne(w: string)
    requires FieldOk(w)
    ensures Words(w) == [w]
  {
    WordEndOf(w, "");
    assert w + "" == w;
    assert StripLeft(w[|w|..]) == "";
  }

  lemma WordsCons(w: string, rest: string)
    requires FieldOk(w)
    ensures Words(w + " " + rest) == [w] + Words(rest)
  {
    var t := w + " " + rest;
    assert t == w + (" " + rest);
    assert t[0] == w[0];
    WordEndOf(w, " " + rest);
    assert t[..|w|] == w;
    assert t[|w|..] == " " + rest;
    assert (" " + rest)[1..] == rest;
    assert StripLeft(" " + rest) == StripLeft(rest);
  }

  /** The kwargs JSON text of both tasks, as `json.dumps` writes it. */
  function KwargsText(uuid: string): string {
    "{\"config_uuid\": \"" + uuid + "\"}"
  }

  /** A config's cron setting with its default: `None` when a set value is
      not text, where `.strip()` raises. */
  function CronSetting(value: map<string, Value>, key: string, default: string): (r: Option<string>)
    ensures !Truthy(Get(value, key)) ==> r == Some(default)
    ensures Get(value, key).Str? && Truthy(Get(value, key)) ==> r == Some(Get(value, key).s)
  {
    var v := Or(Get(value, key), Str(default));
    if v.Str? then Some(v.s) else None
  }

  /** The two schedules a config gets: both as configured when both parse,
      otherwise both defaults, even the one that parsed. */
  function Schedules(scheduleCron: string, cleanupCron: string): (r: (Crontab, Crontab))
    ensures ParseCron(scheduleCron).Some? && ParseCron(cleanupCron).Some? ==>
              r == (ParseCron(scheduleCron).value, ParseCron(cleanupCron).value)
    ensures ParseCron(scheduleCron).None? || ParseCron(cleanupCron).None? ==>
              r == (DefaultScheduleTab, DefaultCleanupTab)
  {
    match (ParseCron(scheduleCron), ParseCron(cleanupCron))
    case (Some(c), Some(d)) => (c, d)
    case _ => (DefaultScheduleTab, DefaultCleanupTab)
  }

  /** The fallback schedules are what the default expressions parse to. */
  lemma DefaultsParse()
    ensures ParseCron(DefaultScheduleCron) == Some(DefaultScheduleTab)
    ensures ParseCron(DefaultCleanupCron) == Some(DefaultCleanupTab)
  {
    DefaultScheduleParses();
    DefaultCleanupParses();
  }

  lemma DefaultScheduleParses()
    ensures ParseCron(DefaultScheduleCron) == Some(DefaultScheduleTab)
  {
    var c := DefaultScheduleTab;
    assert FieldOk(c.minute) && FieldOk(c.hour) && FieldOk(c.dayOfMonth);
    assert FieldOk(c.monthOfYear) && FieldOk(c.dayOfWeek);
    CronRoundTrip(c);
  }

  lemma DefaultCleanupParses()
    ensures ParseCron(DefaultCleanupCron) == Some(DefaultCleanupTab)
  {
    var c := DefaultCleanupTab;
    assert FieldOk(c.minute) && FieldOk(c.hour) && FieldOk(c.dayOfMonth);
    assert FieldOk(c.monthOfYear) && FieldOk(c.dayOfWeek);
    CronRoundTrip(c);
  }

  /** The crontab rows `_crontab_from_string` creates along the way: one
      per expression that parses, defaults included on the fallback path. */
  function CreatedCrontabs(scheduleCron: string, cleanupCron: string): set<Crontab> {
    var both := (if ParseCron(scheduleCron).Some? then {ParseCron(scheduleCron).value} else {})
                + (if ParseCron(cleanupCron).Some? then {ParseCron(cleanupCron).value} else {});
    if ParseCron(scheduleCron).Some? && ParseCron(cleanupCron).Some? then both
    else both + {DefaultScheduleTab, DefaultCleanupTab}
  }

  /** The config's two cron settings, `None` when the value or a setting has
      the wrong type. */
  function CronSettings(c: Config): (r: Option<(string, string)>)
    ensures c.value.Obj? ==>
              var sc := CronSetting(c.value.fields, "schedule_cron", DefaultScheduleCron);
              var cc := CronSetting(c.value.fields, "cleanup_cron", DefaultCleanupCron);
              (r.Some? <==> sc.Some? && cc.Some?) && (r.Some? ==> r.value == (sc.value, cc.value))
    ensures !Truthy(c.value) ==> r == Some((DefaultScheduleCron, DefaultCleanupCron))
  {
    var value := Or(c.value, EmptyObj);
    if !value.Obj? then None
    else match (CronSetting(value.fields, "schedule_cron", DefaultScheduleCron),
                CronSetting(value.fields, "cleanup_cron", DefaultCleanupCron))
      case (Some(sc), Some(cc)) => Some((sc, cc))
      case _ => None
  }

  /** The `update_or_create` loop: both tasks written with the given
      schedules, the created crontab rows added. */
  function Upsert(b: Beat, uuid: string, enabled: bool, tabs: (Crontab, Crontab), created: set<Crontab>)
    : (r: Beat)
    ensures var collect := CollectPrefix + uuid;
            var cleanup := CleanupPrefix + uuid;
            r.tasks.Keys == b.tasks.Keys + {collect, cleanup}
            && (forall n :: n in b.tasks && n != collect && n != cleanup ==> r.tasks[n] == b.tasks[n])
            && r.tasks[collect] == PeriodicTask(CollectTask, KwargsText(uuid), tabs.0, enabled)
            && r.tasks[cleanup] == PeriodicTask(CleanupTask, KwargsText(uuid), tabs.1, enabled)
            && r.crontabs == b.crontabs + created
  {
    var kwargs := KwargsText(uuid);
    var collect := CollectPrefix + uuid;
    var cleanup := CleanupPrefix + uuid;
    PrefixesDiffer(uuid);
    Beat(b.crontabs + created,
         b.tasks[collect := PeriodicTask(CollectTask, kwargs, tabs.0, enabled)]
                [cleanup := PeriodicTask(CleanupTask, kwargs, tabs.1, enabled)])
  }

  /** `sync_config_to_beat`: upserts exactly the config's two tasks. `None`
      when the config's value or a cron setting has the wrong type. */
  function Sync(b: Beat, c: Config): (r: Option<Beat>)
    ensures r.Some? <==> CronSettings(c).Some?
    ensures r.Some? ==>
              var collect := CollectPrefix + c.uuid;
              var cleanup := CleanupPrefix + c.uuid;
              r.value.tasks.Keys == b.tasks.Keys + {collect, cleanup}
              && (forall n :: n in b.tasks && n != collect && n != cleanup ==> r.value.tasks[n] == b.tasks[n])
              && r.value.tasks[collect].task == CollectTask && r.value.tasks[cleanup].task == CleanupTask
              && r.value.tasks[collect].kwargs == KwargsText(c.uuid)
              && r.value.tasks[cleanup].kwargs == KwargsText(c.uuid)
              && r.value.tasks[collect].enabled == c.isEnabled && r.value.tasks[cleanup].enabled == c.isEnabled
              && b.crontabs <= r.value.crontabs
  {
    match CronSettings(c)
    case Some((sc, cc)) => Some(Upsert(b, c.uuid, c.isEnabled, Schedules(sc, cc), CreatedCrontabs(sc, cc)))
    case None => None
  }

  /** The tasks run on the configured schedules when both parse; otherwise
      both fall back to what the default expressions parse to. */
  lemma SyncSchedules(b: Beat, c: Config)
    requires CronSettings(c).Some?
    ensures var (sc, cc) := CronSettings(c).value;
            var t := Sync(b, c).value.tasks;
            var collect := CollectPrefix + c.uuid;
            var cleanup := CleanupPrefix + c.uuid;
            (ParseCron(sc).Some? && ParseCron(cc).Some? ==>
               t[collect].crontab == ParseCron(sc).value && t[cleanup].crontab == ParseCron(cc).value)
            && (ParseCron(sc).None? || ParseCron(cc).None? ==>
               Some(t[collect].crontab) == ParseCron(DefaultScheduleCron)
               && Some(t[cleanup].crontab) == ParseCron(DefaultCleanupCron))
  {
    DefaultsParse();
  }

  /** A config with no value at all is scheduled every two hours and cleaned
      daily at 03:00. */
  lemma EmptyValueGetsDefaults(b: Beat, c: Config)
    requires !Truthy(c.value)
    ensures Sync(b, c).Some?
    ensures Sync(b, c).value.tasks[CollectPrefix + c.uuid].crontab == DefaultScheduleTab
    ensures Sync(b, c).value.tasks[CleanupPrefix + c.uuid].crontab == DefaultCleanupTab
  {
    assert CronSettings(c) == Some((DefaultScheduleCron, DefaultCleanupCron));
    DefaultsParse();
    var tabs := Schedules(DefaultScheduleCron, DefaultCleanupCron);
    assert tabs == (DefaultScheduleTab, DefaultCleanupTab);
    var created := CreatedCrontabs(DefaultScheduleCron, DefaultCleanupCron);
    assert Sync(b, c) == Some(Upsert(b, c.uuid, c.isEnabled, tabs, created));
  }

  lemma PrefixesDiffer(uuid: string)
    ensures CollectPrefix + uuid != CleanupPrefix + uuid
  {
    assert (CollectPrefix + uuid)[16] == 'o';
    assert (CleanupPrefix + uuid)[16] == 'l';
  }

  /** Syncing twice is syncing once. */
  lemma SyncIdempotent(b: Beat, c: Config)
    requires CronSettings(c).Some?
    ensures Sync(Sync(b, c).value, c) == Sync(b, c)
  {
    var (sc, cc) := CronSettings(c).value;
    var tabs := Schedules(sc, cc);
    var created := CreatedCrontabs(sc, cc);
    UpsertIdempotent(b, c.uuid, c.isEnabled, tabs, created);
  }

  lemma UpsertIdempotent(b: Beat, uuid: string, enabled: bool, tabs: (Crontab, Crontab), created: set<Crontab>)
    ensures var once := Upsert(b, uuid, enabled, tabs, created);
            Upsert(once, uuid, enabled, tabs, created) == once
  {
    var once := Upsert(b, uuid, enabled, tabs, created);
    var twice := Upsert(once, uuid, enabled, tabs, created);
    assert twice.tasks == once.tasks;
  }

  /** `unsync_config_from_beat`: deletes the config's two tasks. */
  function Unsync(b: Beat, uuid: string): (r: Beat)
    ensures r.crontabs == b.crontabs
    ensures r.tasks.Keys == b.tasks.Keys - {CollectPrefix + uuid, CleanupPrefix + uuid}
    ensures forall n :: n in r.tasks ==> r.tasks[n] == b.tasks[n]
  {
    Beat(b.crontabs, b.tasks - {CollectPrefix + uuid, CleanupPrefix + uuid})
  }

  /** Unsync undoes sync on the tasks: a config that had no tasks leaves the
      scheduler's tasks as they were. */
  lemma UnsyncAfterSync(b: Beat, c: Config)
    requires CronSettings(c).Some?
    requires CollectPrefix + c.uuid !in b.tasks && CleanupPrefix + c.uuid !in b.tasks
    ensures Unsync(Sync(b, c).value, c.uuid).tasks == b.tasks
  {
    var (sc, cc) := CronSettings(c).value;
    UnsyncAfterUpsert(b, c.uuid, c.isEnabled, Schedules(sc, cc), CreatedCrontabs(sc, cc));
  }

  lemma UnsyncAfterUpsert(b: Beat, uuid: string, enabled: bool, tabs: (Crontab, Crontab), created: set<Crontab>)
    requires CollectPrefix + uuid !in b.tasks && CleanupPrefix + uuid !in b.tasks
    ensures Unsync(Upsert(b, uuid, enabled, tabs, created), uuid).tasks == b.tasks
  {
    var r := Unsync(Upsert(b, uuid, enabled, tabs, created), uuid);
    assert r.tasks.Keys == b.tasks.Keys;
  }
}

=== FILE: billing_alert.dfy ===
/** The hourly cost alert check (`check_alert_for_provider`): compare the
    provider's billing snapshot for the current hour with the previous
    hour's, and record an alert when the rule's cost or growth threshold is
    exceeded. The clock, the webhook configuration and the next alert-record
    id are parameters; decimal rendering is a parameter as well. */
module BillingAlert {
  import opened Wrappers
  import opened BillingModel
  import Json

  /** An `AlertRecord` row as the check creates it. */
  datatype AlertRecord = AlertRecord(
    id: int,
    provider: int,
    currentCost: real,
    previousCost: real,
    increaseCost: real,
    increasePercent: real,
    currency: string,
    message: string,
    webhookStatus: string)

  /** The tables the check reads, and the alert records it appends to.
      Rules are keyed by provider (one rule per provider). */
  datatype Env = Env(
    providers: map<int, Provider>,
    rules: map<int, AlertRule>,
    billing: BillingStore,
    records: seq<AlertRecord>)

  /** The check's result dict. */
  datatype Check =
    | NotChecked(reason: string)
    | Quiet
    | Alerted(recordId: int, reasons: seq<string>)

  /** The figures the check compares once every lookup succeeded. */
  datatype Figures = Figures(
    provider: Provider,
    rule: AlertRule,
    current: BillingRow,
    previous: BillingRow,
    increase: real,
    percent: real)

  const ProviderNotFound: string := "Provider not found"
  const NoActiveRule: string := "No active alert rule"
  const NoCurrentData: string := "No current billing data"
  const NoPreviousData: string := "No previous billing data"
  const PreviousNotPositive: string := "Previous cost is zero or negative"
  const DefaultLanguage: string := "zh-hans"

  function CurrentSlot(providerId: int, c: Clock): (s: Slot)
    requires ValidClock(c)
    ensures s.provider == providerId && s.hour == c.hour && ValidHour(s.hour)
  {
    Slot(providerId, PeriodOf(c.date), c.hour)
  }

  predicate HasActiveRule(env: Env, providerId: int) {
    providerId in env.rules && env.rules[providerId].isActive
  }

  /** The lookups in the source's order; the first one that fails gives the
      reason the check stops with. */
  function Gather(env: Env, providerId: int, c: Clock): (r: Result<Figures, string>)
    requires ValidClock(c)
    ensures providerId !in env.providers ==> r == Err(ProviderNotFound)
    ensures providerId in env.providers && !HasActiveRule(env, providerId) ==> r == Err(NoActiveRule)
    ensures (providerId in env.providers && HasActiveRule(env, providerId)
             && CurrentSlot(providerId, c) !in env.billing) ==> r == Err(NoCurrentData)
    ensures (providerId in env.providers && HasActiveRule(env, providerId)
             && CurrentSlot(providerId, c) in env.billing
             && PreviousSlot(providerId, c) !in env.billing) ==> r == Err(NoPreviousData)
    ensures r.Ok? <==>
              providerId in env.providers && HasActiveRule(env, providerId)
              && CurrentSlot(providerId, c) in env.billing && PreviousSlot(providerId, c) in env.billing
              && env.billing[PreviousSlot(providerId, c)].totalCost > 0.0
    ensures (providerId in env.providers && HasActiveRule(env, providerId)
             && CurrentSlot(providerId, c) in env.billing && PreviousSlot(providerId, c) in env.billing
             && env.billing[PreviousSlot(providerId, c)].totalCost <= 0.0) ==> r == Err(PreviousNotPositive)
    ensures r.Ok? ==>
              var f := r.value;
              f.provider == env.providers[providerId] && f.rule == env.rules[providerId]
              && f.current == env.billing[CurrentSlot(providerId, c)]
              && f.previous == env.billing[PreviousSlot(providerId, c)]
              && f.previous.totalCost > 0.0
              && f.increase == f.current.totalCost - f.previous.totalCost
              && f.percent == f.increase / f.previous.totalCost * 100.0
  {
    if providerId !in env.providers then Err(ProviderNotFound)
    else if !HasActiveRule(env, providerId) then Err(NoActiveRule)
    else if CurrentSlot(providerId, c) !in env.billing then Err(NoCurrentData)
    else if PreviousSlot(providerId, c) !in env.billing then Err(NoPreviousData)
    else
      var cur := env.billing[CurrentSlot(providerId, c)];
      var prev := env.billing[PreviousSlot(providerId, c)];
      if prev.totalCost <= 0.0 then Err(PreviousNotPositive)
      else
        var inc := cur.totalCost - prev.totalCost;
        Ok(Figures(env.providers[providerId], env.rules[providerId], cur, prev, inc, inc / prev.totalCost * 100.0))
  }

  /** The cost rule fires: a set threshold below the increase. */
  predicate CostExceeded(rule: AlertRule, increase: real) {
    Set(rule.costThreshold) && increase > rule.costThreshold.value
  }

  /** The growth rule fires: a set threshold below the percentage. */
  predicate GrowthExceeded(rule: AlertRule, percent: real) {
    Set(rule.growthThreshold) && percent > rule.growthThreshold.value
  }

  /** How decimals appear in reasons and messages: `show` is `str()` of a
      decimal and `fixed2` is the `:.2f` format. */
  datatype Render = Render(show: real -> string, fixed2: real -> string)

  function CostReason(f: Figures, r: Render): string
    requires f.rule.costThreshold.Some?
  {
    "Cost increase " + r.show(f.increase) + " exceeds threshold " + r.show(f.rule.costThreshold.value)
  }

  function GrowthReason(f: Figures, r: Render): string
    requires f.rule.growthThreshold.Some?
  {
    "Growth " + r.fixed2(f.percent) + "% exceeds threshold " + r.show(f.rule.growthThreshold.value) + "%"
  }

  /** The threshold evaluation with a null threshold read as unset: one
      reason per exceeded threshold, cost first. The amount threshold is not
      consulted. */
  function Reasons(f: Figures, r: Render): (reasons: seq<string>)
    ensures |reasons| > 0 <==> CostExceeded(f.rule, f.increase) || GrowthExceeded(f.rule, f.percent)
    ensures |reasons| == (if CostExceeded(f.rule, f.increase) then 1 else 0)
                         + (if GrowthExceeded(f.rule, f.percent) then 1 else 0)
    ensures CostExceeded(f.rule, f.increase) ==> reasons[0] == CostReason(f, r)
    ensures GrowthExceeded(f.rule, f.percent) ==> reasons[|reasons| - 1] == GrowthReason(f, r)
  {
    (if CostExceeded(f.rule, f.increase) then [CostReason(f, r)] else [])
    + (if GrowthExceeded(f.rule, f.percent) then [GrowthReason(f, r)] else [])
  }

  /** The evaluation as written: `Decimal(str(threshold))` runs before the
      truthiness test, so a null cost threshold raises before anything is
      compared, and a null growth threshold raises after the cost
      comparison. The raised error's text is `conversionError`. */
  function ReasonsAsWritten(f: Figures, r: Render, conversionError: string): (res: Result<seq<string>, string>)
    ensures res.Err? <==> f.rule.costThreshold.None? || f.rule.growthThreshold.None?
    ensures res.Err? ==> res.error == conversionError
  {
    if f.rule.costThreshold.None? then Err(conversionError)
    else if f.rule.growthThreshold.None? then Err(conversionError)
    else Ok(Reasons(f, r))
  }

  /** Where both thresholds are non-null, the code as written agrees with
      the intended evaluation. */
  lemma AsWrittenAgreesWhenBothSet(f: Figures, r: Render, conversionError: string)
    requires f.rule.costThreshold.Some? && f.rule.growthThreshold.Some?
    ensures ReasonsAsWritten(f, r, conversionError) == Ok(Reasons(f, r))
  {
  }

  /** The language of the alert message: the webhook configuration's
      `language`, "zh-hans" when the key is missing, when the configuration
      is not a dict, or when reading it failed (`None`). */
  function Language(webhookConfig: Option<Json.Value>): (lang: Json.Value)
    ensures webhookConfig.None? ==> lang == Json.Str(DefaultLanguage)
    ensures webhookConfig.Some? && webhookConfig.value.Obj? && "language" in webhookConfig.value.fields ==>
              lang == webhookConfig.value.fields["language"]
    ensures webhookConfig.Some? && !webhookConfig.value.Obj? ==> lang == Json.Str(DefaultLanguage)
  {
    match webhookConfig
    case Some(Obj(m)) => if "language" in m then m["language"] else Json.Str(DefaultLanguage)
    case _ => Json.Str(DefaultLanguage)
  }

  /** The alert message in Chinese when the language is exactly "zh-hans",
      otherwise in English. */
  function Message(lang: Json.Value, f: Figures, r: Render): (m: string)
  {
    if lang == Json.Str(DefaultLanguage) then
      f.provider.displayName + " 账户在过去一小时的消费增长了 "
        + r.fixed2(f.increase) + " " + f.current.currency + "，增长率为 " + r.fixed2(f.percent) + "%"
    else
      f.provider.displayName + " account billing increased by "
        + r.fixed2(f.increase) + " " + f.current.currency + " in the last hour, growth rate: "
        + r.fixed2(f.percent) + "%"
  }

  /** `increase_percent` is a decimal column of 5 digits, 2 after the
      point: a percentage that does not round to at most 999.99 in absolute
      value cannot be stored. */
  const PercentLimit: real := 999.995

  predicate PercentFits(p: real) {
    -PercentLimit < p < PercentLimit
  }

  /** Record the alert (webhook "pending") when there are reasons. Creating
      the record raises when the percentage does not fit its column; the
      task's generic handler turns that into `checked: False` with the
      database's message (`storeError`), and nothing is recorded. */
  function Finish(env: Env, providerId: int, f: Figures, reasons: seq<string>, nextId: int,
                  webhookConfig: Option<Json.Value>, r: Render, storeError: string): (out: (Check, Env))
    ensures |reasons| == 0 ==> out == (Quiet, env)
    ensures |reasons| > 0 && !PercentFits(f.percent) ==> out == (NotChecked(storeError), env)
    ensures |reasons| > 0 && PercentFits(f.percent) ==> out.0 == Alerted(nextId, reasons)
    ensures |reasons| > 0 && PercentFits(f.percent) ==>
              out.1 == env.(records := env.records + [AlertRecord(
                nextId, providerId, f.current.totalCost, f.previous.totalCost, f.increase, f.percent,
                f.current.currency, Message(Language(webhookConfig), f, r), WebhookPending)])
  {
    if |reasons| == 0 then (Quiet, env)
    else if !PercentFits(f.percent) then (NotChecked(storeError), env)
    else
      var rec := AlertRecord(nextId, providerId, f.current.totalCost, f.previous.totalCost,
                             f.increase, f.percent, f.current.currency,
                             Message(Language(webhookConfig), f, r), WebhookPending);
      (Alerted(nextId, reasons), env.(records := env.records + [rec]))
  }

  /** `check_alert_for_provider` with the threshold conversion applied only
      to set thresholds. */
  function CheckAlert(env: Env, providerId: int, c: Clock, nextId: int,
                      webhookConfig: Option<Json.Value>, r: Render, storeError: string): (out: (Check, Env))
    requires ValidClock(c)
    ensures Gather(env, providerId, c).Err? ==>
              out == (NotChecked(Gather(env, providerId, c).error), env)
    ensures out.0.Alerted? <==>
              Gather(env, providerId, c).Ok?
              && (CostExceeded(Gather(env, providerId, c).value.rule, Gather(env, providerId, c).value.increase)
                  || GrowthExceeded(Gather(env, providerId, c).value.rule, Gather(env, providerId, c).value.percent))
              && PercentFits(Gather(env, providerId, c).value.percent)
    ensures Gather(env, providerId, c).Ok?
            && (CostExceeded(Gather(env, providerId, c).value.rule, Gather(env, providerId, c).value.increase)
                || GrowthExceeded(Gather(env, providerId, c).value.rule, Gather(env, providerId, c).value.percent))
            && !PercentFits(Gather(env, providerId, c).value.percent) ==>
              out == (NotChecked(storeError), env)
    ensures out.0.Quiet? ==> out.1 == env
    ensures out.0.Alerted? ==>
              |out.0.reasons| > 0 && out.0.recordId == nextId
              && |out.1.records| == |env.records| + 1 && out.1.records[..|env.records|] == env.records
              && out.1.records[|env.records|].webhookStatus == WebhookPending
              && out.1.records[|env.records|].provider == providerId
              && PercentFits(out.1.records[|env.records|].increasePercent)
              && out.1.providers == env.providers && out.1.rules == env.rules && out.1.billing == env.billing
  {
    match Gather(env, providerId, c)
    case Err(reason) => (NotChecked(reason), env)
    case Ok(f) =>
      var out := Finish(env, providerId, f, Reasons(f, r), nextId, webhookConfig, r, storeError);
      assert out.0.Alerted? ==> out.1.records[..|env.records|] == env.records;
      out
  }

  /** `check_alert_for_provider` as written, with the conversion of a null
      threshold raising into the generic error branch. */
  function CheckAlertAsWritten(env: Env, providerId: int, c: Clock, nextId: int,
                               webhookConfig: Option<Json.Value>, r: Render, conversionError: string,
                               storeError: string): (out: (Check, Env))
    requires ValidClock(c)
    ensures Gather(env, providerId, c).Err? ==> out == CheckAlert(env, providerId, c, nextId, webhookConfig, r, storeError)
    ensures Gather(env, providerId, c).Ok?
            && (Gather(env, providerId, c).value.rule.costThreshold.None?
                || Gather(env, providerId, c).value.rule.growthThreshold.None?) ==>
              out == (NotChecked(conversionError), env)
  {
    match Gather(env, providerId, c)
    case Err(reason) => (NotChecked(reason), env)
    case Ok(f) =>
      match ReasonsAsWritten(f, r, conversionError)
      case Err(e) => (NotChecked(e), env)
      case Ok(reasons) => Finish(env, providerId, f, reasons, nextId, webhookConfig, r, storeError)
  }

  /** With both thresholds non-null the check as written and the corrected
      check give the same result. */
  lemma AsWrittenMatchesWhenBothSet(env: Env, providerId: int, c: Clock, nextId: int,
                                    webhookConfig: Option<Json.Value>, r: Render, conversionError: string,
                                    storeError: string)
    requires ValidClock(c)
    requires providerId in env.rules
    requires env.rules[providerId].costThreshold.Some? && env.rules[providerId].growthThreshold.Some?
    ensures CheckAlertAsWritten(env, providerId, c, nextId, webhookConfig, r, conversionError, storeError)
            == CheckAlert(env, providerId, c, nextId, webhookConfig, r, storeError)
  {
  }

  /** A rule with only a growth threshold is a valid rule, yet as written
      its check never alerts even when the growth is far over the threshold:
      the null cost threshold raises first. Here the cost doubles against a
      10% growth threshold. */
  lemma GrowthOnlyRuleNeverAlertsAsWritten(c: Clock, r: Render, conversionError: string, storeError: string)
    requires ValidClock(c)
    ensures var rule := AlertRule(1, None, Some(10.0), None, true);
            var p := Provider(1, "p", "aws", "P", Json.Obj(map["k" := Json.Str("v")]), true);
            var env := Env(map[1 := p], map[1 := rule],
                           map[CurrentSlot(1, c) := BillingRow("", 200.0, "USD", map[], 0),
                               PreviousSlot(1, c) := BillingRow("", 100.0, "USD", map[], 0)],
                           []);
            Clean(rule).None?
            && CheckAlertAsWritten(env, 1, c, 7, None, r, conversionError, storeError) == (NotChecked(conversionError), env)
            && CheckAlert(env, 1, c, 7, None, r, storeError).0.Alerted?
  {
    var rule := AlertRule(1, None, Some(10.0), None, true);
    var p := Provider(1, "p", "aws", "P", Json.Obj(map["k" := Json.Str("v")]), true);
    var cur := CurrentSlot(1, c);
    var prev := PreviousSlot(1, c);
    assert cur != prev by {
      assert cur.hour != prev.hour;
    }
    var billing := map[cur := BillingRow("", 200.0, "USD", map[], 0),
                       prev := BillingRow("", 100.0, "USD", map[], 0)];
    var env := Env(map[1 := p], map[1 := rule], billing, []);
    var g := Gather(env, 1, c);
    assert g.Ok?;
    assert g.value.percent == 100.0;
    assert GrowthExceeded(g.value.rule, g.value.percent);
  }

  /** A jump from 0.50 to 10.00 is a growth of 1900%, too wide for the
      column: the check reports the store error and records nothing. */
  lemma WideGrowthIsNotRecorded(c: Clock, r: Render, storeError: string)
    requires ValidClock(c)
    ensures var rule := AlertRule(1, Some(1.0), Some(10.0), None, true);
            var p := Provider(1, "p", "aws", "P", Json.Obj(map["k" := Json.Str("v")]), true);
            var env := Env(map[1 := p], map[1 := rule],
                           map[CurrentSlot(1, c) := BillingRow("", 10.0, "USD", map[], 0),
                               PreviousSlot(1, c) := BillingRow("", 0.5, "USD", map[], 0)],
                           []);
            CheckAlert(env, 1, c, 7, None, r, storeError) == (NotChecked(storeError), env)
  {
    var rule := AlertRule(1, Some(1.0), Some(10.0), None, true);
    var p := Provider(1, "p", "aws", "P", Json.Obj(map["k" := Json.Str("v")]), true);
    var cur := CurrentSlot(1, c);
    var prev := PreviousSlot(1, c);
    assert cur != prev by {
      assert cur.hour != prev.hour;
    }
    var billing := map[cur := BillingRow("", 10.0, "USD", map[], 0),
                       prev := BillingRow("", 0.5, "USD", map[], 0)];
    var env := Env(map[1 := p], map[1 := rule], billing, []);
    var g := Gather(env, 1, c);
    assert g.Ok?;
    assert g.value.percent == 1900.0;
    assert GrowthExceeded(g.value.rule, g.value.percent);
  }
}

=== FILE: billing_collect.dfy ===
/** The hourly billing collection task (`collect_billing_data`): for every
    selected active provider, ask the provider service for the current
    period's bill and upsert it into the provider's (period, hour) slot.
    The provider service's answer for each provider is a parameter
    (`fetch`), and so are the current period and hour. */
module BillingCollect {
  import opened Wrappers
  import opened BillingModel
  import Json

  /** The `data` dict of a successful answer; a missing key is `None`. */
  datatype Data = Data(
    totalCost: Option<real>,
    currency: Option<string>,
    serviceCosts: Option<map<string, real>>,
    accountId: Option<string>)

  /** What `get_billing_info` gives back: it raises, or it returns a dict
      whose `status`, `error` and `data` keys may be missing. */
  datatype Answer =
    | Raised(message: string)
    | Returned(status: Option<string>, error: Option<string>, data: Option<Data>)

  datatype Success = Success(provider: string, totalCost: real, currency: string)
  datatype Failure = Failure(provider: string, error: string)

  /** The result dict of `collect_billing_data`. */
  datatype Results = Results(success: seq<Success>, failed: seq<Failure>, total: int)

  /** What one provider contributes: a row for its slot and a success entry,
      or a failure entry. */
  datatype Step =
    | Collected(row: BillingRow, entry: Success)
    | Skipped(failure: Failure)

  const NoConfig: string := "No configuration found"
  const UnknownError: string := "Unknown error"
  const DefaultCurrency: string := "USD"

  /** `if provider_id:` — a missing or zero id selects every active provider. */
  function Selected(ps: seq<Provider>, providerId: Option<int>): (r: seq<Provider>)
    ensures forall p :: p in r <==>
              p in ps && p.isActive && (providerId.Some? && providerId.value != 0 ==> p.id == providerId.value)
    ensures |r| <= |ps|
  {
    if ps == [] then []
    else
      var rest := Selected(ps[..|ps| - 1], providerId);
      var p := ps[|ps| - 1];
      if p.isActive && (providerId.None? || providerId.value == 0 || p.id == providerId.value)
      then rest + [p] else rest
  }

  /** The row an answer's data describes, with the source's defaults. */
  function RowOf(d: Data, now: int): (row: BillingRow)
    ensures row.totalCost == d.totalCost.GetOr(0.0)
    ensures row.currency == d.currency.GetOr(DefaultCurrency)
    ensures row.serviceCosts == d.serviceCosts.GetOr(map[])
    ensures row.accountId == d.accountId.GetOr("")
    ensures row.collectedAt == now
  {
    BillingRow(d.accountId.GetOr(""), d.totalCost.GetOr(0.0), d.currency.GetOr(DefaultCurrency),
               d.serviceCosts.GetOr(map[]), now)
  }

  /** The decision for one provider. A raised error becomes a failure
      carrying its message; a status other than "success" becomes a failure
      carrying the answer's error (or "Unknown error"). */
  function Decide(p: Provider, a: Answer, now: int): (s: Step)
    ensures s.Skipped? <==> !Json.Truthy(p.config) || a.Raised? || a.status != Some("success")
    ensures s.Skipped? ==> s.failure.provider == p.name
    ensures !Json.Truthy(p.config) ==> s.failure.error == NoConfig
    ensures Json.Truthy(p.config) && a.Raised? ==> s.failure.error == a.message
    ensures Json.Truthy(p.config) && a.Returned? && a.status != Some("success") ==>
              s.failure.error == a.error.GetOr(UnknownError)
    ensures s.Collected? ==>
              s.row == RowOf(a.data.GetOr(Data(None, None, None, None)), now)
              && s.entry == Success(p.name, s.row.totalCost, s.row.currency)
  {
    if !Json.Truthy(p.config) then Skipped(Failure(p.name, NoConfig))
    else match a
      case Raised(m) => Skipped(Failure(p.name, m))
      case Returned(status, error, data) =>
        if status != Some("success") then Skipped(Failure(p.name, error.GetOr(UnknownError)))
        else
          var row := RowOf(data.GetOr(Data(None, None, None, None)), now);
          Collected(row, Success(p.name, row.totalCost, row.currency))
  }

  /** `get_or_create` on the slot followed by an overwrite of the four
      collected fields: a new row takes `now` as its collection time, an
      existing row keeps its own. */
  function Upsert(store: BillingStore, s: Slot, row: BillingRow): (r: BillingStore)
    ensures r.Keys == store.Keys + {s}
    ensures forall t :: t in store && t != s ==> r[t] == store[t]
    ensures r[s].accountId == row.accountId && r[s].totalCost == row.totalCost
    ensures r[s].currency == row.currency && r[s].serviceCosts == row.serviceCosts
    ensures r[s].collectedAt == if s in store then store[s].collectedAt else row.collectedAt
  {
    if s in store then store[s := row.(collectedAt := store[s].collectedAt)]
    else store[s := row]
  }

  /** The upsert looks a row up by slot alone, so a slot never gets a
      second row: an existing slot is overwritten in place, a changed
      account id included, and only a new slot adds a row. */
  lemma UpsertReusesSlot(store: BillingStore, s: Slot, row: BillingRow)
    ensures s in store ==> |Upsert(store, s, row)| == |store|
    ensures s !in store ==> |Upsert(store, s, row)| == |store| + 1
    ensures Upsert(store, s, row)[s].accountId == row.accountId
  {
    var r := Upsert(store, s, row);
    if s in store {
      assert r.Keys == store.Keys;
    } else {
      assert r.Keys == store.Keys + {s};
    }
  }

  /** The state the loop threads through the providers: the result lists,
      the billing table and the alert checks queued so far. */
  datatype Run = Run(success: seq<Success>, failed: seq<Failure>, store: BillingStore, alerts: seq<int>)

  /** One provider's step applied to the running state. */
  function Apply(r: Run, p: Provider, fetch: int -> Answer, period: string, hour: int, now: int): (r': Run)
    ensures |r'.success| + |r'.failed| == |r.success| + |r.failed| + 1
  {
    match Decide(p, fetch(p.id), now)
    case Skipped(f) => r.(failed := r.failed + [f])
    case Collected(row, e) =>
      Run(r.success + [e], r.failed, Upsert(r.store, Slot(p.id, period, hour), row), r.alerts + [p.id])
  }

  /** The reference definition: the providers processed in order. */
  function RunAll(start: Run, ps: seq<Provider>, fetch: int -> Answer, period: string, hour: int, now: int): (r: Run)
    ensures |r.success| + |r.failed| == |start.success| + |start.failed| + |ps|
  {
    if ps == [] then start
    else Apply(RunAll(start, ps[..|ps| - 1], fetch, period, hour, now), ps[|ps| - 1], fetch, period, hour, now)
  }

  const Empty: Run := Run([], [], map[], [])

  /** `collect_billing_data`: returns the result dict, the billing table
      afterwards and the providers whose alert check was queued. */
  method CollectBilling(providers: seq<Provider>, providerId: Option<int>, store: BillingStore,
                        fetch: int -> Answer, period: string, hour: int, now: int)
    returns (res: Results, store': BillingStore, alerts: seq<int>)
    ensures var sel := Selected(providers, providerId);
            var run := RunAll(Empty.(store := store), sel, fetch, period, hour, now);
            res.success == run.success && res.failed == run.failed
            && store' == run.store && alerts == run.alerts
    ensures res.total == |res.success| + |res.failed| == |Selected(providers, providerId)|
  {
    var sel := Selected(providers, providerId);
    if |sel| == 0 {
      return Results([], [], 0), store, [];
    }
    var run := Empty.(store := store);
    var i := 0;
    while i < |sel|
      invariant 0 <= i <= |sel|
      invariant run == RunAll(Empty.(store := store), sel[..i], fetch, period, hour, now)
    {
      RunAllStep(Empty.(store := store), sel, fetch, period, hour, now, i);
      run := Apply(run, sel[i], fetch, period, hour, now);
      i := i + 1;
    }
    assert sel[..i] == sel;
    res := Results(run.success, run.failed, |run.success| + |run.failed|);
    store', alerts := run.store, run.alerts;
  }

  /** Processing one more provider is one more `Apply`. */
  lemma RunAllStep(start: Run, ps: seq<Provider>, fetch: int -> Answer, period: string, hour: int, now: int, i: nat)
    requires i < |ps|
    ensures RunAll(start, ps[..i + 1], fetch, period, hour, now)
            == Apply(RunAll(start, ps[..i], fetch, period, hour, now), ps[i], fetch, period, hour, now)
  {
    assert ps[..i + 1][..i] == ps[..i];
  }

  /** The slot of a provider that the run collected holds what its answer
      reported, and every slot the run did not touch keeps its row. */
  lemma {:induction false} RunAllSlots(start: Run, ps: seq<Provider>, fetch: int -> Answer,
                                       period: string, hour: int, now: int, t: Slot)
    requires t in start.store
    requires forall p :: p in ps ==> t != Slot(p.id, period, hour) || Decide(p, fetch(p.id), now).Skipped?
    ensures var r := RunAll(start, ps, fetch, period, hour, now);
            t in r.store && r.store[t] == start.store[t]
  {
    if ps != [] {
      RunAllSlots(start, ps[..|ps| - 1], fetch, period, hour, now, t);
    }
  }

  /** Two rows carry the same collected figures (everything but the
      collection time). */
  predicate SameFigures(a: BillingRow, b: BillingRow) {
    a.accountId == b.accountId && a.totalCost == b.totalCost
    && a.currency == b.currency && a.serviceCosts == b.serviceCosts
  }

  /** The run never removes a row, and every row's collection time is the
      one it had before the run or, for a slot the run created, `now`. */
  lemma {:induction false} RunAllCollectedAt(start: Run, ps: seq<Provider>, fetch: int -> Answer,
                                             period: string, hour: int, now: int)
    ensures var r := RunAll(start, ps, fetch, period, hour, now);
            start.store.Keys <= r.store.Keys
            && forall t :: t in r.store ==>
                 r.store[t].collectedAt == if t in start.store then start.store[t].collectedAt else now
  {
    if ps != [] {
      RunAllCollectedAt(start, ps[..|ps| - 1], fetch, period, hour, now);
    }
  }

  /** A provider the run collected ends with a row in its slot holding the
      figures its answer reported. */
  lemma {:induction false} CollectedProviderRow(start: Run, ps: seq<Provider>, fetch: int -> Answer,
                                                period: string, hour: int, now: int, p: Provider)
    requires p in ps && Decide(p, fetch(p.id), now).Collected?
    ensures var r := RunAll(start, ps, fetch, period, hour, now);
            var s := Slot(p.id, period, hour);
            s in r.store && SameFigures(r.store[s], Decide(p, fetch(p.id), now).row)
  {
    var init := ps[..|ps| - 1];
    var last := ps[|ps| - 1];
    var s := Slot(p.id, period, hour);
    if Slot(last.id, period, hour) == s && Decide(last, fetch(last.id), now).Collected? {
    } else {
      assert p in init by {
        assert p != last;
        assert ps == init + [last];
      }
      CollectedProviderRow(start, init, fetch, period, hour, now, p);
    }
  }

  /** A slot no collected provider writes stays absent. */
  lemma {:induction false} RunAllAbsent(start: Run, ps: seq<Provider>, fetch: int -> Answer,
                                        period: string, hour: int, now: int, t: Slot)
    requires t !in start.store
    requires forall p :: p in ps ==> t != Slot(p.id, period, hour) || Decide(p, fetch(p.id), now).Skipped?
    ensures t !in RunAll(start, ps, fetch, period, hour, now).store
  {
    if ps != [] {
      RunAllAbsent(start, ps[..|ps| - 1], fetch, period, hour, now, t);
    }
  }

  /** Some provider among `ps` with this id was collected. */
  predicate QueuedFor(id: int, ps: seq<Provider>, fetch: int -> Answer, now: int) {
    exists p :: p in ps && p.id == id && Decide(p, fetch(p.id), now).Collected?
  }

  /** Only the collected providers are queued for an alert check, in order. */
  lemma {:induction false} AlertsAreCollected(start: Run, ps: seq<Provider>, fetch: int -> Answer,
                                              period: string, hour: int, now: int)
    ensures var r := RunAll(start, ps, fetch, period, hour, now);
            |r.alerts| == |start.alerts| + |r.success| - |start.success|
            && forall i :: |start.alerts| <= i < |r.alerts| ==> QueuedFor(r.alerts[i], ps, fetch, now)
  {
    if ps != [] {
      var init := ps[..|ps| - 1];
      AlertsAreCollected(start, init, fetch, period, hour, now);
      var prev := RunAll(start, init, fetch, period, hour, now);
      var last := ps[|ps| - 1];
      var r := RunAll(start, ps, fetch, period, hour, now);
      assert r == Apply(prev, last, fetch, period, hour, now);
      assert ps == init + [last];
      if Decide(last, fetch(last.id), now).Collected? {
        assert r.alerts == prev.alerts + [last.id] && |r.success| == |prev.success| + 1;
      } else {
        assert r.alerts == prev.alerts && r.success == prev.success;
      }
      forall i | |start.alerts| <= i < |r.alerts|
        ensures QueuedFor(r.alerts[i], ps, fetch, now)
      {
        if i < |prev.alerts| {
          assert QueuedFor(prev.alerts[i], init, fetch, now);
          var p :| p in init && p.id == prev.alerts[i] && Decide(p, fetch(p.id), now).Collected?;
          assert p in ps && r.alerts[i] == prev.alerts[i];
        } else {
          assert last in ps;
        }
      }
    }
  }

  /** Collecting again with the same answers leaves the billing table as the
      first collection left it, whatever the clock says the second time: an
      existing slot is overwritten with the same figures and keeps its
      collection time. */
  lemma RecollectIdempotent(start: Run, ps: seq<Provider>, fetch: int -> Answer,
                            period: string, hour: int, now: int, later: int)
    ensures var once := RunAll(start, ps, fetch, period, hour, now);
            RunAll(once, ps, fetch, period, hour, later).store == once.store
  {
    var once := RunAll(start, ps, fetch, period, hour, now);
    forall q | q in ps && Decide(q, fetch(q.id), later).Collected?
      ensures Slot(q.id, period, hour) in once.store
      ensures SameFigures(once.store[Slot(q.id, period, hour)], Decide(q, fetch(q.id), later).row)
    {
      CollectedProviderRow(start, ps, fetch, period, hour, now, q);
    }
    RerunStable(once, ps, fetch, period, hour, later);
  }

  /** Re-running providers whose slots already hold their answers' figures
      leaves the table unchanged. */
  lemma {:induction false} RerunStable(once: Run, ps: seq<Provider>, fetch: int -> Answer,
                                       period: string, hour: int, later: int)
    requires forall q :: q in ps && Decide(q, fetch(q.id), later).Collected? ==>
               Slot(q.id, period, hour) in once.store
               && SameFigures(once.store[Slot(q.id, period, hour)], Decide(q, fetch(q.id), later).row)
    ensures RunAll(once, ps, fetch, period, hour, later).store == once.store
  {
    if ps != [] {
      var init := ps[..|ps| - 1];
      var last := ps[|ps| - 1];
      assert forall q :: q in init ==> q in ps;
      RerunStable(once, init, fetch, period, hour, later);
      if Decide(last, fetch(last.id), later).Collected? {
        var t := Slot(last.id, period, hour);
        assert last in ps;
        var row := Decide(last, fetch(last.id), later).row;
        assert row.(collectedAt := once.store[t].collectedAt) == once.store[t];
      }
    }
  }
}

=== FILE: billing_model.dfy ===
/** The cloud-billing tables (cloud_billing/models.py): providers, hourly
    billing snapshots and alert rules. Money is an exact `real`: the decimal
    columns' rounding to two places is not modelled. */
module BillingModel {
  import opened Wrappers
  import opened Text
  import Calendar
  import Json

  /** The provider types a `CloudProvider` may declare. */
  const ProviderTypes: seq<string> := ["aws", "huawei", "huawei-intl", "alibaba", "azure"]

  const WebhookPending: string := "pending"

  /** A `CloudProvider` row; `name` is unique. */
  datatype Provider = Provider(
    id: int,
    name: string,
    providerType: string,
    displayName: string,
    config: Json.Value,
    isActive: bool)

  /** Provider names are unique across the table. */
  predicate NamesUnique(ps: seq<Provider>) {
    forall i, j :: 0 <= i < |ps| && 0 <= j < |ps| && ps[i].name == ps[j].name ==> i == j
  }

  /** The hours a snapshot may carry. */
  predicate ValidHour(h: int) {
    0 <= h <= 23
  }

  /** The slot a snapshot is collected into: provider, `YYYY-MM` period and
      hour of the day. */
  datatype Slot = Slot(provider: int, period: string, hour: int)

  /** One `BillingData` row without its slot; `serviceCosts` is the JSON
      dict of per-service costs. */
  datatype BillingRow = BillingRow(
    accountId: string,
    totalCost: real,
    currency: string,
    serviceCosts: map<string, real>,
    collectedAt: int)

  /** The billing table as the collector writes it: one row per slot, the
      key its `get_or_create` looks up. */
  type BillingStore = map<Slot, BillingRow>

  /** `strftime("%Y-%m")` of a date. */
  function PeriodOf(d: Calendar.Date): (p: string)
    requires Calendar.InRange(d)
    ensures |p| == 7 && p[4] == '-'
    ensures p == PadNat(d.year, 4) + "-" + PadNat(d.month, 2)
  {
    PadNatWidth(d.year, 4);
    PadNatWidth(d.month, 2);
    Calendar.FormatDate(d)[..7]
  }

  /** The slot an hour-of-day clock reading falls into. */
  datatype Clock = Clock(date: Calendar.Date, hour: int)

  predicate ValidClock(c: Clock) {
    Calendar.InRange(c.date) && ValidHour(c.hour)
      && Calendar.InRange(Calendar.PrevDate(c.date))
  }

  /** The slot before the current one: the hour before in the same period,
      or hour 23 of yesterday's period at midnight. */
  function PreviousSlot(provider: int, c: Clock): (s: Slot)
    requires ValidClock(c)
    ensures ValidHour(s.hour)
    ensures c.hour >= 1 ==> s == Slot(provider, PeriodOf(c.date), c.hour - 1)
    ensures c.hour == 0 ==> s.hour == 23
  {
    if c.hour - 1 < 0 then Slot(provider, PeriodOf(Calendar.PrevDate(c.date)), 23)
    else Slot(provider, PeriodOf(c.date), c.hour - 1)
  }

  /** At midnight on the first of a month the previous slot lies in the
      previous month (and in December of the year before on January 1st);
      on any other day at midnight it stays in the same period. */
  lemma PreviousSlotAtMidnight(provider: int, c: Clock)
    requires ValidClock(c) && c.hour == 0
    ensures var s := PreviousSlot(provider, c);
            (c.date.day > 1 ==> s.period == PeriodOf(c.date))
            && (c.date.day == 1 && c.date.month > 1 ==>
                  s.period == PeriodOf(Calendar.Date(c.date.year, c.date.month - 1, 1)))
            && (c.date.day == 1 && c.date.month == 1 ==>
                  s.period == PeriodOf(Calendar.Date(c.date.year - 1, 12, 1)))
  {
    var p := Calendar.PrevDate(c.date);
    assert PeriodOf(p) == PadNat(p.year, 4) + "-" + PadNat(p.month, 2);
  }

  /** A threshold column: nullable, and falsy when null or zero. */
  type Threshold = Option<real>

  predicate Set(t: Threshold) {
    t.Some? && t.value != 0.0
  }

  /** An `AlertRule` row (one per provider). */
  datatype AlertRule = AlertRule(
    provider: int,
    costThreshold: Threshold,
    growthThreshold: Threshold,
    growthAmountThreshold: Threshold,
    isActive: bool)

  const NoThresholdMessage: string :=
    "At least one of cost_threshold, growth_threshold, or growth_amount_threshold must be set."

  /** `AlertRule.clean`: at least one threshold must be set; a zero counts
      as unset. */
  function Clean(r: AlertRule): (e: Option<string>)
    ensures e.None? <==> Set(r.costThreshold) || Set(r.growthThreshold) || Set(r.growthAmountThreshold)
  {
    if !Set(r.costThreshold) && !Set(r.growthThreshold) && !Set(r.growthAmountThreshold)
    then Some(NoThresholdMessage) else None
  }

  /** `AlertRule.save`: `full_clean` first, so a rule without any threshold
      is never stored. */
  function SaveRule(rules: map<int, AlertRule>, r: AlertRule): (res: Result<map<int, AlertRule>, string>)
    ensures res.Ok? <==> Clean(r).None?
    ensures res.Ok? ==> res.value == rules[r.provider := r]
    ensures res.Err? ==> res.error == NoThresholdMessage
  {
    match Clean(r)
    case Some(m) => Err(m)
    case None => Ok(rules[r.provider := r])
  }

  /** Every stored rule has a threshold set. */
  predicate RulesClean(rules: map<int, AlertRule>) {
    forall p :: p in rules ==> Clean(rules[p]).None?
  }

  lemma SaveKeepsRulesClean(rules: map<int, AlertRule>, r: AlertRule)
    requires RulesClean(rules)
    ensures SaveRule(rules, r).Ok? ==> RulesClean(SaveRule(rules, r).value)
  {
  }

  /** `BillingData.__str__`: "{display} - {period} {hour:02d}:00". */
  function ShowBilling(displayName: string, s: Slot): (r: string)
    requires ValidHour(s.hour)
    ensures |r| == |displayName| + |s.period| + 9
    ensures r[..|displayName|] == displayName
    ensures r[|r| - 3..] == ":00"
  {
    PadNatWidth(s.hour, 2);
    displayName + " - " + s.period + " " + PadNat(s.hour, 2) + ":00"
  }

  /** `AlertRule.__str__`: the display name, then the set thresholds in the
      order cost, growth, growth amount, joined by ", ". `show` renders a
      decimal. */
  function ShowRule(displayName: string, r: AlertRule, show: real -> string): (s: string)
  {
    displayName + " - " + Join(RuleParts(r, show), ", ")
  }

  function RuleParts(r: AlertRule, show: real -> string): (parts: seq<string>)
    ensures |parts| == (if Set(r.costThreshold) then 1 else 0)
                       + (if Set(r.growthThreshold) then 1 else 0)
                       + (if Set(r.growthAmountThreshold) then 1 else 0)
    ensures Set(r.costThreshold) ==> parts[0] == "Cost: " + show(r.costThreshold.value)
    ensures Set(r.growthAmountThreshold) ==>
              parts[|parts| - 1] == "Growth Amount: " + show(r.growthAmountThreshold.value)
    ensures Set(r.growthThreshold) ==>
              parts[if Set(r.costThreshold) then 1 else 0] == "Growth: " + show(r.growthThreshold.value) + "%"
  {
    (if Set(r.costThreshold) then ["Cost: " + show(r.costThreshold.value)] else [])
    + (if Set(r.growthThreshold) then ["Growth: " + show(r.growthThreshold.value) + "%"] else [])
    + (if Set(r.growthAmountThreshold) then ["Growth Amount: " + show(r.growthAmountThreshold.value)] else [])
  }

  /** A rule that passes `clean` renders at least one threshold. */
  lemma CleanRuleShowsThreshold(r: AlertRule, show: real -> string)
    requires Clean(r).None?
    ensures |RuleParts(r, show)| >= 1
  {
  }
}

=== FILE: billing_serializers.dfy ===
/** Request validation for providers and alert rules
    (cloud_billing/serializers.py), and what saving an accepted alert-rule
    update does with it. */
module BillingSerializers {
  import opened Wrappers
  import opened BillingModel
  import Json

  const NameTaken: string := "A provider with this name already exists."
  const ConfigNotDict: string := "Config must be a dictionary."
  const NoRuleThreshold: string := "At least one of cost_threshold or growth_threshold must be set."

  function Names(ps: seq<Provider>): set<string> {
    set p | p in ps :: p.name
  }

  /** `validate_name`: the edited provider's own name passes; any other
      name already in the table is rejected. `current` is the edited
      provider's name, `None` on create. */
  function ValidateName(ps: seq<Provider>, current: Option<string>, value: string): (r: Result<string, string>)
    ensures r.Ok? <==> current == Some(value) || value !in Names(ps)
    ensures r.Ok? ==> r.value == value
    ensures r.Err? ==> r.error == NameTaken
  {
    if current == Some(value) then Ok(value)
    else if value in Names(ps) then Err(NameTaken)
    else Ok(value)
  }

  /** Creating a provider under an accepted name keeps names unique. */
  lemma AcceptedCreateKeepsNamesUnique(ps: seq<Provider>, p: Provider)
    requires NamesUnique(ps)
    requires ValidateName(ps, None, p.name).Ok?
    ensures NamesUnique(ps + [p])
  {
    assert forall i :: 0 <= i < |ps| ==> ps[i].name in Names(ps);
  }

  /** Renaming provider `k` to an accepted name keeps names unique. */
  lemma AcceptedRenameKeepsNamesUnique(ps: seq<Provider>, k: int, name: string)
    requires NamesUnique(ps) && 0 <= k < |ps|
    requires ValidateName(ps, Some(ps[k].name), name).Ok?
    ensures NamesUnique(ps[k := ps[k].(name := name)])
  {
    assert forall i :: 0 <= i < |ps| ==> ps[i].name in Names(ps);
  }

  /** `validate_config`: only a dict is a configuration. */
  function ValidateConfig(v: Json.Value): (r: Result<Json.Value, string>)
    ensures r.Ok? <==> v.Obj?
    ensures r.Ok? ==> r.value == v
    ensures r.Err? ==> r.error == ConfigNotDict
  {
    if v.Obj? then Ok(v) else Err(ConfigNotDict)
  }

  /** The thresholds of an alert-rule request: `None` when the key is not
      in the request, `Some(t)` when it is (and `t` may be null). */
  datatype RuleRequest = RuleRequest(cost: Option<Threshold>, growth: Option<Threshold>)

  /** `attrs.get(key)`: an absent key reads as null. */
  function Incoming(t: Option<Threshold>): Threshold {
    if t.Some? then t.value else None
  }

  /** The value the validation checks: the incoming one, or the stored one
      on update when the incoming one is falsy. */
  function Checked(t: Option<Threshold>, stored: Option<Threshold>): (c: Threshold)
    ensures Set(Incoming(t)) ==> c == Incoming(t)
    ensures !Set(Incoming(t)) && stored.Some? ==> c == stored.value
  {
    if !Set(Incoming(t)) && stored.Some? then stored.value else Incoming(t)
  }

  /** `AlertRuleSerializer.validate`: fails when neither checked threshold
      is set. `instance` is the edited rule, `None` on create. */
  function ValidateRule(req: RuleRequest, instance: Option<AlertRule>): (r: Result<RuleRequest, string>)
    ensures r.Err? <==>
              !Set(Checked(req.cost, if instance.Some? then Some(instance.value.costThreshold) else None))
              && !Set(Checked(req.growth, if instance.Some? then Some(instance.value.growthThreshold) else None))
    ensures r.Ok? ==> r.value == req
    ensures r.Err? ==> r.error == NoRuleThreshold
  {
    var cost := Checked(req.cost, if instance.Some? then Some(instance.value.costThreshold) else None);
    var growth := Checked(req.growth, if instance.Some? then Some(instance.value.growthThreshold) else None);
    if !Set(cost) && !Set(growth) then Err(NoRuleThreshold) else Ok(req)
  }

  /** The rule the serializer's save writes: the request's keys replace the
      stored values, the others are kept. */
  function Apply(instance: AlertRule, req: RuleRequest): (r: AlertRule)
    ensures r.costThreshold == (if req.cost.Some? then req.cost.value else instance.costThreshold)
    ensures r.growthThreshold == (if req.growth.Some? then req.growth.value else instance.growthThreshold)
    ensures r.provider == instance.provider && r.growthAmountThreshold == instance.growthAmountThreshold
  {
    instance.(costThreshold := if req.cost.Some? then req.cost.value else instance.costThreshold,
              growthThreshold := if req.growth.Some? then req.growth.value else instance.growthThreshold)
  }

  /** As written, the update check reads a falsy incoming threshold as
      "keep the stored one", while the save writes the incoming value. A
      request that sets the only threshold of a rule to 0 passes the
      serializer and then fails the model's `full_clean`. */
  lemma ZeroingOnlyThresholdPassesValidationButFailsSave()
    ensures var stored := AlertRule(1, Some(10.0), None, None, true);
            var req := RuleRequest(Some(Some(0.0)), None);
            ValidateRule(req, Some(stored)).Ok?
            && SaveRule(map[1 := stored], Apply(stored, req)).Err?
  {
  }

  /** The corrected check: it looks at the values the save will write. */
  function ValidateRuleIntended(req: RuleRequest, instance: Option<AlertRule>): (r: Result<RuleRequest, string>)
    ensures instance.Some? ==>
              (r.Err? <==> !Set(Apply(instance.value, req).costThreshold)
                           && !Set(Apply(instance.value, req).growthThreshold))
    ensures instance.None? ==> (r.Err? <==> !Set(Incoming(req.cost)) && !Set(Incoming(req.growth)))
    ensures r.Ok? ==> r.value == req
  {
    var cost := if instance.Some? then Apply(instance.value, req).costThreshold else Incoming(req.cost);
    var growth := if instance.Some? then Apply(instance.value, req).growthThreshold else Incoming(req.growth);
    if !Set(cost) && !Set(growth) then Err(NoRuleThreshold) else Ok(req)
  }

  /** With the corrected check, every accepted update saves. */
  lemma IntendedUpdateAlwaysSaves(rules: map<int, AlertRule>, instance: AlertRule, req: RuleRequest)
    requires ValidateRuleIntended(req, Some(instance)).Ok?
    ensures SaveRule(rules, Apply(instance, req)).Ok?
  {
  }

  /** The two checks agree on every request that sends no falsy threshold. */
  lemma ChecksAgreeWithoutFalsyValues(req: RuleRequest, instance: Option<AlertRule>)
    requires req.cost.Some? ==> Set(req.cost.value)
    requires req.growth.Some? ==> Set(req.growth.value)
    ensures ValidateRule(req, instance).Ok? <==> ValidateRuleIntended(req, instance).Ok?
  {
  }
}

=== FILE: billing_stats.dfy ===
/** The billing list filters and the statistics endpoint
    (cloud_billing/views/billing.py). A month's row carries the month's
    cumulative cost, so statistics keep one row per (provider, account,
    period) — the one collected last — before summing. Instants are integer
    seconds, days are UTC day numbers. */
module BillingStats {
  import opened Wrappers
  import opened Text
  import opened BillingModel
  import Calendar

  /** A billing row together with its slot. */
  datatype Row = Row(provider: int, period: string, hour: int, data: BillingRow)

  /** Rows are unique per (provider, account_id, period, hour), the table's
      declared uniqueness. */
  predicate UniqueRows(rows: seq<Row>) {
    forall i, j ::
      (0 <= i < |rows| && 0 <= j < |rows|
       && rows[i].provider == rows[j].provider && rows[i].data.accountId == rows[j].data.accountId
       && rows[i].period == rows[j].period && rows[i].hour == rows[j].hour) ==> rows[i] == rows[j]
  }

  // ---- the list filters ---------------------------------------------------

  /** A `start_date`/`end_date` query parameter: absent, not a date, or the
      UTC day number of the date it names. */
  datatype DateParam = NoDate | Malformed | OnDay(day: int)

  /** `collected_at >= start_date`, with the date read as its midnight. */
  predicate FromStart(t: int, start: DateParam) {
    start.OnDay? ==> t >= start.day * Calendar.SecondsPerDay
  }

  /** `collected_at < end_date + 1 day`. */
  predicate BeforeEnd(t: int, end: DateParam) {
    end.OnDay? ==> t < (end.day + 1) * Calendar.SecondsPerDay
  }

  /** The end bound keeps every instant of the end day and nothing after it;
      the start bound keeps the start day from its midnight. */
  lemma DateBoundsAreWholeDays(t: int, start: DateParam, end: DateParam)
    ensures start.OnDay? ==> (FromStart(t, start) <==> Calendar.DayOf(t) >= start.day)
    ensures end.OnDay? ==> (BeforeEnd(t, end) <==> Calendar.DayOf(t) <= end.day)
  {
  }

  /** The `provider_id` query parameter as the filter reads it: absent or
      empty (falsy, so no filter), text that `int()` refuses, or the id it
      names. Any other text is truthy, "0" included. */
  datatype IdParam = NoId | NotANumber(text: string) | ById(id: int)

  function ReadId(s: Option<string>): (p: IdParam)
    ensures p.NoId? <==> !Truthy(s)
    ensures p.NotANumber? <==> Truthy(s) && ParseInt(s.value).None?
    ensures p.NotANumber? ==> p.text == s.value
    ensures p.ById? ==> Truthy(s) && ParseInt(s.value) == Some(p.id)
  {
    if !Truthy(s) then NoId
    else match ParseInt(s.value)
      case None => NotANumber(s.value)
      case Some(n) => ById(n)
  }

  /** The list query's filters. */
  datatype ListQuery = ListQuery(providerId: IdParam, period: Option<string>, start: DateParam, end: DateParam)

  predicate Truthy(s: Option<string>) {
    s.Some? && s.value != ""
  }

  /** `filter(provider_id=...)`, applied whenever the parameter is truthy. */
  predicate ProviderMatches(r: Row, providerId: IdParam) {
    providerId.ById? ==> r.provider == providerId.id
  }

  predicate ListKeeps(q: ListQuery, r: Row) {
    ProviderMatches(r, q.providerId)
    && (Truthy(q.period) ==> r.period == q.period.value)
    && FromStart(r.data.collectedAt, q.start) && BeforeEnd(r.data.collectedAt, q.end)
  }

  /** "0" is a truthy parameter: it filters on provider 0 rather than
      switching the filter off. */
  lemma ZeroIdFilters(r: Row)
    ensures ReadId(Some("0")) == ById(0)
    ensures ProviderMatches(r, ReadId(Some("0"))) <==> r.provider == 0
  {
    ParseIntOfNatToStr(0);
    assert NatToStr(0) == "0";
  }

  function Filter(rows: seq<Row>, q: ListQuery): (r: seq<Row>)
    ensures forall x :: x in r <==> x in rows && ListKeeps(q, x)
    ensures |r| <= |rows|
  {
    if rows == [] then []
    else
      var rest := Filter(rows[..|rows| - 1], q);
      var x := rows[|rows| - 1];
      assert rows == rows[..|rows| - 1] + [x];
      if ListKeeps(q, x) then rest + [x] else rest
  }

  /** Why `get_queryset` raised: the provider id is not a number (the
      lookup's `int()`), the start is not a date or datetime the database
      field accepts, or the end is not `YYYY-MM-DD` (`strptime`). */
  datatype ListError = BadProviderId(text: string) | BadStartDate | BadEndDate

  /** The first filter that raises, in the order `get_queryset` builds them. */
  function QueryError(q: ListQuery): (e: Option<ListError>)
    ensures e.None? <==> !q.providerId.NotANumber? && !q.start.Malformed? && !q.end.Malformed?
    ensures q.providerId.NotANumber? ==> e == Some(BadProviderId(q.providerId.text))
    ensures !q.providerId.NotANumber? && q.start.Malformed? ==> e == Some(BadStartDate)
    ensures e == Some(BadEndDate) <==> !q.providerId.NotANumber? && !q.start.Malformed? && q.end.Malformed?
  {
    if q.providerId.NotANumber? then Some(BadProviderId(q.providerId.text))
    else if q.start.Malformed? then Some(BadStartDate)
    else if q.end.Malformed? then Some(BadEndDate)
    else None
  }

  /** `get_queryset`: each truthy parameter adds its filter, and a parameter
      its filter cannot read raises. */
  function ListRows(rows: seq<Row>, q: ListQuery): (r: Result<seq<Row>, ListError>)
    ensures r.Err? <==> QueryError(q).Some?
    ensures r.Err? ==> r.error == QueryError(q).value
    ensures r.Ok? ==> forall x :: x in r.value <==> x in rows && ListKeeps(q, x)
  {
    match QueryError(q)
    case Some(e) => Err(e)
    case None => Ok(Filter(rows, q))
  }

  // ---- one row per (provider, account, period) ----------------------------

  /** The statistics key: provider, account and period. */
  datatype Key = Key(provider: int, account: string, period: string)

  function KeyOf(r: Row): Key {
    Key(r.provider, r.data.accountId, r.period)
  }

  /** `a` sorts before `b` under `-hour, -collected_at`. */
  predicate Newer(a: Row, b: Row) {
    a.hour > b.hour || (a.hour == b.hour && a.data.collectedAt > b.data.collectedAt)
  }

  predicate DistinctKeys(kept: seq<Row>) {
    forall i, j :: 0 <= i < |kept| && 0 <= j < |kept| && i != j ==> KeyOf(kept[i]) != KeyOf(kept[j])
  }

  /** The position of the kept row with this key, or `|kept|`. */
  function FindKey(kept: seq<Row>, k: Key): (i: nat)
    ensures i <= |kept|
    ensures i < |kept| ==> KeyOf(kept[i]) == k
    ensures i == |kept| ==> forall j :: 0 <= j < |kept| ==> KeyOf(kept[j]) != k
  {
    if |kept| == 0 then 0
    else if KeyOf(kept[0]) == k then 0
    else 1 + FindKey(kept[1..], k)
  }

  /** Some kept row has `r`'s key and is at least as recent as `r`. */
  predicate Covers(kept: seq<Row>, r: Row) {
    exists i :: 0 <= i < |kept| && KeyOf(kept[i]) == KeyOf(r) && !Newer(r, kept[i])
  }

  /** Offer one more row: it replaces the kept row of its key when newer,
      and is added when its key is new. */
  function Offer(kept: seq<Row>, r: Row): (out: seq<Row>)
    requires DistinctKeys(kept)
    ensures DistinctKeys(out)
    ensures forall x :: x in out ==> x in kept || x == r
    ensures Covers(out, r)
    ensures forall x :: x in kept ==> Covers(out, x)
  {
    var i := FindKey(kept, KeyOf(r));
    if i == |kept| then
      var out := kept + [r];
      assert out[|kept|] == r;
      assert forall j :: 0 <= j < |kept| ==> out[j] == kept[j];
      out
    else if Newer(r, kept[i]) then
      var out := kept[i := r];
      assert out[i] == r;
      forall x | x in kept
        ensures Covers(out, x)
      {
        var j :| 0 <= j < |kept| && kept[j] == x;
        if j == i {
          assert KeyOf(out[i]) == KeyOf(x);
        } else {
          assert out[j] == x;
        }
      }
      out
    else
      assert Covers(kept, r) by { assert KeyOf(kept[i]) == KeyOf(r); }
      kept
  }

  /** Coverage carries over: a row covered before a later offer stays
      covered after it. */
  lemma CoversAfterOffer(prev: seq<Row>, out: seq<Row>, r: Row)
    requires Covers(prev, r)
    requires forall x :: x in prev ==> Covers(out, x)
    ensures Covers(out, r)
  {
    var j :| 0 <= j < |prev| && KeyOf(prev[j]) == KeyOf(r) && !Newer(r, prev[j]);
    assert prev[j] in prev;
    var k :| 0 <= k < |out| && KeyOf(out[k]) == KeyOf(prev[j]) && !Newer(prev[j], out[k]);
    assert !Newer(r, out[k]);
  }

  /** The rows the statistics keep, taken in query order. */
  function KeepLatest(rows: seq<Row>): (kept: seq<Row>)
    ensures DistinctKeys(kept)
    ensures forall x :: x in kept ==> x in rows
    ensures forall r :: r in rows ==> Covers(kept, r)
  {
    if rows == [] then []
    else
      var init := rows[..|rows| - 1];
      var last := rows[|rows| - 1];
      var prev := KeepLatest(init);
      var out := Offer(prev, last);
      assert rows == init + [last];
      forall r | r in rows
        ensures Covers(out, r)
      {
        if r != last {
          CoversAfterOffer(prev, out, r);
        }
      }
      out
  }

  /** The kept rows have exactly the keys of the queried rows, one row each,
      and under the table's uniqueness that row is the only one of its key
      with the highest hour. */
  lemma KeepLatestIsTheLatest(rows: seq<Row>, r: Row)
    requires UniqueRows(rows) && r in rows
    requires forall x :: x in rows && KeyOf(x) == KeyOf(r) ==> !Newer(x, r)
    ensures r in KeepLatest(rows)
  {
    var kept := KeepLatest(rows);
    assert Covers(kept, r);
    var i :| 0 <= i < |kept| && KeyOf(kept[i]) == KeyOf(r) && !Newer(r, kept[i]);
    assert kept[i] in rows;
    assert !Newer(kept[i], r);
    var a :| 0 <= a < |rows| && rows[a] == r;
    var b :| 0 <= b < |rows| && rows[b] == kept[i];
    assert rows[a] == rows[b];
  }

  // ---- the statistics -----------------------------------------------------

  function SumCost(rows: seq<Row>): real {
    if rows == [] then 0.0 else SumCost(rows[..|rows| - 1]) + rows[|rows| - 1].data.totalCost
  }

  /** The (provider, account) pairs among the kept rows. */
  function Pairs(kept: seq<Row>): set<(int, string)> {
    set x | x in kept :: (x.provider, x.data.accountId)
  }

  /** Appending a row adds its pair. */
  lemma PairsSnoc(init: seq<Row>, x: Row)
    ensures Pairs(init + [x]) == Pairs(init) + {(x.provider, x.data.accountId)}
  {
    var kept := init + [x];
    forall y | y in kept ensures y in init || y == x {
      var i :| 0 <= i < |kept| && kept[i] == y;
      if i < |init| {
        assert init[i] == y;
      }
    }
  }

  /** `total_cost / len(unique_provider_accounts)`, or 0 without any. */
  function Average(total: real, pairs: set<(int, string)>): (a: real)
    ensures |pairs| == 0 ==> a == 0.0
    ensures |pairs| > 0 ==> a * (|pairs| as real) == total
  {
    if |pairs| == 0 then 0.0 else total / (|pairs| as real)
  }

  /** `start.split('-')` and `end.split('-')` both give two parts, the years
      agree and the months are "01" and "12". A period that does not split
      into two parts is caught and groups by month. */
  function GroupByYear(startPeriod: Option<string>, endPeriod: Option<string>): (b: bool)
    ensures b ==> Truthy(startPeriod) && Truthy(endPeriod)
    ensures b <==> Truthy(startPeriod) && Truthy(endPeriod)
                   && |SplitOn(startPeriod.value, '-')| == 2 && |SplitOn(endPeriod.value, '-')| == 2
                   && SplitOn(startPeriod.value, '-')[0] == SplitOn(endPeriod.value, '-')[0]
                   && SplitOn(startPeriod.value, '-')[1] == "01" && SplitOn(endPeriod.value, '-')[1] == "12"
  {
    if !Truthy(startPeriod) || !Truthy(endPeriod) then false
    else
      var s := SplitOn(startPeriod.value, '-');
      var e := SplitOn(endPeriod.value, '-');
      |s| == 2 && |e| == 2 && s[0] == e[0] && s[1] == "01" && e[1] == "12"
  }

  /** A whole calendar year in `YYYY-MM` form groups by year. */
  lemma WholeYearGroupsByYear(y: string)
    requires |y| == 4 && '-' !in y
    ensures GroupByYear(Some(y + "-01"), Some(y + "-12"))
  {
    SplitOfPeriod(y, "01");
    SplitOfPeriod(y, "12");
  }

  lemma SplitOfPeriod(y: string, m: string)
    requires '-' !in y && '-' !in m
    ensures SplitOn(y + "-" + m, '-') == [y, m]
  {
    var s := y + "-" + m;
    assert '-' in s by { assert s[|y|] == '-'; }
    assert IndexOf(s, '-') == |y| by {
      assert forall i :: 0 <= i < |y| ==> s[i] == y[i];
      assert s[|y|] == '-';
    }
    assert s[..|y|] == y && s[|y| + 1..] == m;
    assert SplitOn(m, '-') == [m];
    assert SplitOn(s, '-') == [s[..|y|]] + SplitOn(s[|y| + 1..], '-');
  }

  /** The grouping key of a period: its year part when grouping by year. */
  function PeriodKey(period: string, byYear: bool): string {
    if byYear then SplitOn(period, '-')[0] else period
  }

  /** Read a sum map with 0 for a missing key. */
  function At(m: map<string, real>, k: string): real {
    if k in m then m[k] else 0.0
  }

  /** `cost_by_period`, accumulated over the kept rows. */
  function CostByPeriod(kept: seq<Row>, byYear: bool): (m: map<string, real>)
    ensures forall k :: k in m <==> exists x :: x in kept && PeriodKey(x.period, byYear) == k
  {
    if kept == [] then map[]
    else
      var prev := CostByPeriod(kept[..|kept| - 1], byYear);
      var x := kept[|kept| - 1];
      assert kept == kept[..|kept| - 1] + [x];
      var k := PeriodKey(x.period, byYear);
      prev[k := At(prev, k) + x.data.totalCost]
  }

  /** The total of the kept rows whose period falls in a group. */
  function GroupCost(kept: seq<Row>, byYear: bool, k: string): real {
    if kept == [] then 0.0
    else
      var x := kept[|kept| - 1];
      GroupCost(kept[..|kept| - 1], byYear, k) + (if PeriodKey(x.period, byYear) == k then x.data.totalCost else 0.0)
  }

  /** Every period group's figure is the sum of its kept rows' costs. */
  lemma {:induction false} CostByPeriodSums(kept: seq<Row>, byYear: bool, k: string)
    ensures At(CostByPeriod(kept, byYear), k) == GroupCost(kept, byYear, k)
  {
    if kept != [] {
      CostByPeriodSums(kept[..|kept| - 1], byYear, k);
    }
  }

  /** The period groups partition the total: summed over the groups of the
      rows, the group costs give back the total cost. */
  lemma {:induction false} GroupsPartitionTotal(kept: seq<Row>, byYear: bool, groups: seq<string>)
    requires forall x :: x in kept ==> PeriodKey(x.period, byYear) in groups
    requires forall i, j :: 0 <= i < j < |groups| ==> groups[i] != groups[j]
    ensures SumGroups(kept, byYear, groups) == SumCost(kept)
  {
    if kept != [] {
      var init := kept[..|kept| - 1];
      var x := kept[|kept| - 1];
      assert kept == init + [x];
      assert forall y :: y in init ==> y in kept;
      assert x in kept;
      GroupsPartitionTotal(init, byYear, groups);
      SumGroupsStep(init, x, byYear, groups);
      assert SumGroups(kept, byYear, groups) == SumGroups(init, byYear, groups) + x.data.totalCost;
      assert SumCost(kept) == SumCost(init) + x.data.totalCost;
    } else {
      SumGroupsNoRows(byYear, groups);
    }
  }

  lemma {:induction false} SumGroupsNoRows(byYear: bool, groups: seq<string>)
    ensures SumGroups([], byYear, groups) == 0.0
  {
    if groups != [] {
      SumGroupsNoRows(byYear, groups[..|groups| - 1]);
    }
  }

  function SumGroups(kept: seq<Row>, byYear: bool, groups: seq<string>): real {
    if groups == [] then 0.0
    else SumGroups(kept, byYear, groups[..|groups| - 1]) + GroupCost(kept, byYear, groups[|groups| - 1])
  }

  /** Adding one row adds its cost to exactly one of the distinct groups. */
  lemma {:induction false} SumGroupsStep(init: seq<Row>, x: Row, byYear: bool, groups: seq<string>)
    requires forall i, j :: 0 <= i < j < |groups| ==> groups[i] != groups[j]
    ensures var kept := init + [x];
            SumGroups(kept, byYear, groups)
            == SumGroups(init, byYear, groups) + (if PeriodKey(x.period, byYear) in groups then x.data.totalCost else 0.0)
  {
    var kept := init + [x];
    assert kept[..|kept| - 1] == init;
    if groups != [] {
      var gi := groups[..|groups| - 1];
      SumGroupsStep(init, x, byYear, gi);
      assert PeriodKey(x.period, byYear) in groups <==>
               PeriodKey(x.period, byYear) in gi || PeriodKey(x.period, byYear) == groups[|groups| - 1];
    }
  }

  /** Add a row's per-service costs into the running sums. */
  function AddServices(acc: map<string, real>, svc: map<string, real>): (m: map<string, real>)
    ensures m.Keys == acc.Keys + svc.Keys
    ensures forall k :: k in m ==> m[k] == At(acc, k) + At(svc, k)
  {
    map k | k in acc.Keys + svc.Keys :: At(acc, k) + At(svc, k)
  }

  /** `cost_by_service`, over the kept rows whose `service_costs` is not
      empty. */
  function CostByService(kept: seq<Row>): (m: map<string, real>)
    ensures forall k :: k in m <==> exists x :: x in kept && k in x.data.serviceCosts
  {
    if kept == [] then map[]
    else
      var x := kept[|kept| - 1];
      assert kept == kept[..|kept| - 1] + [x];
      var prev := CostByService(kept[..|kept| - 1]);
      if |x.data.serviceCosts| > 0 then AddServices(prev, x.data.serviceCosts) else prev
  }

  function ServiceCost(kept: seq<Row>, k: string): real {
    if kept == [] then 0.0
    else ServiceCost(kept[..|kept| - 1], k) + At(kept[|kept| - 1].data.serviceCosts, k)
  }

  /** Each service's figure is the sum of its cost over the kept rows. */
  lemma {:induction false} CostByServiceSums(kept: seq<Row>, k: string)
    ensures At(CostByService(kept), k) == ServiceCost(kept, k)
  {
    if kept != [] {
      CostByServiceSums(kept[..|kept| - 1], k);
    }
  }

  /** One `by_provider` entry. */
  datatype ProviderStat = ProviderStat(providerId: int, providerName: string, account: string, totalCost: real, count: int)

  /** `by_provider`: per (provider, account), the largest kept cost
      (starting from 0) and the number of kept rows. */
  function ByProvider(kept: seq<Row>, displayName: int -> string): (m: map<(int, string), ProviderStat>)
    ensures m.Keys == Pairs(kept)
    ensures forall p :: p in m ==> m[p].providerId == p.0 && m[p].account == p.1
                                   && m[p].providerName == displayName(p.0)
  {
    if kept == [] then map[]
    else
      var x := kept[|kept| - 1];
      var init := kept[..|kept| - 1];
      assert kept == init + [x];
      var prev := ByProvider(init, displayName);
      var p := (x.provider, x.data.accountId);
      var cur := if p in prev then prev[p] else ProviderStat(x.provider, displayName(x.provider), x.data.accountId, 0.0, 0);
      var top := if x.data.totalCost > cur.totalCost then x.data.totalCost else cur.totalCost;
      PairsSnoc(init, x);
      prev[p := cur.(totalCost := top, count := cur.count + 1)]
  }

  function CountPair(kept: seq<Row>, p: (int, string)): nat {
    if kept == [] then 0
    else CountPair(kept[..|kept| - 1], p) + (if (kept[|kept| - 1].provider, kept[|kept| - 1].data.accountId) == p then 1 else 0)
  }

  /** A provider entry counts its kept rows, and its cost is at least 0 and
      at least every kept cost of the pair, and is 0 or one of them. */
  lemma {:induction false} ByProviderFigures(kept: seq<Row>, displayName: int -> string, p: (int, string))
    requires p in Pairs(kept)
    ensures var s := ByProvider(kept, displayName)[p];
            s.count == CountPair(kept, p)
            && s.totalCost >= 0.0
            && (forall x :: x in kept && (x.provider, x.data.accountId) == p ==> s.totalCost >= x.data.totalCost)
            && (s.totalCost == 0.0 || exists x :: x in kept && (x.provider, x.data.accountId) == p && s.totalCost == x.data.totalCost)
  {
    var init := kept[..|kept| - 1];
    var x := kept[|kept| - 1];
    assert kept == init + [x];
    if p in Pairs(init) {
      ByProviderFigures(init, displayName, p);
    } else {
      assert CountPair(init, p) == 0 by { CountPairAbsent(init, p); }
    }
  }

  lemma {:induction false} CountPairAbsent(kept: seq<Row>, p: (int, string))
    requires p !in Pairs(kept)
    ensures CountPair(kept, p) == 0
  {
    if kept != [] {
      assert Pairs(kept[..|kept| - 1]) <= Pairs(kept);
      CountPairAbsent(kept[..|kept| - 1], p);
    }
  }

  /** The statistics query's period filters. */
  datatype StatsQuery = StatsQuery(list: ListQuery, startPeriod: Option<string>, endPeriod: Option<string>)

  /** Python's string order: lexicographic by character. */
  predicate LexLe(a: string, b: string)
    decreases |a|
  {
    |a| == 0 || (|b| > 0 && (a[0] < b[0] || (a[0] == b[0] && LexLe(a[1..], b[1..]))))
  }

  predicate StatsKeeps(q: StatsQuery, r: Row) {
    ListKeeps(q.list, r)
    && (Truthy(q.startPeriod) ==> LexLe(q.startPeriod.value, r.period))
    && (Truthy(q.endPeriod) ==> LexLe(r.period, q.endPeriod.value))
  }

  function FilterStats(rows: seq<Row>, q: StatsQuery): (r: seq<Row>)
    ensures forall x :: x in r <==> x in rows && StatsKeeps(q, x)
  {
    if rows == [] then []
    else
      var rest := FilterStats(rows[..|rows| - 1], q);
      var x := rows[|rows| - 1];
      assert rows == rows[..|rows| - 1] + [x];
      if StatsKeeps(q, x) then rest + [x] else rest
  }

  /** The statistics response. */
  datatype Stats = Stats(
    totalCost: real,
    averageCost: real,
    count: int,
    costByPeriod: map<string, real>,
    costByService: map<string, real>,
    byProvider: map<(int, string), ProviderStat>)

  /** `stats`: the list filters (its own repeat of the provider and period
      filters selects the same rows again), then the period range. */
  function ComputeStats(rows: seq<Row>, q: StatsQuery, displayName: int -> string): (r: Result<Stats, ListError>)
    ensures r.Err? <==> QueryError(q.list).Some?
    ensures r.Err? ==> r.error == QueryError(q.list).value
    ensures r.Ok? ==>
              var sel := FilterStats(rows, q);
              var kept := KeepLatest(sel);
              r.value.count == |sel|
              && r.value.totalCost == SumCost(kept)
              && r.value.averageCost == Average(SumCost(kept), Pairs(kept))
              && r.value.costByPeriod == CostByPeriod(kept, GroupByYear(q.startPeriod, q.endPeriod))
              && r.value.costByService == CostByService(kept)
              && r.value.byProvider == ByProvider(kept, displayName)
  {
    match QueryError(q.list)
    case Some(e) => Err(e)
    case None =>
      var sel := FilterStats(rows, q);
      var kept := KeepLatest(sel);
      var total := SumCost(kept);
      Ok(Stats(total, Average(total, Pairs(kept)), |sel|,
               CostByPeriod(kept, GroupByYear(q.startPeriod, q.endPeriod)),
               CostByService(kept), ByProvider(kept, displayName)))
  }
}

=== FILE: calendar.dfy ===
/** Proleptic Gregorian dates as Python's `datetime.date` handles them, with
    instants as integer seconds since 1970-01-01T00:00:00Z. A day number is
    the count of whole days since 1970-01-01; `DateOfDay` is defined by
    stepping one day at a time, so "the next day" is a fact of the
    definition rather than of an arithmetic formula. */
module Calendar {
  import opened Text
  import opened Wrappers

  const SecondsPerDay: int := 86400

  /** Python's `date.min.year` and `date.max.year`. */
  const MinYear: int := 1
  const MaxYear: int := 9999

  datatype Date = Date(year: int, month: int, day: int)

  predicate IsLeap(y: int) {
    y % 4 == 0 && (y % 100 != 0 || y % 400 == 0)
  }

  function DaysInMonth(y: int, m: int): (n: int)
    requires 1 <= m <= 12
    ensures 28 <= n <= 31
    ensures m == 2 ==> (n == 29 <==> IsLeap(y)) && (n == 28 <==> !IsLeap(y))
    ensures m in {1, 3, 5, 7, 8, 10, 12} ==> n == 31
    ensures m in {4, 6, 9, 11} ==> n == 30
  {
    if m == 2 then (if IsLeap(y) then 29 else 28)
    else if m == 4 || m == 6 || m == 9 || m == 11 then 30
    else 31
  }

  /** A real calendar day (any year; `InRange` adds Python's year bounds). */
  predicate Valid(d: Date) {
    1 <= d.month <= 12 && 1 <= d.day <= DaysInMonth(d.year, d.month)
  }

  /** A date Python's `date` type can represent. */
  predicate InRange(d: Date) {
    Valid(d) && MinYear <= d.year <= MaxYear
  }

  /** `d + timedelta(days=1)`, ignoring the year bounds. */
  function NextDate(d: Date): (r: Date)
    requires Valid(d)
    ensures Valid(r)
  {
    if d.day < DaysInMonth(d.year, d.month) then Date(d.year, d.month, d.day + 1)
    else if d.month < 12 then Date(d.year, d.month + 1, 1)
    else Date(d.year + 1, 1, 1)
  }

  /** `d - timedelta(days=1)`, ignoring the year bounds. */
  function PrevDate(d: Date): (r: Date)
    requires Valid(d)
    ensures Valid(r)
  {
    if d.day > 1 then Date(d.year, d.month, d.day - 1)
    else if d.month > 1 then Date(d.year, d.month - 1, DaysInMonth(d.year, d.month - 1))
    else Date(d.year - 1, 12, 31)
  }

  /** Stepping forward then back, or back then forward, returns to the day. */
  lemma NextPrevInverse(d: Date)
    requires Valid(d)
    ensures PrevDate(NextDate(d)) == d
    ensures NextDate(PrevDate(d)) == d
  {
  }

  /** The date of day number `n` (day 0 is 1970-01-01). */
  function DateOfDay(n: int): (r: Date)
    ensures Valid(r)
    decreases if n >= 0 then n else -n
  {
    if n == 0 then Date(1970, 1, 1)
    else if n > 0 then NextDate(DateOfDay(n - 1))
    else PrevDate(DateOfDay(n + 1))
  }

  /** Consecutive day numbers are consecutive dates, before and after 1970. */
  lemma {:induction false} DateOfNextDay(n: int)
    ensures DateOfDay(n + 1) == NextDate(DateOfDay(n))
  {
    if n < 0 {
      NextPrevInverse(DateOfDay(n + 1));
    }
  }

  /** Distinct day numbers name distinct dates. */
  lemma {:induction false} DateOfDayStrictlyIncreases(a: int, b: int)
    requires a < b
    ensures Before(DateOfDay(a), DateOfDay(b))
    decreases b - a
  {
    DateOfNextDay(b - 1);
    NextIsLater(DateOfDay(b - 1));
    if a < b - 1 {
      DateOfDayStrictlyIncreases(a, b - 1);
    }
  }

  /** Lexicographic order on (year, month, day). */
  predicate Before(x: Date, y: Date) {
    x.year < y.year
    || (x.year == y.year && x.month < y.month)
    || (x.year == y.year && x.month == y.month && x.day < y.day)
  }

  lemma NextIsLater(d: Date)
    requires Valid(d)
    ensures Before(d, NextDate(d))
  {
  }

  /** The whole-day number of an instant: floor division, which Dafny's
      Euclidean `/` gives for a positive divisor. */
  function DayOf(t: int): (n: int)
    ensures n * SecondsPerDay <= t < (n + 1) * SecondsPerDay
  {
    t / SecondsPerDay
  }

  /** `dt.astimezone(timezone.utc).date()` for an instant. */
  function UtcDate(t: int): (d: Date)
    ensures Valid(d)
  {
    DateOfDay(DayOf(t))
  }

  /** `d.strftime("%Y-%m-%d")`: four-digit year, two-digit month and day. */
  function FormatDate(d: Date): (r: string)
    requires InRange(d)
    ensures |r| == 10 && r[4] == '-' && r[7] == '-'
  {
    PadNatWidth(d.year, 4);
    PadNatWidth(d.month, 2);
    PadNatWidth(d.day, 2);
    PadNat(d.year, 4) + "-" + PadNat(d.month, 2) + "-" + PadNat(d.day, 2)
  }

  /** The first day of the month after (y, m); December rolls into January
      of the next year. */
  function FirstOfNextMonth(y: int, m: int): (r: Date)
    requires 1 <= m <= 12
    ensures Valid(r) && r.day == 1
    ensures m < 12 ==> r.year == y && r.month == m + 1
    ensures m == 12 ==> r.year == y + 1 && r.month == 1
  {
    if m == 12 then Date(y + 1, 1, 1) else Date(y, m + 1, 1)
  }

  /** The day before the first of the next month is the calendar's last day
      of the month: 31, 30, or 28/29 for February by the leap rule. */
  lemma MonthEndFromNextMonth(y: int, m: int)
    requires 1 <= m <= 12
    ensures PrevDate(FirstOfNextMonth(y, m)) == Date(y, m, DaysInMonth(y, m))
  {
  }
}

=== FILE: cloud_alibaba.dfy ===
/** The Alibaba Cloud billing client
    (cloud_billing/clouds/alibaba_provider.py): configuration, the strict
    period, the billing cycle it queries, and the report `get_billing_info`
    returns. */
module AlibabaCloud {
  import opened Wrappers
  import opened Text
  import Calendar
  import BillingModel
  import CloudPeriod
  import opened CloudConfig

  /** The constructor arguments; None means "read the environment". */
  datatype Arguments = Arguments(apiKey: Option<string>, apiSecret: Option<string>, region: Option<string>,
                                 timeout: int, maxRetries: int)

  datatype Config = Config(apiKey: string, apiSecret: string, region: string, timeout: int, maxRetries: int)

  /** `_post_init`: key, secret and region fall back to the ALIBABA_*
      variables and must then be non-empty, checked in that order. The
      timeout and retry count are taken as given, without checks. */
  function Configure(args: Arguments, env: Env): (r: Result<Config, ConfigError>)
    ensures r.Ok? <==> Present(Setting(args.apiKey, env, "ALIBABA_ACCESS_KEY_ID", None))
                       && Present(Setting(args.apiSecret, env, "ALIBABA_ACCESS_KEY_SECRET", None))
                       && Present(Setting(args.region, env, "ALIBABA_REGION", None))
    ensures r.Ok? ==> Some(r.value.apiKey) == Setting(args.apiKey, env, "ALIBABA_ACCESS_KEY_ID", None)
                      && Some(r.value.apiSecret) == Setting(args.apiSecret, env, "ALIBABA_ACCESS_KEY_SECRET", None)
                      && Some(r.value.region) == Setting(args.region, env, "ALIBABA_REGION", None)
                      && r.value.timeout == args.timeout && r.value.maxRetries == args.maxRetries
    ensures !Present(Setting(args.apiKey, env, "ALIBABA_ACCESS_KEY_ID", None)) ==> r == Err(Required("api_key"))
  {
    var key := Setting(args.apiKey, env, "ALIBABA_ACCESS_KEY_ID", None);
    var secret := Setting(args.apiSecret, env, "ALIBABA_ACCESS_KEY_SECRET", None);
    var region := Setting(args.region, env, "ALIBABA_REGION", None);
    if !Present(key) then Err(Required("api_key"))
    else if !Present(secret) then Err(Required("api_secret"))
    else if !Present(region) then Err(Required("region"))
    else Ok(Config(key.value, secret.value, region.value, args.timeout, args.maxRetries))
  }

  /** Once key, secret and region are passed in, the environment plays no
      part. */
  lemma ArgumentsOverrideEnvironment(args: Arguments, env1: Env, env2: Env)
    requires args.apiKey.Some? && args.apiSecret.Some? && args.region.Some?
    ensures Configure(args, env1) == Configure(args, env2)
  {
  }

  /** What the bill query answers: `total_amount` as `float()` sees it, and
      the currency. */
  datatype Response = Response(totalAmount: Amount, currency: string)

  datatype Data = Data(totalCost: real, currency: string, accountId: string)

  const NotANumber: string := "could not convert total_amount to float"

  /** The steps of `get_billing_info`: the strict period, its dates, the
      query for the billing cycle, `float()` of the total, then the account
      id. `query` is the bill query for a billing cycle and `owner` the
      resource-package lookup behind `get_account_id`. */
  function Outcome(period: Option<string>, today: Calendar.Date,
                   query: string -> Result<Response, string>, owner: Result<string, string>): (r: Result<Data, string>)
    requires Calendar.InRange(today)
    ensures r.Ok? ==> owner.Ok? && r.value.accountId == owner.value
  {
    var p :- CloudPeriod.AlibabaValidatePeriod(period, today);
    CloudPeriod.StrictPeriodParses(p);
    var dates :- CloudPeriod.AlibabaPeriodDates(CloudPeriod.StrictYear(p), CloudPeriod.StrictMonth(p));
    Finish(query(CloudPeriod.BillingCycle(dates.0)), owner)
  }

  /** The steps after the query: `float()` of the total, then the account
      id. */
  function Finish(answer: Result<Response, string>, owner: Result<string, string>): (r: Result<Data, string>)
    ensures r.Ok? <==> answer.Ok? && answer.value.totalAmount.Value? && owner.Ok?
    ensures r.Ok? ==> r.value == Data(answer.value.totalAmount.r, answer.value.currency, owner.value)
  {
    var resp :- answer;
    var total :- if resp.totalAmount.Value? then Ok(resp.totalAmount.r) else Err(NotANumber);
    var account :- owner;
    Ok(Data(total, resp.currency, account))
  }

  /** `get_billing_info`: any exception in the steps becomes an error
      report. */
  function BillingInfo(period: Option<string>, today: Calendar.Date,
                       query: string -> Result<Response, string>, owner: Result<string, string>): (i: Info<Data>)
    requires Calendar.InRange(today)
    ensures WellShaped(i)
    ensures i.status == Success ==> owner.Ok? && i.data.value.accountId == owner.value
    ensures CloudPeriod.AlibabaValidatePeriod(period, today).Err? ==> i.error == Some(CloudPeriod.StrictFormat)
  {
    Report(Outcome(period, today, query, owner))
  }

  /** The month a strict period names, written as `strftime("%Y-%m")`
      writes it. */
  function MonthOf(p: string): (c: string)
    requires CloudPeriod.StrictPeriod(p)
    ensures |c| == 7
  {
    CloudPeriod.StrictPeriodParses(p);
    BillingModel.PeriodOf(Calendar.Date(CloudPeriod.StrictYear(p), CloudPeriod.StrictMonth(p), 1))
  }

  /** The report for an accepted period queries the cycle of that month
      with a two-digit month, and succeeds exactly when the query answers
      with a numeric total and the account lookup succeeds. */
  lemma ReportQueriesTheMonth(p: string, today: Calendar.Date,
                              query: string -> Result<Response, string>, owner: Result<string, string>)
    requires Calendar.InRange(today)
    requires CloudPeriod.StrictPeriod(p)
    requires !(CloudPeriod.StrictYear(p) == Calendar.MaxYear && CloudPeriod.StrictMonth(p) == 12)
    ensures var answer := query(MonthOf(p));
            BillingInfo(Some(p), today, query, owner).status == Success
            <==> answer.Ok? && answer.value.totalAmount.Value? && owner.Ok?
  {
    CloudPeriod.StrictPeriodParses(p);
    CloudPeriod.BillingCycleNamesSameMonth(p);
    var y, m := CloudPeriod.StrictYear(p), CloudPeriod.StrictMonth(p);
    assert CloudPeriod.AlibabaValidatePeriod(Some(p), today) == Ok(p);
    var dates := CloudPeriod.AlibabaPeriodDates(y, m);
    assert CloudPeriod.BillingCycle(dates.value.0) == MonthOf(p);
    assert Outcome(Some(p), today, query, owner) == Finish(query(MonthOf(p)), owner);
  }

  /** `validate_credentials`: the account lookup does not raise. */
  function ValidateCredentials(owner: Result<string, string>): (valid: bool)
    ensures valid <==> owner.Ok?
  {
    owner.Ok?
  }
}

=== FILE: cloud_azure.dfy ===
/** The Azure billing client (cloud_billing/clouds/azure_provider.py):
    configuration, the month's date range, the usage-detail total and the
    report `get_billing_info` returns. */
module AzureCloud {
  import opened Wrappers
  import opened Text
  import Calendar
  import BillingModel
  import CloudPeriod
  import opened CloudConfig

  const DefaultTimeout: nat := 30
  const DefaultRetries: nat := 3
  const DefaultCurrency: string := "USD"

  /** The constructor arguments; None means "read the environment". */
  datatype Arguments = Arguments(tenantId: Option<string>, clientId: Option<string>,
                                 clientSecret: Option<string>, subscriptionId: Option<string>,
                                 timeout: int, maxRetries: int)

  datatype Config = Config(tenantId: string, clientId: string, clientSecret: string,
                           subscriptionId: string, timeout: int, maxRetries: int)

  /** `__post_init__` followed by `_validate_config`: the environment is
      read first (AZURE_*), including `int()` of the timeout and retry
      variables; then the four ids must be non-empty, the timeout above 0
      and the retry count not negative. */
  function Configure(args: Arguments, env: Env): (r: Result<Config, ConfigError>)
    ensures r.Ok? ==> |r.value.tenantId| > 0 && |r.value.clientId| > 0 && |r.value.clientSecret| > 0
                      && |r.value.subscriptionId| > 0 && r.value.timeout > 0 && r.value.maxRetries >= 0
    ensures r.Ok? ==> Some(r.value.tenantId) == Setting(args.tenantId, env, "AZURE_TENANT_ID", None)
                      && Some(r.value.clientId) == Setting(args.clientId, env, "AZURE_CLIENT_ID", None)
                      && Some(r.value.clientSecret) == Setting(args.clientSecret, env, "AZURE_CLIENT_SECRET", None)
                      && Some(r.value.subscriptionId) == Setting(args.subscriptionId, env, "AZURE_SUBSCRIPTION_ID", None)
    ensures r.Ok? <==>
              IntSetting(args.timeout, DefaultTimeout, env, "AZURE_TIMEOUT").Ok?
              && IntSetting(args.maxRetries, DefaultRetries, env, "AZURE_MAX_RETRIES").Ok?
              && Present(Setting(args.tenantId, env, "AZURE_TENANT_ID", None))
              && Present(Setting(args.clientId, env, "AZURE_CLIENT_ID", None))
              && Present(Setting(args.clientSecret, env, "AZURE_CLIENT_SECRET", None))
              && Present(Setting(args.subscriptionId, env, "AZURE_SUBSCRIPTION_ID", None))
              && Limits(IntSetting(args.timeout, DefaultTimeout, env, "AZURE_TIMEOUT").value,
                        IntSetting(args.maxRetries, DefaultRetries, env, "AZURE_MAX_RETRIES").value).None?
  {
    var tenant := Setting(args.tenantId, env, "AZURE_TENANT_ID", None);
    var client := Setting(args.clientId, env, "AZURE_CLIENT_ID", None);
    var secret := Setting(args.clientSecret, env, "AZURE_CLIENT_SECRET", None);
    var subscription := Setting(args.subscriptionId, env, "AZURE_SUBSCRIPTION_ID", None);
    var timeout :- IntSetting(args.timeout, DefaultTimeout, env, "AZURE_TIMEOUT");
    var retries :- IntSetting(args.maxRetries, DefaultRetries, env, "AZURE_MAX_RETRIES");
    if !Present(tenant) then Err(Required("tenant_id"))
    else if !Present(client) then Err(Required("client_id"))
    else if !Present(secret) then Err(Required("client_secret"))
    else if !Present(subscription) then Err(Required("subscription_id"))
    else if Limits(timeout, retries).Some? then Err(Limits(timeout, retries).value)
    else Ok(Config(tenant.value, client.value, secret.value, subscription.value, timeout, retries))
  }

  /** Once every setting is passed in, the environment plays no part. */
  lemma ArgumentsOverrideEnvironment(args: Arguments, env1: Env, env2: Env)
    requires args.tenantId.Some? && args.clientId.Some? && args.clientSecret.Some? && args.subscriptionId.Some?
    requires args.timeout != DefaultTimeout && args.maxRetries != DefaultRetries
    ensures Configure(args, env1) == Configure(args, env2)
  {
  }

  /** One usage detail: its cost as `float()` sees it, and its currency. */
  datatype Detail = Detail(cost: Amount, billingCurrency: string)

  predicate AllNumbers(ds: seq<Detail>) {
    forall i :: 0 <= i < |ds| ==> ds[i].cost.Value?
  }

  /** The sum of the detail costs. */
  function Total(ds: seq<Detail>): real
    requires AllNumbers(ds)
  {
    if |ds| == 0 then 0.0 else Total(ds[..|ds| - 1]) + ds[|ds| - 1].cost.r
  }

  const NotANumber: string := "could not convert cost to float"

  /** `_calculate_total_cost`: the sum of the costs, which raises when
      `float()` refuses one of them, and the first detail's currency, or USD
      when there are no details. */
  function TotalCost(ds: seq<Detail>): (r: Result<(real, string), string>)
    ensures r.Ok? <==> AllNumbers(ds)
    ensures r.Ok? ==> r.value.0 == Total(ds)
    ensures r.Ok? && |ds| == 0 ==> r.value == (0.0, DefaultCurrency)
    ensures r.Ok? && |ds| > 0 ==> r.value.1 == ds[0].billingCurrency
  {
    if !AllNumbers(ds) then Err(NotANumber)
    else Ok((Total(ds), if |ds| == 0 then DefaultCurrency else ds[0].billingCurrency))
  }

  /** The total of two batches of details is the sum of their totals, in
      the currency of the first non-empty batch. */
  lemma {:induction false} TotalCostOfConcat(a: seq<Detail>, b: seq<Detail>)
    requires TotalCost(a).Ok? && TotalCost(b).Ok?
    ensures TotalCost(a + b).Ok?
    ensures TotalCost(a + b).value.0 == TotalCost(a).value.0 + TotalCost(b).value.0
    ensures TotalCost(a + b).value.1 == (if |a| > 0 then TotalCost(a).value.1 else TotalCost(b).value.1)
    decreases |b|
  {
    assert AllNumbers(a + b) by {
      forall i | 0 <= i < |a + b| ensures (a + b)[i].cost.Value? {
        if i >= |a| { assert (a + b)[i] == b[i - |a|]; }
      }
    }
    if |b| > 0 {
      var init := b[..|b| - 1];
      assert AllNumbers(init) by {
        forall i | 0 <= i < |init| ensures init[i].cost.Value? {
          assert init[i] == b[i];
        }
      }
      if |init| == 0 {
        assert init == [];
      }
      TotalCostOfConcat(a, init);
      assert (a + b)[..|a + b| - 1] == a + init;
    } else {
      assert a + b == a;
    }
    if |a| > 0 {
      assert (a + b)[0] == a[0];
    }
  }

  /** The `data` of a successful report. */
  datatype Data = Data(totalCost: real, currency: string, accountId: string)

  /** `get_billing_info`: validate the period, build its date range, query
      the usage details for it, and total them; any exception becomes an
      error report. The account id is the subscription id. */
  function BillingInfo(cfg: Config, period: Option<string>, today: Calendar.Date,
                       query: (string, string) -> Result<seq<Detail>, string>): (i: Info<Data>)
    requires Calendar.InRange(today)
    ensures WellShaped(i)
    ensures i.status == Success ==> i.data.value.accountId == cfg.subscriptionId
    ensures CloudPeriod.ValidatePeriod(period, today).Err? ==>
              i.error == Some(CloudPeriod.ValidatePeriod(period, today).error)
  {
    Report(
      var p :- CloudPeriod.ValidatePeriod(period, today);
      CloudPeriod.CurrentMonthParses(today);
      var ym := CloudPeriod.ParsePeriod(p).value;
      var dates :- CloudPeriod.AzurePeriodDates(p, ym.0, ym.1);
      var details :- query(dates.0, dates.1);
      var t :- TotalCost(details);
      Ok(Data(t.0, t.1, cfg.subscriptionId)))
  }

  /** The report for the current month queries the whole month, from the
      1st to its last day, and succeeds exactly when that query answers with
      costs that are all numbers. December 9999 has no next month to count
      back from. */
  lemma CurrentMonthReport(cfg: Config, today: Calendar.Date,
                           query: (string, string) -> Result<seq<Detail>, string>)
    requires Calendar.InRange(today) && !(today.year == Calendar.MaxYear && today.month == 12)
    ensures var p := BillingModel.PeriodOf(today);
            var answer := query(p + "-01", p + "-" + PadNat(Calendar.DaysInMonth(today.year, today.month), 2));
            var i := BillingInfo(cfg, None, today, query);
            (i.status == Success <==> answer.Ok? && TotalCost(answer.value).Ok?)
            && (i.status == Success ==>
                  i.data.value == Data(TotalCost(answer.value).value.0, TotalCost(answer.value).value.1,
                                       cfg.subscriptionId))
  {
    var p := BillingModel.PeriodOf(today);
    var y, m := today.year, today.month;
    assert CloudPeriod.ValidatePeriod(None, today) == Ok(p);
    CloudPeriod.CurrentMonthParses(today);
    var dates := CloudPeriod.AzurePeriodDates(p, y, m);
    assert dates == Ok((p + "-01", p + "-" + PadNat(Calendar.DaysInMonth(y, m), 2)));
  }

  /** `validate_credentials`: the subscription lookup does not raise. */
  function ValidateCredentials(lookup: Result<(), string>): (valid: bool)
    ensures valid <==> lookup.Ok?
  {
    lookup.Ok?
  }
}

=== FILE: cloud_config.dfy ===
/** What the cloud clients (the modules under cloud_billing/clouds) share:
    settings taken from the constructor or else from the environment, the
    timeout and retry checks, amounts that `float()` may refuse, and the
    `{"status", "data", "error"}` shape every `get_billing_info` returns. */
module CloudConfig {
  import opened Wrappers
  import opened Text

  /** The process environment. */
  type Env = map<string, string>

  /** `os.getenv(name, default)`. */
  function GetEnv(env: Env, name: string, default: Option<string>): (r: Option<string>)
    ensures name in env ==> r == Some(env[name])
    ensures name !in env ==> r == default
  {
    if name in env then Some(env[name]) else default
  }

  /** A constructor argument, or the environment when it was left as None. */
  function Setting(given: Option<string>, env: Env, name: string, default: Option<string>): (r: Option<string>)
    ensures given.Some? ==> r == given
    ensures given.None? ==> r == GetEnv(env, name, default)
  {
    if given.Some? then given else GetEnv(env, name, default)
  }

  /** `not value` is false: present and non-empty. */
  predicate Present(v: Option<string>) {
    v.Some? && |v.value| > 0
  }

  /** Why a client configuration was refused. */
  datatype ConfigError =
    | Required(setting: string)     // a required setting is None or ""
    | NotPositive(setting: string)  // the timeout is not above 0
    | Negative(setting: string)     // the retry count is below 0
    | NotAnInteger(text: string)    // `int()` of an environment value raised

  /** `if self.x == default: self.x = int(os.getenv(name, str(default)))`:
      a number left at its default is replaced by the environment's. */
  function IntSetting(given: int, default: nat, env: Env, name: string): (r: Result<int, ConfigError>)
    ensures given != default ==> r == Ok(given)
    ensures given == default && name !in env ==> r == Ok(default)
    ensures given == default && name in env ==>
              (r.Ok? <==> ParseInt(env[name]).Some?) && (r.Ok? ==> r.value == ParseInt(env[name]).value)
  {
    if given != default then Ok(given)
    else
      var text := GetEnv(env, name, Some(NatToStr(default))).value;
      ParseIntOfNatToStr(default);
      match ParseInt(text)
      case Some(n) => Ok(n)
      case None => Err(NotAnInteger(text))
  }

  /** The timeout and retry checks that close `_validate_config`. */
  function Limits(timeout: int, retries: int): (r: Option<ConfigError>)
    ensures r.None? <==> timeout > 0 && retries >= 0
    ensures timeout <= 0 ==> r == Some(NotPositive("timeout"))
  {
    if timeout <= 0 then Some(NotPositive("timeout"))
    else if retries < 0 then Some(Negative("max_retries"))
    else None
  }

  /** What `float()` sees: a number, a missing attribute (read with a
      default), or a value it refuses. */
  datatype Amount = Value(r: real) | Absent | Invalid

  const Success: string := "success"
  const Failure: string := "error"

  /** The dictionary `get_billing_info` returns. */
  datatype Info<D> = Info(status: string, data: Option<D>, error: Option<string>)

  /** Exactly one of the two documented shapes: success with data and no
      error, or error with an error text and no data. */
  predicate WellShaped<D>(i: Info<D>) {
    (i.status == Success && i.data.Some? && i.error.None?)
    || (i.status == Failure && i.data.None? && i.error.Some?)
  }

  /** The `try`/`except Exception` around a billing query: the outcome of
      the steps becomes the dictionary, and nothing is raised. */
  function Report<D>(outcome: Result<D, string>): (i: Info<D>)
    ensures WellShaped(i)
    ensures i.status == Success <==> outcome.Ok?
    ensures outcome.Ok? ==> i.data == Some(outcome.value)
    ensures outcome.Err? ==> i.error == Some(outcome.error)
  {
    match outcome
    case Ok(d) => Info(Success, Some(d), None)
    case Err(e) => Info(Failure, None, Some(e))
  }
}

=== FILE: cloud_huawei.dfy ===
/** The two Huawei Cloud billing clients, mainland
    (cloud_billing/clouds/huawei_provider.py) and international
    (cloud_billing/clouds/huawei_intl_provider.py). They differ only in
    their environment names, default region, default currency and error
    title, so both are one model with an `Edition`. */
module HuaweiCloud {
  import opened Wrappers
  import opened Text
  import Calendar
  import BillingModel
  import CloudPeriod
  import opened CloudConfig

  datatype Edition = Domestic | International

  /** The prefix of the environment variables the edition reads. */
  function Prefix(e: Edition): string {
    if e.Domestic? then "HUAWEI_" else "HUAWEI_INTL_"
  }

  function DefaultRegion(e: Edition): string {
    if e.Domestic? then "cn-north-1" else "ap-southeast-1"
  }

  /** The currency assumed when the response names none. */
  function DefaultCurrency(e: Edition): string {
    if e.Domestic? then "CNY" else "USD"
  }

  function ApiErrorTitle(e: Edition): string {
    if e.Domestic? then "Huawei API Error: " else "Huawei International API Error: "
  }

  const DefaultTimeout: nat := 30
  const DefaultRetries: nat := 3

  /** The constructor arguments; None means "read the environment". */
  datatype Arguments = Arguments(apiKey: Option<string>, apiSecret: Option<string>, region: Option<string>,
                                 projectId: Option<string>, timeout: int, maxRetries: int)

  /** An accepted configuration. */
  datatype Config = Config(apiKey: string, apiSecret: string, region: string, projectId: Option<string>,
                           timeout: int, maxRetries: int)

  /** `__post_init__` followed by `_validate_config`. The environment is
      read first, including `int()` of the timeout and retry variables;
      then key, secret and region must be non-empty, the timeout above 0
      and the retry count not negative, checked in that order. */
  function Configure(e: Edition, args: Arguments, env: Env): (r: Result<Config, ConfigError>)
    ensures r.Ok? ==> |r.value.apiKey| > 0 && |r.value.apiSecret| > 0 && |r.value.region| > 0
                      && r.value.timeout > 0 && r.value.maxRetries >= 0
    ensures r.Ok? ==> Some(r.value.apiKey) == Setting(args.apiKey, env, Prefix(e) + "ACCESS_KEY_ID", None)
                      && Some(r.value.apiSecret) == Setting(args.apiSecret, env, Prefix(e) + "SECRET_ACCESS_KEY", None)
                      && Some(r.value.region) == Setting(args.region, env, Prefix(e) + "REGION", Some(DefaultRegion(e)))
                      && r.value.projectId == Setting(args.projectId, env, Prefix(e) + "PROJECT_ID", None)
    ensures r.Ok? <==>
              IntSetting(args.timeout, DefaultTimeout, env, Prefix(e) + "TIMEOUT").Ok?
              && IntSetting(args.maxRetries, DefaultRetries, env, Prefix(e) + "MAX_RETRIES").Ok?
              && Present(Setting(args.apiKey, env, Prefix(e) + "ACCESS_KEY_ID", None))
              && Present(Setting(args.apiSecret, env, Prefix(e) + "SECRET_ACCESS_KEY", None))
              && Present(Setting(args.region, env, Prefix(e) + "REGION", Some(DefaultRegion(e))))
              && Limits(IntSetting(args.timeout, DefaultTimeout, env, Prefix(e) + "TIMEOUT").value,
                        IntSetting(args.maxRetries, DefaultRetries, env, Prefix(e) + "MAX_RETRIES").value).None?
  {
    var key := Setting(args.apiKey, env, Prefix(e) + "ACCESS_KEY_ID", None);
    var secret := Setting(args.apiSecret, env, Prefix(e) + "SECRET_ACCESS_KEY", None);
    var region := Setting(args.region, env, Prefix(e) + "REGION", Some(DefaultRegion(e)));
    var project := Setting(args.projectId, env, Prefix(e) + "PROJECT_ID", None);
    var timeout :- IntSetting(args.timeout, DefaultTimeout, env, Prefix(e) + "TIMEOUT");
    var retries :- IntSetting(args.maxRetries, DefaultRetries, env, Prefix(e) + "MAX_RETRIES");
    if !Present(key) then Err(Required("api_key"))
    else if !Present(secret) then Err(Required("api_secret"))
    else if !Present(region) then Err(Required("region"))
    else if Limits(timeout, retries).Some? then Err(Limits(timeout, retries).value)
    else Ok(Config(key.value, secret.value, region.value, project, timeout, retries))
  }

  /** Arguments given explicitly win: once every setting is passed in, the
      environment plays no part. */
  lemma ArgumentsOverrideEnvironment(e: Edition, args: Arguments, env1: Env, env2: Env)
    requires args.apiKey.Some? && args.apiSecret.Some? && args.region.Some? && args.projectId.Some?
    requires args.timeout != DefaultTimeout && args.maxRetries != DefaultRetries
    ensures Configure(e, args, env1) == Configure(e, args, env2)
  {
  }

  /** With no region anywhere, the edition's default region is used. */
  lemma RegionDefaults(e: Edition, args: Arguments, env: Env)
    requires args.region.None? && Prefix(e) + "REGION" !in env
    requires Configure(e, args, env).Ok?
    ensures Configure(e, args, env).value.region == DefaultRegion(e)
  {
  }

  /** `get_account_id`: the project id, or "default" when it is unset or
      empty. */
  function AccountId(cfg: Config): (r: string)
    ensures Present(cfg.projectId) ==> r == cfg.projectId.value
    ensures !Present(cfg.projectId) ==> r == "default"
    ensures |r| > 0
  {
    if Present(cfg.projectId) then cfg.projectId.value else "default"
  }

  // ---- amounts and the per-service breakdown -----------------------------

  /** The `measure_id` that marks an amount in fen. */
  const Fen: int := 3

  /** `_convert_amount`: fen are divided by 100, any other unit is kept. */
  function ConvertAmount(amount: real, measureId: int): (r: real)
    ensures measureId == Fen ==> r * 100.0 == amount
    ensures measureId != Fen ==> r == amount
  {
    if measureId == Fen then amount / 100.0 else amount
  }

  /** One entry of `bill_sums`; an absent attribute is None. */
  datatype Bill = Bill(measureId: Option<int>, amount: Amount, serviceType: Option<string>,
                       resourceType: Option<string>)

  /** The billing response: its currency and `bill_sums` (None when the
      SDK left the attribute unset). */
  datatype Response = Response(currency: Option<string>, bills: Option<seq<Bill>>)

  /** One entry of the `items` list. */
  datatype Item = Item(serviceName: string, amount: real, measureId: int)

  /** "{service_type_name} - {resource_type_name}", with "Unknown" for a
      missing name. */
  function ServiceName(b: Bill): string {
    b.serviceType.GetOr("Unknown") + " - " + b.resourceType.GetOr("Unknown")
  }

  /** The item a bill contributes, or None when `float()` refuses its
      amount and the bill is skipped. A missing amount counts as 0 and a
      missing `measure_id` as fen. */
  function ItemOf(b: Bill): (r: Option<Item>)
    ensures r.None? <==> b.amount.Invalid?
    ensures r.Some? ==> r.value.serviceName == ServiceName(b) && r.value.measureId == b.measureId.GetOr(Fen)
    ensures r.Some? && b.amount.Absent? ==> r.value.amount == 0.0
    ensures r.Some? && b.amount.Value? ==> r.value.amount == ConvertAmount(b.amount.r, b.measureId.GetOr(Fen))
  {
    var m := b.measureId.GetOr(Fen);
    match b.amount
    case Value(x) => Some(Item(ServiceName(b), ConvertAmount(x, m), m))
    case Absent => Some(Item(ServiceName(b), ConvertAmount(0.0, m), m))
    case Invalid => None
  }

  /** The items of the bills that are not skipped, in order. */
  function Items(bills: seq<Bill>): (r: seq<Item>)
    ensures |r| <= |bills|
  {
    if |bills| == 0 then []
    else
      var last := ItemOf(bills[|bills| - 1]);
      Items(bills[..|bills| - 1]) + (if last.Some? then [last.value] else [])
  }

  function Sum(items: seq<Item>): real {
    if |items| == 0 then 0.0 else Sum(items[..|items| - 1]) + items[|items| - 1].amount
  }

  /** The summed amount of the items named `name`. */
  function CostOf(items: seq<Item>, name: string): real {
    if |items| == 0 then 0.0
    else CostOf(items[..|items| - 1], name)
         + (if items[|items| - 1].serviceName == name then items[|items| - 1].amount else 0.0)
  }

  function NamesOf(items: seq<Item>): set<string> {
    set i | 0 <= i < |items| :: items[i].serviceName
  }

  /** The per-service breakdown: every service name with its summed cost. */
  function Breakdown(items: seq<Item>): (m: map<string, real>)
    ensures m.Keys == NamesOf(items)
  {
    map k | k in NamesOf(items) :: CostOf(items, k)
  }

  /** `_calculate_total_cost`: the currency (defaulting per edition), the
      total, the breakdown and the items. A response with no bills gives a
      zero total and nothing else. */
  method CalculateTotalCost(e: Edition, resp: Response)
    returns (total: real, currency: string, costs: map<string, real>, items: seq<Item>)
    ensures currency == resp.currency.GetOr(DefaultCurrency(e))
    ensures items == Items(resp.bills.GetOr([]))
    ensures total == Sum(items)
    ensures costs == Breakdown(items)
  {
    currency := resp.currency.GetOr(DefaultCurrency(e));
    total, costs, items := 0.0, map[], [];
    if resp.bills.None? || |resp.bills.value| == 0 {
      return;
    }
    var bills := resp.bills.value;
    var i := 0;
    while i < |bills|
      invariant 0 <= i <= |bills|
      invariant items == Items(bills[..i])
      invariant total == Sum(items)
      invariant costs.Keys == NamesOf(items)
      invariant forall k :: k in costs ==> costs[k] == CostOf(items, k)
    {
      assert bills[..i + 1][..i] == bills[..i];
      var it := ItemOf(bills[i]);
      if it.Some? {
        var x := it.value;
        var before, prev := items, costs;
        total := total + x.amount;
        costs := costs[x.serviceName := (if x.serviceName in costs then costs[x.serviceName] else 0.0) + x.amount];
        items := items + [x];
        assert items[..|items| - 1] == before;
        assert NamesOf(items) == NamesOf(before) + {x.serviceName} by {
          assert forall j :: 0 <= j < |before| ==> items[j] == before[j];
        }
        if x.serviceName !in prev {
          CostOfAbsent(before, x.serviceName);
        }
        forall k | k in costs ensures costs[k] == CostOf(items, k) {
          assert CostOf(items, k) == CostOf(before, k) + (if k == x.serviceName then x.amount else 0.0);
        }
      }
      i := i + 1;
    }
    assert bills[..i] == bills;
  }

  /** A name no item carries costs nothing. */
  lemma {:induction false} CostOfAbsent(items: seq<Item>, name: string)
    requires name !in NamesOf(items)
    ensures CostOf(items, name) == 0.0
  {
    if |items| > 0 {
      var init := items[..|items| - 1];
      assert NamesOf(init) <= NamesOf(items) by {
        assert forall j :: 0 <= j < |init| ==> init[j] == items[j];
      }
      assert items[|items| - 1].serviceName in NamesOf(items);
      CostOfAbsent(init, name);
    }
  }

  /** The costs of the names in `ns`, added up. */
  function SumCosts(items: seq<Item>, ns: seq<string>): real {
    if |ns| == 0 then 0.0 else CostOf(items, ns[0]) + SumCosts(items, ns[1..])
  }

  predicate Distinct(ns: seq<string>) {
    forall i, j :: 0 <= i < j < |ns| ==> ns[i] != ns[j]
  }

  /** Adding one more item adds its amount to exactly one name's cost. */
  lemma {:induction false} SumCostsStep(items: seq<Item>, ns: seq<string>)
    requires |items| > 0 && Distinct(ns)
    ensures var x := items[|items| - 1];
            SumCosts(items, ns)
            == SumCosts(items[..|items| - 1], ns) + (if x.serviceName in ns then x.amount else 0.0)
  {
    if |ns| > 0 {
      assert Distinct(ns[1..]) by {
        forall i, j | 0 <= i < j < |ns[1..]| ensures ns[1..][i] != ns[1..][j] {
          assert ns[1..][i] == ns[i + 1] && ns[1..][j] == ns[j + 1];
        }
      }
      SumCostsStep(items, ns[1..]);
      var x := items[|items| - 1];
      if ns[0] == x.serviceName {
        assert x.serviceName !in ns[1..] by {
          forall j | 0 <= j < |ns[1..]| ensures ns[1..][j] != ns[0] {
            assert ns[1..][j] == ns[j + 1];
          }
        }
      }
      assert x.serviceName in ns <==> ns[0] == x.serviceName || x.serviceName in ns[1..];
    }
  }

  /** The costs of a set of distinct names covering every item add up to
      the total. */
  lemma {:induction false} SumCostsIsTotal(items: seq<Item>, ns: seq<string>)
    requires Distinct(ns) && forall i :: 0 <= i < |items| ==> items[i].serviceName in ns
    ensures SumCosts(items, ns) == Sum(items)
    decreases |items|
  {
    if |items| == 0 {
      SumCostsOfNothing(ns);
    } else {
      var init := items[..|items| - 1];
      assert forall i :: 0 <= i < |init| ==> init[i] == items[i];
      SumCostsIsTotal(init, ns);
      SumCostsStep(items, ns);
    }
  }

  lemma {:induction false} SumCostsOfNothing(ns: seq<string>)
    ensures SumCosts([], ns) == 0.0
  {
    if |ns| > 0 {
      SumCostsOfNothing(ns[1..]);
    }
  }

  /** The breakdown's entries, in the order of `ns`, added up. */
  function SumOver(m: map<string, real>, ns: seq<string>): real
    requires forall i :: 0 <= i < |ns| ==> ns[i] in m
  {
    if |ns| == 0 then 0.0 else m[ns[0]] + SumOver(m, ns[1..])
  }

  lemma {:induction false} SumOverBreakdown(items: seq<Item>, ns: seq<string>)
    requires forall i :: 0 <= i < |ns| ==> ns[i] in NamesOf(items)
    ensures SumOver(Breakdown(items), ns) == SumCosts(items, ns)
  {
    if |ns| > 0 {
      SumOverBreakdown(items, ns[1..]);
    }
  }

  /** The per-service costs add up to the total cost: however the service
      names are listed, each once, their breakdown entries sum to the
      total. */
  lemma BreakdownSumsToTotal(items: seq<Item>, ns: seq<string>)
    requires Distinct(ns)
    requires forall n :: n in ns <==> n in Breakdown(items)
    ensures SumOver(Breakdown(items), ns) == Sum(items)
  {
    assert forall i :: 0 <= i < |items| ==> items[i].serviceName in NamesOf(items);
    assert forall i :: 0 <= i < |ns| ==> ns[i] in ns;
    SumOverBreakdown(items, ns);
    SumCostsIsTotal(items, ns);
  }

  // ---- get_billing_info --------------------------------------------------

  /** What the billing query raised: the SDK's request error with its code,
      message, HTTP status and request id, or any other exception. */
  datatype Fault = ApiFault(code: string, message: string, statusCode: string, requestId: string)
                 | OtherFault(text: string)

  /** The error text `get_billing_info` reports for a fault. */
  function FaultText(e: Edition, cfg: Config, f: Fault): string {
    match f
    case ApiFault(c, m, s, q) =>
      ApiErrorTitle(e) + c + " - " + m + "\nStatus Code: " + s + "\nRequest ID: " + q + "\nRegion: " + cfg.region
    case OtherFault(t) => t
  }

  /** The `data` of a successful report. */
  datatype Data = Data(totalCost: real, currency: string, accountId: string,
                       serviceCosts: map<string, real>, items: seq<Item>)

  /** What `_calculate_total_cost` and `get_account_id` make of a response. */
  function Collected(e: Edition, cfg: Config, resp: Response): (d: Data)
    ensures d.items == Items(resp.bills.GetOr([]))
    ensures d.totalCost == Sum(d.items) && d.serviceCosts == Breakdown(d.items)
    ensures d.currency == resp.currency.GetOr(DefaultCurrency(e)) && d.accountId == AccountId(cfg)
  {
    var items := Items(resp.bills.GetOr([]));
    Data(Sum(items), resp.currency.GetOr(DefaultCurrency(e)), AccountId(cfg), Breakdown(items), items)
  }

  /** The billing query as `_query_billing_api` returns it: before
      returning, it formats `len(response.bill_sums)` into a log line,
      which raises when `bill_sums` is None. */
  const NoLen: string := "object of type 'NoneType' has no len()"

  function FetchAsWritten(e: Edition, cfg: Config, answer: Result<Response, Fault>): (r: Result<Response, string>)
    ensures r.Ok? <==> answer.Ok? && answer.value.bills.Some?
    ensures r.Ok? ==> r.value == answer.value
  {
    match answer
    case Err(f) => Err(FaultText(e, cfg, f))
    case Ok(resp) => if resp.bills.None? then Err(NoLen) else Ok(resp)
  }

  /** The query as evidently intended: a response without bills is an
      empty month, which `_calculate_total_cost` already handles. */
  function Fetch(e: Edition, cfg: Config, answer: Result<Response, Fault>): (r: Result<Response, string>)
    ensures r.Ok? <==> answer.Ok?
    ensures r.Ok? ==> r.value == answer.value
  {
    match answer
    case Err(f) => Err(FaultText(e, cfg, f))
    case Ok(resp) => Ok(resp)
  }

  /** `get_billing_info` as written. `query` is the SDK call for a period;
      `today` is the clock's date that a missing period defaults to. */
  function BillingInfoAsWritten(e: Edition, cfg: Config, period: Option<string>, today: Calendar.Date,
                                query: string -> Result<Response, Fault>): (i: Info<Data>)
    requires Calendar.InRange(today)
    ensures WellShaped(i)
    ensures var p := CloudPeriod.ValidatePeriod(period, today);
            i.status == Success <==> p.Ok? && query(p.value).Ok? && query(p.value).value.bills.Some?
  {
    Report(
      var p :- CloudPeriod.ValidatePeriod(period, today);
      var resp :- FetchAsWritten(e, cfg, query(p));
      Ok(Collected(e, cfg, resp)))
  }

  /** `get_billing_info` with the intended query: it never raises; it
      reports success exactly when the period is valid and the query
      answers, and then the data holds the totals of that answer and the
      account id. */
  function BillingInfo(e: Edition, cfg: Config, period: Option<string>, today: Calendar.Date,
                       query: string -> Result<Response, Fault>): (i: Info<Data>)
    requires Calendar.InRange(today)
    ensures WellShaped(i)
    ensures var p := CloudPeriod.ValidatePeriod(period, today);
            (i.status == Success <==> p.Ok? && query(p.value).Ok?)
            && (i.status == Success ==> i.data.value == Collected(e, cfg, query(p.value).value))
            && (p.Err? ==> i.error == Some(p.error))
  {
    Report(
      var p :- CloudPeriod.ValidatePeriod(period, today);
      var resp :- Fetch(e, cfg, query(p));
      Ok(Collected(e, cfg, resp)))
  }

  /** As written, a month whose response carries no `bill_sums` is reported
      as an error, while the intended reading reports a zero total in the
      edition's default currency. */
  lemma NoBillSumsIsAnError(e: Edition, cfg: Config, today: Calendar.Date,
                            query: string -> Result<Response, Fault>)
    requires Calendar.InRange(today)
    requires query(BillingModel.PeriodOf(today)) == Ok(Response(None, None))
    ensures BillingInfoAsWritten(e, cfg, None, today, query) == Info(Failure, None, Some(NoLen))
    ensures var i := BillingInfo(e, cfg, None, today, query);
            i.status == Success && i.data.value.totalCost == 0.0
            && i.data.value.currency == DefaultCurrency(e) && i.data.value.items == []
  {
  }

  /** `validate_credentials` as written: the current month's report
      succeeds. */
  function ValidateCredentialsAsWritten(e: Edition, cfg: Config, today: Calendar.Date,
                                        query: string -> Result<Response, Fault>): (valid: bool)
    requires Calendar.InRange(today)
    ensures valid <==> query(BillingModel.PeriodOf(today)).Ok?
                       && query(BillingModel.PeriodOf(today)).value.bills.Some?
  {
    BillingInfoAsWritten(e, cfg, None, today, query).status == Success
  }

  /** `validate_credentials` over the intended report: the credentials are
      valid exactly when the current month's query answers. */
  function ValidateCredentials(e: Edition, cfg: Config, today: Calendar.Date,
                               query: string -> Result<Response, Fault>): (valid: bool)
    requires Calendar.InRange(today)
    ensures valid <==> query(BillingModel.PeriodOf(today)).Ok?
  {
    BillingInfo(e, cfg, None, today, query).status == Success
  }
}

=== FILE: cloud_period.dfy ===
/** The `YYYY-MM` billing periods the cloud clients accept
    (the modules under cloud_billing/clouds): the lenient `map(int, period.split("-"))`
    reading of the Huawei and Azure clients, the strict `strptime("%Y-%m")`
    reading of the Alibaba client, and the first and last day of a month. */
module CloudPeriod {
  import opened Wrappers
  import opened Text
  import Calendar
  import BillingModel

  /** Why reading a period failed. */
  datatype PeriodError =
    | NotAnInteger(text: string)   // `int()` rejected this part
    | TooFewParts(count: nat)      // fewer than two parts to unpack
    | TooManyParts                 // a third part was there to unpack
    | MonthOutOfRange

  const InvalidPeriod: string := "Invalid period format: "
  const MonthRange: string := "Month must be between 1 and 12"

  /** `str(e)` of the error the reading raised. */
  function Detail(e: PeriodError): string {
    match e
    case NotAnInteger(t) => "invalid literal for int() with base 10: '" + t + "'"
    case TooFewParts(n) => "not enough values to unpack (expected 2, got " + NatToStr(n) + ")"
    case TooManyParts => "too many values to unpack (expected 2)"
    case MonthOutOfRange => MonthRange
  }

  /** `year, month = map(int, parts)`: the parts are converted in order as
      the unpacking pulls them, which is at most three of them. */
  function Unpack(parts: seq<string>): (r: Result<(int, int), PeriodError>)
    requires |parts| >= 1
    ensures r.Ok? <==> |parts| == 2 && ParseInt(parts[0]).Some? && ParseInt(parts[1]).Some?
    ensures r.Ok? ==> r.value == (ParseInt(parts[0]).value, ParseInt(parts[1]).value)
    ensures ParseInt(parts[0]).None? ==> r == Err(NotAnInteger(parts[0]))
    ensures r.Err? && r.error.NotAnInteger? ==>
              ParseInt(r.error.text).None? && exists i :: 0 <= i < |parts| && i < 3 && parts[i] == r.error.text
  {
    if ParseInt(parts[0]).None? then Err(NotAnInteger(parts[0]))
    else if |parts| < 2 then Err(TooFewParts(|parts|))
    else if ParseInt(parts[1]).None? then Err(NotAnInteger(parts[1]))
    else if |parts| > 2 && ParseInt(parts[2]).None? then Err(NotAnInteger(parts[2]))
    else if |parts| > 2 then Err(TooManyParts)
    else Ok((ParseInt(parts[0]).value, ParseInt(parts[1]).value))
  }

  /** `p` is `a + "-" + b` with no dash in either half. */
  predicate Halves(p: string, a: string, b: string) {
    '-' !in a && '-' !in b && p == a + "-" + b
  }

  /** The (year, month) the Huawei and Azure clients read from a period. */
  function ParsePeriod(p: string): (r: Result<(int, int), PeriodError>)
    ensures r.Ok? ==> 1 <= r.value.1 <= 12
    ensures r.Ok? ==> exists a, b :: Halves(p, a, b)
                                     && ParseInt(a) == Some(r.value.0) && ParseInt(b) == Some(r.value.1)
  {
    var parts := SplitOn(p, '-');
    match Unpack(parts)
    case Err(e) => Err(e)
    case Ok((y, m)) =>
      if 1 <= m <= 12 then
        SplitJoin(p, '-');
        assert Halves(p, parts[0], parts[1]);
        Ok((y, m))
      else Err(MonthOutOfRange)
  }

  /** Conversely, two integer halves around one dash are read as such, and
      rejected exactly when the month is out of range. */
  lemma ParsePeriodOfHalves(a: string, b: string)
    requires '-' !in a && '-' !in b
    requires ParseInt(a).Some? && ParseInt(b).Some?
    ensures ParsePeriod(a + "-" + b)
            == if 1 <= ParseInt(b).value <= 12 then Ok((ParseInt(a).value, ParseInt(b).value))
               else Err(MonthOutOfRange)
  {
    SplitOnTwo(a, b, '-');
    assert a + "-" + b == a + ['-'] + b;
  }

  /** The period of the current month, as `strftime("%Y-%m")` writes it,
      always reads back as that year and month. */
  lemma CurrentMonthParses(d: Calendar.Date)
    requires Calendar.InRange(d)
    ensures ParsePeriod(BillingModel.PeriodOf(d)) == Ok((d.year, d.month))
  {
    var y := PadNat(d.year, 4);
    var m := PadNat(d.month, 2);
    assert forall i :: 0 <= i < |y| ==> IsDigit(y[i]);
    assert forall i :: 0 <= i < |m| ==> IsDigit(m[i]);
    ParseIntOfPadNat(d.year, 4);
    ParseIntOfPadNat(d.month, 2);
    ParsePeriodOfHalves(y, m);
  }

  /** `_validate_period` of the Huawei and Azure clients: a missing period
      is the current month; any other is returned unchanged when it reads
      as a year and a month in 1..12. */
  function ValidatePeriod(period: Option<string>, today: Calendar.Date): (r: Result<string, string>)
    requires Calendar.InRange(today)
    ensures period.None? ==> r == Ok(BillingModel.PeriodOf(today))
    ensures period.Some? ==> (r.Ok? <==> ParsePeriod(period.value).Ok?)
    ensures period.Some? && r.Ok? ==> r.value == period.value
    ensures r.Err? ==> exists e :: ParsePeriod(period.value) == Err(e) && r.error == InvalidPeriod + Detail(e)
  {
    var p := if period.Some? then period.value else BillingModel.PeriodOf(today);
    CurrentMonthParses(today);
    match ParsePeriod(p)
    case Ok(_) => Ok(p)
    case Err(e) => Err(InvalidPeriod + Detail(e))
  }

  /** `_get_period_dates` of the Azure client: the first day is the period
      followed by "-01"; the last is the day before the first of the next
      month. Building that first day or stepping back from it raises when
      it leaves Python's years 1..9999. `y` and `m` are the year and month
      `p` reads as, so the month is in 1..12. */
  function AzurePeriodDates(p: string, y: int, m: int): (r: Result<(string, string), string>)
    requires 1 <= m <= 12
    ensures r.Ok? <==> 1 <= y <= Calendar.MaxYear && !(y == Calendar.MaxYear && m == 12)
    ensures r.Ok? ==> r.value == (p + "-01", p + "-" + PadNat(Calendar.DaysInMonth(y, m), 2))
  {
    var next := Calendar.FirstOfNextMonth(y, m);
    if !Calendar.InRange(next) then Err("year " + IntToStr(next.year) + " is out of range")
    else
      var last := Calendar.PrevDate(next);
      if !Calendar.InRange(last) then Err("date value out of range")
      else
        Calendar.MonthEndFromNextMonth(y, m);
        Ok((p + "-01", p + "-" + PadNat(last.day, 2)))
  }

  // ---- the Alibaba client's strptime reading -----------------------------

  /** What `%m` matches: 1..9 with or without a leading zero, or 10..12.
      The alternatives are tried in the order `1[0-2]`, `0[1-9]`, `[1-9]`,
      and whatever is left over is "unconverted data". */
  predicate MonthText(t: string) {
    (|t| == 1 && '1' <= t[0] <= '9')
    || (|t| == 2 && t[0] == '0' && '1' <= t[1] <= '9')
    || (|t| == 2 && t[0] == '1' && '0' <= t[1] <= '2')
  }

  /** `datetime.strptime(p, "%Y-%m")` succeeds: exactly four digits of a
      year from 1 on, a dash, and a month. */
  predicate StrictPeriod(p: string) {
    |p| >= 6 && AllDigits(p[..4]) && p[4] == '-' && MonthText(p[5..])
    && DigitsValue(p[..4]) >= 1
  }

  const StrictFormat: string := "Invalid period format. Use YYYY-MM"

  /** `_validate_period` of the Alibaba client. After the strict check
      comes the same reading and month check as the other clients. */
  function AlibabaValidatePeriod(period: Option<string>, today: Calendar.Date): (r: Result<string, string>)
    requires Calendar.InRange(today)
    ensures period.None? ==> r == Ok(BillingModel.PeriodOf(today))
    ensures period.Some? ==> (r.Ok? <==> StrictPeriod(period.value))
    ensures period.Some? && r.Ok? ==> r.value == period.value
    ensures r.Err? ==> r.error == StrictFormat
    ensures r.Ok? ==> StrictPeriod(r.value)
  {
    var p := if period.Some? then period.value else BillingModel.PeriodOf(today);
    StrictCurrentMonth(today);
    if !StrictPeriod(p) then Err(StrictFormat)
    else
      StrictPeriodParses(p);
      match ParsePeriod(p)
      case Ok((_, m)) => if 1 <= m <= 12 then Ok(p) else Err(MonthRange)
      case Err(_) => Err(StrictFormat)
  }

  /** The (year, month) of a strict period. */
  function StrictYear(p: string): int
    requires StrictPeriod(p)
  {
    DigitsValue(p[..4])
  }

  function StrictMonth(p: string): int
    requires StrictPeriod(p)
  {
    DigitsValue(p[5..])
  }

  /** A period `strptime` accepts always passes the lenient reading too,
      with the same year and a month in 1..12, so the month check that
      follows the strict one never fires. */
  lemma StrictPeriodParses(p: string)
    requires StrictPeriod(p)
    ensures 1 <= StrictYear(p) <= Calendar.MaxYear && 1 <= StrictMonth(p) <= 12
    ensures ParsePeriod(p) == Ok((StrictYear(p), StrictMonth(p)))
  {
    var a, b := p[..4], p[5..];
    assert p == a + "-" + b;
    assert AllDigits(b) && '-' !in b;
    assert '-' !in a;
    ParseIntOfDigits(a);
    ParseIntOfDigits(b);
    DigitsValueBound(a);
    assert Pow10(4) == 10000;
    if |b| == 2 {
      TwoDigitsValue(b);
    }
    ParsePeriodOfHalves(a, b);
  }

  /** The current month is always a strict period. */
  lemma StrictCurrentMonth(d: Calendar.Date)
    requires Calendar.InRange(d)
    ensures StrictPeriod(BillingModel.PeriodOf(d))
  {
    var p := BillingModel.PeriodOf(d);
    var y := PadNat(d.year, 4);
    var m := PadNat(d.month, 2);
    assert p[..4] == y;
    assert p[5..] == m;
    PadNatValue(d.year, 4);
    PadNatValue(d.month, 2);
    assert AllDigits(m);
    assert m[..1] == [m[0]];
    assert DigitValue(m[0]) <= 1;
  }

  /** `_get_period_dates` of the Alibaba client: the first and the last day
      of the month, both as `%Y-%m-%d`. `datetime(10000, 1, 1)` raises for
      December 9999. */
  function AlibabaPeriodDates(y: int, m: int): (r: Result<(string, string), string>)
    requires 1 <= y <= Calendar.MaxYear && 1 <= m <= 12
    ensures r.Ok? <==> !(y == Calendar.MaxYear && m == 12)
    ensures r.Ok? ==> r.value == (Calendar.FormatDate(Calendar.Date(y, m, 1)),
                                  Calendar.FormatDate(Calendar.Date(y, m, Calendar.DaysInMonth(y, m))))
  {
    var next := Calendar.FirstOfNextMonth(y, m);
    if !Calendar.InRange(next) then Err("year " + IntToStr(next.year) + " is out of range")
    else
      Calendar.MonthEndFromNextMonth(y, m);
      Ok((Calendar.FormatDate(Calendar.Date(y, m, 1)), Calendar.FormatDate(Calendar.PrevDate(next))))
  }

  /** The billing cycle the Alibaba query sends: the first seven characters
      of the start date. */
  function BillingCycle(start: string): string
    requires |start| >= 7
  {
    start[..7]
  }

  /** For every accepted period the billing cycle is the same month written
      with a four-digit year and a two-digit month, and it reads back as the
      same year and month as the period. */
  lemma BillingCycleNamesSameMonth(p: string)
    requires StrictPeriod(p) && !(StrictYear(p) == Calendar.MaxYear && StrictMonth(p) == 12)
    ensures 1 <= StrictYear(p) <= Calendar.MaxYear && 1 <= StrictMonth(p) <= 12
    ensures var dates := AlibabaPeriodDates(StrictYear(p), StrictMonth(p));
            var first := Calendar.Date(StrictYear(p), StrictMonth(p), 1);
            dates.Ok?
            && BillingCycle(dates.value.0) == BillingModel.PeriodOf(first)
            && ParsePeriod(BillingCycle(dates.value.0)) == ParsePeriod(p)
  {
    StrictPeriodParses(p);
    var first := Calendar.Date(StrictYear(p), StrictMonth(p), 1);
    CurrentMonthParses(first);
  }
}

=== FILE: collect_persist.dfy ===
/** The persistence step of `run_collect` (data_collector/tasks.py): each
    collected item is upserted by its natural key (user, platform,
    source_unique_id), gated on its `data_hash`, and `runtime_state` is
    stamped in the same atomic step. */
module CollectPersist {
  import opened Wrappers
  import opened Json
  import opened Stamps
  import opened CollectorModel

  /** One item of `provider.collect`: a dict. */
  type Item = map<string, Value>

  datatype Counters = Counters(created: nat, updated: nat, skippedNoSid: nat, skippedUnchanged: nat)

  /** The state of the persist loop: the record store, how many uuids were
      drawn, the counters, and the records created or changed, in order,
      each as it was when it was saved (`persisted_records`). */
  datatype Persist = Persist(records: Records, drawn: nat, counters: Counters, persisted: seq<(RecordKey, Record)>)

  function Total(c: Counters): nat {
    c.created + c.updated + c.skippedNoSid + c.skippedUnchanged
  }

  /** The item's payload with the code's defaults: `raw_data or {}`,
      `filter_metadata or {}`, `data_hash or ""`. */
  function RawDataOf(item: Item): Value { Or(Get(item, "raw_data"), EmptyObj) }
  function FilterOf(item: Item): Value { Or(Get(item, "filter_metadata"), EmptyObj) }
  function HashOf(item: Item): Value { Or(Get(item, "data_hash"), Str("")) }

  function KeyOf(user: int, platform: string, item: Item): RecordKey {
    RecordKey(user, platform, Get(item, "source_unique_id"))
  }

  /** Whether the stored record carries the item's payload. */
  predicate Carries(r: Record, item: Item) {
    r.rawData == RawDataOf(item) && r.filterMetadata == FilterOf(item) && r.dataHash == HashOf(item)
    && r.sourceCreatedAt == Get(item, "source_created_at") && r.sourceUpdatedAt == Get(item, "source_updated_at")
  }

  /** One iteration of the loop; `newUuid` is the uuid4 oracle. */
  function PersistItem(user: int, platform: string, now: int, newUuid: nat -> string,
                       p: Persist, item: Item): (q: Persist)
    ensures Total(q.counters) == Total(p.counters) + 1
    ensures var key := KeyOf(user, platform, item);
            forall k :: k in p.records && k != key ==> k in q.records && q.records[k] == p.records[k]
    ensures !Truthy(Get(item, "source_unique_id")) ==>
              q.records == p.records && q.counters.skippedNoSid == p.counters.skippedNoSid + 1
    ensures var key := KeyOf(user, platform, item);
            Truthy(key.sid) ==>
              q.records.Keys == p.records.Keys + {key}
              && q.records[key].lastCollectedAt == Some(now)
              && q.records[key].dataHash == HashOf(item)
    ensures var key := KeyOf(user, platform, item);
            Truthy(key.sid) && key !in p.records ==>
              Carries(q.records[key], item)
              && q.records[key].firstCollectedAt == Some(now) && !q.records[key].isDeleted
              && q.records[key].attachments == [] && q.records[key].uuid == newUuid(p.drawn)
              && q.counters.created == p.counters.created + 1 && q.persisted == p.persisted + [(key, q.records[key])]
    ensures var key := KeyOf(user, platform, item);
            Truthy(key.sid) && key in p.records ==>
              var old_ := p.records[key];
              var new_ := q.records[key];
              new_.uuid == old_.uuid && new_.firstCollectedAt == old_.firstCollectedAt
              && new_.isDeleted == old_.isDeleted && new_.attachments == old_.attachments
              && (old_.dataHash != HashOf(item) ==>
                    Carries(new_, item) && q.counters.updated == p.counters.updated + 1
                    && q.persisted == p.persisted + [(key, q.records[key])])
              && (old_.dataHash == HashOf(item) ==>
                    new_ == old_.(lastCollectedAt := Some(now))
                    && q.counters.skippedUnchanged == p.counters.skippedUnchanged + 1
                    && q.persisted == p.persisted)
  {
    var sid := Get(item, "source_unique_id");
    if !Truthy(sid) then
      p.(counters := p.counters.(skippedNoSid := p.counters.skippedNoSid + 1))
    else
      var key := RecordKey(user, platform, sid);
      if key !in p.records then
        var rec := NewRecord(newUuid(p.drawn), RawDataOf(item), FilterOf(item), HashOf(item),
                             Get(item, "source_created_at"), Get(item, "source_updated_at"), now);
        Persist(p.records[key := rec], p.drawn + 1,
                p.counters.(created := p.counters.created + 1), p.persisted + [(key, rec)])
      else
        var rec := p.records[key];
        if rec.dataHash != HashOf(item) then
          var rec' := rec.(rawData := RawDataOf(item), filterMetadata := FilterOf(item),
                           dataHash := HashOf(item), sourceCreatedAt := Get(item, "source_created_at"),
                           sourceUpdatedAt := Get(item, "source_updated_at"),
                           lastCollectedAt := Some(now));
          p.(records := p.records[key := rec'],
             counters := p.counters.(updated := p.counters.updated + 1), persisted := p.persisted + [(key, rec')])
        else
          p.(records := p.records[key := rec.(lastCollectedAt := Some(now))],
             counters := p.counters.(skippedUnchanged := p.counters.skippedUnchanged + 1))
  }

  /** The loop over all items, in order. */
  function PersistAll(user: int, platform: string, now: int, newUuid: nat -> string,
                      p: Persist, items: seq<Item>): (q: Persist)
    ensures Total(q.counters) == Total(p.counters) + |items|
    ensures p.records.Keys <= q.records.Keys
    decreases |items|
  {
    if |items| == 0 then p
    else PersistAll(user, platform, now, newUuid, PersistItem(user, platform, now, newUuid, p, items[0]), items[1..])
  }

  /** Whether item `i` has a usable id. */
  predicate HasSid(items: seq<Item>, i: int)
    requires 0 <= i < |items|
  {
    Truthy(Get(items[i], "source_unique_id"))
  }

  /** Upserting never touches attachment rows: a record that existed keeps
      its rows, and a record the loop creates has none. */
  lemma {:induction false} PersistAllKeepsAttachments(user: int, platform: string, now: int,
                                                      newUuid: nat -> string, p: Persist, items: seq<Item>)
    ensures var q := PersistAll(user, platform, now, newUuid, p, items);
            forall k :: k in q.records ==>
              (k in p.records ==> q.records[k].attachments == p.records[k].attachments)
              && (k !in p.records ==> q.records[k].attachments == [])
    decreases |items|
  {
    if |items| > 0 {
      var q1 := PersistItem(user, platform, now, newUuid, p, items[0]);
      PersistAllKeepsAttachments(user, platform, now, newUuid, q1, items[1..]);
    }
  }

  /** The keys the loop touches: those of the items with a usable id. */
  predicate Touched(user: int, platform: string, items: seq<Item>, k: RecordKey) {
    exists i :: 0 <= i < |items| && HasSid(items, i) && KeyOf(user, platform, items[i]) == k
  }

  /** The loop stores exactly the keys it touches, creating one record per
      new key, and leaves every other record as it was. */
  lemma {:induction false} PersistAllKeys(user: int, platform: string, now: int, newUuid: nat -> string,
                                          p: Persist, items: seq<Item>)
    ensures var q := PersistAll(user, platform, now, newUuid, p, items);
            (forall k :: k in q.records <==> k in p.records || Touched(user, platform, items, k))
            && (forall k :: k in p.records && !Touched(user, platform, items, k) ==> q.records[k] == p.records[k])
            && |q.records| == |p.records| + q.counters.created - p.counters.created
            && p.counters.created <= q.counters.created
    decreases |items|
  {
    if |items| > 0 {
      var q1 := PersistItem(user, platform, now, newUuid, p, items[0]);
      PersistAllKeys(user, platform, now, newUuid, q1, items[1..]);
      PersistItemSize(user, platform, now, newUuid, p, items[0]);
      forall k ensures Touched(user, platform, items, k) <==>
                       (Touched(user, platform, items[1..], k)
                        || (HasSid(items, 0) && KeyOf(user, platform, items[0]) == k))
      {
        TouchedCons(user, platform, items, k);
      }
    }
  }

  /** A key is touched by a non-empty list exactly when the first item has
      it or the rest touches it. */
  lemma TouchedCons(user: int, platform: string, items: seq<Item>, k: RecordKey)
    requires |items| > 0
    ensures Touched(user, platform, items, k) <==>
            (Touched(user, platform, items[1..], k)
             || (HasSid(items, 0) && KeyOf(user, platform, items[0]) == k))
  {
    if Touched(user, platform, items, k) {
      var i :| 0 <= i < |items| && HasSid(items, i) && KeyOf(user, platform, items[i]) == k;
      if i > 0 {
        assert items[1..][i - 1] == items[i];
        assert HasSid(items[1..], i - 1);
      }
    }
    if Touched(user, platform, items[1..], k) {
      var i :| 0 <= i < |items[1..]| && HasSid(items[1..], i) && KeyOf(user, platform, items[1..][i]) == k;
      assert items[i + 1] == items[1..][i];
      assert HasSid(items, i + 1);
    }
  }

  /** One step creates a record exactly when the record count grows. */
  lemma PersistItemSize(user: int, platform: string, now: int, newUuid: nat -> string, p: Persist, item: Item)
    ensures var q := PersistItem(user, platform, now, newUuid, p, item);
            |q.records| == |p.records| + q.counters.created - p.counters.created
            && p.counters.created <= q.counters.created
  {
    var key := KeyOf(user, platform, item);
    var q := PersistItem(user, platform, now, newUuid, p, item);
    if Truthy(key.sid) && key !in p.records {
      assert q.records.Keys == p.records.Keys + {key};
      assert |q.records| == |p.records| + 1;
    } else if Truthy(key.sid) {
      assert q.records.Keys == p.records.Keys;
    }
  }

  /** Every item with a usable id ends stored with its hash, unless a later
      item for the same key carries another hash. */
  predicate Settled(user: int, platform: string, now: int, records: Records, items: seq<Item>) {
    forall i :: 0 <= i < |items| && HasSid(items, i) ==>
      KeyOf(user, platform, items[i]) in records
      && records[KeyOf(user, platform, items[i])].dataHash == HashOf(items[i])
      && records[KeyOf(user, platform, items[i])].lastCollectedAt == Some(now)
  }

  /** Items that agree on the hash whenever they share an id. */
  predicate HashConsistent(items: seq<Item>) {
    forall i, j :: 0 <= i < |items| && 0 <= j < |items| && HasSid(items, i)
                   && Get(items[i], "source_unique_id") == Get(items[j], "source_unique_id") ==>
      HashOf(items[i]) == HashOf(items[j])
  }

  /** After a pass, every item is settled. */
  lemma {:induction false} PersistAllSettles(user: int, platform: string, now: int, newUuid: nat -> string,
                                             p: Persist, items: seq<Item>)
    requires HashConsistent(items)
    ensures Settled(user, platform, now, PersistAll(user, platform, now, newUuid, p, items).records, items)
    decreases |items|
  {
    if |items| > 0 {
      var q1 := PersistItem(user, platform, now, newUuid, p, items[0]);
      var tail := items[1..];
      assert HashConsistent(tail) by {
        forall i, j | 0 <= i < |tail| && 0 <= j < |tail| && HasSid(tail, i)
                      && Get(tail[i], "source_unique_id") == Get(tail[j], "source_unique_id")
          ensures HashOf(tail[i]) == HashOf(tail[j])
        {
          assert tail[i] == items[i + 1] && tail[j] == items[j + 1];
          assert HasSid(items, i + 1);
        }
      }
      PersistAllSettles(user, platform, now, newUuid, q1, tail);
      PersistAllKeys(user, platform, now, newUuid, q1, tail);
      var q := PersistAll(user, platform, now, newUuid, q1, tail);
      assert q == PersistAll(user, platform, now, newUuid, p, items);
      forall i | 0 <= i < |items| && HasSid(items, i)
        ensures KeyOf(user, platform, items[i]) in q.records
                && q.records[KeyOf(user, platform, items[i])].dataHash == HashOf(items[i])
                && q.records[KeyOf(user, platform, items[i])].lastCollectedAt == Some(now)
      {
        if i > 0 {
          assert tail[i - 1] == items[i];
          assert HasSid(tail, i - 1);
        } else if Touched(user, platform, tail, KeyOf(user, platform, items[0])) {
          var j :| 0 <= j < |tail| && HasSid(tail, j) && KeyOf(user, platform, tail[j]) == KeyOf(user, platform, items[0]);
          assert tail[j] == items[j + 1];
          assert HashOf(items[0]) == HashOf(items[j + 1]);
        }
      }
    }
  }

  /** A pass over settled items only re-stamps `last_collected_at` with the
      same instant: it creates and updates nothing and changes no record. */
  lemma {:induction false} SettledPassIsNoop(user: int, platform: string, now: int, newUuid: nat -> string,
                                             p: Persist, items: seq<Item>)
    requires Settled(user, platform, now, p.records, items)
    ensures var q := PersistAll(user, platform, now, newUuid, p, items);
            q.records == p.records && q.counters.created == p.counters.created
            && q.counters.updated == p.counters.updated && q.persisted == p.persisted
    decreases |items|
  {
    if |items| > 0 {
      var q1 := PersistItem(user, platform, now, newUuid, p, items[0]);
      if HasSid(items, 0) {
        var key := KeyOf(user, platform, items[0]);
        assert p.records[key].(lastCollectedAt := Some(now)) == p.records[key];
        assert q1.records == p.records;
      }
      assert Settled(user, platform, now, q1.records, items[1..]) by {
        forall i | 0 <= i < |items[1..]| && HasSid(items[1..], i)
          ensures KeyOf(user, platform, items[1..][i]) in q1.records
                  && q1.records[KeyOf(user, platform, items[1..][i])].dataHash == HashOf(items[1..][i])
                  && q1.records[KeyOf(user, platform, items[1..][i])].lastCollectedAt == Some(now)
        {
          assert items[1..][i] == items[i + 1];
          assert HasSid(items, i + 1);
        }
      }
      SettledPassIsNoop(user, platform, now, newUuid, q1, items[1..]);
    }
  }

  /** Collecting the same items twice at the same instant is idempotent:
      the second pass leaves the store as the first left it, and creates
      and updates nothing. */
  lemma RepeatedCollectIsIdempotent(user: int, platform: string, now: int, newUuid: nat -> string,
                                    p: Persist, items: seq<Item>)
    requires HashConsistent(items)
    ensures var q := PersistAll(user, platform, now, newUuid, p, items);
            var q2 := PersistAll(user, platform, now, newUuid, q, items);
            q2.records == q.records && q2.counters.created == q.counters.created
            && q2.counters.updated == q.counters.updated
  {
    var q := PersistAll(user, platform, now, newUuid, p, items);
    PersistAllSettles(user, platform, now, newUuid, p, items);
    SettledPassIsNoop(user, platform, now, newUuid, q, items);
  }

  /** `b` is `a` with at most `last_collected_at` changed. */
  predicate Restamped(a: Record, b: Record) {
    b == a.(lastCollectedAt := b.lastCollectedAt)
  }

  /** Every item with a usable id is stored with its hash, whenever it was
      last seen. */
  predicate Matched(user: int, platform: string, records: Records, items: seq<Item>) {
    forall i :: 0 <= i < |items| && HasSid(items, i) ==>
      KeyOf(user, platform, items[i]) in records
      && records[KeyOf(user, platform, items[i])].dataHash == HashOf(items[i])
  }

  /** A pass, at any instant, over items whose hashes are all stored
      creates and updates nothing and changes no record beyond its
      `last_collected_at`. */
  lemma {:induction false} MatchedPassOnlyRestamps(user: int, platform: string, now: int, newUuid: nat -> string,
                                                   p: Persist, items: seq<Item>)
    requires Matched(user, platform, p.records, items)
    ensures var q := PersistAll(user, platform, now, newUuid, p, items);
            q.records.Keys == p.records.Keys
            && (forall k :: k in p.records ==> Restamped(p.records[k], q.records[k]))
            && q.counters.created == p.counters.created && q.counters.updated == p.counters.updated
            && q.persisted == p.persisted
    decreases |items|
  {
    if |items| > 0 {
      var q1 := PersistItem(user, platform, now, newUuid, p, items[0]);
      if HasSid(items, 0) {
        var key := KeyOf(user, platform, items[0]);
        assert q1.records == p.records[key := p.records[key].(lastCollectedAt := Some(now))];
      }
      assert q1.records.Keys == p.records.Keys;
      assert forall k :: k in p.records ==> Restamped(p.records[k], q1.records[k]);
      assert Matched(user, platform, q1.records, items[1..]) by {
        forall i | 0 <= i < |items[1..]| && HasSid(items[1..], i)
          ensures KeyOf(user, platform, items[1..][i]) in q1.records
                  && q1.records[KeyOf(user, platform, items[1..][i])].dataHash == HashOf(items[1..][i])
        {
          assert items[1..][i] == items[i + 1];
          assert HasSid(items, i + 1);
        }
      }
      MatchedPassOnlyRestamps(user, platform, now, newUuid, q1, items[1..]);
    }
  }

  /** Collecting the same items again at any later instant creates and
      updates nothing: it moves `last_collected_at` of the items' records
      to the new instant and leaves everything else as the first pass left
      it. */
  lemma RecollectOnlyRestamps(user: int, platform: string, now: int, now2: int, newUuid: nat -> string,
                              p: Persist, items: seq<Item>)
    requires HashConsistent(items)
    ensures var q := PersistAll(user, platform, now, newUuid, p, items);
            var q2 := PersistAll(user, platform, now2, newUuid, q, items);
            q2.records.Keys == q.records.Keys
            && (forall k :: k in q.records ==> Restamped(q.records[k], q2.records[k]))
            && (forall k :: k in q.records && Touched(user, platform, items, k) ==>
                  q2.records[k].lastCollectedAt == Some(now2))
            && (forall k :: k in q.records && !Touched(user, platform, items, k) ==> q2.records[k] == q.records[k])
            && q2.counters.created == q.counters.created && q2.counters.updated == q.counters.updated
            && q2.persisted == q.persisted
  {
    var q := PersistAll(user, platform, now, newUuid, p, items);
    var q2 := PersistAll(user, platform, now2, newUuid, q, items);
    PersistAllSettles(user, platform, now, newUuid, p, items);
    MatchedPassOnlyRestamps(user, platform, now2, newUuid, q, items);
    PersistAllSettles(user, platform, now2, newUuid, q, items);
    PersistAllKeys(user, platform, now2, newUuid, q, items);
    forall k | k in q.records && Touched(user, platform, items, k)
      ensures q2.records[k].lastCollectedAt == Some(now2)
    {
      var i :| 0 <= i < |items| && HasSid(items, i) && KeyOf(user, platform, items[i]) == k;
    }
  }

  // ---- runtime_state commit ---------------------------------------------

  const RuntimeKey: string := "runtime_state"

  /** The runtime stamps written after a successful collect: start, end and
      success all `now`; `first_collect_at` only when it was unset. `None`
      when `runtime_state` is set but not an object (item assignment on it
      raises). */
  function CommitRuntime(value: map<string, Value>, now: int): (r: Option<map<string, Value>>)
    ensures r.None? <==> !Or(Get(value, RuntimeKey), EmptyObj).Obj?
    ensures r.Some? ==>
              var before := Or(Get(value, RuntimeKey), EmptyObj).fields;
              r.value.Keys == value.Keys + {RuntimeKey}
              && (forall k :: k in value && k != RuntimeKey ==> r.value[k] == value[k])
              && r.value[RuntimeKey].Obj?
              && var after := r.value[RuntimeKey].fields;
              Get(after, "last_collect_start_at") == Str(StampText(now))
              && Get(after, "last_collect_end_at") == Str(StampText(now))
              && Get(after, "last_success_collect_at") == Str(StampText(now))
              && (Get(before, "first_collect_at") == Null ==> Get(after, "first_collect_at") == Str(StampText(now)))
              && (Get(before, "first_collect_at") != Null ==> Get(after, "first_collect_at") == Get(before, "first_collect_at"))
              && (forall k :: k in before && k !in StampKeys ==> k in after && after[k] == before[k])
  {
    var runtime := Or(Get(value, RuntimeKey), EmptyObj);
    if !runtime.Obj? then None
    else
      var stamp := Str(StampText(now));
      var rt := runtime.fields["last_collect_start_at" := stamp]["last_collect_end_at" := stamp]
                              ["last_success_collect_at" := stamp];
      var rt' := if Get(rt, "first_collect_at") == Null then rt["first_collect_at" := stamp] else rt;
      Some(value[RuntimeKey := Obj(rt')])
  }

  const StampKeys: set<string> :=
    {"last_collect_start_at", "last_collect_end_at", "last_success_collect_at", "first_collect_at"}
}

=== FILE: collect_run.dfy ===
/** `run_collect` (data_collector/tasks.py) as one state transition over
    the collector's store: look up the config, compute the scan window,
    collect through the platform's provider, upsert the items and stamp
    `runtime_state` atomically, then reconcile the attachments of the
    records just written and backfill older records whose attachment rows
    fall short of their payload's list.

    A run that raises leaves the store as it was: every exception the model
    keeps happens before the atomic block commits, or inside it. */
module CollectRun {
  import opened Wrappers
  import opened Json
  import opened CollectorModel
  import opened CollectWindow
  import opened CollectPersist
  import opened AttachmentSync
  import opened Stamps
  import Providers
  import Jira
  import TaskLock

  const ConfigNotFound: string := "Config not found"
  const LockBaseName: string := "data_collector_run_collect"
  const LockParam: string := "config_uuid"

  /** Configs by uuid, records by natural key, the attachment files, and the
      number of uuids drawn so far. */
  datatype Store = Store(configs: map<string, Config>, records: Records, disk: Disk, drawn: nat)

  /** The local side effects the attachment sync needs: storage root, MD5,
      the uuid4 oracle and whether file writes and removals succeed. */
  datatype Io = Io(root: string, md5: seq<int> -> string, newUuid: nat -> string,
                   canWrite: string -> bool, canRemove: string -> bool)

  datatype RunResult = Failed(error: string) | Succeeded(created: nat, updated: nat)

  function SyncEnv(io: Io, kind: Providers.Kind, auth: map<string, Value>, server: Jira.Server): Env {
    Env(io.root, m => Providers.Download(kind, auth, m, server), io.md5, io.newUuid, io.canWrite, io.canRemove)
  }

  /** `b` holds the same records as `a`, except perhaps for their
      attachment rows. */
  predicate SameButAttachments(a: Records, b: Records) {
    a.Keys == b.Keys && forall k :: k in a ==> b[k] == a[k].(attachments := b[k].attachments)
  }

  /** `_sync_attachments_for_record` on one stored record; `snapshot` is the
      record object the loop holds (its payload and uuid). */
  function SyncStored(env: Env, kind: Providers.Kind, st: Store, key: RecordKey, snapshot: Record): (st': Store)
    ensures SameButAttachments(st.records, st'.records) && st'.configs == st.configs
    ensures forall k :: k in st.records && k != key ==> st'.records[k] == st.records[k]
  {
    if key !in st.records then st
    else
      var rec := st.records[key];
      var r := SyncRecord(env, snapshot.uuid, rec.attachments, st.disk, st.drawn,
                          Providers.FetchAttachments(kind, snapshot.rawData));
      st.(records := st.records[key := rec.(attachments := r.rows)], disk := r.disk, drawn := r.drawn)
  }

  /** The records' attachment sync, one after the other. */
  function SyncEach(env: Env, kind: Providers.Kind, st: Store, todo: seq<(RecordKey, Record)>): (st': Store)
    ensures SameButAttachments(st.records, st'.records) && st'.configs == st.configs
    ensures forall k :: k in st.records && Untouched(todo, k) ==> st'.records[k] == st.records[k]
    decreases |todo|
  {
    if |todo| == 0 then st
    else
      var st1 := SyncStored(env, kind, st, todo[0].0, todo[0].1);
      var r := SyncEach(env, kind, st1, todo[1..]);
      UntouchedTail(todo);
      r
  }

  /** No entry of `todo` names `k`. */
  predicate Untouched(todo: seq<(RecordKey, Record)>, k: RecordKey) {
    forall i :: 0 <= i < |todo| ==> todo[i].0 != k
  }

  /** A key no entry of `todo` names is named by no entry of its tail. */
  lemma UntouchedTail(todo: seq<(RecordKey, Record)>)
    requires |todo| > 0
    ensures forall k :: Untouched(todo, k) ==> Untouched(todo[1..], k)
  {
    forall k | Untouched(todo, k) ensures Untouched(todo[1..], k) {
      forall i | 0 <= i < |todo[1..]| ensures todo[1..][i].0 != k {
        assert todo[1..][i] == todo[i + 1];
      }
    }
  }

  // ---- backfill ------------------------------------------------------------

  /** Whether an older record needs its attachments backfilled: its payload
      lists attachments, it was not written in this run, and it has fewer
      attachment rows than listed entries. */
  predicate NeedsBackfill(rec: Record, key: RecordKey, written: set<RecordKey>) {
    var listed := Field(rec.rawData, "attachments");
    listed.List? && |listed.items| > 0 && key !in written && |rec.attachments| < |listed.items|
  }

  predicate Selected(records: Records, user: int, platform: string, written: set<RecordKey>, k: RecordKey) {
    k in records && k.user == user && k.platform == platform && NeedsBackfill(records[k], k, written)
  }

  /** The backfill query over the store, visiting keys in the database's
      order `scan`. */
  function BackfillSelect(records: Records, user: int, platform: string, scan: seq<RecordKey>,
                          written: set<RecordKey>): (r: seq<(RecordKey, Record)>)
    ensures forall i :: 0 <= i < |r| ==>
              Selected(records, user, platform, written, r[i].0) && r[i].1 == records[r[i].0]
    ensures forall i :: 0 <= i < |scan| && Selected(records, user, platform, written, scan[i]) ==>
              exists j :: 0 <= j < |r| && r[j].0 == scan[i]
  {
    if |scan| == 0 then []
    else
      var rest := BackfillSelect(records, user, platform, scan[1..], written);
      if Selected(records, user, platform, written, scan[0]) then
        var r := [(scan[0], records[scan[0]])] + rest;
        BackfillCons(records, user, platform, written, scan, rest);
        r
      else
        BackfillSkip(records, user, platform, written, scan, rest);
        rest
  }

  /** The covering step when the first scanned key is selected. */
  lemma BackfillCons(records: Records, user: int, platform: string, written: set<RecordKey>,
                     scan: seq<RecordKey>, rest: seq<(RecordKey, Record)>)
    requires |scan| > 0 && Selected(records, user, platform, written, scan[0])
    requires forall i :: 0 <= i < |rest| ==>
               Selected(records, user, platform, written, rest[i].0) && rest[i].1 == records[rest[i].0]
    requires forall i :: 0 <= i < |scan[1..]| && Selected(records, user, platform, written, scan[1..][i]) ==>
               exists j :: 0 <= j < |rest| && rest[j].0 == scan[1..][i]
    ensures var r := [(scan[0], records[scan[0]])] + rest;
            (forall i :: 0 <= i < |r| ==>
               Selected(records, user, platform, written, r[i].0) && r[i].1 == records[r[i].0])
            && forall i :: 0 <= i < |scan| && Selected(records, user, platform, written, scan[i]) ==>
                 exists j :: 0 <= j < |r| && r[j].0 == scan[i]
  {
    var r := [(scan[0], records[scan[0]])] + rest;
    forall i | 0 <= i < |r| ensures Selected(records, user, platform, written, r[i].0) && r[i].1 == records[r[i].0] {
      if i > 0 {
        assert r[i] == rest[i - 1];
      }
    }
    forall i | 0 <= i < |scan| && Selected(records, user, platform, written, scan[i])
      ensures exists j :: 0 <= j < |r| && r[j].0 == scan[i]
    {
      if i == 0 {
        assert r[0].0 == scan[0];
      } else {
        assert scan[1..][i - 1] == scan[i];
        var j :| 0 <= j < |rest| && rest[j].0 == scan[1..][i - 1];
        assert r[j + 1].0 == scan[i];
      }
    }
  }

  /** The covering step when the first scanned key is not selected. */
  lemma BackfillSkip(records: Records, user: int, platform: string, written: set<RecordKey>,
                     scan: seq<RecordKey>, rest: seq<(RecordKey, Record)>)
    requires |scan| > 0 && !Selected(records, user, platform, written, scan[0])
    requires forall i :: 0 <= i < |scan[1..]| && Selected(records, user, platform, written, scan[1..][i]) ==>
               exists j :: 0 <= j < |rest| && rest[j].0 == scan[1..][i]
    ensures forall i :: 0 <= i < |scan| && Selected(records, user, platform, written, scan[i]) ==>
              exists j :: 0 <= j < |rest| && rest[j].0 == scan[i]
  {
    forall i | 0 <= i < |scan| && Selected(records, user, platform, written, scan[i])
      ensures exists j :: 0 <= j < |rest| && rest[j].0 == scan[i]
    {
      assert scan[1..][i - 1] == scan[i];
    }
  }

  /** When the scan enumerates the store, the backfill covers exactly the
      selected records. */
  lemma BackfillIsExactlyTheSelection(records: Records, user: int, platform: string, scan: seq<RecordKey>,
                                      written: set<RecordKey>, k: RecordKey)
    requires forall k' :: k' in records ==> k' in scan
    ensures (exists j :: 0 <= j < |BackfillSelect(records, user, platform, scan, written)|
                         && BackfillSelect(records, user, platform, scan, written)[j].0 == k)
            <==> Selected(records, user, platform, written, k)
  {
    var r := BackfillSelect(records, user, platform, scan, written);
    if Selected(records, user, platform, written, k) {
      assert k in scan;
      var i :| 0 <= i < |scan| && scan[i] == k;
      assert exists j :: 0 <= j < |r| && r[j].0 == scan[i];
    }
    if exists j :: 0 <= j < |r| && r[j].0 == k {
      var j :| 0 <= j < |r| && r[j].0 == k;
      assert Selected(records, user, platform, written, r[j].0);
      assert Selected(records, user, platform, written, k);
    }
    assert (exists j :: 0 <= j < |r| && r[j].0 == k) ==> Selected(records, user, platform, written, k);
    assert Selected(records, user, platform, written, k) ==> (exists j :: 0 <= j < |r| && r[j].0 == k);
  }

  function WrittenKeys(persisted: seq<(RecordKey, Record)>): (s: set<RecordKey>)
    ensures forall k :: k in s <==> exists i :: 0 <= i < |persisted| && persisted[i].0 == k
  {
    set i | 0 <= i < |persisted| :: persisted[i].0
  }

  // ---- the run -------------------------------------------------------------

  /** `project_keys or []` as the list of keys Jira joins into its query;
      `None` when joining would raise or the keys are a dict. */
  function ProjectKeys(v: Value): (r: Option<seq<string>>)
    ensures !Truthy(v) ==> r == Some([])
  {
    if !Truthy(v) then Some([])
    else match v
      case List(l) => if forall i :: 0 <= i < |l| ==> l[i].Str? then Some(Texts(l)) else None
      case Str(s) => Some(Letters(s))
      case _ => None
  }

  function Texts(l: seq<Value>): (r: seq<string>)
    requires forall i :: 0 <= i < |l| ==> l[i].Str?
    ensures |r| == |l| && forall i :: 0 <= i < |l| ==> r[i] == l[i].s
  {
    if |l| == 0 then [] else [l[0].s] + Texts(l[1..])
  }

  function Letters(s: string): (r: seq<string>)
    ensures |r| == |s|
  {
    if |s| == 0 then [] else [[s[0]]] + Letters(s[1..])
  }

  /** The provider side of a run: the items `collect` returns (`None` when
      it raises), or `None` before calling it when the arguments cannot be
      used. Feishu ignores its arguments. */
  function CollectItems(kind: Providers.Kind, value: map<string, Value>, w: Window, server: Jira.Server)
    : Option<seq<Item>>
  {
    var auth := Or(Get(value, "auth"), EmptyObj);
    match kind
    case FeishuProvider => Some([])
    case JiraProvider =>
      if !auth.Obj? then None
      else match ProjectKeys(Get(value, "project_keys"))
        case None => None
        case Some(keys) => Providers.Collect(kind, auth.fields, w.start, w.end, keys, server)
  }

  function AuthOf(value: map<string, Value>): map<string, Value> {
    var auth := Or(Get(value, "auth"), EmptyObj);
    if auth.Obj? then auth.fields else map[]
  }

  /** The whole run. The second component is the returned dict, or `None`
      when the run raises. */
  function RunCollect(st: Store, configUuid: string, startArg: Option<string>, endArg: Option<string>,
                      now: int, io: Io, server: Jira.Server, scan: seq<RecordKey>)
    : (r: (Store, Option<RunResult>))
    ensures !(r.1.Some? && r.1.value.Succeeded?) ==> r.0 == st
    ensures configUuid !in st.configs ==> r == (st, Some(Failed(ConfigNotFound)))
    ensures r.0.configs.Keys == st.configs.Keys
    ensures forall u :: u in st.configs && u != configUuid ==> r.0.configs[u] == st.configs[u]
  {
    if configUuid !in st.configs then (st, Some(Failed(ConfigNotFound)))
    else
      var config := st.configs[configUuid];
      var value := Or(config.value, EmptyObj);
      if !value.Obj? then (st, None)
      else match ComputeWindow(value.fields, startArg, endArg, now)
        case Rejected(e) => (st, Some(Failed(e)))
        case Crash => (st, None)
        case Scan(w) =>
          match Providers.GetProvider(config.platform)
          case None => (st, Some(Succeeded(0, 0)))
          case Some(kind) =>
            match CollectItems(kind, value.fields, w, server)
            case None => (st, None)
            case Some(items) =>
              match CommitRuntime(value.fields, now)
              case None => (st, None)
              case Some(v') =>
                var (st', counters) := Ingest(st, configUuid, config.(value := Obj(v')), kind,
                                              AuthOf(value.fields), items, now, io, server, scan);
                (st', Some(Succeeded(counters.created, counters.updated)))
  }

  /** The part of a run after the provider returned: the atomic upsert and
      config update, then the attachment sync of the records written, then
      the backfill. `config'` is the config with its runtime stamped. */
  function Ingest(st: Store, configUuid: string, config': Config, kind: Providers.Kind,
                  auth: map<string, Value>, items: seq<Item>, now: int, io: Io, server: Jira.Server,
                  scan: seq<RecordKey>): (r: (Store, Counters))
    ensures r.0.configs == st.configs[configUuid := config']
    ensures SameButAttachments(Upserted(st, config', items, now, io).records, r.0.records)
    ensures Total(r.1) == |items|
  {
    var p := Upserted(st, config', items, now, io);
    var st1 := Store(st.configs[configUuid := config'], p.records, st.disk, p.drawn);
    var env := SyncEnv(io, kind, auth, server);
    var st2 := SyncEach(env, kind, st1, p.persisted);
    var todo := BackfillSelect(st2.records, config'.user, config'.platform, scan, WrittenKeys(p.persisted));
    var st3 := SyncEach(env, kind, st2, todo);
    (st3, p.counters)
  }

  /** The persist loop of a run, from zeroed counters. */
  function Upserted(st: Store, config': Config, items: seq<Item>, now: int, io: Io): (p: Persist)
    ensures Total(p.counters) == |items|
  {
    PersistAll(config'.user, config'.platform, now, io.newUuid,
               Persist(st.records, st.drawn, Counters(0, 0, 0, 0), []), items)
  }

  /** `run_collect` behind its duplicate-run guard, locked per config uuid. */
  function GuardedRunCollect(cache: TaskLock.Cache, health: TaskLock.CacheHealth, md5: string -> string,
                             st: Store, configUuid: string, startArg: Option<string>, endArg: Option<string>,
                             now: int, io: Io, server: Jira.Server, scan: seq<RecordKey>)
    : (r: (TaskLock.Cache, Store, TaskLock.Guarded<RunResult>))
    ensures r.2.Skipped? ==> r.1 == st && r.0 == cache
  {
    var call := TaskLock.Call([], false, map[LockParam := Str(configUuid)]);
    var name := TaskLock.GuardName(LockBaseName, LockParam, call, md5);
    TaskLock.Guard(cache, health, name,
                   (s: Store) => RunCollect(s, configUuid, startArg, endArg, now, io, server, scan), st)
  }

  // ---- properties of a run -------------------------------------------------

  /** The conditional unique constraint on every record's attachments. */
  predicate AllIdsUnique(records: Records) {
    forall k :: k in records ==> AttachmentIdsUnique(records[k].attachments)
  }

  lemma SyncStoredKeepsIdsUnique(env: Env, kind: Providers.Kind, st: Store, key: RecordKey, snapshot: Record)
    requires AllIdsUnique(st.records)
    ensures AllIdsUnique(SyncStored(env, kind, st, key, snapshot).records)
  {
    if key in st.records {
      var rec := st.records[key];
      SyncRecordKeepsIdsUnique(env, snapshot.uuid, rec.attachments, st.disk, st.drawn,
                               Providers.FetchAttachments(kind, snapshot.rawData));
    }
  }

  lemma {:induction false} SyncEachKeepsIdsUnique(env: Env, kind: Providers.Kind, st: Store,
                                                  todo: seq<(RecordKey, Record)>)
    requires AllIdsUnique(st.records)
    ensures AllIdsUnique(SyncEach(env, kind, st, todo).records)
    decreases |todo|
  {
    if |todo| > 0 {
      SyncStoredKeepsIdsUnique(env, kind, st, todo[0].0, todo[0].1);
      SyncEachKeepsIdsUnique(env, kind, SyncStored(env, kind, st, todo[0].0, todo[0].1), todo[1..]);
    }
  }

  /** The upsert and the syncs after it keep the attachment id constraint. */
  lemma IngestKeepsIdsUnique(st: Store, configUuid: string, config': Config, kind: Providers.Kind,
                             auth: map<string, Value>, items: seq<Item>, now: int, io: Io, server: Jira.Server,
                             scan: seq<RecordKey>)
    requires AllIdsUnique(st.records)
    ensures AllIdsUnique(Ingest(st, configUuid, config', kind, auth, items, now, io, server, scan).0.records)
  {
    var p := Upserted(st, config', items, now, io);
    PersistAllKeepsAttachments(config'.user, config'.platform, now, io.newUuid,
                               Persist(st.records, st.drawn, Counters(0, 0, 0, 0), []), items);
    var st1 := Store(st.configs[configUuid := config'], p.records, st.disk, p.drawn);
    var env := SyncEnv(io, kind, auth, server);
    SyncEachKeepsIdsUnique(env, kind, st1, p.persisted);
    var st2 := SyncEach(env, kind, st1, p.persisted);
    var todo := BackfillSelect(st2.records, config'.user, config'.platform, scan, WrittenKeys(p.persisted));
    SyncEachKeepsIdsUnique(env, kind, st2, todo);
  }

  /** On the path where everything succeeds, the run's store is the one
      `Ingest` produces; on every other path it is the store it started
      from. */
  lemma RunStoreIsIngested(st: Store, configUuid: string, startArg: Option<string>, endArg: Option<string>,
                           now: int, io: Io, server: Jira.Server, scan: seq<RecordKey>)
    ensures var r := RunCollect(st, configUuid, startArg, endArg, now, io, server, scan);
            r.0 == st
            || (configUuid in st.configs
                && var config := st.configs[configUuid];
                   var value := Or(config.value, EmptyObj);
                   value.Obj? && ComputeWindow(value.fields, startArg, endArg, now).Scan?
                   && var w := ComputeWindow(value.fields, startArg, endArg, now).w;
                      Providers.GetProvider(config.platform).Some?
                      && var kind := Providers.GetProvider(config.platform).value;
                         CollectItems(kind, value.fields, w, server).Some? && CommitRuntime(value.fields, now).Some?
                         && r.0 == Ingest(st, configUuid, config.(value := Obj(CommitRuntime(value.fields, now).value)),
                                          kind, AuthOf(value.fields), CollectItems(kind, value.fields, w, server).value,
                                          now, io, server, scan).0)
  {
  }

  /** A run never breaks the attachment id constraint of any record. */
  lemma RunKeepsIdsUnique(st: Store, configUuid: string, startArg: Option<string>, endArg: Option<string>,
                          now: int, io: Io, server: Jira.Server, scan: seq<RecordKey>)
    requires AllIdsUnique(st.records)
    ensures AllIdsUnique(RunCollect(st, configUuid, startArg, endArg, now, io, server, scan).0.records)
  {
    var r := RunCollect(st, configUuid, startArg, endArg, now, io, server, scan);
    RunStoreIsIngested(st, configUuid, startArg, endArg, now, io, server, scan);
    if r.0 != st {
      var config := st.configs[configUuid];
      var value := Or(config.value, EmptyObj);
      var w := ComputeWindow(value.fields, startArg, endArg, now).w;
      var kind := Providers.GetProvider(config.platform).value;
      IngestKeepsIdsUnique(st, configUuid, config.(value := Obj(CommitRuntime(value.fields, now).value)),
                           kind, AuthOf(value.fields), CollectItems(kind, value.fields, w, server).value,
                           now, io, server, scan);
    }
  }

  /** A successful run with a provider upserts exactly the collected items'
      keys and stamps the config's `runtime_state`; records it did not
      touch differ at most in their attachment rows. */
  lemma RunUpsertsAndCommits(st: Store, configUuid: string, startArg: Option<string>, endArg: Option<string>,
                             now: int, io: Io, server: Jira.Server, scan: seq<RecordKey>,
                             w: Window, kind: Providers.Kind, items: seq<Item>)
    requires configUuid in st.configs
    requires Or(st.configs[configUuid].value, EmptyObj).Obj?
    requires ComputeWindow(Or(st.configs[configUuid].value, EmptyObj).fields, startArg, endArg, now) == Scan(w)
    requires Providers.GetProvider(st.configs[configUuid].platform) == Some(kind)
    requires CollectItems(kind, Or(st.configs[configUuid].value, EmptyObj).fields, w, server) == Some(items)
    requires CommitRuntime(Or(st.configs[configUuid].value, EmptyObj).fields, now).Some?
    ensures var config := st.configs[configUuid];
            var r := RunCollect(st, configUuid, startArg, endArg, now, io, server, scan);
            r.1.Some? && r.1.value.Succeeded?
            && (forall k :: k in r.0.records <==> k in st.records || Touched(config.user, config.platform, items, k))
            && (forall k :: k in st.records && !Touched(config.user, config.platform, items, k) ==>
                  r.0.records[k] == st.records[k].(attachments := r.0.records[k].attachments))
            && r.0.configs[configUuid]
               == config.(value := Obj(CommitRuntime(Or(config.value, EmptyObj).fields, now).value))
  {
    var config := st.configs[configUuid];
    var value := Or(config.value, EmptyObj);
    var config' := config.(value := Obj(CommitRuntime(value.fields, now).value));
    RunIsIngest(st, configUuid, startArg, endArg, now, io, server, scan, w, kind, items);
    PersistAllKeys(config.user, config.platform, now, io.newUuid,
                   Persist(st.records, st.drawn, Counters(0, 0, 0, 0), []), items);
    var p := Upserted(st, config', items, now, io);
    var ing := Ingest(st, configUuid, config', kind, AuthOf(value.fields), items, now, io, server, scan);
    assert SameButAttachments(p.records, ing.0.records);
  }

  /** Under the success conditions, the run's store is the ingested one. */
  lemma RunIsIngest(st: Store, configUuid: string, startArg: Option<string>, endArg: Option<string>,
                    now: int, io: Io, server: Jira.Server, scan: seq<RecordKey>,
                    w: Window, kind: Providers.Kind, items: seq<Item>)
    requires configUuid in st.configs
    requires Or(st.configs[configUuid].value, EmptyObj).Obj?
    requires ComputeWindow(Or(st.configs[configUuid].value, EmptyObj).fields, startArg, endArg, now) == Scan(w)
    requires Providers.GetProvider(st.configs[configUuid].platform) == Some(kind)
    requires CollectItems(kind, Or(st.configs[configUuid].value, EmptyObj).fields, w, server) == Some(items)
    requires CommitRuntime(Or(st.configs[configUuid].value, EmptyObj).fields, now).Some?
    ensures var config := st.configs[configUuid];
            var value := Or(config.value, EmptyObj);
            var r := RunCollect(st, configUuid, startArg, endArg, now, io, server, scan);
            r.1.Some? && r.1.value.Succeeded?
            && r.0 == Ingest(st, configUuid, config.(value := Obj(CommitRuntime(value.fields, now).value)),
                             kind, AuthOf(value.fields), items, now, io, server, scan).0
  {
    var config := st.configs[configUuid];
    var value := Or(config.value, EmptyObj);
    var v' := CommitRuntime(value.fields, now).value;
    var ing := Ingest(st, configUuid, config.(value := Obj(v')), kind, AuthOf(value.fields), items, now, io, server, scan);
    assert RunCollect(st, configUuid, startArg, endArg, now, io, server, scan)
           == (ing.0, Some(Succeeded(ing.1.created, ing.1.updated)));
  }

  /** After a successful run the next automatic run resumes where this one
      stopped: at this run's time, or a day back when that is less than a
      day ago. */
  lemma NextRunResumes(st: Store, configUuid: string, startArg: Option<string>, endArg: Option<string>,
                       now: int, io: Io, server: Jira.Server, scan: seq<RecordKey>,
                       later: int, nextStart: Option<string>, nextEnd: Option<string>)
    requires configUuid in st.configs
    requires Providers.GetProvider(st.configs[configUuid].platform).Some?
    requires var r := RunCollect(st, configUuid, startArg, endArg, now, io, server, scan);
             r.1.Some? && r.1.value.Succeeded?
    requires !(Given(nextStart) && Given(nextEnd))
    ensures var c := RunCollect(st, configUuid, startArg, endArg, now, io, server, scan).0.configs[configUuid];
            var value := Or(st.configs[configUuid].value, EmptyObj);
            value.Obj? && CommitRuntime(value.fields, now).Some?
            && var v := CommitRuntime(value.fields, now).value;
               c.value == Obj(v)
               && (now <= later - Days(1) ==> ComputeWindow(v, nextStart, nextEnd, later) == Scan(Window(now, later)))
               && (now > later - Days(1) ==>
                     ComputeWindow(v, nextStart, nextEnd, later) == Scan(Window(later - Days(1), later)))
  {
    RunStampsConfig(st, configUuid, startArg, endArg, now, io, server, scan);
    var value := Or(st.configs[configUuid].value, EmptyObj);
    StampedValueResumes(value.fields, now, later, nextStart, nextEnd);
  }

  /** The committed value makes the next automatic run resume at `now`. */
  lemma StampedValueResumes(value: map<string, Value>, now: int, later: int,
                            nextStart: Option<string>, nextEnd: Option<string>)
    requires CommitRuntime(value, now).Some?
    requires !(Given(nextStart) && Given(nextEnd))
    ensures var v := CommitRuntime(value, now).value;
            (now <= later - Days(1) ==> ComputeWindow(v, nextStart, nextEnd, later) == Scan(Window(now, later)))
            && (now > later - Days(1) ==>
                  ComputeWindow(v, nextStart, nextEnd, later) == Scan(Window(later - Days(1), later)))
  {
    var v' := CommitRuntime(value, now).value;
    var rt := v'[RuntimeKey].fields;
    assert "last_success_collect_at" in rt;
    ResumesAtWatermark(v', nextStart, nextEnd, later, now);
  }

  /** A successful run with a provider stores the config with its runtime
      stamped. */
  lemma RunStampsConfig(st: Store, configUuid: string, startArg: Option<string>, endArg: Option<string>,
                        now: int, io: Io, server: Jira.Server, scan: seq<RecordKey>)
    requires configUuid in st.configs
    requires Providers.GetProvider(st.configs[configUuid].platform).Some?
    requires var r := RunCollect(st, configUuid, startArg, endArg, now, io, server, scan);
             r.1.Some? && r.1.value.Succeeded?
    ensures var config := st.configs[configUuid];
            var value := Or(config.value, EmptyObj);
            value.Obj? && CommitRuntime(value.fields, now).Some?
            && RunCollect(st, configUuid, startArg, endArg, now, io, server, scan).0.configs[configUuid]
               == config.(value := Obj(CommitRuntime(value.fields, now).value))
  {
  }

  /** A config whose platform has no provider is not collected: the run
      succeeds with nothing created or updated and changes nothing. */
  lemma NoProviderNoChange(st: Store, configUuid: string, startArg: Option<string>, endArg: Option<string>,
                           now: int, io: Io, server: Jira.Server, scan: seq<RecordKey>)
    requires configUuid in st.configs
    requires Providers.GetProvider(st.configs[configUuid].platform).None?
    ensures var r := RunCollect(st, configUuid, startArg, endArg, now, io, server, scan);
            r.0 == st && (r.1.Some? && r.1.value.Succeeded? ==> r.1.value == Succeeded(0, 0))
  {
  }
}

=== FILE: collect_window.dfy ===
/** The scan window of `run_collect` (data_collector/tasks.py): an explicit
    range when both bounds are given, otherwise an automatic window ending
    now, which on the first run reaches back `initial_range` and later
    resumes at the last successful collection, always looking back at least
    one day. */
module CollectWindow {
  import opened Wrappers
  import opened Json
  import opened Stamps

  const InitialRangeDefault: string := "1m"
  const InitialRangeLong: string := "3m"
  const ShortRangeDays: int := 30
  const LongRangeDays: int := 90
  const MinLookbackDays: int := 1

  const InvalidFormat: string := "Invalid start_time or end_time format."
  const StartNotBeforeEnd: string := "start_time must be before end_time."

  /** A half-open scan range handed to the provider. */
  datatype Window = Window(start: int, end: int)

  /** A rejected range returns an error result; a crash is a Python
      exception (a `TypeError` when an unreadable watermark is compared). */
  datatype Outcome = Scan(w: Window) | Rejected(error: string) | Crash

  /** A task argument is given in the Python sense: present and non-empty. */
  predicate Given(arg: Option<string>) {
    arg.Some? && |arg.value| > 0
  }

  /** The explicit range: both bounds must parse, and start must come first. */
  function ManualWindow(startText: string, endText: string): (o: Outcome)
    ensures o.Crash? == false
    ensures o.Scan? <==> (ParseStamp(startText).Some? && ParseStamp(endText).Some?
                          && ParseStamp(startText).value < ParseStamp(endText).value)
    ensures o.Scan? ==> o.w == Window(ParseStamp(startText).value, ParseStamp(endText).value)
    ensures o.Rejected? && (ParseStamp(startText).None? || ParseStamp(endText).None?) ==> o.error == InvalidFormat
  {
    match (ParseStamp(startText), ParseStamp(endText))
    case (Some(s), Some(e)) => if s >= e then Rejected(StartNotBeforeEnd) else Scan(Window(s, e))
    case _ => Rejected(InvalidFormat)
  }

  /** How far the first run reaches back: 90 days for `"3m"`, otherwise 30
      (an unknown value falls back to the one-month default). */
  function InitialRangeDays(initialRange: Value): (days: int)
    ensures days == LongRangeDays <==> initialRange == Str(InitialRangeLong)
    ensures days == ShortRangeDays <==> initialRange != Str(InitialRangeLong)
  {
    if initialRange == Str(InitialRangeLong) then LongRangeDays else ShortRangeDays
  }

  /** The incremental start: the watermark if readable, 30 days back if
      unset, capped at one day before now. A set but unreadable watermark
      crashes. */
  function IncrementalStart(lastOk: Value, now: int): (r: Option<int>)
    ensures r.None? <==> Truthy(lastOk) && (!lastOk.Str? || ParseStamp(lastOk.s).None?)
    ensures r.Some? ==> r.value <= now - Days(MinLookbackDays)
    ensures r.Some? && !Truthy(lastOk) ==> r.value == now - Days(ShortRangeDays)
    ensures r.Some? && Truthy(lastOk) ==>
              r.value == Min(ParseStamp(lastOk.s).value, now - Days(MinLookbackDays))
  {
    var start :=
      if !Truthy(lastOk) then Some(now - Days(ShortRangeDays))
      else if lastOk.Str? then ParseStamp(lastOk.s)
      else None;
    match start
    case None => None
    case Some(s) => Some(if s > now - Days(MinLookbackDays) then now - Days(MinLookbackDays) else s)
  }

  function Min(a: int, b: int): int {
    if a <= b then a else b
  }

  /** The window of one run. `value` is the config's value (already `or {}`);
      a `runtime_state` that is set but not an object crashes where the
      automatic branches read it. */
  function ComputeWindow(value: map<string, Value>, startArg: Option<string>, endArg: Option<string>,
                         now: int): (o: Outcome)
    ensures o.Scan? ==> o.w.start < o.w.end
    ensures o.Rejected? ==> Given(startArg) && Given(endArg)
    ensures !(Given(startArg) && Given(endArg)) && o.Scan? ==>
              o.w.end == now && o.w.start <= now - Days(MinLookbackDays)
  {
    if Given(startArg) && Given(endArg) then ManualWindow(startArg.value, endArg.value)
    else
      var runtime := Or(Get(value, "runtime_state"), EmptyObj);
      if !runtime.Obj? then Crash
      else if Get(runtime.fields, "first_collect_at") == Null then
        var initialRange := Or(Get(value, "initial_range"), Str(InitialRangeDefault));
        Scan(Window(now - Days(InitialRangeDays(initialRange)), now))
      else
        match IncrementalStart(Get(runtime.fields, "last_success_collect_at"), now)
        case None => Crash
        case Some(s) => Scan(Window(s, now))
  }

  /** Whether the automatic window is a first run: no `first_collect_at`. */
  predicate FirstRun(value: map<string, Value>) {
    var runtime := Or(Get(value, "runtime_state"), EmptyObj);
    runtime.Obj? && Get(runtime.fields, "first_collect_at") == Null
  }

  /** The first run scans exactly the initial range: 90 days for `"3m"`,
      30 days for anything else, ending now. */
  lemma FirstRunWindow(value: map<string, Value>, startArg: Option<string>, endArg: Option<string>, now: int)
    requires !(Given(startArg) && Given(endArg)) && FirstRun(value)
    ensures Get(value, "initial_range") == Str(InitialRangeLong) ==>
              ComputeWindow(value, startArg, endArg, now) == Scan(Window(now - Days(90), now))
    ensures Get(value, "initial_range") != Str(InitialRangeLong) ==>
              ComputeWindow(value, startArg, endArg, now) == Scan(Window(now - Days(30), now))
  {
  }

  /** A later run resumes at the watermark when it is at least a day old. */
  lemma ResumesAtWatermark(value: map<string, Value>, startArg: Option<string>, endArg: Option<string>,
                           now: int, last: int)
    requires !(Given(startArg) && Given(endArg))
    requires Truthy(Get(value, "runtime_state")) && Get(value, "runtime_state").Obj?
    requires Get(Get(value, "runtime_state").fields, "first_collect_at") != Null
    requires Get(Get(value, "runtime_state").fields, "last_success_collect_at") == Str(StampText(last))
    ensures last <= now - Days(1) ==> ComputeWindow(value, startArg, endArg, now) == Scan(Window(last, now))
    ensures last > now - Days(1) ==> ComputeWindow(value, startArg, endArg, now) == Scan(Window(now - Days(1), now))
  {
    ParseStampText(last);
    var lastOk := Str(StampText(last));
    assert Truthy(lastOk);
    assert Or(Get(value, "runtime_state"), EmptyObj) == Get(value, "runtime_state");
    assert IncrementalStart(lastOk, now) == Some(Min(last, now - Days(MinLookbackDays)));
  }
}

=== FILE: collector_model.dfy ===
/** The data collector's stored entities: a per-user, per-platform
    collection config, the raw records collected for it, and the attachments
    of each record. Stores are maps keyed by each table's natural key, so a
    uniqueness constraint on that key holds by construction; attachments are
    owned by their record value, so deleting a record deletes them with it
    (the foreign key's cascade). */
module CollectorModel {
  import opened Wrappers
  import opened Json

  /** Column widths the code truncates to before writing. */
  const SourceFileIdWidth: nat := 255
  const FileNameWidth: nat := 512
  const FileTypeWidth: nat := 128
  const FilePathWidth: nat := 1024

  /** One `RawDataAttachment` row. `sourceFileId` is the provider's file id,
      or `None` for an attachment the provider gave no id. */
  datatype Attachment = Attachment(
    uuid: string,
    sourceFileId: Option<string>,
    fileName: string,
    filePath: string,
    fileUrl: string,
    fileType: string,
    fileSize: int,
    fileMd5: string,
    sourceCreatedAt: Value,
    sourceUpdatedAt: Value)

  /** One `RawDataRecord` row without its natural key, which is the map key. */
  datatype Record = Record(
    uuid: string,
    rawData: Value,
    filterMetadata: Value,
    dataHash: Value,
    sourceCreatedAt: Value,
    sourceUpdatedAt: Value,
    firstCollectedAt: Option<int>,
    lastCollectedAt: Option<int>,
    isDeleted: bool,
    attachments: seq<Attachment>)

  /** The record's unique key (user, platform, source_unique_id). */
  datatype RecordKey = RecordKey(user: int, platform: string, sid: Value)

  type Records = map<RecordKey, Record>

  /** One `CollectorConfig` row. */
  datatype Config = Config(
    uuid: string,
    user: int,
    platform: string,
    key: string,
    value: Value,
    isEnabled: bool,
    version: int)

  /** A new config: `is_enabled` and `version` are writable fields, so a
      request may set them; the model's defaults (enabled, version 0) fill
      in the ones it leaves out. */
  function NewConfig(uuid: string, user: int, platform: string, key: string, value: Value,
                     isEnabled: Option<bool>, version: Option<int>): (c: Config)
    ensures isEnabled.None? ==> c.isEnabled
    ensures isEnabled.Some? ==> c.isEnabled == isEnabled.value
    ensures version.None? ==> c.version == 0
    ensures version.Some? ==> c.version == version.value
    ensures c.uuid == uuid && c.user == user && c.platform == platform && c.key == key && c.value == value
  {
    Config(uuid, user, platform, key, value, isEnabled.GetOr(true), version.GetOr(0))
  }

  /** A record as `get_or_create` makes it from a collected item: not
      deleted, no attachments, first and last sighting both `now`. */
  function NewRecord(uuid: string, rawData: Value, filterMetadata: Value, dataHash: Value,
                     createdAt: Value, updatedAt: Value, now: int): (r: Record)
    ensures !r.isDeleted && r.attachments == []
    ensures r.firstCollectedAt == Some(now) && r.lastCollectedAt == Some(now)
    ensures r.rawData == rawData && r.dataHash == dataHash
  {
    Record(uuid, rawData, filterMetadata, dataHash, createdAt, updatedAt, Some(now), Some(now), false, [])
  }

  /** The conditional unique constraint: within one record, no two rows share
      a non-null `source_file_id`; rows with a null id may repeat. */
  predicate AttachmentIdsUnique(rows: seq<Attachment>) {
    forall i, j :: 0 <= i < j < |rows| && rows[i].sourceFileId.Some? ==>
      rows[i].sourceFileId != rows[j].sourceFileId
  }

  /** The unique constraint on configs: one per (user, platform). */
  predicate ConfigsUnique(configs: map<string, Config>) {
    forall a, b ::
      (a in configs && b in configs && configs[a].user == configs[b].user
       && configs[a].platform == configs[b].platform) ==> a == b
  }

  /** Whether some config already holds (user, platform). */
  predicate HasConfigFor(configs: map<string, Config>, user: int, platform: string) {
    exists u :: u in configs && configs[u].user == user && configs[u].platform == platform
  }

  /** Null ids repeat freely: any number of id-less rows satisfy the
      constraint. */
  lemma NullIdsMayRepeat(rows: seq<Attachment>)
    requires forall i :: 0 <= i < |rows| ==> rows[i].sourceFileId.None?
    ensures AttachmentIdsUnique(rows)
  {
  }
}

=== FILE: config_update.dfy ===
/** The collector config serializer (data_collector/serializers.py):
    `validate_value` normalises an incoming `value`, and `update` applies a
    change under an optimistic version check, merging `value` shallowly,
    keeping the stored `runtime_state` and restoring blanked secrets. */
module ConfigUpdate {
  import opened Wrappers
  import opened Json
  import opened Text
  import opened CollectorModel

  const RuntimeKey: string := "runtime_state"
  const AuthKey: string := "auth"

  /** The six `runtime_state` timestamps, in the order the default lists them. */
  const RuntimeKeys: seq<string> := ["first_collect_at", "last_collect_start_at", "last_collect_end_at",
                                     "last_success_collect_at", "last_validate_at", "last_cleanup_at"]

  /** The secrets an update never blanks, in the order they are checked. */
  const SecretKeys: seq<string> := ["password", "api_token"]

  const ValueNotObject: string := "value must be a JSON object."
  const RuntimeNotObject: string := "value.runtime_state must be a JSON object."

  /** `_default_runtime_state()`: every timestamp null. */
  function DefaultRuntime(): (m: map<string, Value>)
    ensures m.Keys == set k | k in RuntimeKeys
    ensures forall k :: k in m ==> m[k] == Null
  {
    map k | k in RuntimeKeys :: Null
  }

  /** The missing timestamps filled in with null; the others kept. */
  function FillRuntime(rt: map<string, Value>): (r: map<string, Value>)
    ensures r.Keys == rt.Keys + (set k | k in RuntimeKeys)
    ensures forall k :: k in rt ==> r[k] == rt[k]
    ensures forall k :: k in r && k !in rt ==> r[k] == Null
  {
    map k | k in rt.Keys + (set k | k in RuntimeKeys) :: if k in rt then rt[k] else Null
  }

  /** `validate_value`: null becomes `{}`; anything but an object is
      refused; a non-object `runtime_state` is refused, a missing or null
      one becomes the default, and an object one gains the missing keys. */
  function ValidateValue(data: Value): (r: Result<map<string, Value>, string>)
    ensures r.Err? <==> (data != Null && !data.Obj?)
                        || (data.Obj? && Get(data.fields, RuntimeKey) != Null && !Get(data.fields, RuntimeKey).Obj?)
    ensures r.Err? && !data.Obj? ==> r.error == ValueNotObject
    ensures r.Err? && data.Obj? ==> r.error == RuntimeNotObject
    ensures r.Ok? ==> RuntimeComplete(r.value)
    ensures r.Ok? && data.Obj? ==>
              r.value.Keys == data.fields.Keys + {RuntimeKey}
              && forall k :: k in data.fields && k != RuntimeKey ==> r.value[k] == data.fields[k]
  {
    var d := if data == Null then map[] else if data.Obj? then data.fields else map[];
    if data != Null && !data.Obj? then Err(ValueNotObject)
    else
      var runtime := Get(d, RuntimeKey);
      if runtime != Null && !runtime.Obj? then Err(RuntimeNotObject)
      else if runtime == Null then Ok(d[RuntimeKey := Obj(DefaultRuntime())])
      else Ok(d[RuntimeKey := Obj(FillRuntime(runtime.fields))])
  }

  /** A value whose `runtime_state` is an object holding all six keys. */
  predicate RuntimeComplete(v: map<string, Value>) {
    RuntimeKey in v && v[RuntimeKey].Obj? && forall k :: k in RuntimeKeys ==> k in v[RuntimeKey].fields
  }

  /** Validating an already validated value changes nothing. */
  lemma ValidateValueIdempotent(data: Value)
    requires ValidateValue(data).Ok?
    ensures ValidateValue(Obj(ValidateValue(data).value)) == ValidateValue(data)
  {
    var v := ValidateValue(data).value;
    var rt := v[RuntimeKey].fields;
    assert FillRuntime(rt) == rt;
    assert v[RuntimeKey := Obj(rt)] == v;
  }

  // ---- update ----------------------------------------------------------------

  /** The fields a request may carry; `value` is already validated. */
  datatype UpdateRequest = UpdateRequest(
    version: Option<int>,
    value: Option<map<string, Value>>,
    platform: Option<string>,
    key: Option<string>,
    isEnabled: Option<bool>)

  /** `Conflict` is the 409 for a stale version; `Crash` an exception the
      code does not catch. */
  datatype UpdateError = Conflict | Crash

  /** Whether a secret reads as blank: `not (v or "").strip()`. `None` when
      a truthy non-string makes `.strip()` raise. */
  function Blank(v: Value): (r: Option<bool>)
    ensures !Truthy(v) ==> r == Some(true)
    ensures v.Str? ==> r == Some(AllSpace(v.s))
    ensures r.None? <==> Truthy(v) && !v.Str?
  {
    if !Truthy(v) then Some(true)
    else if v.Str? then StripEmptyIffAllSpace(v.s); Some(Strip(v.s) == "")
    else None
  }

  /** The restore loop over `keys`: a secret blank after the merge takes the
      stored value, or `""` when there is none. */
  function RestoreSecrets(merged: map<string, Value>, current: map<string, Value>, keys: seq<string>)
    : (r: Option<map<string, Value>>)
    ensures r.Some? ==> r.value.Keys == merged.Keys + (set k | k in keys)
    ensures r.Some? ==> forall k :: k in merged && k !in keys ==> r.value[k] == merged[k]
    decreases |keys|
  {
    if |keys| == 0 then Some(merged)
    else
      match Blank(Get(merged, keys[0]))
      case None => None
      case Some(blank) =>
        var m := if blank then merged[keys[0] := Or(Get(current, keys[0]), Str(""))] else merged;
        RestoreSecrets(m, current, keys[1..])
  }

  /** The new `value` of an update: `None` when the code raises. */
  function MergeValue(current: map<string, Value>, incoming: map<string, Value>): (r: Option<map<string, Value>>)
    ensures r.Some? ==> r.value.Keys == current.Keys + incoming.Keys + {RuntimeKey}
  {
    var merged := Merge(current, incoming)[RuntimeKey := Or(Get(current, RuntimeKey), Obj(DefaultRuntime()))];
    var currentAuth := Or(Get(current, AuthKey), EmptyObj);
    var incomingAuth := Get(incoming, AuthKey);
    if incomingAuth.Obj? && currentAuth.Obj? then
      match RestoreSecrets(Merge(currentAuth.fields, incomingAuth.fields), currentAuth.fields, SecretKeys)
      case None => None
      case Some(auth) => Some(merged[AuthKey := Obj(auth)])
    else Some(merged)
  }

  /** `CollectorConfigSerializer.update`. */
  function Update(c: Config, req: UpdateRequest): (r: Result<Config, UpdateError>)
    ensures (r.Err? && r.error == Conflict) <==> req.version.Some? && req.version.value != c.version
    ensures r.Ok? ==> r.value.version == c.version + 1
    ensures r.Ok? ==> r.value.uuid == c.uuid && r.value.user == c.user
    ensures r.Ok? ==> r.value.platform == req.platform.GetOr(c.platform)
                      && r.value.key == req.key.GetOr(c.key)
                      && r.value.isEnabled == req.isEnabled.GetOr(c.isEnabled)
    ensures r.Ok? && req.value.None? ==> r.value.value == c.value
  {
    if req.version.Some? && req.version.value != c.version then Err(Conflict)
    else
      var value :- NewValue(c, req);
      Ok(Config(c.uuid, c.user, req.platform.GetOr(c.platform), req.key.GetOr(c.key), value,
                req.isEnabled.GetOr(c.isEnabled), c.version + 1))
  }

  /** The `value` an update leaves: the stored one when the request has
      none, else the merge; `instance.value or {}` that is not an object
      makes the merge raise. */
  function NewValue(c: Config, req: UpdateRequest): (r: Result<Value, UpdateError>)
    ensures r.Err? ==> r.error == Crash
    ensures req.value.None? ==> r == Ok(c.value)
  {
    match req.value
    case None => Ok(c.value)
    case Some(incoming) =>
      var current := Or(c.value, EmptyObj);
      if !current.Obj? then Err(Crash)
      else match MergeValue(current.fields, incoming)
        case None => Err(Crash)
        case Some(m) => Ok(Obj(m))
  }

  /** Keys other than `runtime_state` and `auth` merge shallowly: the
      request's value wins and stored keys it does not mention survive. */
  lemma UpdateMergesShallowly(c: Config, req: UpdateRequest, k: string)
    requires Update(c, req).Ok? && req.value.Some?
    requires k != RuntimeKey && k != AuthKey
    ensures var current := Or(c.value, EmptyObj);
            var v := Update(c, req).value.value;
            current.Obj? && v.Obj?
            && (k in v.fields <==> k in current.fields || k in req.value.value)
            && (k in req.value.value ==> v.fields[k] == req.value.value[k])
            && (k in current.fields && k !in req.value.value ==> v.fields[k] == current.fields[k])
  {
  }

  /** The client cannot set `runtime_state`: an update keeps the stored one,
      or the all-null default when none is stored. */
  lemma UpdateKeepsRuntime(c: Config, req: UpdateRequest)
    requires Update(c, req).Ok? && req.value.Some?
    ensures var current := Or(c.value, EmptyObj);
            var v := Update(c, req).value.value;
            current.Obj? && v.Obj? && RuntimeKey in v.fields
            && v.fields[RuntimeKey] == Or(Get(current.fields, RuntimeKey), Obj(DefaultRuntime()))
  {
  }

  /** With both `auth`s objects, the secrets come out of the merge, unless
      they are blank there, and then from the stored `auth` (or `""`). Every
      other `auth` key is the key-by-key merge. */
  lemma UpdateRestoresSecrets(c: Config, req: UpdateRequest, k: string)
    requires Update(c, req).Ok? && req.value.Some?
    requires Or(c.value, EmptyObj).Obj?
    requires Get(req.value.value, AuthKey).Obj?
    requires Or(Get(Or(c.value, EmptyObj).fields, AuthKey), EmptyObj).Obj?
    ensures var stored := Or(Get(Or(c.value, EmptyObj).fields, AuthKey), EmptyObj).fields;
            var merged := Merge(stored, Get(req.value.value, AuthKey).fields);
            var v := Update(c, req).value.value;
            v.Obj? && AuthKey in v.fields && v.fields[AuthKey].Obj?
            && var auth := v.fields[AuthKey].fields;
               (k in SecretKeys ==>
                  k in auth
                  && (Blank(Get(merged, k)) == Some(true) ==> auth[k] == Or(Get(stored, k), Str("")))
                  && (Blank(Get(merged, k)) == Some(false) ==> auth[k] == merged[k]))
               && (k !in SecretKeys ==> (k in auth <==> k in merged) && (k in merged ==> auth[k] == merged[k]))
  {
    var stored := Or(Get(Or(c.value, EmptyObj).fields, AuthKey), EmptyObj).fields;
    var merged := Merge(stored, Get(req.value.value, AuthKey).fields);
    RestoreTwo(merged, stored, k);
  }

  /** The two-key restore loop, unrolled. */
  lemma RestoreTwo(merged: map<string, Value>, stored: map<string, Value>, k: string)
    requires RestoreSecrets(merged, stored, SecretKeys).Some?
    ensures var auth := RestoreSecrets(merged, stored, SecretKeys).value;
            (k in SecretKeys ==>
               k in auth
               && (Blank(Get(merged, k)) == Some(true) ==> auth[k] == Or(Get(stored, k), Str("")))
               && (Blank(Get(merged, k)) == Some(false) ==> auth[k] == merged[k]))
            && (k !in SecretKeys ==> (k in auth <==> k in merged) && (k in merged ==> auth[k] == merged[k]))
  {
    var k0 := SecretKeys[0];
    var b0 := Blank(Get(merged, k0)).value;
    var m1 := if b0 then merged[k0 := Or(Get(stored, k0), Str(""))] else merged;
    var k1 := SecretKeys[1];
    var b1 := Blank(Get(m1, k1)).value;
    var m2 := if b1 then m1[k1 := Or(Get(stored, k1), Str(""))] else m1;
    assert SecretKeys[1..][1..] == [];
    assert RestoreSecrets(merged, stored, SecretKeys) == RestoreSecrets(m1, stored, SecretKeys[1..]);
    assert RestoreSecrets(m1, stored, SecretKeys[1..]) == RestoreSecrets(m2, stored, []);
    assert Get(m1, k1) == Get(merged, k1);
  }

  /** An update that leaves a stored, non-blank password out of its `auth`
      keeps it. */
  lemma OmittedPasswordSurvives(c: Config, req: UpdateRequest)
    requires Update(c, req).Ok? && req.value.Some?
    requires Or(c.value, EmptyObj).Obj?
    requires Get(req.value.value, AuthKey).Obj? && "password" !in Get(req.value.value, AuthKey).fields
    requires Or(Get(Or(c.value, EmptyObj).fields, AuthKey), EmptyObj).Obj?
    ensures var stored := Or(Get(Or(c.value, EmptyObj).fields, AuthKey), EmptyObj).fields;
            var v := Update(c, req).value.value;
            v.Obj? && AuthKey in v.fields && v.fields[AuthKey].Obj?
            && Get(v.fields[AuthKey].fields, "password") == Or(Get(stored, "password"), Str(""))
  {
    var stored := Or(Get(Or(c.value, EmptyObj).fields, AuthKey), EmptyObj).fields;
    var merged := Merge(stored, Get(req.value.value, AuthKey).fields);
    UpdateRestoresSecrets(c, req, "password");
    assert Get(merged, "password") == Get(stored, "password");
  }
}

=== FILE: config_views.dfy ===
/** The request rules of the collector config endpoints
    (data_collector/views/config.py): the manual collect trigger, config
    creation with its uniqueness error, update and delete kept in step with
    the scheduler, the two credential checks and the validate trigger. */
module ConfigViews {
  import opened Wrappers
  import opened Json
  import opened Text
  import opened CollectorModel
  import opened Stamps
  import CollectWindow
  import ConfigUpdate
  import BeatSync
  import Providers
  import Jira

  const BadRequest: int := 400
  const Okay: int := 200

  const BoundsTogether: string := "start_time and end_time must be provided together."
  const BoundsUnreadable: string := "start_time and end_time must be valid ISO8601 datetime."
  const BoundsOrder: string := "start_time must be before end_time."
  const RangeTooLong: string := "Collect range must not exceed 3 months (90 days)."
  const BoundsRequired: string := "start_time and end_time are required."
  const PlatformRequired: string := "platform is required."
  const ValueRequired: string := "value is required."
  const UnknownPlatform: string := "Unknown platform."
  const ConnectionOk: string := "Connection OK."
  const AuthFailed: string := "Authentication failed."

  /** The longest manual range, in whole days. */
  const MaxRangeDays: int := 90

  /** The name of the (user, platform) unique constraint. */
  const UniqueConstraint: string := "data_collector_config_user_platform_uniq"

  /** What a trigger endpoint answers: 404, a 400 with a message, a raised
      exception (500), or 202 with the queued task's keyword arguments. */
  datatype Trigger = NotFound | Invalid(message: string) | Crash | Queued(kwargs: map<string, Value>)

  /** `get_object_or_404(CollectorConfig, uuid=uuid, user=user)`. */
  function Lookup(configs: map<string, Config>, user: int, uuid: string): (r: Option<Config>)
    ensures r.Some? <==> uuid in configs && configs[uuid].user == user
    ensures r.Some? ==> r.value == configs[uuid]
  {
    if uuid in configs && configs[uuid].user == user then Some(configs[uuid]) else None
  }

  /** `parse_datetime` on a request value: `parse` reads text as an instant
      or `None`; a non-text value makes it raise, given as `Err`. Naive
      times are made aware by `parse` itself. */
  function ParseBound(v: Value, parse: string -> Option<int>): Result<Option<int>, string> {
    if v.Str? then Ok(parse(v.s)) else Err("TypeError")
  }

  /** `timedelta.days` of a positive difference: whole days, rounded down. */
  function WholeDays(seconds: int): (d: int)
    requires seconds > 0
    ensures d >= 0 && Days(d) <= seconds < Days(d + 1)
  {
    seconds / Calendar.SecondsPerDay
  }

  /** The keyword arguments of the queued collect: the config uuid, and the
      bounds as sent only when both are present. */
  function CollectKwargs(uuid: string, start: Value, end: Value): (k: map<string, Value>)
    ensures "config_uuid" in k && k["config_uuid"] == Str(uuid)
    ensures ("start_time" in k || "end_time" in k) <==> start != Null && end != Null
    ensures "start_time" in k ==> "end_time" in k && k["start_time"] == start && k["end_time"] == end
    ensures k.Keys <= {"config_uuid", "start_time", "end_time"}
  {
    var base := map["config_uuid" := Str(uuid)];
    if start != Null && end != Null then base["start_time" := start]["end_time" := end] else base
  }

  /** The bound checks of `collect`: `None` when the request passes them. */
  function CheckBounds(start: Value, end: Value, parse: string -> Option<int>): (r: Option<Trigger>)
    ensures r.Some? ==> r.value.Invalid? || r.value.Crash?
    ensures start == Null && end == Null ==> r.None?
    ensures (start != Null || end != Null) && (!Truthy(start) || !Truthy(end)) ==>
              r == Some(Invalid(BoundsTogether))
  {
    if start == Null && end == Null then None
    else if !Truthy(start) || !Truthy(end) then Some(Invalid(BoundsTogether))
    else
      var ps := ParseBound(start, parse);
      var pe := ParseBound(end, parse);
      if ps.Err? || pe.Err? then Some(Crash)
      else if ps.value.None? || pe.value.None? then Some(Invalid(BoundsUnreadable))
      else if ps.value.value >= pe.value.value then Some(Invalid(BoundsOrder))
      else if WholeDays(pe.value.value - ps.value.value) > MaxRangeDays then Some(Invalid(RangeTooLong))
      else None
  }

  /** The `collect` action: look the config up, check the bounds, queue the
      task. */
  function CollectView(configs: map<string, Config>, user: int, uuid: string,
                       data: map<string, Value>, parse: string -> Option<int>): (r: Trigger)
    ensures Lookup(configs, user, uuid).None? ==> r == NotFound
    ensures r.Queued? ==> r.kwargs == CollectKwargs(uuid, Get(data, "start_time"), Get(data, "end_time"))
  {
    if Lookup(configs, user, uuid).None? then NotFound
    else
      var start := Get(data, "start_time");
      var end := Get(data, "end_time");
      match CheckBounds(start, end, parse)
      case Some(t) => t
      case None => Queued(CollectKwargs(uuid, start, end))
  }

  /** A manual range is queued exactly when both bounds read as instants,
      the start is before the end, and they are less than 91 whole days
      apart; a request with no bounds is always queued. */
  lemma CollectAcceptsExactly(configs: map<string, Config>, user: int, uuid: string,
                              data: map<string, Value>, parse: string -> Option<int>, s: string, e: string)
    requires Lookup(configs, user, uuid).Some?
    requires Get(data, "start_time") == Str(s) && Get(data, "end_time") == Str(e)
    requires |s| > 0 && |e| > 0
    ensures CollectView(configs, user, uuid, data, parse).Queued? <==>
              parse(s).Some? && parse(e).Some? && parse(s).value < parse(e).value
              && parse(e).value - parse(s).value < Days(MaxRangeDays + 1)
  {
    assert CollectView(configs, user, uuid, data, parse).Queued? <==> CheckBounds(Str(s), Str(e), parse).None?;
    CheckBoundsText(s, e, parse);
  }

  lemma CheckBoundsText(s: string, e: string, parse: string -> Option<int>)
    requires |s| > 0 && |e| > 0
    ensures CheckBounds(Str(s), Str(e), parse).None? <==>
              parse(s).Some? && parse(e).Some? && parse(s).value < parse(e).value
              && parse(e).value - parse(s).value < Days(MaxRangeDays + 1)
  {
    var ps := parse(s);
    var pe := parse(e);
    assert ParseBound(Str(s), parse) == Ok(ps) && ParseBound(Str(e), parse) == Ok(pe);
    if ps.Some? && pe.Some? && ps.value < pe.value {
      assert CheckBounds(Str(s), Str(e), parse).None? <==> WholeDays(pe.value - ps.value) <= MaxRangeDays;
      WholeDaysBound(pe.value - ps.value);
    }
  }

  /** At most 90 whole days is less than 91 days of seconds. */
  lemma WholeDaysBound(x: int)
    requires x > 0
    ensures WholeDays(x) <= MaxRangeDays <==> x < Days(MaxRangeDays + 1)
  {
    var d := WholeDays(x);
    if d <= MaxRangeDays {
      assert Days(d + 1) <= Days(MaxRangeDays + 1);
    } else {
      assert Days(MaxRangeDays + 1) <= Days(d);
    }
  }

  /** Giving only one bound, or an empty one, is refused before anything is
      parsed. */
  lemma OneBoundRejected(configs: map<string, Config>, user: int, uuid: string, data: map<string, Value>,
                         parse: string -> Option<int>)
    requires Lookup(configs, user, uuid).Some?
    requires Get(data, "start_time") != Null || Get(data, "end_time") != Null
    requires !Truthy(Get(data, "start_time")) || !Truthy(Get(data, "end_time"))
    ensures CollectView(configs, user, uuid, data, parse) == Invalid(BoundsTogether)
  {
  }

  /** A range the view queues is the range the collect job scans: the job
      reads both bounds as given and accepts them. */
  lemma QueuedRangeIsScanned(configs: map<string, Config>, user: int, uuid: string,
                             data: map<string, Value>, parse: string -> Option<int>,
                             value: map<string, Value>, now: int)
    requires forall t :: parse(t) == ParseStamp(t)
    requires CollectView(configs, user, uuid, data, parse).Queued?
    requires Get(data, "start_time") != Null
    ensures var k := CollectView(configs, user, uuid, data, parse).kwargs;
            k["start_time"].Str? && k["end_time"].Str?
            && var s := k["start_time"].s;
               var e := k["end_time"].s;
               ParseStamp(s).Some? && ParseStamp(e).Some?
               && CollectWindow.ComputeWindow(value, Some(s), Some(e), now)
                  == CollectWindow.Scan(CollectWindow.Window(ParseStamp(s).value, ParseStamp(e).value))
  {
    var start := Get(data, "start_time");
    var end := Get(data, "end_time");
    assert CheckBounds(start, end, parse).None?;
  }

  /** How `perform_create` reads an `IntegrityError`: a uniqueness
      violation becomes a validation error on `platform`, anything else is
      raised again. */
  function IsUniqueViolation(errText: string): (r: bool)
    ensures Has(errText, UniqueConstraint) ==> r
    ensures r <==> Has(errText, UniqueConstraint) || Has(Lower(errText), "unique")
  {
    Has(errText, UniqueConstraint) || Has(Lower(errText), "unique")
  }

  /** The outcome of a write endpoint. */
  datatype Saved = Saved(configs: map<string, Config>, beat: BeatSync.Beat)
                 | PlatformTaken
                 | VersionConflict
                 | WriteInvalid(message: string)
                 | WriteCrash

  /** `perform_create`: inside one transaction, save the new config and
      register its scheduler tasks. The request may set `is_enabled` and
      `version` (None when it leaves them out). The database refuses a
      second config for the same (user, platform) with an error whose text
      the backend chooses (`errText`). Any failure rolls the whole step
      back. */
  function Create(configs: map<string, Config>, beat: BeatSync.Beat, uuid: string, user: int,
                  platform: string, key: string, data: Value, isEnabled: Option<bool>,
                  version: Option<int>, errText: string): (r: Saved)
    requires uuid !in configs
    ensures r.Saved? ==> !HasConfigFor(configs, user, platform)
    ensures r.Saved? ==> uuid in r.configs && r.configs == configs[uuid := r.configs[uuid]]
                         && r.configs[uuid].uuid == uuid
                         && r.configs[uuid].user == user && r.configs[uuid].platform == platform
                         && r.configs[uuid].isEnabled == isEnabled.GetOr(true)
                         && r.configs[uuid].version == version.GetOr(0)
                         && BeatSync.Sync(beat, r.configs[uuid]) == Some(r.beat)
    ensures r.PlatformTaken? <==> ConfigUpdate.ValidateValue(data).Ok? && HasConfigFor(configs, user, platform)
                                  && IsUniqueViolation(errText)
  {
    match ConfigUpdate.ValidateValue(data)
    case Err(msg) => WriteInvalid(msg)
    case Ok(v) =>
      if HasConfigFor(configs, user, platform) then
        if IsUniqueViolation(errText) then PlatformTaken else WriteCrash
      else
        var c := NewConfig(uuid, user, platform, key, Obj(v), isEnabled, version);
        match BeatSync.Sync(beat, c)
        case None => WriteCrash
        case Some(b) => Saved(configs[uuid := c], b)
  }

  /** A config created disabled gets its scheduler tasks written disabled. */
  lemma CreateDisabledSyncsDisabled(configs: map<string, Config>, beat: BeatSync.Beat, uuid: string, user: int,
                                    platform: string, key: string, data: Value, version: Option<int>,
                                    errText: string)
    requires uuid !in configs
    ensures var r := Create(configs, beat, uuid, user, platform, key, data, Some(false), version, errText);
            r.Saved? ==> !r.configs[uuid].isEnabled
                         && BeatSync.CollectPrefix + uuid in r.beat.tasks
                         && !r.beat.tasks[BeatSync.CollectPrefix + uuid].enabled
                         && BeatSync.CleanupPrefix + uuid in r.beat.tasks
                         && !r.beat.tasks[BeatSync.CleanupPrefix + uuid].enabled
  {
  }

  /** Creation keeps the one-config-per-platform rule. */
  lemma CreateKeepsConfigsUnique(configs: map<string, Config>, beat: BeatSync.Beat, uuid: string, user: int,
                                 platform: string, key: string, data: Value, isEnabled: Option<bool>,
                                 version: Option<int>, errText: string)
    requires uuid !in configs && ConfigsUnique(configs)
    ensures var r := Create(configs, beat, uuid, user, platform, key, data, isEnabled, version, errText);
            r.Saved? ==> ConfigsUnique(r.configs)
  {
    var r := Create(configs, beat, uuid, user, platform, key, data, isEnabled, version, errText);
    if r.Saved? {
      InsertKeepsUnique(configs, uuid, r.configs[uuid]);
    }
  }

  lemma InsertKeepsUnique(configs: map<string, Config>, uuid: string, c: Config)
    requires uuid !in configs && ConfigsUnique(configs) && !HasConfigFor(configs, c.user, c.platform)
    ensures ConfigsUnique(configs[uuid := c])
  {
    var m := configs[uuid := c];
    forall a, b | a in m && b in m && m[a].user == m[b].user && m[a].platform == m[b].platform
      ensures a == b
    {
    }
  }

  /** `perform_update`: save the serializer's update and re-sync the
      scheduler, in one transaction. A stale `version` is answered with
      409 before anything is written. A save that moves the config onto a
      platform another config of its user already has breaks the
      (user, platform) constraint; that `IntegrityError` is not caught, so
      the request fails and the transaction rolls back. */
  function UpdateView(configs: map<string, Config>, beat: BeatSync.Beat, uuid: string,
                      req: ConfigUpdate.UpdateRequest): (r: Saved)
    requires uuid in configs
    ensures r.Saved? ==> uuid in r.configs && r.configs == configs[uuid := r.configs[uuid]]
                         && r.configs[uuid].version == configs[uuid].version + 1
                         && !HasConfigFor(configs - {uuid}, r.configs[uuid].user, r.configs[uuid].platform)
                         && BeatSync.Sync(beat, r.configs[uuid]) == Some(r.beat)
    ensures r.VersionConflict? <==> req.version.Some? && req.version.value != configs[uuid].version
    ensures ConfigUpdate.Update(configs[uuid], req).Ok?
            && HasConfigFor(configs - {uuid}, configs[uuid].user, ConfigUpdate.Update(configs[uuid], req).value.platform)
            ==> r.WriteCrash?
  {
    match ConfigUpdate.Update(configs[uuid], req)
    case Err(e) => if e == ConfigUpdate.Conflict then VersionConflict else WriteCrash
    case Ok(c) => Commit(configs, beat, uuid, c)
  }

  /** Updates keep the one-config-per-platform rule, platform switches
      included. */
  lemma UpdateKeepsConfigsUnique(configs: map<string, Config>, beat: BeatSync.Beat, uuid: string,
                                 req: ConfigUpdate.UpdateRequest)
    requires uuid in configs && ConfigsUnique(configs)
    ensures var r := UpdateView(configs, beat, uuid, req);
            r.Saved? ==> ConfigsUnique(r.configs)
  {
    var r := UpdateView(configs, beat, uuid, req);
    if r.Saved? {
      ReplaceKeepsUnique(configs, uuid, r.configs[uuid]);
    }
  }

  lemma ReplaceKeepsUnique(configs: map<string, Config>, uuid: string, c: Config)
    requires uuid in configs && ConfigsUnique(configs) && !HasConfigFor(configs - {uuid}, c.user, c.platform)
    ensures ConfigsUnique(configs[uuid := c])
  {
    var rest := configs - {uuid};
    assert forall x :: x in rest ==> rest[x].user != c.user || rest[x].platform != c.platform;
    var m := configs[uuid := c];
    assert forall x :: x in m && x != uuid ==> x in rest && m[x] == rest[x] && m[x] == configs[x];
  }

  /** Store the saved config and re-sync its scheduler tasks. The save
      raises when another config of the user already has the platform, and
      a failing sync undoes the save. */
  function Commit(configs: map<string, Config>, beat: BeatSync.Beat, uuid: string, c: Config): (r: Saved)
    ensures r.Saved? || r.WriteCrash?
    ensures r.Saved? <==> !HasConfigFor(configs - {uuid}, c.user, c.platform) && BeatSync.Sync(beat, c).Some?
    ensures r.Saved? ==> r.configs == configs[uuid := c] && BeatSync.Sync(beat, c) == Some(r.beat)
  {
    if HasConfigFor(configs - {uuid}, c.user, c.platform) then WriteCrash
    else
      match BeatSync.Sync(beat, c)
      case None => WriteCrash
      case Some(b) => Saved(configs[uuid := c], b)
  }

  /** `perform_destroy`: remove the scheduler tasks and the config. */
  function Destroy(configs: map<string, Config>, beat: BeatSync.Beat, uuid: string): (r: Saved)
    requires uuid in configs
    ensures r.Saved? && r.configs.Keys == configs.Keys - {uuid}
    ensures forall u :: u in r.configs ==> r.configs[u] == configs[u]
    ensures r.beat == BeatSync.Unsync(beat, uuid)
  {
    Saved(configs - {uuid}, BeatSync.Unsync(beat, uuid))
  }

  /** A config created and then deleted leaves the configs and the
      scheduler's tasks as they were, when the uuid had no tasks. */
  lemma DestroyUndoesCreate(configs: map<string, Config>, beat: BeatSync.Beat, uuid: string, user: int,
                            platform: string, key: string, data: Value, isEnabled: Option<bool>,
                            version: Option<int>, errText: string)
    requires uuid !in configs
    requires BeatSync.CollectPrefix + uuid !in beat.tasks && BeatSync.CleanupPrefix + uuid !in beat.tasks
    requires Create(configs, beat, uuid, user, platform, key, data, isEnabled, version, errText).Saved?
    ensures var c := Create(configs, beat, uuid, user, platform, key, data, isEnabled, version, errText);
            var d := Destroy(c.configs, c.beat, uuid);
            d.configs == configs && d.beat.tasks == beat.tasks
  {
    var c := Create(configs, beat, uuid, user, platform, key, data, isEnabled, version, errText);
    var n := c.configs[uuid];
    BeatSync.UnsyncAfterSync(beat, n);
    RemoveAfterInsert(configs, uuid, n);
  }

  lemma RemoveAfterInsert(m: map<string, Config>, k: string, v: Config)
    requires k !in m
    ensures m[k := v] - {k} == m
  {
    assert (m[k := v] - {k}).Keys == m.Keys;
  }

  /** The credentials handed to `authenticate`: the value's `auth` object,
      with a truthy top-level `base_url`, or else the auth's own, folded in.
      `None` when `auth` is set to something that is not an object, where
      the code raises. */
  function AuthConfig(value: map<string, Value>): (r: Option<map<string, Value>>)
    ensures r.None? <==> !Or(Get(value, "auth"), EmptyObj).Obj?
    ensures r.Some? ==> var auth := Or(Get(value, "auth"), EmptyObj).fields;
                        (forall k :: k in auth && k != "base_url" ==> k in r.value && r.value[k] == auth[k])
                        && (Truthy(Get(value, "base_url")) ==> r.value == auth["base_url" := Get(value, "base_url")])
                        && (!Truthy(Get(value, "base_url")) ==> r.value == auth)
  {
    var auth := Or(Get(value, "auth"), EmptyObj);
    if !auth.Obj? then None
    else
      var base := Or(Get(value, "base_url"), Get(auth.fields, "base_url"));
      if Truthy(base) then Some(auth.fields["base_url" := base]) else Some(auth.fields)
  }

  /** What a credential check answers. */
  datatype Check = Check(status: int, valid: bool, message: string) | CheckCrash

  /** `get_provider` on a request value: text is looked up; other hashable
      values find nothing; a list or dict makes the lookup raise. */
  function ProviderOf(platform: Value): Result<Option<Providers.Kind>, string> {
    match platform
    case Str(s) => Ok(Providers.GetProvider(s))
    case List(_) => Err("TypeError")
    case Obj(_) => Err("TypeError")
    case _ => Ok(None)
  }

  /** The provider's verdict as the response reports it. */
  function Authenticated(kind: Providers.Kind, auth: map<string, Value>, server: Jira.Server): (r: Check)
    ensures r.Check? && r.status == Okay
    ensures r.valid == Providers.Authenticate(kind, auth, server)
    ensures r.message == (if r.valid then ConnectionOk else AuthFailed)
  {
    var ok := Providers.Authenticate(kind, auth, server);
    Check(Okay, ok, if ok then ConnectionOk else AuthFailed)
  }

  /** `validate_config_payload`: check credentials before a config exists. */
  function ValidatePayload(data: map<string, Value>, server: Jira.Server): (r: Check)
    ensures !Truthy(Get(data, "platform")) ==> r == Check(BadRequest, false, PlatformRequired)
    ensures Truthy(Get(data, "platform")) && Get(data, "value") == Null ==>
              r == Check(BadRequest, false, ValueRequired)
    ensures r.Check? && r.valid ==>
              r.status == Okay && Get(data, "platform").Str?
              && Get(data, "value").Obj? && AuthConfig(Get(data, "value").fields).Some?
              && Providers.GetProvider(Get(data, "platform").s).Some?
              && Providers.Authenticate(Providers.GetProvider(Get(data, "platform").s).value,
                                        AuthConfig(Get(data, "value").fields).value, server)
  {
    var platform := Get(data, "platform");
    var value := Get(data, "value");
    if !Truthy(platform) then Check(BadRequest, false, PlatformRequired)
    else if value == Null then Check(BadRequest, false, ValueRequired)
    else if !value.Obj? then CheckCrash
    else match (AuthConfig(value.fields), ProviderOf(platform))
      case (Some(auth), Ok(Some(kind))) => Authenticated(kind, auth, server)
      case (Some(_), Ok(None)) => Check(Okay, false, UnknownPlatform)
      case _ => CheckCrash
  }

  /** An unregistered platform name is reported invalid, never an error. */
  lemma UnknownPlatformInvalid(data: map<string, Value>, server: Jira.Server, name: string)
    requires Get(data, "platform") == Str(name) && |name| > 0 && name !in {"jira", "feishu"}
    requires Get(data, "value").Obj? && AuthConfig(Get(data, "value").fields).Some?
    ensures ValidatePayload(data, server) == Check(Okay, false, UnknownPlatform)
  {
  }

  /** `validate_config` on a stored config: the same check on its value. */
  function ValidateStored(configs: map<string, Config>, user: int, uuid: string, server: Jira.Server)
    : (r: Option<Check>)
    ensures r.None? <==> Lookup(configs, user, uuid).None?
    ensures r.Some? && r.value.Check? && r.value.valid ==>
              var value := Or(configs[uuid].value, EmptyObj);
              value.Obj? && AuthConfig(value.fields).Some?
              && Providers.GetProvider(configs[uuid].platform).Some?
              && Providers.Authenticate(Providers.GetProvider(configs[uuid].platform).value,
                                        AuthConfig(value.fields).value, server)
  {
    match Lookup(configs, user, uuid)
    case None => None
    case Some(c) =>
      var value := Or(c.value, EmptyObj);
      if !value.Obj? then Some(CheckCrash)
      else match (AuthConfig(value.fields), Providers.GetProvider(c.platform))
        case (None, _) => Some(CheckCrash)
        case (Some(_), None) => Some(Check(Okay, false, UnknownPlatform))
        case (Some(auth), Some(kind)) => Some(Authenticated(kind, auth, server))
  }

  /** The `validate` action: both bounds are required, and are passed on
      unread. */
  function ValidateView(configs: map<string, Config>, user: int, uuid: string,
                        data: map<string, Value>): (r: Trigger)
    ensures Lookup(configs, user, uuid).None? ==> r == NotFound
    ensures Lookup(configs, user, uuid).Some? ==>
              (r == Invalid(BoundsRequired) <==> !Truthy(Get(data, "start_time")) || !Truthy(Get(data, "end_time")))
    ensures r.Queued? ==> r.kwargs.Keys == {"config_uuid", "start_time", "end_time"}
                          && r.kwargs["start_time"] == Get(data, "start_time")
                          && r.kwargs["end_time"] == Get(data, "end_time")
  {
    if Lookup(configs, user, uuid).None? then NotFound
    else
      var start := Get(data, "start_time");
      var end := Get(data, "end_time");
      if !Truthy(start) || !Truthy(end) then Invalid(BoundsRequired)
      else Queued(map["config_uuid" := Str(uuid), "start_time" := start, "end_time" := end])
  }
}

=== FILE: content_filter.dfy ===
/** The keyword filter shared by the content collectors
    (core/utils/content_filter.py): whether a text contains one of the
    filtered words or phrases, and which fields of an item do.

    The regular expressions are stated as predicates over positions. What
    `\w` counts as a word character is a parameter `isWord`, so `\b` and
    `\W` are read through it. */
module ContentFilter {
  import opened Wrappers
  import opened Text

  /** `[a-zA-Z]`. */
  predicate IsLetter(c: char) {
    'a' <= c <= 'z' || 'A' <= c <= 'Z'
  }

  /** The character before index `i` is a word character. */
  predicate WordBefore(t: string, i: int, isWord: char -> bool) {
    0 < i <= |t| && isWord(t[i - 1])
  }

  /** The character at index `i` is a word character. */
  predicate WordAt(t: string, i: int, isWord: char -> bool) {
    0 <= i < |t| && isWord(t[i])
  }

  /** `\b` at index `i`: a word character on exactly one side. */
  predicate Boundary(t: string, i: int, isWord: char -> bool) {
    WordBefore(t, i, isWord) != WordAt(t, i, isWord)
  }

  /** `(?=\W|$)` at index `j`: the text ends or a non-word character follows. */
  predicate EndsWord(t: string, j: int, isWord: char -> bool) {
    j == |t| || (0 <= j < |t| && !isWord(t[j]))
  }

  /** What `(?!-[a-zA-Z])` refuses at index `j`: a hyphen and then a letter. */
  predicate HyphenLetter(t: string, j: int) {
    0 <= j && j + 1 < |t| && t[j] == '-' && IsLetter(t[j + 1])
  }

  /** The single-word pattern `\b w (?!-[a-zA-Z]) (?=\W|$)` matches at `i`. */
  predicate StandaloneAt(t: string, w: string, i: int, isWord: char -> bool) {
    OccursAt(t, w, i) && Boundary(t, i, isWord)
    && !HyphenLetter(t, i + |w|) && EndsWord(t, i + |w|, isWord)
  }

  /** `re.search` of the single-word pattern, scanning the start positions
      from `from`. */
  function StandaloneFrom(t: string, w: string, from: nat, isWord: char -> bool): (r: bool)
    ensures r <==> exists i :: from <= i && StandaloneAt(t, w, i, isWord)
    decreases |t| - from
  {
    if from + |w| > |t| then false
    else if StandaloneAt(t, w, from, isWord) then true
    else StandaloneFrom(t, w, from + 1, isWord)
  }

  /** Whether the lower-cased text contains filter word `w`: a phrase (a
      word with a space) anywhere, a single word only standing alone. */
  predicate Hit(text: string, w: string, isWord: char -> bool) {
    var t := Lower(text);
    if ' ' in w then Has(t, Lower(w)) else StandaloneFrom(t, Lower(w), 0, isWord)
  }

  /** The index of the first non-empty word in `words` that `text` hits. */
  predicate FirstHit(text: string, words: seq<string>, k: int, isWord: char -> bool) {
    0 <= k < |words| && |words[k]| > 0 && Hit(text, words[k], isWord)
    && forall j :: 0 <= j < k && |words[j]| > 0 ==> !Hit(text, words[j], isWord)
  }

  /** The loop of `contains_filter_words` from position `k` on. */
  function Scan(text: string, words: seq<string>, k: nat, isWord: char -> bool): (r: Option<nat>)
    requires k <= |words|
    requires forall j :: 0 <= j < k && |words[j]| > 0 ==> !Hit(text, words[j], isWord)
    ensures r.Some? ==> FirstHit(text, words, r.value, isWord)
    ensures r.None? ==> forall j :: 0 <= j < |words| && |words[j]| > 0 ==> !Hit(text, words[j], isWord)
    decreases |words| - k
  {
    if k == |words| then None
    else if |words[k]| > 0 && Hit(text, words[k], isWord) then Some(k)
    else Scan(text, words, k + 1, isWord)
  }

  /** `contains_filter_words`: no words or no text is no match; otherwise
      the first non-empty word, in list order, that the text contains,
      returned as it was given. */
  function ContainsFilterWords(text: string, words: seq<string>, isWord: char -> bool): (r: (bool, Option<string>))
    ensures r.0 <==> r.1.Some?
    ensures |words| == 0 || |text| == 0 ==> r == (false, None)
    ensures |text| > 0 ==>
              (r.0 <==> exists k :: 0 <= k < |words| && |words[k]| > 0 && Hit(text, words[k], isWord))
    ensures r.0 ==> exists k :: FirstHit(text, words, k, isWord) && r.1 == Some(words[k])
  {
    if |words| == 0 || |text| == 0 then (false, None)
    else
      match Scan(text, words, 0, isWord)
      case Some(k) => (true, Some(words[k]))
      case None => (false, None)
  }

  /** At most one index is the first hit. */
  lemma FirstHitUnique(text: string, words: seq<string>, a: int, b: int, isWord: char -> bool)
    requires FirstHit(text, words, a, isWord) && FirstHit(text, words, b, isWord)
    ensures a == b
  {
  }

  /** Lower-casing is idempotent. */
  lemma LowerIdempotent(s: string)
    ensures Lower(Lower(s)) == Lower(s)
  {
    assert forall i :: 0 <= i < |s| ==> LowerChar(LowerChar(s[i])) == LowerChar(s[i]);
  }

  /** Matching ignores case: the text and the word may be lower-cased
      first without changing the outcome. */
  lemma HitIgnoresCase(text: string, w: string, isWord: char -> bool)
    ensures Hit(Lower(text), w, isWord) == Hit(text, w, isWord)
    ensures Hit(text, Lower(w), isWord) == Hit(text, w, isWord)
  {
    LowerIdempotent(text);
    LowerIdempotent(w);
    assert ' ' in Lower(w) <==> ' ' in w by {
      forall i | 0 <= i < |w| ensures (Lower(w)[i] == ' ') == (w[i] == ' ') { }
    }
  }

  /** A phrase is found wherever it occurs, whatever surrounds it. */
  lemma PhraseFoundAnywhere(a: string, w: string, b: string, isWord: char -> bool)
    requires ' ' in w
    ensures Hit(a + w + b, w, isWord)
  {
    var t := a + w + b;
    assert Lower(t) == Lower(a) + Lower(w) + Lower(b);
    assert OccursAt(Lower(t), Lower(w), |a|) by {
      assert Lower(t)[|a|..|a| + |w|] == Lower(w);
    }
  }

  /** A lower-case word standing alone is found: it starts with a word
      character, and it is preceded by nothing or a non-word character and
      followed by nothing or a non-word character other than a hyphen. */
  lemma StandaloneWordFound(a: string, w: string, b: string, isWord: char -> bool)
    requires |w| > 0 && ' ' !in w && Lower(w) == w && isWord(w[0])
    requires Lower(a) == a && Lower(b) == b
    requires |a| == 0 || !isWord(a[|a| - 1])
    requires |b| == 0 || (!isWord(b[0]) && b[0] != '-')
    ensures Hit(a + w + b, w, isWord)
  {
    var t := a + w + b;
    assert Lower(t) == t by {
      assert Lower(t) == Lower(a) + Lower(w) + Lower(b);
    }
    assert t[|a|..|a| + |w|] == w;
    assert |a| > 0 ==> t[|a| - 1] == a[|a| - 1];
    assert |b| > 0 ==> t[|a| + |w|] == b[0];
    assert StandaloneAt(t, w, |a|, isWord);
  }

  /** A word directly followed by a hyphen and a letter, as in a
      hyphenated technical term, is not found there. */
  lemma HyphenatedTermNotFound(w: string, rest: string, isWord: char -> bool)
    requires |w| > 0 && ' ' !in w && Lower(w) == w
    requires |rest| > 0 && IsLetter(rest[0])
    ensures !StandaloneAt(Lower(w + "-" + rest), w, 0, isWord)
  {
    var t := Lower(w + "-" + rest);
    assert t[|w|] == '-';
    assert t[|w| + 1] == LowerChar(rest[0]);
  }

  /** The outcome of `check_fields`. */
  datatype Verdict = Verdict(passes: bool, reason: string)

  /** The names, in dict order, of the fields with non-empty text that
      contain a filtered word. */
  function Found(fields: seq<(string, string)>, words: seq<string>, isWord: char -> bool): (r: seq<string>)
    ensures |r| <= |fields|
    ensures forall n :: n in r <==>
              exists k :: 0 <= k < |fields| && fields[k].0 == n && |fields[k].1| > 0
                          && ContainsFilterWords(fields[k].1, words, isWord).0
  {
    if |fields| == 0 then []
    else
      var rest := Found(fields[1..], words, isWord);
      assert forall k :: 0 < k < |fields| ==> fields[k] == fields[1..][k - 1];
      var (name, text) := fields[0];
      if |text| > 0 && ContainsFilterWords(text, words, isWord).0 then [name] + rest else rest
  }

  /** The field with non-empty text at index `k` contains a filtered word. */
  predicate FieldHit(fields: seq<(string, string)>, words: seq<string>, k: int, isWord: char -> bool) {
    0 <= k < |fields| && |fields[k].1| > 0 && ContainsFilterWords(fields[k].1, words, isWord).0
  }

  /** The word matched in the first field that has one. */
  function FirstMatched(fields: seq<(string, string)>, words: seq<string>, isWord: char -> bool): (r: Option<string>)
    ensures r.Some? <==> |Found(fields, words, isWord)| > 0
  {
    if |fields| == 0 then None
    else
      var text := fields[0].1;
      if |text| > 0 && ContainsFilterWords(text, words, isWord).0 then
        ContainsFilterWords(text, words, isWord).1
      else
        FirstMatched(fields[1..], words, isWord)
  }

  /** The matched word reported is the one of the first matching field. */
  lemma {:induction false} FirstMatchedIsFirstField(fields: seq<(string, string)>, words: seq<string>,
                                                    isWord: char -> bool)
    ensures var r := FirstMatched(fields, words, isWord);
            r.Some? ==> exists k :: FieldHit(fields, words, k, isWord)
                                    && ContainsFilterWords(fields[k].1, words, isWord).1 == r
                                    && forall j :: 0 <= j < k ==> !FieldHit(fields, words, j, isWord)
  {
    var r := FirstMatched(fields, words, isWord);
    if |fields| > 0 && r.Some? {
      var text := fields[0].1;
      if |text| > 0 && ContainsFilterWords(text, words, isWord).0 {
        assert FieldHit(fields, words, 0, isWord);
      } else {
        var tail := fields[1..];
        FirstMatchedIsFirstField(tail, words, isWord);
        var k :| FieldHit(tail, words, k, isWord)
                 && ContainsFilterWords(tail[k].1, words, isWord).1 == r
                 && forall j :: 0 <= j < k ==> !FieldHit(tail, words, j, isWord);
        assert fields[k + 1] == tail[k];
        forall j | 0 <= j < k + 1
          ensures !FieldHit(fields, words, j, isWord)
        {
          if j > 0 {
            assert fields[j] == tail[j - 1];
            assert !FieldHit(tail, words, j - 1, isWord);
          }
        }
        assert FieldHit(fields, words, k + 1, isWord);
      }
    }
  }

  const Prefix: string := "Contains filtered word: '"

  /** `check_fields`: with no words everything passes; otherwise an item
      fails when some non-empty field contains a filtered word, and the
      reason names the first matched word and every matching field. */
  function CheckFields(fields: seq<(string, string)>, words: seq<string>, isWord: char -> bool): (v: Verdict)
    ensures v.passes <==> |words| == 0 || |Found(fields, words, isWord)| == 0
    ensures v.passes ==> v.reason == ""
    ensures !v.passes ==>
              v.reason == Prefix + FirstMatched(fields, words, isWord).value + "' (found in: "
                          + Join(Found(fields, words, isWord), ", ") + ")"
  {
    if |words| == 0 then Verdict(true, "")
    else
      var found := Found(fields, words, isWord);
      if |found| > 0 then
        Verdict(false, Prefix + FirstMatched(fields, words, isWord).value + "' (found in: "
                       + Join(found, ", ") + ")")
      else Verdict(true, "")
  }

  /** An item passes exactly when none of its non-empty fields contains a
      filtered word. */
  lemma PassesIffNoFieldHits(fields: seq<(string, string)>, words: seq<string>, isWord: char -> bool)
    ensures CheckFields(fields, words, isWord).passes <==>
              forall k :: 0 <= k < |fields| && |fields[k].1| > 0 ==>
                !ContainsFilterWords(fields[k].1, words, isWord).0
  {
    var found := Found(fields, words, isWord);
    forall k | FieldHit(fields, words, k, isWord)
      ensures fields[k].0 in found
    {
    }
    if |found| > 0 {
      assert found[0] in found;
    }
  }
}

=== FILE: jira.dfy ===
/** The Jira provider (data_collector/services/providers/jira.py): the UTC
    date range of the JQL query, client construction from the auth config,
    the conversion of an issue into a collector item, the paginated search
    loop, the existence check used by validation, the attachment metadata
    mapping and the attachment download.

    The Jira server is a parameter: `search` answers one JQL query page by
    page, `issue` fetches an issue with its comments (`None` when the call
    or the comment fetch raises), `exists` says whether an issue lookup
    succeeds, `myself` whether the credentials are accepted, `get` the body
    of an authenticated GET (`None` on any error). `hash` is SHA-256 of the
    sorted-key JSON dump. */
module Jira {
  import opened Wrappers
  import opened Json
  import opened Text
  import opened Calendar
  import opened AttachmentSync

  const SearchPageSize: nat := 50

  // ---- the JQL date range ------------------------------------------------

  /** `_jql_date_range`: the UTC date of the start and the day after the UTC
      date of the end, as `YYYY-MM-DD`. An instant whose date (or the day
      after it) falls outside years 1..9999 makes Python raise. */
  function JqlDateRange(start: int, end: int): (r: Result<(string, string), string>)
    ensures r.Ok? <==> InRange(UtcDate(start)) && InRange(DateOfDay(DayOf(end) + 1))
                        && InRange(UtcDate(end))
    ensures r.Ok? ==> r.value.0 == FormatDate(UtcDate(start))
                      && r.value.1 == FormatDate(DateOfDay(DayOf(end) + 1))
  {
    var sd := UtcDate(start);
    var ed := UtcDate(end);
    if !InRange(sd) || !InRange(ed) then Err("year is out of range")
    else
      var e1 := NextDate(ed);
      DateOfNextDay(DayOf(end));
      if !InRange(e1) then Err("date value out of range")
      else Ok((FormatDate(sd), FormatDate(e1)))
  }

  /** Calendar order on dates: `x <= y`. */
  predicate NotAfter(x: Date, y: Date) {
    x == y || Before(x, y)
  }

  /** The date range covers the whole window: every instant from start to
      end falls on a date no earlier than the start date and strictly
      before the exclusive end date. */
  lemma JqlRangeCoversWindow(start: int, end: int, t: int)
    requires start <= t <= end
    ensures NotAfter(UtcDate(start), UtcDate(t))
    ensures Before(UtcDate(t), DateOfDay(DayOf(end) + 1))
  {
    assert DayOf(start) <= DayOf(t) by {
      DivMonotone(start, t);
    }
    assert DayOf(t) < DayOf(end) + 1 by {
      DivMonotone(t, end);
    }
    if DayOf(start) < DayOf(t) {
      DateOfDayStrictlyIncreases(DayOf(start), DayOf(t));
    }
    DateOfDayStrictlyIncreases(DayOf(t), DayOf(end) + 1);
  }

  lemma DivMonotone(a: int, b: int)
    requires a <= b
    ensures DayOf(a) <= DayOf(b)
  {
  }

  // ---- the client --------------------------------------------------------

  /** The server URL and the basic-auth pair `_client` builds. */
  datatype Creds = Creds(server: string, user: Value, secret: Value)

  datatype ClientError = BaseUrlNotText | NoBaseUrl | NoCloudCredentials | NoLegacyCredentials

  /** `(base_url or "").rstrip("/")`, or `None` when `base_url` is set to
      something other than text (`rstrip` raises). */
  function BaseUrl(auth: map<string, Value>): Option<string> {
    var raw := Or(Get(auth, "base_url"), Str(""));
    if raw.Str? then Some(TrimRightChar(raw.s, '/')) else None
  }

  /** `auth_version` is `"cloud"`; anything else, unset included, is legacy. */
  predicate IsCloud(auth: map<string, Value>) {
    Or(Get(auth, "auth_version"), Str("legacy")) == Str("cloud")
  }

  /** `_client`: a non-empty base URL, then email and API token for cloud
      or username and password for legacy, each required to be truthy. */
  function Client(auth: map<string, Value>): (r: Result<Creds, ClientError>)
    ensures BaseUrl(auth).None? ==> r == Err(BaseUrlNotText)
    ensures BaseUrl(auth) == Some("") ==> r == Err(NoBaseUrl)
    ensures r.Ok? ==> BaseUrl(auth) == Some(r.value.server) && |r.value.server| > 0
                      && r.value.server[|r.value.server| - 1] != '/'
    ensures BaseUrl(auth).Some? && BaseUrl(auth).value != "" && IsCloud(auth) ==>
              (r.Ok? <==> Truthy(Get(auth, "email")) && Truthy(Get(auth, "api_token")))
              && (r.Ok? ==> r.value.user == Get(auth, "email") && r.value.secret == Get(auth, "api_token"))
              && (r.Err? ==> r.error == NoCloudCredentials)
    ensures BaseUrl(auth).Some? && BaseUrl(auth).value != "" && !IsCloud(auth) ==>
              (r.Ok? <==> Truthy(Get(auth, "username")) && Truthy(Get(auth, "password")))
              && (r.Ok? ==> r.value.user == Get(auth, "username") && r.value.secret == Get(auth, "password"))
              && (r.Err? ==> r.error == NoLegacyCredentials)
  {
    match BaseUrl(auth)
    case None => Err(BaseUrlNotText)
    case Some(base) =>
      if base == "" then Err(NoBaseUrl)
      else if IsCloud(auth) then
        var email := Or(Get(auth, "email"), Str(""));
        var token := Or(Get(auth, "api_token"), Str(""));
        if !Truthy(email) || !Truthy(token) then Err(NoCloudCredentials)
        else Ok(Creds(base, email, token))
      else
        var username := Or(Get(auth, "username"), Str(""));
        var password := Or(Get(auth, "password"), Str(""));
        if !Truthy(username) || !Truthy(password) then Err(NoLegacyCredentials)
        else Ok(Creds(base, username, password))
  }

  /** The Jira server as the provider sees it. */
  datatype Server = Server(
    search: (Creds, string) -> Search,
    issue: (Creds, Value) -> Option<IssueData>,
    exists_: (Creds, Value) -> bool,
    myself: Creds -> bool,
    get: (Creds, string) -> Option<seq<int>>,
    hash: Value -> string)

  /** `authenticate`: never raises; false for an empty config, for a config
      the client rejects and for credentials the server refuses. */
  function Authenticate(auth: map<string, Value>, server: Server): (ok: bool)
    ensures |auth| == 0 ==> !ok
    ensures Client(auth).Err? ==> !ok
    ensures ok ==> server.myself(Client(auth).value)
    ensures |auth| > 0 && Client(auth).Ok? && server.myself(Client(auth).value) ==> ok
  {
    if |auth| == 0 then false
    else match Client(auth)
      case Err(_) => false
      case Ok(c) => server.myself(c)
  }

  // ---- issue to item -----------------------------------------------------

  /** `list(fields.get("attachment") or [])`: a list as is, the characters of
      a string; a truthy number or boolean is not iterable and raises. A
      non-empty dict would give its keys; the model has no key order for a
      dict and treats it as a failure too. */
  function AttachmentList(v: Value): (r: Result<seq<Value>, string>)
    ensures !Truthy(v) ==> r == Ok([])
    ensures v.List? ==> r == Ok(v.items)
    ensures v.Str? ==> r.Ok? && |r.value| == |v.s|
  {
    if !Truthy(v) then Ok([])
    else match v
      case List(l) => Ok(l)
      case Str(s) => Ok(Chars(s))
      case _ => Err("object is not iterable")
  }

  /** The one-character strings of `s`, in order. */
  function Chars(s: string): (r: seq<Value>)
    ensures |r| == |s|
  {
    if |s| == 0 then [] else [Str([s[0]])] + Chars(s[1..])
  }

  /** The raw payload of an item: the issue, its comments and its
      attachment list. */
  function RawData(issue: map<string, Value>, comments: seq<Value>, attachments: seq<Value>): Value {
    Obj(map["issue" := Obj(issue), "comments" := List(comments), "attachments" := List(attachments)])
  }

  /** `_issue_raw_to_item`: `None` without a key; otherwise the six item
      fields, the hash being a function of the raw payload alone. `Err` is
      an exception (a `fields` or `project` that is not a dict, an
      attachment field that cannot be listed). */
  function IssueToItem(issue: map<string, Value>, comments: seq<Value>, hash: Value -> string)
    : (r: Result<Option<map<string, Value>>, string>)
    ensures !Truthy(Get(issue, "key")) ==> r == Ok(None)
    ensures r.Ok? && r.value.Some? ==>
              var item := r.value.value;
              item.Keys == {"source_unique_id", "raw_data", "filter_metadata", "data_hash",
                            "source_created_at", "source_updated_at"}
              && item["source_unique_id"] == Get(issue, "key") && Truthy(item["source_unique_id"])
              && item["data_hash"] == Str(hash(item["raw_data"]))
              && Field(item["raw_data"], "issue") == Obj(issue)
              && Field(item["raw_data"], "comments") == List(comments)
              && Field(item["raw_data"], "attachments").List?
              && item["filter_metadata"].Obj? && item["filter_metadata"].fields.Keys == {"project"}
  {
    var key := Get(issue, "key");
    if !Truthy(key) then Ok(None)
    else
      var fields := Or(Get(issue, "fields"), EmptyObj);
      if !fields.Obj? then Err("'fields' has no attribute 'get'")
      else
        var atts :- AttachmentList(Get(fields.fields, "attachment"));
        var raw := RawData(issue, comments, atts);
        var project := Or(Get(fields.fields, "project"), EmptyObj);
        if !project.Obj? then Err("'project' has no attribute 'get'")
        else
          Ok(Some(map[
            "source_unique_id" := key,
            "raw_data" := raw,
            "filter_metadata" := Obj(map["project" := Get(project.fields, "key")]),
            "data_hash" := Str(hash(raw)),
            "source_created_at" := Get(fields.fields, "created"),
            "source_updated_at" := Get(fields.fields, "updated")]))
  }

  /** Equal issues with equal comments give equal hashes; the hash does not
      depend on anything outside the raw payload. */
  lemma HashDependsOnlyOnPayload(i1: map<string, Value>, c1: seq<Value>, i2: map<string, Value>,
                                 c2: seq<Value>, hash: Value -> string)
    requires IssueToItem(i1, c1, hash).Ok? && IssueToItem(i1, c1, hash).value.Some?
    requires IssueToItem(i2, c2, hash).Ok? && IssueToItem(i2, c2, hash).value.Some?
    requires IssueToItem(i1, c1, hash).value.value["raw_data"] == IssueToItem(i2, c2, hash).value.value["raw_data"]
    ensures IssueToItem(i1, c1, hash).value.value["data_hash"] == IssueToItem(i2, c2, hash).value.value["data_hash"]
  {
  }

  // ---- the paginated search ----------------------------------------------

  type Issue = map<string, Value>

  /** An issue with its comments, as `jira.issue` and the comment pages
      return them. */
  datatype IssueData = IssueData(raw: map<string, Value>, comments: seq<Value>)

  /** The answer to one JQL query: the reported `total` (the same on every
      page), the page of issues returned for each `startAt`, and whether the
      request for that page raises (`search_issues` fails, or `int()`
      refuses the reported total). */
  datatype Search = Search(total: int, page: nat -> seq<Issue>, fails: nat -> bool)

  /** The issues the loop visits: page after page, advancing by the page
      length, until the offset reaches `total` or a page comes back empty. */
  function Scanned(s: Search, startAt: nat): seq<Issue>
    decreases if startAt < s.total then s.total - startAt else 0
  {
    var pg := s.page(startAt);
    var next := startAt + |pg|;
    if next >= s.total || |pg| == 0 then pg else pg + Scanned(s, next)
  }

  /** Whether one of the page requests the loop makes from `startAt` on
      raises; nothing catches it, so `collect` raises. */
  predicate PageFails(s: Search, startAt: nat)
    decreases if startAt < s.total then s.total - startAt else 0
  {
    s.fails(startAt)
    || (var pg := s.page(startAt);
        var next := startAt + |pg|;
        next < s.total && |pg| > 0 && PageFails(s, next))
  }

  /** An item with a usable id whose hash is that of its raw payload. */
  predicate WellFormed(item: map<string, Value>, hash: Value -> string) {
    Truthy(Get(item, "source_unique_id")) && Get(item, "data_hash") == Str(hash(Get(item, "raw_data")))
  }

  /** One issue of a page: skipped without a key, when the fetch fails or
      when the conversion raises or yields nothing. */
  function IssueItem(issue: Issue, c: Creds, server: Server): (r: Option<map<string, Value>>)
    ensures r.Some? ==> Truthy(Get(issue, "key"))
    ensures r.Some? ==> WellFormed(r.value, server.hash)
  {
    var key := Get(issue, "key");
    if !Truthy(key) then None
    else match server.issue(c, key)
      case None => None
      case Some(d) =>
        match IssueToItem(d.raw, d.comments, server.hash)
        case Err(_) => None
        case Ok(o) => o
  }

  /** The items of a run of issues, in order. */
  function ItemsOf(issues: seq<Issue>, c: Creds, server: Server): (r: seq<map<string, Value>>)
    ensures |r| <= |issues|
  {
    if |issues| == 0 then []
    else
      var last := IssueItem(issues[|issues| - 1], c, server);
      ItemsOf(issues[..|issues| - 1], c, server) + (if last.Some? then [last.value] else [])
  }

  lemma {:induction false} ItemsOfAppend(a: seq<Issue>, b: seq<Issue>, c: Creds, server: Server)
    ensures ItemsOf(a + b, c, server) == ItemsOf(a, c, server) + ItemsOf(b, c, server)
    decreases |b|
  {
    if |b| > 0 {
      assert (a + b)[..|a + b| - 1] == a + b[..|b| - 1];
      ItemsOfAppend(a, b[..|b| - 1], c, server);
    } else {
      assert a + b == a;
    }
  }

  lemma ItemsOfSnoc(a: seq<Issue>, x: Issue, c: Creds, server: Server)
    ensures ItemsOf(a + [x], c, server)
            == ItemsOf(a, c, server) + (var it := IssueItem(x, c, server); if it.Some? then [it.value] else [])
  {
    assert (a + [x])[..|a + [x]| - 1] == a;
  }

  /** The issues of one page, in order. */
  method CollectPage(pg: seq<Issue>, c: Creds, server: Server) returns (out: seq<map<string, Value>>)
    ensures out == ItemsOf(pg, c, server)
  {
    out := [];
    var i := 0;
    while i < |pg|
      invariant 0 <= i <= |pg|
      invariant out == ItemsOf(pg[..i], c, server)
    {
      var item := IssueItem(pg[i], c, server);
      ItemsOfSnoc(pg[..i], pg[i], c, server);
      assert pg[..i + 1] == pg[..i] + [pg[i]];
      if item.Some? {
        out := out + [item.value];
      }
      i := i + 1;
    }
    assert pg[..|pg|] == pg;
  }

  /** The search loop of `collect`, page by page: `None` when a page
      request raises, otherwise exactly the items of the scanned issues, in
      order. */
  method CollectPages(s: Search, c: Creds, server: Server) returns (r: Option<seq<map<string, Value>>>)
    ensures r.None? <==> PageFails(s, 0)
    ensures r.Some? ==> r.value == ItemsOf(Scanned(s, 0), c, server)
  {
    var out := [];
    var startAt: nat := 0;
    while true
      invariant ItemsOf(Scanned(s, 0), c, server) == out + ItemsOf(Scanned(s, startAt), c, server)
      invariant PageFails(s, 0) <==> PageFails(s, startAt)
      decreases if startAt < s.total then s.total - startAt else 0
    {
      if s.fails(startAt) {
        return None;
      }
      var pg := s.page(startAt);
      var items := CollectPage(pg, c, server);
      var next := startAt + |pg|;
      if next >= s.total || |pg| == 0 {
        assert Scanned(s, startAt) == pg;
        out := out + items;
        return Some(out);
      }
      assert Scanned(s, startAt) == pg + Scanned(s, next);
      ItemsOfAppend(pg, Scanned(s, next), c, server);
      out := out + items;
      startAt := next;
    }
  }

  /** A server that pages through one fixed list of issues, 50 at a time,
      and reports its length as the total. */
  predicate Consistent(s: Search, all: seq<Issue>) {
    s.total == |all|
    && forall k: nat :: k <= |all| ==> s.page(k) == all[k..if k + SearchPageSize <= |all| then k + SearchPageSize else |all|]
  }

  /** Against a consistent server the loop visits every issue exactly once,
      in order. */
  lemma {:induction false} ScannedConsistent(s: Search, all: seq<Issue>, k: nat)
    requires Consistent(s, all) && k <= |all|
    ensures Scanned(s, k) == all[k..]
    decreases |all| - k
  {
    var pg := s.page(k);
    var next := k + |pg|;
    if next < s.total && |pg| > 0 {
      ScannedConsistent(s, all, next);
      assert all[k..] == all[k..next] + all[next..];
    }
  }

  /** `project in (A, B)` is added exactly when project keys are given. */
  function Jql(startStr: string, endStr: string, projectKeys: seq<string>): (q: string)
    ensures DateClause(startStr, endStr) <= q
    ensures q == DateClause(startStr, endStr) <==> |projectKeys| == 0
  {
    if |projectKeys| == 0 then DateClause(startStr, endStr)
    else DateClause(startStr, endStr) + " AND project in (" + Join(projectKeys, ", ") + ")"
  }

  function DateClause(startStr: string, endStr: string): string {
    "updated >= \"" + startStr + "\" AND updated < \"" + endStr + "\""
  }

  /** The search `collect` runs once the date range and the client are
      built. */
  function SearchOf(auth: map<string, Value>, start: int, end: int, projectKeys: seq<string>, server: Server)
    : Search
    requires JqlDateRange(start, end).Ok? && Client(auth).Ok?
  {
    var (s, e) := JqlDateRange(start, end).value;
    server.search(Client(auth).value, Jql(s, e, projectKeys))
  }

  /** `collect`: the date range and the client are built first (either may
      raise, `None`), then the search loop runs over the query, and a page
      request that raises makes the whole call raise. */
  function Collect(auth: map<string, Value>, start: int, end: int, projectKeys: seq<string>, server: Server)
    : (r: Option<seq<map<string, Value>>>)
    ensures JqlDateRange(start, end).Err? || Client(auth).Err? ==> r.None?
    ensures JqlDateRange(start, end).Ok? && Client(auth).Ok? ==>
              (r.None? <==> PageFails(SearchOf(auth, start, end, projectKeys, server), 0))
              && (r.Some? ==> r.value == ItemsOf(Scanned(SearchOf(auth, start, end, projectKeys, server), 0),
                                                 Client(auth).value, server))
    ensures r.Some? ==> forall i :: 0 <= i < |r.value| ==> WellFormed(r.value[i], server.hash)
  {
    match JqlDateRange(start, end)
    case Err(_) => None
    case Ok((s, e)) =>
      match Client(auth)
      case Err(_) => None
      case Ok(c) =>
        var search := server.search(c, Jql(s, e, projectKeys));
        if PageFails(search, 0) then None
        else
          var issues := Scanned(search, 0);
          ItemsAreWellFormed(issues, c, server);
          Some(ItemsOf(issues, c, server))
  }

  lemma {:induction false} ItemsAreWellFormed(issues: seq<Issue>, c: Creds, server: Server)
    ensures forall i :: 0 <= i < |ItemsOf(issues, c, server)| ==>
              WellFormed(ItemsOf(issues, c, server)[i], server.hash)
  {
    if |issues| > 0 {
      ItemsAreWellFormed(issues[..|issues| - 1], c, server);
      var last := IssueItem(issues[|issues| - 1], c, server);
      var r := ItemsOf(issues, c, server);
      var prefix := ItemsOf(issues[..|issues| - 1], c, server);
      assert r == prefix + (if last.Some? then [last.value] else []);
      forall i | 0 <= i < |r|
        ensures WellFormed(r[i], server.hash)
      {
        if i < |prefix| {
          assert r[i] == prefix[i];
        } else {
          assert r[i] == last.value;
        }
      }
    }
  }

  // ---- validate ------------------------------------------------------------

  /** The ids whose lookup fails, in order. */
  function Missing(ids: seq<Value>, c: Creds, server: Server): (r: seq<Value>)
    ensures |r| <= |ids|
    ensures forall x :: x in r <==> x in ids && !server.exists_(c, x)
  {
    if |ids| == 0 then []
    else (if server.exists_(c, ids[0]) then [] else [ids[0]]) + Missing(ids[1..], c, server)
  }

  /** `validate`: `[]` without ids or when the client cannot be built;
      otherwise exactly the ids whose lookup raises. */
  function Validate(auth: map<string, Value>, ids: seq<Value>, server: Server): (r: seq<Value>)
    ensures |ids| == 0 || Client(auth).Err? ==> r == []
    ensures |ids| > 0 && Client(auth).Ok? ==>
              forall x :: x in r <==> x in ids && !server.exists_(Client(auth).value, x)
  {
    if |ids| == 0 then []
    else match Client(auth)
      case Err(_) => []
      case Ok(c) => Missing(ids, c, server)
  }

  // ---- attachments -----------------------------------------------------------

  /** `str(v)` for an attachment id, `None` for a missing one. */
  function IdText(v: Value): (r: Option<string>)
    ensures v.Str? ==> r == Some(v.s)
    ensures r.None? <==> v == Null
  {
    if v == Null then None else Some(Show(v))
  }

  function AsInt(v: Value): Option<int> {
    if v.Int? then Some(v.i) else None
  }

  /** One metadata dict of `fetch_attachments`. */
  function MetaOf(att: map<string, Value>): (m: AttMeta)
    ensures m.sourceFileId == IdText(Get(att, "id"))
    ensures m.fileName == AsStr(Get(att, "filename")) && m.fileUrl == AsStr(Get(att, "content"))
    ensures m.fileType == AsStr(Get(att, "mimeType")) && m.fileSize == AsInt(Get(att, "size"))
  {
    AttMeta(IdText(Get(att, "id")), AsStr(Get(att, "filename")), AsStr(Get(att, "content")),
            AsStr(Get(att, "mimeType")), AsInt(Get(att, "size")), Get(att, "created"), Get(att, "updated"))
  }

  /** The attachment list stored in a record's raw payload: `[]` unless the
      payload is a dict whose `attachments` is truthy. */
  function StoredAttachments(rawData: Value): Value {
    var rd := Or(rawData, EmptyObj);
    if rd.Obj? then Or(Get(rd.fields, "attachments"), List([])) else List([])
  }

  predicate AllObjects(l: seq<Value>) {
    forall i :: 0 <= i < |l| ==> l[i].Obj?
  }

  function MetasOf(l: seq<Value>): (r: seq<AttMeta>)
    requires AllObjects(l)
    ensures |r| == |l| && forall i :: 0 <= i < |l| ==> r[i] == MetaOf(l[i].fields)
  {
    if |l| == 0 then [] else [MetaOf(l[0].fields)] + MetasOf(l[1..])
  }

  /** `fetch_attachments`: one metadata entry per stored attachment, in
      order; `None` when an entry is not a dict (its `get` raises). */
  function FetchAttachments(rawData: Value): (r: Option<seq<AttMeta>>)
    ensures !Truthy(StoredAttachments(rawData)) ==> r == Some([])
    ensures StoredAttachments(rawData).List? && AllObjects(StoredAttachments(rawData).items) ==>
              r.Some? && |r.value| == |StoredAttachments(rawData).items|
              && forall i :: 0 <= i < |r.value| ==> r.value[i] == MetaOf(StoredAttachments(rawData).items[i].fields)
    ensures r.None? <==> Truthy(StoredAttachments(rawData))
                         && !(StoredAttachments(rawData).List? && AllObjects(StoredAttachments(rawData).items))
  {
    var atts := StoredAttachments(rawData);
    if !Truthy(atts) then Some([])
    else if atts.List? && AllObjects(atts.items) then Some(MetasOf(atts.items))
    else None
  }

  /** `download_attachment_content`: empty (standing for `None`) without a
      URL, when the client cannot be built or when the GET fails. The
      metadata dict carries no `content` key, so the fallback to it never
      finds a URL. */
  function Download(auth: map<string, Value>, m: AttMeta, server: Server): (content: seq<int>)
    ensures m.fileUrl.None? || m.fileUrl.value == "" || Client(auth).Err? ==> content == []
    ensures m.fileUrl.Some? && m.fileUrl.value != "" && Client(auth).Ok?
            && server.get(Client(auth).value, m.fileUrl.value).Some? ==>
              content == server.get(Client(auth).value, m.fileUrl.value).value
  {
    match m.fileUrl
    case None => []
    case Some(url) =>
      if url == "" then []
      else match Client(auth)
        case Err(_) => []
        case Ok(c) => server.get(c, url).GetOr([])
  }
}

=== FILE: json.dfy ===
/** JSON-like values as Python holds them after `json.loads` or in a
    `JSONField`, together with Python's truthiness and the `or`/`get`
    idioms the code uses everywhere. */
module Json {
  import opened Wrappers
  import Text

  datatype Value =
    | Null
    | Bool(b: bool)
    | Int(i: int)
    | Num(r: real)
    | Str(s: string)
    | List(items: seq<Value>)
    | Obj(fields: map<string, Value>)

  /** Python's `bool(v)`: None, False, 0, 0.0, "", [] and {} are false. */
  predicate Truthy(v: Value) {
    match v
    case Null => false
    case Bool(b) => b
    case Int(i) => i != 0
    case Num(r) => r != 0.0
    case Str(s) => |s| > 0
    case List(l) => |l| > 0
    case Obj(m) => |m| > 0
  }

  /** Python's `a or b`: the first operand when it is truthy, else the second. */
  function Or(a: Value, b: Value): Value {
    if Truthy(a) then a else b
  }

  /** The empty object `{}`. */
  const EmptyObj: Value := Obj(map[])

  /** `d.get(k)` on a dict; a missing key reads as `None`. */
  function Get(fields: map<string, Value>, k: string): Value {
    if k in fields then fields[k] else Null
  }

  /** `v.get(k)` when `v` is a dict, `None` for any other value (the callers
      guard with `isinstance(v, dict)`). */
  function Field(v: Value, k: string): Value {
    if v.Obj? then Get(v.fields, k) else Null
  }

  /** The text of a string value, or `None` for any other value. */
  function AsStr(v: Value): Option<string> {
    if v.Str? then Some(v.s) else None
  }

  /** `{**a, **b}`: a shallow merge in which the keys of `b` win. */
  function Merge(a: map<string, Value>, b: map<string, Value>): (r: map<string, Value>)
    ensures r.Keys == a.Keys + b.Keys
    ensures forall k :: k in b ==> r[k] == b[k]
    ensures forall k :: k in a && k !in b ==> r[k] == a[k]
  {
    a + b
  }

  /** Python's `str(v)` for None, booleans, integers and text. Floats, lists
      and dicts are not rendered; they all show as `"..."`. */
  function Show(v: Value): (r: string)
    ensures v.Str? ==> r == v.s
    ensures v.Int? ==> r == Text.IntToStr(v.i)
  {
    match v
    case Null => "None"
    case Bool(b) => if b then "True" else "False"
    case Int(i) => Text.IntToStr(i)
    case Str(s) => s
    case _ => "..."
  }
}

=== FILE: llm_tracker.dfy ===
/** The LLM call tracker (llm_tracker/llm_tracker.py): how `call_and_track`
    fills in the request, reads the usage off the response, records each
    call in the caller's state and in the usage table, and what
    `_save_usage_to_db` puts in a record's metadata.

    The LLM service is the parameter `chat`; whether the usage table
    accepts a write is the parameter `persisted`. */
module LlmTracker {
  import opened Wrappers
  import opened Text
  import opened Json

  /** The settings the defaults come from: `LLM_PROVIDER` and the three
      provider configuration dicts. */
  datatype Settings = Settings(provider: string, azureOpenai: map<string, Value>,
                               gemini: map<string, Value>, openai: map<string, Value>)

  const DefaultMaxTokens: int := 60000

  /** `config.get(key, default)`: a stored value is used even when it is null. */
  function GetOr(m: map<string, Value>, key: string, default: Value): (v: Value)
    ensures key in m ==> v == m[key]
    ensures key !in m ==> v == default
  {
    if key in m then m[key] else default
  }

  /** The configuration dict of the provider named by `LLM_PROVIDER`,
      compared lower-cased; anything but Azure OpenAI and Gemini reads the
      OpenAI one. */
  function ProviderConfig(s: Settings): map<string, Value> {
    var p := Lower(s.provider);
    if p == "azure_openai" then s.azureOpenai
    else if p == "gemini" then s.gemini
    else s.openai
  }

  /** The default temperature of that provider when its config has none. */
  function DefaultTemperature(s: Settings): (t: real)
    ensures Lower(s.provider) == "gemini" ==> t == 0.7
    ensures Lower(s.provider) != "gemini" ==> t == 1.0
  {
    if Lower(s.provider) == "gemini" then 0.7 else 1.0
  }

  /** `{"type": "json_object"}`. */
  const JsonObjectFormat: Value := Obj(map["type" := Str("json_object")])

  /** The keyword arguments of `llm_service.chat`; `raw_response` is
      always true and not kept. */
  datatype Request = Request(messages: seq<Value>, maxTokens: Value, temperature: Value,
                             responseFormat: Option<Value>)

  /** An optional argument is given when it is passed and is not None;
      passing None is the same as leaving it out. */
  predicate Passed(arg: Option<Value>) {
    arg.Some? && !arg.value.Null?
  }

  /** The `response_format` sent: the given one in either mode; in JSON
      mode without one, `{"type": "json_object"}`; otherwise none. */
  function ResponseFormat(jsonMode: bool, given: Option<Value>): (f: Option<Value>)
    ensures Passed(given) ==> f == given
    ensures !Passed(given) ==> (f.Some? <==> jsonMode)
    ensures !Passed(given) && jsonMode ==> f == Some(JsonObjectFormat)
  {
    if Passed(given) then given
    else if jsonMode then Some(JsonObjectFormat)
    else None
  }

  /** The request `call_and_track` sends: a `max_tokens` or `temperature`
      left out or passed as None is taken from the provider's config, or
      60000 and the provider's default temperature. */
  function BuildRequest(messages: seq<Value>, jsonMode: bool, maxTokens: Option<Value>,
                        temperature: Option<Value>, responseFormat: Option<Value>, s: Settings): (q: Request)
    ensures q.messages == messages
    ensures Passed(maxTokens) ==> q.maxTokens == maxTokens.value
    ensures !Passed(maxTokens) && "max_tokens" !in ProviderConfig(s) ==> q.maxTokens == Int(DefaultMaxTokens)
    ensures !Passed(maxTokens) && "max_tokens" in ProviderConfig(s) ==> q.maxTokens == ProviderConfig(s)["max_tokens"]
    ensures Passed(temperature) ==> q.temperature == temperature.value
    ensures !Passed(temperature) && "temperature" !in ProviderConfig(s) ==> q.temperature == Num(DefaultTemperature(s))
    ensures !Passed(temperature) && "temperature" in ProviderConfig(s) ==> q.temperature == ProviderConfig(s)["temperature"]
    ensures q.responseFormat == ResponseFormat(jsonMode, responseFormat)
  {
    var config := ProviderConfig(s);
    Request(messages,
            if Passed(maxTokens) then maxTokens.value else GetOr(config, "max_tokens", Int(DefaultMaxTokens)),
            if Passed(temperature) then temperature.value else GetOr(config, "temperature", Num(DefaultTemperature(s))),
            ResponseFormat(jsonMode, responseFormat))
  }

  /** `len(msg.get("content", ""))` can be taken: each message is a dict
      whose content, when present, has a length. */
  predicate Measurable(messages: seq<Value>) {
    forall i :: 0 <= i < |messages| ==>
      messages[i].Obj? && ("content" in messages[i].fields ==>
                             var c := messages[i].fields["content"]; c.Str? || c.List? || c.Obj?)
  }

  /** What the service returns: None; a chat message, with its
      `response_metadata`, `content` and `usage_metadata` (None for a
      missing attribute); or another object, seen through `str()` and its
      truth value. */
  datatype Response =
    | NoResponse
    | Message(metadata: Option<Value>, content: Value, usageMeta: Option<Value>)
    | Plain(metadata: Option<Value>, text: string, truthy: bool)

  /** The usage dict returned with the content. Token counts are whatever
      the service reported. */
  datatype Usage = Usage(model: Value, promptTokens: Value, completionTokens: Value,
                         totalTokens: Value, cachedTokens: Value, reasoningTokens: Value)

  const Unknown: string := "unknown"

  /** `actual_model`: the `model_name` of a dict `response_metadata`. */
  function ActualModel(r: Response): (m: Value)
    ensures r.NoResponse? ==> m == Null
  {
    if !r.NoResponse? && r.metadata.Some? && r.metadata.value.Obj? then Get(r.metadata.value.fields, "model_name")
    else Null
  }

  /** `details.get(key, 0)` when `meta[section]` is a dict, else 0 (the
      `setdefault`). */
  function Detail(meta: map<string, Value>, section: string, key: string): Value {
    if section in meta && meta[section].Obj? then GetOr(meta[section].fields, key, Int(0)) else Int(0)
  }

  /** The usage `call_and_track` returns: read from a dict `usage_metadata`
      of a chat message, each count 0 when absent; otherwise all zero. The
      model is `model_name`, or "unknown" when that is falsy. */
  function ReadUsage(r: Response): (u: Usage)
    ensures u.model == Or(ActualModel(r), Str(Unknown))
    ensures (r.Message? && r.usageMeta.Some? && r.usageMeta.value.Obj?) ==>
              var m := r.usageMeta.value.fields;
              u.promptTokens == GetOr(m, "input_tokens", Int(0))
              && u.completionTokens == GetOr(m, "output_tokens", Int(0))
              && u.totalTokens == GetOr(m, "total_tokens", Int(0))
              && u.cachedTokens == Detail(m, "input_token_details", "cache_read")
              && u.reasoningTokens == Detail(m, "output_token_details", "reasoning")
    ensures !(r.Message? && r.usageMeta.Some? && r.usageMeta.value.Obj?) ==>
              u == Usage(u.model, Int(0), Int(0), Int(0), Int(0), Int(0))
  {
    var model := Or(ActualModel(r), Str(Unknown));
    if r.Message? && r.usageMeta.Some? && r.usageMeta.value.Obj? then
      var m := r.usageMeta.value.fields;
      Usage(model, GetOr(m, "input_tokens", Int(0)), GetOr(m, "output_tokens", Int(0)),
            GetOr(m, "total_tokens", Int(0)),
            Detail(m, "input_token_details", "cache_read"),
            Detail(m, "output_token_details", "reasoning"))
    else Usage(model, Int(0), Int(0), Int(0), Int(0), Int(0))
  }

  /** The response text, or None: a message's `content`, or `str()` of a
      truthy other object. */
  function Content(r: Response): Value {
    match r
    case NoResponse => Null
    case Message(_, c, _) => c
    case Plain(_, t, truthy) => if truthy then Str(t) else Null
  }

  const EmptyMessages: string := "Messages cannot be empty"
  const EmptyResponse: string := "LLM returned empty response"
  const Unmeasurable: string := "message content has no length"

  function NoneResponse(node: string): string {
    "[" + node + "] LLM service returned None response"
  }

  /** The text `call_and_track` returns when the call succeeds, or the
      error it raises: None and a falsy or blank content are errors. */
  function Answer(r: Response, node: string): (a: Result<string, string>)
    ensures r.NoResponse? ==> a == Err(NoneResponse(node))
    ensures a.Ok? ==> Truthy(Content(r)) && Strip(a.value) != "" && a.value == Show(Content(r))
    ensures !r.NoResponse? ==> (a.Ok? <==> Truthy(Content(r)) && Strip(Show(Content(r))) != "")
    ensures !r.NoResponse? && a.Err? ==> a.error == EmptyResponse
  {
    if r.NoResponse? then Err(NoneResponse(node))
    else
      var c := Content(r);
      if !Truthy(c) || Strip(Show(c)) == "" then Err(EmptyResponse) else Ok(Show(c))
  }

  /** One entry of `state["llm_calls"]`; a failed call's entry has no
      cached or reasoning counts. */
  datatype CallEntry = CallEntry(node: string, model: Value, promptTokens: Value, completionTokens: Value,
                                 totalTokens: Value, cachedTokens: Option<Value>,
                                 reasoningTokens: Option<Value>, success: bool, error: Option<string>)

  /** The caller's state dict: its `llm_calls` list and its other keys. */
  datatype TrackState = TrackState(fields: map<string, Value>, calls: seq<CallEntry>)

  /** One `LLMUsage` row. */
  datatype UsageRecord = UsageRecord(userId: Value, model: Value, promptTokens: Value,
                                     completionTokens: Value, totalTokens: Value,
                                     cachedTokens: Value, reasoningTokens: Value,
                                     success: bool, error: Option<string>,
                                     metadata: map<string, Value>)

  /** The metadata `_save_usage_to_db` builds from a state: the node name
      (the state's, else the parameter) unless it is falsy or "unknown";
      a truthy `source_type` and `source_path`; `str()` of the first truthy
      of `source_task_id`, `celery_task_id` and `task_id`; then the state's
      `metadata` dict laid over all of them. */
  function Metadata(state: map<string, Value>, nodeName: string): (m: map<string, Value>) {
    var node := GetOr(state, "node_name", Str(nodeName));
    var taskId := Or(Or(Get(state, "source_task_id"), Get(state, "celery_task_id")), Get(state, "task_id"));
    var built :=
      (if Truthy(node) && node != Str(Unknown) then map["node_name" := node] else map[])
      + (if Truthy(Get(state, "source_type")) then map["source_type" := state["source_type"]] else map[])
      + (if Truthy(taskId) then map["source_task_id" := Str(Show(taskId))] else map[])
      + (if Truthy(Get(state, "source_path")) then map["source_path" := state["source_path"]] else map[]);
    var extra := Get(state, "metadata");
    if extra.Obj? then Merge(built, extra.fields) else built
  }

  /** What the metadata holds, key by key, when the state carries no
      `metadata` dict. */
  lemma MetadataKeys(state: map<string, Value>, nodeName: string)
    requires !Get(state, "metadata").Obj?
    ensures var m := Metadata(state, nodeName);
            var node := GetOr(state, "node_name", Str(nodeName));
            var taskId := Or(Or(Get(state, "source_task_id"), Get(state, "celery_task_id")), Get(state, "task_id"));
            ("node_name" in m <==> Truthy(node) && node != Str(Unknown))
            && ("node_name" in m ==> m["node_name"] == node)
            && ("source_type" in m <==> Truthy(Get(state, "source_type")))
            && ("source_task_id" in m <==> Truthy(taskId))
            && ("source_task_id" in m ==> m["source_task_id"] == Str(Show(taskId)))
            && ("source_path" in m <==> Truthy(Get(state, "source_path")))
            && m.Keys <= {"node_name", "source_type", "source_task_id", "source_path"}
  {
    var node := GetOr(state, "node_name", Str(nodeName));
    var taskId := Or(Or(Get(state, "source_task_id"), Get(state, "celery_task_id")), Get(state, "task_id"));
    var a := if Truthy(node) && node != Str(Unknown) then map["node_name" := node] else map[];
    var b := if Truthy(Get(state, "source_type")) then map["source_type" := state["source_type"]] else map[];
    var c := if Truthy(taskId) then map["source_task_id" := Str(Show(taskId))] else map[];
    var d := if Truthy(Get(state, "source_path")) then map["source_path" := state["source_path"]] else map[];
    assert Metadata(state, nodeName) == a + b + c + d;
    PartsLookup(a, b, c, d);
  }

  /** The four optional parts of the metadata never share a key. */
  lemma PartsLookup(a: map<string, Value>, b: map<string, Value>, c: map<string, Value>, d: map<string, Value>)
    requires a.Keys <= {"node_name"} && b.Keys <= {"source_type"}
    requires c.Keys <= {"source_task_id"} && d.Keys <= {"source_path"}
    ensures (a + b + c + d).Keys == a.Keys + b.Keys + c.Keys + d.Keys
    ensures "node_name" in a ==> (a + b + c + d)["node_name"] == a["node_name"]
    ensures "source_task_id" in c ==> (a + b + c + d)["source_task_id"] == c["source_task_id"]
  {
  }

  /** The job id recorded is the first truthy of the three keys. */
  lemma TaskIdIsFirstTruthy(state: map<string, Value>, nodeName: string)
    requires !Get(state, "metadata").Obj?
    ensures var m := Metadata(state, nodeName);
            (Truthy(Get(state, "source_task_id")) ==> m["source_task_id"] == Str(Show(state["source_task_id"])))
            && (!Truthy(Get(state, "source_task_id")) && Truthy(Get(state, "celery_task_id")) ==>
                  m["source_task_id"] == Str(Show(state["celery_task_id"])))
            && (!Truthy(Get(state, "source_task_id")) && !Truthy(Get(state, "celery_task_id")) && Truthy(Get(state, "task_id"))
                ==> m["source_task_id"] == Str(Show(state["task_id"])))
  {
  }

  /** The state's `metadata` dict has the last word on every key it holds. */
  lemma ExtraMetadataWins(state: map<string, Value>, nodeName: string, k: string)
    requires Get(state, "metadata").Obj? && k in state["metadata"].fields
    ensures k in Metadata(state, nodeName) && Metadata(state, nodeName)[k] == state["metadata"].fields[k]
  {
  }

  /** `_save_usage_to_db`: the record written, or nothing when the write
      fails; a failure is swallowed. */
  function Save(state: map<string, Value>, nodeName: string, model: Value, u: Usage, success: bool,
                error: Option<string>, persisted: bool): (saved: seq<UsageRecord>)
    ensures |saved| == if persisted then 1 else 0
    ensures persisted ==> saved[0].metadata == Metadata(state, nodeName) && saved[0].success == success
                          && saved[0].error == error && saved[0].userId == Get(state, "user_id")
  {
    if persisted then
      [UsageRecord(Get(state, "user_id"), model, u.promptTokens, u.completionTokens, u.totalTokens,
                   u.cachedTokens, u.reasoningTokens, success, error, Metadata(state, nodeName))]
    else []
  }

  /** What one `call_and_track` leaves behind: the request sent (None when
      it raised before calling the service), the returned text and usage
      or the error raised, the caller's state and the usage rows written. */
  datatype Outcome = Outcome(sent: Option<Request>, result: Result<(string, Usage), string>,
                             state: Option<TrackState>, saved: seq<UsageRecord>)

  /** The usage of a failed call: model "unknown" and zero tokens. */
  const FailedUsage: Usage := Usage(Str(Unknown), Int(0), Int(0), Int(0), Int(0), Int(0))

  /** `state.setdefault("llm_calls", []).append(entry)` when a state was given. */
  function Append(state: Option<TrackState>, e: CallEntry): (s: Option<TrackState>)
    ensures s.Some? <==> state.Some?
    ensures state.Some? ==> s.value == state.value.(calls := state.value.calls + [e])
  {
    if state.Some? then Some(state.value.(calls := state.value.calls + [e])) else None
  }

  /** The `try` block once the request is built: ask the service, check the
      answer, read the usage, then record the call. Any exception is
      recorded as a failure with zero usage and raised again. */
  function Track(q: Request, nodeName: string, state: Option<TrackState>,
                 reply: Result<Response, string>, persisted: bool): (o: Outcome)
    ensures o.sent == Some(q)
    ensures o.state.Some? <==> state.Some?
    ensures state.Some? ==> |o.state.value.calls| == |state.value.calls| + 1
                            && o.state.value.calls[..|state.value.calls|] == state.value.calls
                            && o.state.value.fields == state.value.fields
    ensures state.Some? ==> var e := o.state.value.calls[|state.value.calls|];
                            e.node == nodeName && (e.success <==> o.result.Ok?)
                            && (o.result.Err? ==> e.error == Some(o.result.error) && e.model == Str(Unknown)
                                                  && e.totalTokens == Int(0))
    ensures |o.saved| == if persisted then 1 else 0
    ensures persisted ==> (o.saved[0].success <==> o.result.Ok?)
    ensures o.result.Ok? ==> reply.Ok? && Answer(reply.value, nodeName) == Ok(o.result.value.0)
                             && o.result.value.1 == ReadUsage(reply.value)
    ensures reply.Err? ==> o.result == Err(reply.error)
  {
    var effective := Merge(if state.Some? then state.value.fields else map[], map["node_name" := Str(nodeName)]);
    var answer: Result<(string, Usage), string> :=
      match reply
      case Err(e) => Err(e)
      case Ok(r) =>
        match Answer(r, nodeName)
        case Err(e) => Err(e)
        case Ok(text) => Ok((text, ReadUsage(r)));
    match answer
    case Ok((text, u)) =>
      var entry := CallEntry(nodeName, u.model, u.promptTokens, u.completionTokens, u.totalTokens,
                             Some(u.cachedTokens), Some(u.reasoningTokens), true, None);
      Outcome(Some(q), answer, Append(state, entry), Save(effective, Unknown, u.model, u, true, None, persisted))
    case Err(e) =>
      var entry := CallEntry(nodeName, Str(Unknown), Int(0), Int(0), Int(0), None, None, false, Some(e));
      Outcome(Some(q), answer, Append(state, entry),
              Save(effective, Unknown, Str(Unknown), FailedUsage, false, Some(e), persisted))
  }

  /** `call_and_track`. Empty messages raise before anything else; so does
      a message whose content has no length (the log line measures them
      before the `try`). Otherwise the request is built, sent once, and the
      call tracked. `chat` is the service. */
  function CallAndTrack(messages: seq<Value>, jsonMode: bool, maxTokens: Option<Value>,
                        temperature: Option<Value>, responseFormat: Option<Value>, nodeName: string,
                        state: Option<TrackState>, s: Settings, chat: Request -> Result<Response, string>,
                        persisted: bool): (o: Outcome)
    ensures |messages| == 0 ==> o == Outcome(None, Err(EmptyMessages), state, [])
    ensures |messages| > 0 && !Measurable(messages) ==> o == Outcome(None, Err(Unmeasurable), state, [])
    ensures |messages| > 0 && Measurable(messages) ==>
              o.sent == Some(BuildRequest(messages, jsonMode, maxTokens, temperature, responseFormat, s))
              && |o.saved| == (if persisted then 1 else 0)
  {
    if |messages| == 0 then Outcome(None, Err(EmptyMessages), state, [])
    else if !Measurable(messages) then Outcome(None, Err(Unmeasurable), state, [])
    else
      var q := BuildRequest(messages, jsonMode, maxTokens, temperature, responseFormat, s);
      Track(q, nodeName, state, chat(q), persisted)
  }

  /** Every call that reaches the service appends exactly one entry to the
      caller's state, keeps the earlier entries, and records success
      exactly when the call returns. */
  lemma OneEntryPerCall(messages: seq<Value>, jsonMode: bool, maxTokens: Option<Value>,
                        temperature: Option<Value>, responseFormat: Option<Value>, nodeName: string,
                        state: TrackState, s: Settings, chat: Request -> Result<Response, string>,
                        persisted: bool)
    requires |messages| > 0 && Measurable(messages)
    ensures var o := CallAndTrack(messages, jsonMode, maxTokens, temperature, responseFormat, nodeName,
                                  Some(state), s, chat, persisted);
            o.state.Some? && o.state.value.calls[..|state.calls|] == state.calls
            && |o.state.value.calls| == |state.calls| + 1
            && (o.state.value.calls[|state.calls|].success <==> o.result.Ok?)
  {
  }

  /** The usage row of a call names the node the call was made for, even
      when the state carries another `node_name`, unless the state's own
      `metadata` dict sets one. */
  lemma RecordedNodeIsTheCallers(q: Request, nodeName: string, state: TrackState,
                                 reply: Result<Response, string>)
    requires nodeName != "" && nodeName != Unknown
    requires !Get(state.fields, "metadata").Obj?
    ensures var o := Track(q, nodeName, Some(state), reply, true);
            "node_name" in o.saved[0].metadata && o.saved[0].metadata["node_name"] == Str(nodeName)
  {
    var effective := Merge(state.fields, map["node_name" := Str(nodeName)]);
    assert GetOr(effective, "node_name", Str(Unknown)) == Str(nodeName);
    assert Get(effective, "metadata") == Get(state.fields, "metadata");
    MetadataKeys(effective, Unknown);
    assert Track(q, nodeName, Some(state), reply, true).saved[0].metadata == Metadata(effective, Unknown);
  }

  /** A successful call returns non-blank text and records the usage it
      returns; a service that answers with no usage metadata is recorded
      with zero tokens. */
  lemma SuccessRecordsUsage(q: Request, nodeName: string, state: Option<TrackState>, r: Response)
    requires Track(q, nodeName, state, Ok(r), true).result.Ok?
    ensures var o := Track(q, nodeName, state, Ok(r), true);
            var u := o.result.value.1;
            Strip(o.result.value.0) != ""
            && o.saved[0].promptTokens == u.promptTokens && o.saved[0].totalTokens == u.totalTokens
            && o.saved[0].cachedTokens == u.cachedTokens && o.saved[0].reasoningTokens == u.reasoningTokens
            && o.saved[0].model == u.model
            && (r.Plain? ==> u.totalTokens == Int(0) && u.promptTokens == Int(0))
  {
  }
}

=== FILE: log_collector.dfy ===
/** `TaskLogCollector` (task_manager/utils/log_collector.py): an in-memory
    log of at most `max_records` entries, oldest dropped first. Timestamps
    come from the caller's clock. */
module LogCollector {
  import opened Wrappers

  const DefaultMaxRecords: int := 1000

  const Info: string := "INFO"
  const Warning: string := "WARNING"
  const Error: string := "ERROR"
  const Debug: string := "DEBUG"
  const Critical: string := "CRITICAL"

  /** One log entry; `exception` is the optional `exception` key. */
  datatype Entry = Entry(level: string, message: string, timestamp: int, exception: Option<string>)

  datatype Collector = Collector(records: seq<Entry>, maxRecords: int)

  function New(maxRecords: int): (c: Collector)
    ensures c.records == [] && c.maxRecords == maxRecords
  {
    Collector([], maxRecords)
  }

  /** The buffer bound the collector keeps once it holds anything. */
  predicate Bounded(c: Collector) {
    |c.records| <= c.maxRecords
  }

  /** `_add_log`: when the buffer holds `max_records` or more entries the
      oldest is popped before appending. A bound of 0 or less makes that pop
      run on an empty list and raise, so the add fails (`None`). The
      `exception` key is present only for a non-empty exception text. */
  function Add(c: Collector, level: string, message: string, exception: Option<string>, now: int)
    : (r: Option<Collector>)
    ensures r.None? <==> |c.records| >= c.maxRecords && |c.records| == 0
    ensures r.Some? ==> r.value.maxRecords == c.maxRecords
    ensures r.Some? && |c.records| < c.maxRecords ==>
              r.value.records == c.records + [MakeEntry(level, message, exception, now)]
    ensures r.Some? && |c.records| >= c.maxRecords ==>
              r.value.records == c.records[1..] + [MakeEntry(level, message, exception, now)]
    ensures r.Some? && Bounded(c) ==> Bounded(r.value)
  {
    var kept := if |c.records| >= c.maxRecords then
                  (if |c.records| == 0 then None else Some(c.records[1..]))
                else Some(c.records);
    match kept
    case None => None
    case Some(rest) => Some(c.(records := rest + [MakeEntry(level, message, exception, now)]))
  }

  /** The entry dict: the `exception` key only for a non-empty text. */
  function MakeEntry(level: string, message: string, exception: Option<string>, now: int): (e: Entry)
    ensures e.level == level && e.message == message && e.timestamp == now
    ensures e.exception.Some? <==> exception.Some? && exception.value != ""
    ensures e.exception.Some? ==> e.exception == exception
  {
    Entry(level, message, now, if exception.Some? && exception.value != "" then exception else None)
  }

  function Last(s: seq<Entry>): Entry
    requires |s| > 0
  {
    s[|s| - 1]
  }

  /** The level-named helpers: `info`, `warning`, `debug` never pass an
      exception; `error` passes its own. */
  function LogInfo(c: Collector, message: string, now: int): Option<Collector> {
    Add(c, Info, message, None, now)
  }

  function LogWarning(c: Collector, message: string, now: int): Option<Collector> {
    Add(c, Warning, message, None, now)
  }

  function LogError(c: Collector, message: string, exception: Option<string>, now: int): Option<Collector> {
    Add(c, Error, message, exception, now)
  }

  function LogDebug(c: Collector, message: string, now: int): Option<Collector> {
    Add(c, Debug, message, None, now)
  }

  /** A log of `(level, message, exception)` calls applied in order at the
      given times; `None` as soon as one add fails. */
  function AddAll(c: Collector, calls: seq<(string, string, Option<string>)>, now: int)
    : (r: Option<Collector>)
    decreases |calls|
  {
    if |calls| == 0 then Some(c)
    else
      match Add(c, calls[0].0, calls[0].1, calls[0].2, now)
      case None => None
      case Some(c1) => AddAll(c1, calls[1..], now)
  }

  /** Messages of the entries, in order. */
  function Messages(s: seq<Entry>): (r: seq<string>)
    ensures |r| == |s|
    ensures forall i :: 0 <= i < |s| ==> r[i] == s[i].message
  {
    if |s| == 0 then [] else Messages(s[..|s| - 1]) + [s[|s| - 1].message]
  }

  /** With a positive bound, any run of adds succeeds, stays within the
      bound, and leaves the last `max_records` messages of (old entries,
      new calls) in their original order. */
  lemma {:induction false} AddAllKeepsNewest(c: Collector, calls: seq<(string, string, Option<string>)>, now: int)
    requires c.maxRecords >= 1 && Bounded(c)
    ensures var r := AddAll(c, calls, now);
            r.Some? && Bounded(r.value) && r.value.maxRecords == c.maxRecords
            && Messages(r.value.records) == Newest(Messages(c.records) + CallMessages(calls), c.maxRecords)
    decreases |calls|
  {
    if |calls| == 0 {
      NewestAll(Messages(c.records), c.maxRecords);
      assert Messages(c.records) + CallMessages(calls) == Messages(c.records);
    } else {
      var (level, x, ex) := calls[0];
      AddStep(c, level, x, ex, now);
      var c1 := Add(c, level, x, ex, now).value;
      assert AddAll(c, calls, now) == AddAll(c1, calls[1..], now);
      AddAllKeepsNewest(c1, calls[1..], now);
      var m := Messages(c.records);
      var rest := CallMessages(calls[1..]);
      NewestAppend(m + [x], rest, c.maxRecords);
      assert CallMessages(calls) == [x] + rest;
      SeqAssoc(m, [x], rest);
    }
  }

  lemma SeqAssoc(a: seq<string>, b: seq<string>, c: seq<string>)
    ensures a + (b + c) == (a + b) + c
  {
  }

  function CallMessages(calls: seq<(string, string, Option<string>)>): (r: seq<string>)
    ensures |r| == |calls|
    ensures forall i :: 0 <= i < |calls| ==> r[i] == calls[i].1
  {
    if |calls| == 0 then [] else [calls[0].1] + CallMessages(calls[1..])
  }

  /** The last `n` elements of `s` (all of them when there are fewer). */
  function Newest(s: seq<string>, n: nat): (r: seq<string>)
    ensures |r| <= n && |r| <= |s|
  {
    if |s| <= n then s else s[|s| - n..]
  }

  lemma NewestAll(s: seq<string>, n: nat)
    requires |s| <= n
    ensures Newest(s, n) == s
  {
  }

  /** Dropping fewer elements than `Newest` would drop changes nothing. */
  lemma NewestDrop(s: seq<string>, d: nat, n: nat)
    requires d <= |s| && (d == 0 || d <= |s| - n)
    ensures Newest(s[d..], n) == Newest(s, n)
  {
    if |s| - d > n {
      assert s[d..][|s| - d - n..] == s[|s| - n..];
    }
  }

  /** Keeping the newest `n` after each append is keeping the newest `n`
      once at the end. */
  lemma NewestAppend(a: seq<string>, rest: seq<string>, n: nat)
    ensures Newest(Newest(a, n) + rest, n) == Newest(a + rest, n)
  {
    var d := if |a| <= n then 0 else |a| - n;
    assert Newest(a, n) + rest == (a + rest)[d..];
    NewestDrop(a + rest, d, n);
  }

  /** One add with a positive bound, stated on the messages. */
  lemma AddStep(c: Collector, level: string, message: string, exception: Option<string>, now: int)
    requires c.maxRecords >= 1 && Bounded(c)
    ensures var r := Add(c, level, message, exception, now);
            r.Some? && Bounded(r.value) && r.value.maxRecords == c.maxRecords
            && Messages(r.value.records) == Newest(Messages(c.records) + [message], c.maxRecords)
  {
    var r := Add(c, level, message, exception, now).value;
    var m := Messages(c.records);
    assert r.records[..|r.records| - 1] + [Last(r.records)] == r.records;
    if |c.records| < c.maxRecords {
      assert r.records[..|c.records|] == c.records;
      assert Messages(r.records) == m + [message];
    } else {
      assert r.records == c.records[1..] + [Last(r.records)];
      assert Messages(r.records) == (m + [message])[1..];
    }
  }

  /** `get_logs`: a fresh list with the same entries; the collector's own
      buffer is a value, so changing the copy cannot reach it. */
  function GetLogs(c: Collector): (r: seq<Entry>)
    ensures r == c.records
  {
    c.records
  }

  predicate Serious(e: Entry) {
    e.level == Warning || e.level == Error || e.level == Critical
  }

  /** `get_warnings_and_errors`: the WARNING, ERROR and CRITICAL entries in
      their original order. */
  function WarningsAndErrors(s: seq<Entry>): (r: seq<Entry>)
    ensures |r| <= |s|
    ensures forall e :: e in r ==> e in s && Serious(e)
    ensures forall e :: e in s && Serious(e) ==> e in r
  {
    if |s| == 0 then [] else
      var rest := WarningsAndErrors(s[..|s| - 1]);
      if Serious(s[|s| - 1]) then rest + [s[|s| - 1]] else rest
  }

  /** The filter is a subsequence: its entries appear in `s` in the same
      relative order. */
  lemma {:induction false} WarningsAndErrorsOrdered(s: seq<Entry>)
    ensures exists idx: seq<nat> :: IsEmbedding(idx, WarningsAndErrors(s), s)
  {
    if |s| == 0 {
      assert IsEmbedding([], WarningsAndErrors(s), s);
    } else {
      var init := s[..|s| - 1];
      WarningsAndErrorsOrdered(init);
      var idx: seq<nat> :| IsEmbedding(idx, WarningsAndErrors(init), init);
      EmbeddingGrows(idx, WarningsAndErrors(init), s);
      if Serious(s[|s| - 1]) {
        assert IsEmbedding(idx + [|s| - 1], WarningsAndErrors(s), s);
      } else {
        assert IsEmbedding(idx, WarningsAndErrors(s), s);
      }
    }
  }

  /** An embedding into all but the last entry of `s` embeds into `s`, and
      extends by the last entry. */
  lemma EmbeddingGrows(idx: seq<nat>, sub: seq<Entry>, s: seq<Entry>)
    requires |s| > 0 && IsEmbedding(idx, sub, s[..|s| - 1])
    ensures IsEmbedding(idx, sub, s)
    ensures IsEmbedding(idx + [|s| - 1], sub + [s[|s| - 1]], s)
  {
    var idx2 := idx + [|s| - 1];
    var sub2 := sub + [s[|s| - 1]];
    forall k | 0 <= k < |idx| ensures idx[k] < |s| - 1 && s[idx[k]] == sub[k] {
      assert s[..|s| - 1][idx[k]] == s[idx[k]];
    }
    forall k | 0 <= k < |idx2| ensures idx2[k] < |s| && s[idx2[k]] == sub2[k] {
      if k < |idx| {
        assert idx2[k] == idx[k] && sub2[k] == sub[k];
      }
    }
  }

  /** `idx` lists strictly increasing positions of `s` holding `sub`. */
  predicate IsEmbedding(idx: seq<nat>, sub: seq<Entry>, s: seq<Entry>) {
    |idx| == |sub|
    && (forall k :: 0 <= k < |idx| ==> idx[k] < |s| && s[idx[k]] == sub[k])
    && (forall k, l :: 0 <= k < l < |idx| ==> idx[k] < idx[l])
  }

  /** The number of entries at `level`. */
  function CountLevel(s: seq<Entry>, level: string): (n: nat)
    ensures n <= |s|
  {
    if |s| == 0 then 0
    else CountLevel(s[..|s| - 1], level) + (if s[|s| - 1].level == level then 1 else 0)
  }

  /** `get_summary`: `total` and the `by_level` counts, with a key only for
      the levels that occur. */
  datatype Summary = Summary(total: nat, byLevel: map<string, nat>)

  /** The `by_level` dict after counting the entries of `s` in order. */
  function Tally(s: seq<Entry>): (m: map<string, nat>)
  {
    if |s| == 0 then map[]
    else
      var m := Tally(s[..|s| - 1]);
      var l := s[|s| - 1].level;
      m[l := (if l in m then m[l] else 0) + 1]
  }

  /** The tally has a key exactly for each level that occurs, holds that
      level's count, and its counts add up to the number of entries. */
  lemma TallyCounts(s: seq<Entry>)
    ensures forall l :: l in Tally(s) <==> exists e :: e in s && e.level == l
    ensures forall l :: l in Tally(s) ==> Tally(s)[l] == CountLevel(s, l) && Tally(s)[l] > 0
    ensures SumValues(Tally(s)) == |s|
  {
    TallyKeys(s);
    TallyValues(s);
    TallySum(s);
  }

  lemma {:induction false} TallyKeys(s: seq<Entry>)
    ensures forall l :: l in Tally(s) <==> exists e :: e in s && e.level == l
  {
    if |s| > 0 {
      TallyKeys(s[..|s| - 1]);
      assert forall e :: e in s <==> e in s[..|s| - 1] || e == s[|s| - 1];
    }
  }

  lemma {:induction false} TallyValues(s: seq<Entry>)
    ensures forall l :: l in Tally(s) ==> Tally(s)[l] == CountLevel(s, l) && Tally(s)[l] > 0
  {
    if |s| > 0 {
      var init := s[..|s| - 1];
      var l := s[|s| - 1].level;
      TallyValues(init);
      if l !in Tally(init) {
        TallyKeys(init);
        CountLevelAbsent(init, l);
      }
    }
  }

  lemma {:induction false} TallySum(s: seq<Entry>)
    ensures SumValues(Tally(s)) == |s|
  {
    if |s| > 0 {
      var init := s[..|s| - 1];
      var m := Tally(init);
      var l := s[|s| - 1].level;
      TallySum(init);
      SumValuesUpdate(m, l, (if l in m then m[l] else 0) + 1);
    }
  }

  method GetSummary(c: Collector) returns (r: Summary)
    ensures r.total == |c.records|
    ensures forall l :: l in r.byLevel <==> exists e :: e in c.records && e.level == l
    ensures forall l :: l in r.byLevel ==> r.byLevel[l] == CountLevel(c.records, l) && r.byLevel[l] > 0
    ensures SumValues(r.byLevel) == r.total
  {
    var counts: map<string, nat> := map[];
    var i := 0;
    while i < |c.records|
      invariant 0 <= i <= |c.records|
      invariant counts == Tally(c.records[..i])
    {
      var level := c.records[i].level;
      assert c.records[..i + 1][..i] == c.records[..i];
      counts := counts[level := (if level in counts then counts[level] else 0) + 1];
      i := i + 1;
    }
    assert c.records[..i] == c.records;
    TallyCounts(c.records);
    r := Summary(i, counts);
  }

  /** No entry at `level` means a count of zero. */
  lemma {:induction false} CountLevelAbsent(s: seq<Entry>, level: string)
    requires forall e :: e in s ==> e.level != level
    ensures CountLevel(s, level) == 0
  {
    if |s| > 0 {
      assert forall e :: e in s[..|s| - 1] ==> e in s;
      CountLevelAbsent(s[..|s| - 1], level);
    }
  }

  /** The sum of a map's values. */
  ghost function SumValues(m: map<string, nat>): nat
    decreases |m.Keys|
  {
    if |m| == 0 then 0
    else
      var k := PickKey(m);
      m[k] + SumValues(m - {k})
  }

  ghost function PickKey(m: map<string, nat>): (k: string)
    requires |m| > 0
    ensures k in m
  {
    var k :| k in m; k
  }

  /** The sum does not depend on which key is taken out first. */
  lemma {:induction false} SumValuesRemove(m: map<string, nat>, k: string)
    requires k in m
    ensures SumValues(m) == m[k] + SumValues(m - {k})
    decreases |m.Keys|
  {
    var j := PickKey(m);
    if j != k {
      SumValuesRemove(m - {j}, k);
      SumValuesRemove(m - {k}, j);
      assert (m - {j}) - {k} == (m - {k}) - {j};
    }
  }

  /** Setting one key changes the sum by the difference. */
  lemma SumValuesUpdate(m: map<string, nat>, k: string, v: nat)
    ensures SumValues(m[k := v]) == SumValues(m) - (if k in m then m[k] else 0) + v
  {
    var m2 := m[k := v];
    SumValuesRemove(m2, k);
    assert m2 - {k} == m - {k};
    if k in m {
      SumValuesRemove(m, k);
    } else {
      assert m - {k} == m;
    }
  }

  /** `clear`: an empty buffer with the same bound. */
  function Clear(c: Collector): (r: Collector)
    ensures r.records == [] && r.maxRecords == c.maxRecords
    ensures Bounded(r) <==> c.maxRecords >= 0
  {
    c.(records := [])
  }
}

=== FILE: masking.dfy ===
/** Masking of provider configurations before they are logged
    (cloud_billing/utils/logging.py): a value under a key that looks like a
    credential is cut to its first four characters followed by "***". */
module ConfigMasking {
  import opened Text
  import opened Json

  /** The keywords that make a key sensitive; a key is sensitive when its
      lower-cased name contains one of them. */
  const Keywords: seq<string> := [
    "api_key", "api_secret", "secret_key", "secret_access_key",
    "access_key_id", "access_key", "api_secret_key",
    "client_secret", "client_id", "tenant_id",
    "password", "passwd", "pwd",
    "token", "access_token", "refresh_token",
    "private_key", "private_key_id",
    "aws_access_key_id", "aws_secret_access_key",
    "huawei_access_key_id", "huawei_secret_access_key",
    "azure_client_secret", "azure_subscription_key",
    "alibaba_access_key_id", "alibaba_access_key_secret"]

  const Stars: string := "***"

  /** Some keyword among `kws` occurs in `low`. */
  function AnyOccurs(low: string, kws: seq<string>): (r: bool)
    ensures r <==> exists i :: 0 <= i < |kws| && Contains(low, kws[i])
  {
    if |kws| == 0 then false
    else if Has(low, kws[0]) then true
    else
      var r := AnyOccurs(low, kws[1..]);
      assert forall i :: 0 <= i < |kws[1..]| ==> kws[1..][i] == kws[i + 1];
      r
  }

  predicate Sensitive(key: string) {
    AnyOccurs(Lower(key), Keywords)
  }

  /** One value after masking. */
  function MaskValue(key: string, v: Value): (r: Value)
    ensures !Sensitive(key) || !Truthy(v) ==> r == v
    ensures Sensitive(key) && Truthy(v) && v.Str? && |v.s| > 4 ==> r == Str(v.s[..4] + Stars)
    ensures Sensitive(key) && Truthy(v) && !(v.Str? && |v.s| > 4) ==> r == Str(Stars)
  {
    if Sensitive(key) && Truthy(v) then
      if v.Str? && |v.s| > 4 then Str(v.s[..4] + Stars) else Str(Stars)
    else v
  }

  /** `mask_sensitive_config`. */
  function Mask(v: Value): (r: Value)
    ensures !Truthy(v) || !v.Obj? ==> r == v
    ensures v.Obj? ==> r.Obj? && r.fields.Keys == v.fields.Keys
    ensures v.Obj? ==> forall k :: k in v.fields ==> r.fields[k] == MaskValue(k, v.fields[k])
  {
    if !Truthy(v) || !v.Obj? then v
    else Obj(map k | k in v.fields :: MaskValue(k, v.fields[k]))
  }

  /** A masked credential shows at most four characters of the secret, and
      those four are its prefix. */
  lemma MaskRevealsAtMostFour(v: Value, k: string)
    requires v.Obj? && k in v.fields && Sensitive(k) && Truthy(v.fields[k])
    ensures var m := Mask(v).fields[k];
            m.Str? && |m.s| <= 7 && m.s[|m.s| - 3..] == Stars
            && (v.fields[k].Str? ==> m.s[..|m.s| - 3] <= v.fields[k].s)
  {
  }

  /** Masking an already masked configuration changes nothing. */
  lemma MaskIdempotent(v: Value)
    ensures Mask(Mask(v)) == Mask(v)
  {
    if v.Obj? && Truthy(v) {
      var once := Mask(v);
      forall k | k in once.fields
        ensures MaskValue(k, once.fields[k]) == once.fields[k]
      {
        var x := v.fields[k];
        if Sensitive(k) && Truthy(x) && x.Str? && |x.s| > 4 {
          assert (x.s[..4] + Stars)[..4] == x.s[..4];
        }
      }
      assert Mask(once).fields == once.fields;
    }
  }

  /** What `mask_sensitive_config_object` is handed: nothing, an object
      whose attributes (or dataclass fields) form a dict, or any other value
      with its `str()`. */
  datatype ConfigObject = NoObject | WithAttrs(attrs: map<string, Value>) | Other(text: string)

  /** `mask_sensitive_config_object`. */
  function MaskObject(o: ConfigObject): (r: Value)
    ensures o.NoObject? ==> r == Null
    ensures o.WithAttrs? ==> r.Obj? && r.fields.Keys == o.attrs.Keys
                             && forall k :: k in o.attrs ==> r.fields[k] == MaskValue(k, o.attrs[k])
    ensures o.Other? ==> r == Str(o.text)
  {
    match o
    case NoObject => Null
    case WithAttrs(a) => Mask(Obj(a))
    case Other(t) => Str(t)
  }
}

=== FILE: oauth_accounts.dfy ===
/** The social-login adapter (accounts/adapters.py): the first and last
    names taken from the provider's data, how they are written onto the
    user, and the unique username a new user receives. */
module OAuthAccounts {
  import opened Wrappers
  import opened Text

  /** The OAuth payload; every field the adapter reads is text. */
  type Data = map<string, string>

  /** The part of the Django user the adapter touches. `persisted` is
      "has a primary key". */
  datatype User = User(firstName: string, lastName: string, username: string,
                       email: string, persisted: bool)

  const Google: string := "google"

  /** `data.get(key, '')`. */
  function Read(data: Data, key: string): string {
    if key in data then data[key] else ""
  }

  /** `text or None`. */
  function NonEmpty(s: string): (r: Option<string>)
    ensures r.Some? <==> |s| > 0
    ensures r.Some? ==> r.value == s
  {
    if |s| > 0 then Some(s) else None
  }

  /** A name as the adapter hands it on: non-empty and without whitespace
      at either end. */
  predicate Trimmed(s: string) {
    |s| > 0 && !IsSpace(s[0]) && !IsSpace(s[|s| - 1])
  }

  /** `_extract_names_from_oauth_data`. Google's `given_name` and
      `family_name` are stripped, with "" read as missing. For any other
      provider, a user without names takes the stripped `name` split at its
      first whitespace run; otherwise the user's own names are kept. */
  function ExtractNames(provider: string, data: Data, user: User): (r: (Option<string>, Option<string>))
    ensures provider == Google ==>
              r == (NonEmpty(Strip(Read(data, "given_name"))), NonEmpty(Strip(Read(data, "family_name"))))
    ensures provider != Google && (|user.firstName| > 0 || |user.lastName| > 0) ==>
              r == (NonEmpty(user.firstName), NonEmpty(user.lastName))
    ensures provider != Google && user.firstName == "" && user.lastName == "" && AllSpace(Read(data, "name")) ==>
              r == (None, None)
    ensures provider != Google && user.firstName == "" && user.lastName == "" && !AllSpace(Read(data, "name")) ==>
              r.0.Some? && NoSpace(r.0.value) && Trimmed(r.0.value)
              && (r.1.Some? ==> Trimmed(r.1.value))
  {
    if provider == Google then
      (NonEmpty(Strip(Read(data, "given_name"))), NonEmpty(Strip(Read(data, "family_name"))))
    else if user.firstName == "" && user.lastName == "" && Strip(Read(data, "name")) != "" then
      SplitName(Strip(Read(data, "name")))
    else
      StripEmptyIffAllSpace(Read(data, "name"));
      (NonEmpty(user.firstName), NonEmpty(user.lastName))
  }

  /** `full_name.split(None, 1)` of a stripped, non-blank display name, as
      a (first, last) pair. */
  function SplitName(full: string): (r: (Option<string>, Option<string>))
    requires Trimmed(full)
    ensures r.0.Some? && NoSpace(r.0.value) && Trimmed(r.0.value)
    ensures r.1.Some? ==> Trimmed(r.1.value)
  {
    var parts := SplitOnce(full);
    SplitTrimmed(full);
    if |parts| >= 2 then (Some(parts[0]), Some(parts[1]))
    else (Some(parts[0]), None)
  }

  /** Stripping a trimmed text changes nothing. */
  lemma StripOfTrimmed(s: string)
    requires Trimmed(s)
    ensures Strip(s) == s
  {
    assert StripLeft(s) == s;
  }

  /** The first word of a trimmed text is trimmed. */
  lemma FirstWordTrimmed(full: string)
    requires Trimmed(full)
    ensures 0 < WordEnd(full) && Trimmed(full[..WordEnd(full)]) && NoSpace(full[..WordEnd(full)])
  {
  }

  /** What follows the first word of a trimmed text, left-stripped, is
      trimmed unless it is empty. */
  lemma RestTrimmed(full: string, k: nat)
    requires Trimmed(full) && k <= |full|
    ensures var rest := StripLeft(full[k..]);
            |rest| > 0 ==> Trimmed(rest)
  {
    var tail := full[k..];
    var rest := StripLeft(tail);
    if |rest| > 0 {
      assert rest[|rest| - 1] == tail[|tail| - 1];
    }
  }

  /** Splitting a stripped, non-blank text gives a trimmed first word and a
      trimmed rest. */
  lemma SplitTrimmed(full: string)
    requires Trimmed(full)
    ensures var parts := SplitOnce(full);
            1 <= |parts| && Trimmed(parts[0]) && NoSpace(parts[0]) && (|parts| == 2 ==> Trimmed(parts[1]))
  {
    assert StripLeft(full) == full;
    FirstWordTrimmed(full);
    RestTrimmed(full, WordEnd(full));
  }

  /** The first word of a text that starts with a whitespace-free word
      followed by whitespace ends where that word ends. */
  lemma {:induction false} WordEndAfterWord(a: string, b: string)
    requires NoSpace(a) && |b| > 0 && IsSpace(b[0])
    ensures WordEnd(a + b) == |a|
    decreases |a|
  {
    if |a| == 0 {
      assert a + b == b;
    } else {
      assert (a + b)[1..] == a[1..] + b;
      WordEndAfterWord(a[1..], b);
    }
  }

  /** A display name of one space-free word, a single space and a trimmed
      rest splits into exactly those two names. */
  lemma SplitNameOfTwo(first: string, rest: string)
    requires |first| > 0 && NoSpace(first) && Trimmed(rest)
    ensures Trimmed(first + " " + rest)
    ensures SplitName(first + " " + rest) == (Some(first), Some(rest))
  {
    var full := first + " " + rest;
    assert full[0] == first[0] && full[|full| - 1] == rest[|rest| - 1];
    assert StripLeft(full) == full;
    assert full == first + (" " + rest);
    WordEndAfterWord(first, " " + rest);
    assert full[..|first|] == first;
    assert full[|first|..] == " " + rest;
    assert (" " + rest)[1..] == rest;
    assert StripLeft(" " + rest) == rest;
  }

  /** The first word of a whitespace-free text is all of it. */
  lemma {:induction false} WordEndOfWord(word: string)
    requires NoSpace(word)
    ensures WordEnd(word) == |word|
  {
    if |word| > 0 {
      WordEndOfWord(word[1..]);
    }
  }

  /** A display name of a single word gives that word and no last name. */
  lemma SplitNameOfWord(word: string)
    requires |word| > 0 && NoSpace(word)
    ensures Trimmed(word)
    ensures SplitName(word) == (Some(word), None)
  {
    SplitOnceOfWord(word);
  }

  lemma SplitOnceOfWord(word: string)
    requires |word| > 0 && NoSpace(word)
    ensures SplitOnce(word) == [word]
  {
    assert StripLeft(word) == word;
    WordEndOfWord(word);
    SplitOnceWhole(word);
  }

  /** A text that starts with no whitespace and is one word splits into itself. */
  lemma SplitOnceWhole(t: string)
    requires |t| > 0 && StripLeft(t) == t && WordEnd(t) == |t|
    ensures SplitOnce(t) == [t]
  {
    var e: string := [];
    assert t[|t|..] == e && t[..|t|] == t;
    assert StripLeft(e) == e;
  }

  /** For a user without names, a display name "first rest" gives back
      exactly `first` and `rest`. */
  lemma NamesSplitAtFirstSpace(first: string, rest: string, data: Data, user: User, provider: string)
    requires provider != Google && user.firstName == "" && user.lastName == ""
    requires |first| > 0 && NoSpace(first) && Trimmed(rest)
    requires Read(data, "name") == first + " " + rest
    ensures ExtractNames(provider, data, user) == (Some(first), Some(rest))
  {
    SplitNameOfTwo(first, rest);
    StripOfTrimmed(first + " " + rest);
  }

  /** For a user without names, a one-word display name is the first name. */
  lemma SingleWordName(word: string, data: Data, user: User, provider: string)
    requires provider != Google && user.firstName == "" && user.lastName == ""
    requires |word| > 0 && NoSpace(word)
    requires Read(data, "name") == word
    ensures ExtractNames(provider, data, user) == (Some(word), None)
  {
    SplitNameOfWord(word);
    StripOfTrimmed(word);
  }

  /** The outcome of `_update_user_names`: the user after the writes,
      whether anything changed, and the fields saved to the database. */
  datatype NameUpdate = NameUpdate(user: User, updated: bool, saved: seq<string>)

  /** `_update_user_names`: a name is written only when it is non-empty and
      differs from the current one; the changed fields are saved only for a
      user that already has a primary key. */
  function UpdateUserNames(user: User, first: Option<string>, last: Option<string>): (r: NameUpdate)
    ensures r.user.firstName == (if first.Some? && |first.value| > 0 then first.value else user.firstName)
    ensures r.user.lastName == (if last.Some? && |last.value| > 0 then last.value else user.lastName)
    ensures r.user == user.(firstName := r.user.firstName, lastName := r.user.lastName)
    ensures r.updated <==> r.user != user
    ensures !user.persisted ==> r.saved == []
    ensures user.persisted ==>
              ("first_name" in r.saved <==> r.user.firstName != user.firstName)
              && ("last_name" in r.saved <==> r.user.lastName != user.lastName)
  {
    var writeFirst := first.Some? && |first.value| > 0 && user.firstName != first.value;
    var writeLast := last.Some? && |last.value| > 0 && user.lastName != last.value;
    var fields := (if writeFirst then ["first_name"] else []) + (if writeLast then ["last_name"] else []);
    var u := user.(firstName := if writeFirst then first.value else user.firstName,
                   lastName := if writeLast then last.value else user.lastName);
    NameUpdate(u, writeFirst || writeLast, if user.persisted then fields else [])
  }

  /** Writing the same names a second time changes nothing. */
  lemma UpdateUserNamesIdempotent(user: User, first: Option<string>, last: Option<string>)
    ensures var once := UpdateUserNames(user, first, last);
            var twice := UpdateUserNames(once.user, first, last);
            twice.user == once.user && !twice.updated && (once.user.persisted ==> twice.saved == [])
  {
  }

  /** The `k`-th username tried for `base`: the base itself, then
      `base_1`, `base_2`, and so on. */
  function Candidate(base: string, k: nat): (name: string)
    ensures k == 0 ==> name == base
    ensures k > 0 ==> |name| > |base| + 1 && name[..|base|] == base && name[|base|] == '_'
                      && name[|base| + 1..] == NatToStr(k)
  {
    if k == 0 then base else base + "_" + NatToStr(k)
  }

  /** Different attempts try different usernames. */
  lemma CandidatesDistinct(base: string, j: nat, k: nat)
    requires j != k
    ensures Candidate(base, j) != Candidate(base, k)
  {
    if j > 0 && k > 0 && Candidate(base, j) == Candidate(base, k) {
      NatToStrInjective(j, k);
    }
  }

  /** The usernames tried before attempt `n`. */
  ghost function Tried(base: string, n: nat): set<string> {
    if n == 0 then {} else Tried(base, n - 1) + {Candidate(base, n - 1)}
  }

  /** Attempt `n` tries a name no earlier attempt tried. */
  lemma {:induction false} NotYetTried(base: string, n: nat, m: nat)
    requires m <= n
    ensures Candidate(base, n) !in Tried(base, m)
  {
    if m > 0 {
      NotYetTried(base, n, m - 1);
      CandidatesDistinct(base, n, m - 1);
    }
  }

  /** The `while ... exists()` loop of `populate_user`: try the candidates
      in order and keep the first one no user has. */
  method UniqueUsername(base: string, taken: set<string>) returns (username: string)
    ensures username !in taken
    ensures base !in taken ==> username == base
    ensures exists k: nat :: username == Candidate(base, k)
                             && forall j: nat :: j < k ==> Candidate(base, j) in taken
  {
    username := base;
    var counter: nat := 1;
    while username in taken
      invariant username == Candidate(base, counter - 1)
      invariant forall j: nat :: j < counter - 1 ==> Candidate(base, j) in taken
      invariant Tried(base, counter - 1) <= taken
      decreases |taken - Tried(base, counter - 1)|
    {
      NotYetTried(base, counter - 1, counter - 1);
      assert Tried(base, counter) == Tried(base, counter - 1) + {username};
      assert taken - Tried(base, counter - 1) == (taken - Tried(base, counter)) + {username};
      username := base + "_" + NatToStr(counter);
      counter := counter + 1;
    }
  }

  /** The base username: the part of the email before the first '@', or
      "user_" and the first 8 hex digits of a fresh uuid when there is no
      email. `hex` is that uuid's hex text. */
  function BaseUsername(email: string, hex: string): (base: string)
    ensures |email| > 0 ==> |base| <= |email| && '@' !in base && base == email[..|base|]
    ensures |email| > 0 && '@' in email ==> |base| < |email| && email[|base|] == '@'
    ensures |email| == 0 ==> base == "user_" + Take(hex, 8)
  {
    if |email| > 0 then
      var parts := SplitOn(email, '@');
      BaseIsPrefix(email);
      parts[0]
    else "user_" + Take(hex, 8)
  }

  /** The first piece of `split('@')` is the text up to the first '@'. */
  lemma BaseIsPrefix(email: string)
    ensures var p := SplitOn(email, '@')[0];
            p == email[..|p|] && ('@' in email ==> |p| < |email| && email[|p|] == '@')
  {
    if '@' in email {
      var k := IndexOf(email, '@');
      assert SplitOn(email, '@')[0] == email[..k];
    }
  }

  /** `populate_user` after allauth's own population: extract and write the
      names, then give a user without a username the first free candidate.
      `taken` is the set of usernames already in the table and `hex` the
      uuid drawn when the email is empty. */
  method PopulateUser(provider: string, data: Data, user: User, taken: set<string>, hex: string)
    returns (result: User)
    ensures var names := ExtractNames(provider, data, user);
            result.firstName == UpdateUserNames(user, names.0, names.1).user.firstName
            && result.lastName == UpdateUserNames(user, names.0, names.1).user.lastName
    ensures result.email == user.email && result.persisted == user.persisted
    ensures |user.username| > 0 ==> result.username == user.username
    ensures |user.username| == 0 ==>
              result.username !in taken
              && exists k: nat :: result.username == Candidate(BaseUsername(Read(data, "email"), hex), k)
  {
    var named := NamedUser(provider, data, user);
    result := named;
    if |user.username| == 0 {
      var name := NewUsername(data, taken, hex);
      result := named.(username := name);
    }
  }

  /** The user with the extracted names written; nothing but the names
      changes. */
  method NamedUser(provider: string, data: Data, user: User) returns (named: User)
    ensures var names := ExtractNames(provider, data, user);
            named == UpdateUserNames(user, names.0, names.1).user
    ensures named == user.(firstName := named.firstName, lastName := named.lastName)
  {
    var names := ExtractNames(provider, data, user);
    named := UpdateUserNames(user, names.0, names.1).user;
  }

  /** The username a user without one receives: the first free candidate
      built from the email, or from the uuid when there is no email. */
  method NewUsername(data: Data, taken: set<string>, hex: string) returns (name: string)
    ensures name !in taken
    ensures exists k: nat :: name == Candidate(BaseUsername(Read(data, "email"), hex), k)
  {
    var base := BaseUsername(Read(data, "email"), hex);
    name := UniqueUsername(base, taken);
  }
}

=== FILE: periodic_registry.dfy ===
/** The registry of periodic tasks (core/periodic_registry.py): entries
    added in code, and how `apply` writes them to the Beat tables, creating
    new tasks with every default and touching only the code-owned fields of
    existing ones. */
module PeriodicRegistry {
  import opened Wrappers
  import Json

  /** The schedule objects `add` accepts: a crontab (it has `_orig_minute`),
      a number of seconds, another schedule object with or without a
      `run_every` interval (in seconds). */
  datatype Schedule =
    | Crontab(minute: string, hour: string, dayOfWeek: string, dayOfMonth: string, monthOfYear: string)
    | Seconds(secs: real)
    | RunEvery(every: real)
    | Opaque

  /** One registered entry. */
  datatype Entry = Entry(task: string, schedule: Schedule, args: seq<Json.Value>,
                         kwargs: map<string, Json.Value>, queue: Option<string>, enabled: bool)

  /** The registry: its entries and their names in insertion order (the
      order a dict iterates in). */
  datatype Registry = Registry(order: seq<string>, entries: map<string, Entry>)

  predicate Distinct(names: seq<string>) {
    forall i, j :: 0 <= i < j < |names| ==> names[i] != names[j]
  }

  predicate Valid(r: Registry) {
    Distinct(r.order) && (forall n :: n in r.order ==> n in r.entries) && (forall n :: n in r.entries ==> n in r.order)
  }

  /** `TaskRegistry()`. */
  const Empty: Registry := Registry([], map[])

  /** `clear`. */
  function Clear(r: Registry): (c: Registry)
    ensures c.entries == map[] && Len(c) == 0
  {
    Empty
  }

  /** `len`. */
  function Len(r: Registry): nat {
    |r.entries|
  }

  /** `add`: the entry is stored under its name, replacing any earlier one;
      an empty `args` becomes `()` and a missing or empty `kwargs` `{}`. A
      name keeps its first position. */
  function Add(r: Registry, name: string, task: string, schedule: Schedule, args: seq<Json.Value>,
               kwargs: Option<map<string, Json.Value>>, queue: Option<string>, enabled: bool): (a: Registry)
    requires Valid(r)
    ensures Valid(a)
    ensures a.entries.Keys == r.entries.Keys + {name}
    ensures a.entries[name] == Entry(task, schedule, args, if kwargs.Some? then kwargs.value else map[], queue, enabled)
    ensures forall n :: n in r.entries && n != name ==> a.entries[n] == r.entries[n]
    ensures name in r.entries ==> a.order == r.order
    ensures name !in r.entries ==> a.order == r.order + [name]
  {
    var e := Entry(task, schedule, args, if kwargs.Some? then kwargs.value else map[], queue, enabled);
    Registry(if name in r.entries then r.order else r.order + [name], r.entries[name := e])
  }

  /** The order lists every entry once, so `len` is its length. */
  lemma {:induction false} LenIsOrderLength(r: Registry)
    requires Valid(r)
    ensures Len(r) == |r.order|
    decreases |r.order|
  {
    if |r.order| == 0 {
      assert r.entries.Keys == {};
    } else {
      var rest := DropLast(r);
      DropLastValid(r);
      LenIsOrderLength(rest);
    }
  }

  /** The registry without its last-added name. */
  function DropLast(r: Registry): Registry
    requires |r.order| > 0
  {
    var last := r.order[|r.order| - 1];
    Registry(r.order[..|r.order| - 1], map n | n in r.entries && n != last :: r.entries[n])
  }

  lemma DropLastValid(r: Registry)
    requires Valid(r) && |r.order| > 0
    ensures Valid(DropLast(r)) && |DropLast(r).order| == |r.order| - 1
    ensures |r.entries| == |DropLast(r).entries| + 1
  {
    var last := r.order[|r.order| - 1];
    var rest := DropLast(r);
    forall n | n in rest.order ensures n in r.order && n != last {
      var i :| 0 <= i < |rest.order| && rest.order[i] == n;
      assert r.order[i] == n;
    }
    forall n | n in r.order && n != last ensures n in rest.order {
      var i :| 0 <= i < |r.order| && r.order[i] == n;
      assert rest.order[i] == n;
    }
    assert r.entries.Keys == rest.entries.Keys + {last};
  }

  /** Adding a new name grows the registry by one; re-adding an existing
      name keeps its size. */
  lemma AddCounts(r: Registry, name: string, task: string, schedule: Schedule, args: seq<Json.Value>,
                  kwargs: Option<map<string, Json.Value>>, queue: Option<string>, enabled: bool)
    requires Valid(r)
    ensures Len(Add(r, name, task, schedule, args, kwargs, queue, enabled)) == Len(r) + (if name in r.entries then 0 else 1)
  {
    var a := Add(r, name, task, schedule, args, kwargs, queue, enabled);
    if name in r.entries {
      assert a.entries.Keys == r.entries.Keys;
    } else {
      assert a.entries.Keys == r.entries.Keys + {name};
    }
  }

  /** Python's `int()` of a float: truncation toward zero. */
  function Trunc(x: real): (n: int)
    ensures x >= 0.0 ==> n == x.Floor
    ensures x < 0.0 ==> n == -((-x).Floor)
  {
    if x >= 0.0 then x.Floor else -((-x).Floor)
  }

  /** `_get_or_create_interval_seconds`: `every = max(int(seconds), 1)`. */
  function IntervalEvery(secs: real): (every: int)
    ensures every >= 1
    ensures secs >= 1.0 ==> every as real <= secs < every as real + 1.0
    ensures secs < 2.0 ==> every == 1
  {
    var n := Trunc(secs);
    if n > 1 then n else 1
  }

  /** A schedule row in the Beat tables. */
  datatype ScheduleRow = CrontabRow(minute: string, hour: string, dayOfWeek: string,
                                    dayOfMonth: string, monthOfYear: string)
                       | IntervalRow(every: int)

  /** The schedule row `_apply_one` links: a crontab keeps its fields, a
      number or a `run_every` becomes an interval of whole seconds, and any
      other object falls back to the every-minute crontab the `except`
      branch builds from its missing `_orig_*` attributes. */
  function ScheduleOf(s: Schedule): (row: ScheduleRow)
    ensures s.Crontab? ==> row == CrontabRow(s.minute, s.hour, s.dayOfWeek, s.dayOfMonth, s.monthOfYear)
    ensures s.Seconds? ==> row == IntervalRow(IntervalEvery(s.secs))
    ensures s.RunEvery? ==> row == IntervalRow(IntervalEvery(s.every))
    ensures s.Opaque? ==> row == CrontabRow("*", "*", "*", "*", "*")
    ensures row.IntervalRow? ==> row.every >= 1
  {
    match s
    case Crontab(mi, h, dw, dm, my) => CrontabRow(mi, h, dw, dm, my)
    case Seconds(x) => IntervalRow(IntervalEvery(x))
    case RunEvery(x) => IntervalRow(IntervalEvery(x))
    case Opaque => CrontabRow("*", "*", "*", "*", "*")
  }

  /** A `PeriodicTask` row; `args` and `kwargs` are kept as the values
      `json.dumps` serialises. */
  datatype TaskRow = TaskRow(task: string, args: seq<Json.Value>, kwargs: map<string, Json.Value>,
                             queue: Option<string>, enabled: bool, schedule: ScheduleRow)

  /** The `PeriodicTask` table, keyed by name. */
  type Tasks = map<string, TaskRow>

  /** The row `_apply_one` leaves for `name`: a new name gets a row with
      every default; an existing row gets the entry's task, args and kwargs
      and keeps its schedule, queue and enabled flag. */
  function Applied(db: Tasks, name: string, e: Entry): (row: TaskRow)
    ensures name !in db ==> row == TaskRow(e.task, e.args, e.kwargs, e.queue, e.enabled, ScheduleOf(e.schedule))
    ensures name in db ==> row.schedule == db[name].schedule && row.queue == db[name].queue
                           && row.enabled == db[name].enabled
    ensures row.task == e.task && row.args == e.args && row.kwargs == e.kwargs
  {
    if name in db then db[name].(task := e.task, args := e.args, kwargs := e.kwargs)
    else TaskRow(e.task, e.args, e.kwargs, e.queue, e.enabled, ScheduleOf(e.schedule))
  }

  /** `_apply_one` on the whole table: only the row of `name` changes. */
  function ApplyOne(db: Tasks, name: string, e: Entry): (out: Tasks)
    ensures out.Keys == db.Keys + {name}
    ensures forall n :: n in db && n != name ==> out[n] == db[n]
    ensures out[name] == Applied(db, name, e)
  {
    db[name := Applied(db, name, e)]
  }

  /** A registered name whose write does not raise. */
  predicate Written(r: Registry, fails: string -> bool, n: string) {
    n in r.entries && !fails(n)
  }

  /** What `apply` leaves in the table: every registered name whose write
      did not raise is applied; every other row is as it was. `fails` says
      which writes raise. */
  function Expected(db: Tasks, r: Registry, fails: string -> bool): (out: Tasks)
    ensures forall n :: n in out <==> n in db || Written(r, fails, n)
  {
    map n | n in db.Keys + (set m | m in r.entries && !fails(m)) ::
      if Written(r, fails, n) then Applied(db, n, r.entries[n]) else db[n]
  }

  /** The names among the first `i` whose write succeeds. */
  ghost function Done(r: Registry, fails: string -> bool, i: nat): set<string>
    requires i <= |r.order|
  {
    if i == 0 then {}
    else Done(r, fails, i - 1) + (if fails(r.order[i - 1]) then {} else {r.order[i - 1]})
  }

  /** A later name is not among the earlier ones. */
  lemma {:induction false} LaterNotDone(r: Registry, fails: string -> bool, i: nat, k: nat)
    requires Valid(r) && i <= k < |r.order|
    ensures r.order[k] !in Done(r, fails, i)
  {
    if i > 0 {
      LaterNotDone(r, fails, i - 1, k);
    }
  }

  /** The written names are exactly the registered ones whose write succeeds. */
  lemma {:induction false} DoneIsWritten(r: Registry, fails: string -> bool, i: nat)
    requires Valid(r) && i <= |r.order|
    ensures forall n :: n in Done(r, fails, i) ==> Written(r, fails, n)
    ensures forall j :: 0 <= j < i && !fails(r.order[j]) ==> r.order[j] in Done(r, fails, i)
  {
    if i > 0 {
      DoneIsWritten(r, fails, i - 1);
    }
  }

  /** The table after `apply` has written the first `i` names. */
  ghost predicate AppliedUpTo(db: Tasks, r: Registry, fails: string -> bool, out: Tasks, i: int)
    requires Valid(r)
  {
    0 <= i <= |r.order|
    && (forall n :: n in out <==> n in db || n in Done(r, fails, i))
    && (forall n :: n in out && n !in Done(r, fails, i) ==> out[n] == db[n])
    && (forall n :: n in Done(r, fails, i) ==> n in r.entries && out[n] == Applied(db, n, r.entries[n]))
  }

  /** One turn of the `apply` loop: `_apply_one`, unless it raises. */
  function Turn(out: Tasks, r: Registry, fails: string -> bool, i: nat): Tasks
    requires Valid(r) && i < |r.order|
  {
    var name := r.order[i];
    if fails(name) then out else ApplyOne(out, name, r.entries[name])
  }

  /** Each turn writes one more name. */
  lemma TurnKeepsApplied(db: Tasks, r: Registry, fails: string -> bool, out: Tasks, i: nat)
    requires Valid(r) && i < |r.order| && AppliedUpTo(db, r, fails, out, i)
    ensures AppliedUpTo(db, r, fails, Turn(out, r, fails, i), i + 1)
  {
    var name := r.order[i];
    if !fails(name) {
      TurnWrites(db, r, fails, out, i);
    } else {
      assert Done(r, fails, i + 1) == Done(r, fails, i);
    }
  }

  /** A turn whose write succeeds adds its name to the written ones. */
  lemma TurnWrites(db: Tasks, r: Registry, fails: string -> bool, out: Tasks, i: nat)
    requires Valid(r) && i < |r.order| && AppliedUpTo(db, r, fails, out, i)
    requires !fails(r.order[i])
    ensures AppliedUpTo(db, r, fails, Turn(out, r, fails, i), i + 1)
  {
    var name := r.order[i];
    var e := r.entries[name];
    var next := ApplyOne(out, name, e);
    var before := Done(r, fails, i);
    var after := Done(r, fails, i + 1);
    LaterNotDone(r, fails, i, i);
    assert after == before + {name};
    assert name !in out ==> name !in db;
    assert name in out ==> out[name] == db[name];
    assert next[name] == Applied(db, name, e);
    forall n | n in after ensures n in r.entries && next[n] == Applied(db, n, r.entries[n]) {
      if n != name {
        assert n in before;
      }
    }
    forall n | n in next && n !in after ensures next[n] == db[n] {
      assert n != name && n !in before;
    }
  }

  /** Once every name is written, the table is the expected one. */
  lemma AllAppliedIsExpected(db: Tasks, r: Registry, fails: string -> bool, out: Tasks)
    requires Valid(r) && AppliedUpTo(db, r, fails, out, |r.order|)
    ensures out == Expected(db, r, fails)
  {
    DoneIsWritten(r, fails, |r.order|);
    forall n | Written(r, fails, n) ensures n in Done(r, fails, |r.order|) {
      var j :| 0 <= j < |r.order| && r.order[j] == n;
    }
    var exp := Expected(db, r, fails);
    assert out.Keys == exp.Keys;
  }

  /** `apply`: write the entries in registration order, logging and
      skipping any that raises. */
  method Apply(db: Tasks, r: Registry, fails: string -> bool) returns (out: Tasks)
    requires Valid(r)
    ensures out == Expected(db, r, fails)
  {
    out := db;
    var i := 0;
    while i < |r.order|
      invariant AppliedUpTo(db, r, fails, out, i)
    {
      TurnKeepsApplied(db, r, fails, out, i);
      out := Turn(out, r, fails, i);
      i := i + 1;
    }
    AllAppliedIsExpected(db, r, fails, out);
  }

  /** Applying the registry twice leaves the table as applying it once:
      the second pass finds every row and rewrites the same fields. */
  lemma ApplyIdempotent(db: Tasks, r: Registry, fails: string -> bool)
    ensures Expected(Expected(db, r, fails), r, fails) == Expected(db, r, fails)
  {
  }

  /** Rows a user edited keep their schedule, queue and enabled flag
      through an apply. */
  lemma ApplyKeepsUserFields(db: Tasks, r: Registry, fails: string -> bool, n: string)
    requires n in db
    ensures var out := Expected(db, r, fails);
            n in out && out[n].schedule == db[n].schedule && out[n].queue == db[n].queue
            && out[n].enabled == db[n].enabled
            && (Written(r, fails, n) ==> out[n].task == r.entries[n].task && out[n].args == r.entries[n].args
                                         && out[n].kwargs == r.entries[n].kwargs)
            && (!Written(r, fails, n) ==> out[n] == db[n])
  {
  }
}

=== FILE: provider_service.dfy ===
/** The provider service's pure parts (cloud_billing/services/provider_service.py):
    mapping the configuration keys the front end and the back end use onto
    the names the cloud providers read, turning a technical error message
    into an error code for translation, and the shape of a credential
    check's answer. */
module ProviderService {
  import opened Wrappers
  import opened Text
  import opened Json

  type Config = map<string, Value>

  /** The first truthy value among `keys`, as the `a or b or c` chains
      read it; `None` when none is truthy (the chain's last operand is then
      returned, which is falsy and dropped by every caller). */
  function FirstTruthy(m: Config, keys: seq<string>): (v: Value)
    ensures Truthy(v) <==> exists i :: 0 <= i < |keys| && Truthy(Get(m, keys[i]))
    ensures Truthy(v) ==>
              exists i :: 0 <= i < |keys| && v == Get(m, keys[i]) && forall j :: 0 <= j < i ==> !Truthy(Get(m, keys[j]))
  {
    if |keys| == 0 then Null
    else if Truthy(Get(m, keys[0])) then Get(m, keys[0])
    else
      var v := FirstTruthy(m, keys[1..]);
      assert forall i :: 0 <= i < |keys[1..]| ==> keys[1..][i] == keys[i + 1];
      if Truthy(v) then
        var i :| 0 <= i < |keys[1..]| && v == Get(m, keys[1..][i])
                 && forall j :: 0 <= j < i ==> !Truthy(Get(m, keys[1..][j]));
        assert forall j :: 0 <= j < i + 1 ==> !Truthy(Get(m, keys[j])) by {
          forall j | 0 <= j < i + 1
            ensures !Truthy(Get(m, keys[j]))
          {
            if j > 0 {
              assert keys[j] == keys[1..][j - 1];
            }
          }
        }
        v
      else v
  }

  /** The provider types `_normalize_config` and `_get_error_code` tell
      apart; any other text is `Unknown`. */
  datatype Kind = Aws | Huawei | HuaweiIntl | Azure | Alibaba | Unknown

  function KindOf(providerType: string): (k: Kind)
    ensures providerType == "aws" <==> k == Aws
    ensures providerType == "huawei" <==> k == Huawei
    ensures providerType == "huawei-intl" <==> k == HuaweiIntl
    ensures providerType == "azure" <==> k == Azure
    ensures providerType == "alibaba" <==> k == Alibaba
  {
    if providerType == "aws" then Aws
    else if providerType == "huawei" then Huawei
    else if providerType == "huawei-intl" then HuaweiIntl
    else if providerType == "azure" then Azure
    else if providerType == "alibaba" then Alibaba
    else Unknown
  }

  /** The fields a normalised configuration of a known type can carry. */
  datatype Field =
    | ApiKey | ApiSecret | Region | ProjectId | IsInternational
    | TenantId | ClientId | ClientSecret | SubscriptionId

  function FieldName(f: Field): string {
    match f
    case ApiKey => "api_key"
    case ApiSecret => "api_secret"
    case Region => "region"
    case ProjectId => "project_id"
    case IsInternational => "is_international"
    case TenantId => "tenant_id"
    case ClientId => "client_id"
    case ClientSecret => "client_secret"
    case SubscriptionId => "subscription_id"
  }

  /** The keys a field is read from, most specific first. */
  function Sources(k: Kind, f: Field): (keys: seq<string>)
  {
    match (k, f)
    case (Aws, ApiKey) => ["AWS_ACCESS_KEY_ID", "aws_access_key_id", "api_key"]
    case (Aws, ApiSecret) => ["AWS_SECRET_ACCESS_KEY", "aws_secret_access_key", "api_secret"]
    case (Aws, Region) => ["AWS_REGION", "aws_region", "region"]
    case (Huawei, ApiKey) => HuaweiSources(ApiKey)
    case (Huawei, ApiSecret) => HuaweiSources(ApiSecret)
    case (Huawei, Region) => HuaweiSources(Region)
    case (Huawei, ProjectId) => HuaweiSources(ProjectId)
    case (HuaweiIntl, ApiKey) => HuaweiSources(ApiKey)
    case (HuaweiIntl, ApiSecret) => HuaweiSources(ApiSecret)
    case (HuaweiIntl, Region) => HuaweiSources(Region)
    case (HuaweiIntl, ProjectId) => HuaweiSources(ProjectId)
    case (Azure, TenantId) => ["AZURE_TENANT_ID", "azure_tenant_id", "tenant_id"]
    case (Azure, ClientId) => ["AZURE_CLIENT_ID", "azure_client_id", "client_id"]
    case (Azure, ClientSecret) => ["AZURE_CLIENT_SECRET", "azure_client_secret", "client_secret"]
    case (Azure, SubscriptionId) => ["AZURE_SUBSCRIPTION_ID", "azure_subscription_id", "subscription_id"]
    case (Alibaba, ApiKey) => ["ALIBABA_ACCESS_KEY_ID", "alibaba_access_key_id", "api_key"]
    case (Alibaba, ApiSecret) => ["ALIBABA_SECRET_ACCESS_KEY", "alibaba_secret_access_key", "api_secret"]
    case (Alibaba, Region) => ["ALIBABA_REGION", "alibaba_region", "region"]
    case _ => []
  }

  function HuaweiSources(f: Field): seq<string> {
    match f
    case ApiKey => ["HUAWEI_ACCESS_KEY_ID", "huawei_access_key_id", "api_key"]
    case ApiSecret => ["HUAWEI_SECRET_ACCESS_KEY", "huawei_secret_access_key", "api_secret"]
    case Region => ["HUAWEI_REGION", "huawei_region", "region"]
    case ProjectId => ["HUAWEI_PROJECT_ID", "project_id"]
    case _ => []
  }

  /** The international flag: only the huawei-intl type with a truthy
      `HUAWEI_IS_INTERNATIONAL` sets it. */
  predicate International(k: Kind, m: Config) {
    k == HuaweiIntl && Truthy(Get(m, "HUAWEI_IS_INTERNATIONAL"))
  }

  /** A value the final filter keeps: neither `None` nor `''`. */
  predicate Kept(v: Value) {
    v != Null && v != Str("")
  }

  /** The final `{k: v ... if v is not None and v != ''}`. */
  function DropBlank(m: Config): (r: Config)
    ensures forall k :: k in r <==> k in m && Kept(m[k])
    ensures forall k :: k in r ==> r[k] == m[k]
  {
    map k | k in m && Kept(m[k]) :: m[k]
  }

  /** A normalised configuration: named fields for a known type, the input
      copied for any other type. */
  datatype Normalized = Fields(fields: map<Field, Value>) | Copied(config: Config)

  /** The normalised fields of a known type: each field whose keys hold a
      truthy value, and the international flag. */
  function KnownFields(k: Kind, m: Config): (r: map<Field, Value>)
    ensures forall f :: f in r <==>
              (f != IsInternational && Truthy(FirstTruthy(m, Sources(k, f))))
              || (f == IsInternational && International(k, m))
    ensures forall f :: f in r && f != IsInternational ==> r[f] == FirstTruthy(m, Sources(k, f))
    ensures IsInternational in r ==> r[IsInternational] == Bool(true)
  {
    map f: Field | (f != IsInternational && Truthy(FirstTruthy(m, Sources(k, f))))
                   || (f == IsInternational && International(k, m))
      :: if f == IsInternational then Bool(true) else FirstTruthy(m, Sources(k, f))
  }

  /** `_normalize_config`. */
  function Normalize(providerType: string, m: Config): (r: Normalized)
    ensures KindOf(providerType) == Unknown <==> r.Copied?
    ensures r.Copied? ==> r.config == DropBlank(m)
    ensures r.Fields? ==> forall f :: f in r.fields ==> Kept(r.fields[f]) && Truthy(r.fields[f])
    ensures r.Fields? ==>
              (IsInternational in r.fields <==> International(KindOf(providerType), m))
    ensures r.Fields? ==> forall f :: f in r.fields && f != IsInternational ==>
                            r.fields[f] == FirstTruthy(m, Sources(KindOf(providerType), f))
  {
    var k := KindOf(providerType);
    if k == Unknown then Copied(DropBlank(m))
    else Fields(KnownFields(k, m))
  }

  /** The fields each known type can produce: an aws configuration never
      carries a project id, and only Azure carries the subscription. */
  lemma NormalizedFieldsPerType(providerType: string, m: Config)
    ensures var r := Normalize(providerType, m);
            r.Fields? ==>
              (KindOf(providerType) in {Aws, Alibaba} ==> r.fields.Keys <= {ApiKey, ApiSecret, Region})
              && (KindOf(providerType) in {Huawei, HuaweiIntl} ==>
                    r.fields.Keys <= {ApiKey, ApiSecret, Region, ProjectId, IsInternational})
              && (KindOf(providerType) == Azure ==>
                    r.fields.Keys <= {TenantId, ClientId, ClientSecret, SubscriptionId})
  {
    var k := KindOf(providerType);
    if k != Unknown {
      KnownFieldsAllowed(k, m);
    }
  }

  /** The fields a known type has sources for. */
  function Allowed(k: Kind): set<Field> {
    match k
    case Aws => {ApiKey, ApiSecret, Region}
    case Alibaba => {ApiKey, ApiSecret, Region}
    case Huawei => {ApiKey, ApiSecret, Region, ProjectId, IsInternational}
    case HuaweiIntl => {ApiKey, ApiSecret, Region, ProjectId, IsInternational}
    case Azure => {TenantId, ClientId, ClientSecret, SubscriptionId}
    case Unknown => {}
  }

  lemma KnownFieldsAllowed(k: Kind, m: Config)
    ensures KnownFields(k, m).Keys <= Allowed(k)
  {
    forall f | f in KnownFields(k, m) ensures f in Allowed(k) {
      NoSourcesOutside(k, f);
    }
  }

  /** A field outside a type's allowed set has no keys to read from. */
  lemma NoSourcesOutside(k: Kind, f: Field)
    ensures f != IsInternational && f !in Allowed(k) ==> Sources(k, f) == []
  {
  }

  /** The error codes `_get_error_code` returns, for translation. */
  datatype Code =
    | ValidationFailed
    | AwsInvalidAccessKeyId | AwsInvalidSecretKey | AwsSslError | AwsInvalidCredentials | AwsInvalidRegion
    | HuaweiSslError | HuaweiInvalidCredentials | HuaweiInvalidRegion
    | AzureInvalidAuthentication | AzureInvalidSubscription
    | AlibabaInvalidCredentials | AlibabaInvalidRegion
    | SslError | TimeoutError | NetworkError

  function CodeName(c: Code): string {
    match c
    case ValidationFailed => "validation_failed"
    case AwsInvalidAccessKeyId => "aws_invalid_access_key_id"
    case AwsInvalidSecretKey => "aws_invalid_secret_key"
    case AwsSslError => "aws_ssl_error"
    case AwsInvalidCredentials => "aws_invalid_credentials"
    case AwsInvalidRegion => "aws_invalid_region"
    case HuaweiSslError => "huawei_ssl_error"
    case HuaweiInvalidCredentials => "huawei_invalid_credentials"
    case HuaweiInvalidRegion => "huawei_invalid_region"
    case AzureInvalidAuthentication => "azure_invalid_authentication"
    case AzureInvalidSubscription => "azure_invalid_subscription"
    case AlibabaInvalidCredentials => "alibaba_invalid_credentials"
    case AlibabaInvalidRegion => "alibaba_invalid_region"
    case SslError => "ssl_error"
    case TimeoutError => "timeout_error"
    case NetworkError => "network_error"
  }

  /** The codes specific to each provider type. */
  function SpecificCodes(k: Kind): set<Code> {
    match k
    case Aws => {AwsInvalidAccessKeyId, AwsInvalidSecretKey, AwsSslError, AwsInvalidCredentials, AwsInvalidRegion}
    case Huawei => {HuaweiSslError, HuaweiInvalidCredentials, HuaweiInvalidRegion}
    case Azure => {AzureInvalidAuthentication, AzureInvalidSubscription}
    case Alibaba => {AlibabaInvalidCredentials, AlibabaInvalidRegion}
    case _ => {}
  }

  const GenericCodes: set<Code> := {SslError, TimeoutError, NetworkError, ValidationFailed}

  /** The provider-specific rules: the first keyword found decides. */
  function SpecificCode(k: Kind, low: string): (c: Option<Code>)
    ensures c.Some? ==> c.value in SpecificCodes(k)
    ensures k == HuaweiIntl || k == Unknown ==> c.None?
  {
    match k
    case Aws =>
      if Has(low, "invalidclienttokenid") then Some(AwsInvalidAccessKeyId)
      else if Has(low, "signaturedoesnotmatch") then Some(AwsInvalidSecretKey)
      else if Has(low, "ssl") || Has(low, "sslerror") then Some(AwsSslError)
      else if Has(low, "access key") then Some(AwsInvalidCredentials)
      else if Has(low, "region") then Some(AwsInvalidRegion)
      else None
    case Huawei =>
      if Has(low, "ssl") || Has(low, "sslerror") then Some(HuaweiSslError)
      else if Has(low, "access key") || Has(low, "api_key") then Some(HuaweiInvalidCredentials)
      else if Has(low, "region") then Some(HuaweiInvalidRegion)
      else None
    case Azure =>
      if Has(low, "authentication") || Has(low, "unauthorized") then Some(AzureInvalidAuthentication)
      else if Has(low, "subscription") then Some(AzureInvalidSubscription)
      else None
    case Alibaba =>
      if Has(low, "access key") then Some(AlibabaInvalidCredentials)
      else if Has(low, "region") then Some(AlibabaInvalidRegion)
      else None
    case _ => None
  }

  /** The generic rules every provider falls back on. */
  function GenericCode(low: string): (c: Code)
    ensures c in GenericCodes
    ensures c == ValidationFailed <==>
              !Has(low, "ssl") && !Has(low, "sslerror") && !Has(low, "timeout")
              && !Has(low, "connection") && !Has(low, "network")
    ensures Has(low, "ssl") ==> c == SslError
  {
    if Has(low, "ssl") || Has(low, "sslerror") then SslError
    else if Has(low, "timeout") then TimeoutError
    else if Has(low, "connection") || Has(low, "network") then NetworkError
    else ValidationFailed
  }

  /** `_get_error_code`. */
  function ErrorCode(providerType: string, msg: Option<string>): (code: Code)
    ensures code in SpecificCodes(KindOf(providerType)) + GenericCodes
    ensures msg.None? || msg.value == "" ==> code == ValidationFailed
    ensures msg.Some? && msg.value != "" && SpecificCode(KindOf(providerType), Lower(msg.value)).None? ==>
              code == GenericCode(Lower(msg.value))
    ensures msg.Some? && msg.value != "" && SpecificCode(KindOf(providerType), Lower(msg.value)).Some? ==>
              code == SpecificCode(KindOf(providerType), Lower(msg.value)).value
  {
    if msg.None? || msg.value == "" then ValidationFailed
    else
      var low := Lower(msg.value);
      match SpecificCode(KindOf(providerType), low)
      case Some(c) => c
      case None => GenericCode(low)
  }

  /** Folding the case twice is folding it once. */
  lemma LowerIdempotent(s: string)
    ensures Lower(Lower(s)) == Lower(s)
  {
    assert forall i :: 0 <= i < |s| ==> LowerChar(LowerChar(s[i])) == LowerChar(s[i]);
  }

  /** The code ignores the message's (ASCII) case. */
  lemma ErrorCodeIgnoresCase(providerType: string, m: string)
    ensures ErrorCode(providerType, Some(m)) == ErrorCode(providerType, Some(Lower(m)))
  {
    LowerIdempotent(m);
  }

  /** The international Huawei variant has no rules of its own: a message
      mentioning SSL is a generic `ssl_error` there, where the mainland
      variant reports `huawei_ssl_error`. */
  lemma HuaweiIntlUsesGenericRules(m: string)
    requires m != "" && Has(Lower(m), "ssl")
    ensures ErrorCode("huawei-intl", Some(m)) == SslError
    ensures ErrorCode("huawei", Some(m)) == HuaweiSslError
  {
  }

  /** The outcome of a call into the provider SDK: a value, or a raised
      error's message. */
  datatype Attempt<T> = Done(value: T) | Threw(message: string)

  /** `validate_credentials`' result dict. */
  datatype Validation = Validation(valid: bool, errorCode: Option<Code>, accountId: string)

  /** `validate_credentials`: `created` is the provider construction (with
      the normalised configuration), `checked` the provider's own credential
      check and `account` its account lookup. */
  function ValidateCredentials(providerType: string, created: Attempt<()>, checked: Attempt<bool>,
                               account: Attempt<string>): (v: Validation)
    ensures v.errorCode.None? <==> v.valid
    ensures v.valid <==> created.Done? && checked == Done(true)
    ensures created.Threw? ==> v == Validation(false, Some(ErrorCode(providerType, Some(created.message))), "")
    ensures created.Done? && checked == Done(false) ==> v.errorCode == Some(ValidationFailed)
    ensures created.Done? && checked.Threw? ==> v.errorCode == Some(ErrorCode(providerType, Some(checked.message)))
    ensures !v.valid ==> v.accountId == ""
    ensures v.valid ==> v.accountId == (if account.Done? then account.value else "")
  {
    if created.Threw? then Validation(false, Some(ErrorCode(providerType, Some(created.message))), "")
    else
      var (isValid, code) := match checked
        case Done(b) => (b, if b then None else Some(ErrorCode(providerType, None)))
        case Threw(e) => (false, Some(ErrorCode(providerType, Some(e))));
      var acct := if isValid && account.Done? then account.value else "";
      Validation(isValid, if isValid then None else code, acct)
  }
}

=== FILE: providers.dfy ===
/** The static provider registry (data_collector/services/providers) and
    the provider interface as the tasks call it: Jira talks to its server,
    Feishu is a placeholder whose calls all come back empty, and the base
    class's download returns nothing. */
module Providers {
  import opened Wrappers
  import opened Json
  import opened AttachmentSync
  import Jira

  datatype Kind = JiraProvider | FeishuProvider

  /** `PROVIDER_MAPPING.get(platform)`: a total lookup. */
  function GetProvider(platform: string): (r: Option<Kind>)
    ensures r == Some(JiraProvider) <==> platform == "jira"
    ensures r == Some(FeishuProvider) <==> platform == "feishu"
    ensures r.None? <==> platform !in {"jira", "feishu"}
  {
    if platform == "jira" then Some(JiraProvider)
    else if platform == "feishu" then Some(FeishuProvider)
    else None
  }

  /** `authenticate`. Feishu accepts any non-empty config. */
  function Authenticate(kind: Kind, auth: map<string, Value>, server: Jira.Server): (ok: bool)
    ensures |auth| == 0 ==> !ok
    ensures kind == FeishuProvider ==> (ok <==> |auth| > 0)
  {
    match kind
    case JiraProvider => Jira.Authenticate(auth, server)
    case FeishuProvider => |auth| > 0
  }

  /** `collect` over a window; `None` when it raises. Feishu returns no
      items. */
  function Collect(kind: Kind, auth: map<string, Value>, start: int, end: int, projectKeys: seq<string>,
                   server: Jira.Server): (r: Option<seq<map<string, Value>>>)
    ensures kind == FeishuProvider ==> r == Some([])
    ensures kind == JiraProvider ==> r == Jira.Collect(auth, start, end, projectKeys, server)
  {
    match kind
    case JiraProvider => Jira.Collect(auth, start, end, projectKeys, server)
    case FeishuProvider => Some([])
  }

  /** `validate`: the ids that no longer exist upstream; none for Feishu. */
  function Validate(kind: Kind, auth: map<string, Value>, ids: seq<Value>, server: Jira.Server): (r: seq<Value>)
    ensures forall x :: x in r ==> x in ids
    ensures kind == FeishuProvider ==> r == []
  {
    match kind
    case JiraProvider => Jira.Validate(auth, ids, server)
    case FeishuProvider => []
  }

  /** `fetch_attachments` for a record's raw payload; `None` when it raises.
      Feishu reports no attachments. */
  function FetchAttachments(kind: Kind, rawData: Value): (r: Option<seq<AttMeta>>)
    ensures kind == FeishuProvider ==> r == Some([])
  {
    match kind
    case JiraProvider => Jira.FetchAttachments(rawData)
    case FeishuProvider => Some([])
  }

  /** `download_attachment_content`; empty stands for `None`. Feishu
      inherits the base class's default, which downloads nothing. */
  function Download(kind: Kind, auth: map<string, Value>, m: AttMeta, server: Jira.Server): (content: seq<int>)
    ensures kind == FeishuProvider ==> content == []
  {
    match kind
    case JiraProvider => Jira.Download(auth, m, server)
    case FeishuProvider => []
  }
}

=== FILE: record_view.dfy ===
/** The list view's derived fields of a raw record
    (data_collector/serializers.py): a display title and an attachment
    count, both read from the stored payload. */
module RecordView {
  import opened Wrappers
  import opened Json
  import opened CollectorModel
  import CollectRun

  const JiraPlatform: string := "jira"

  /** `_record_display_title` as `get_display_title` calls it. For Jira the
      issue summary, when there is a truthy one; else the record's id.
      `None` when a payload level that is set is not an object, which makes
      `.get` raise. */
  function DisplayTitle(rawData: Value, sid: string, platform: string): (r: Option<Value>)
    ensures !Truthy(rawData) ==> r == Some(Str(sid))
    ensures platform != JiraPlatform && rawData.Obj? ==> r == Some(Str(sid))
    ensures r.Some? ==> Truthy(r.value) || sid == ""
  {
    if !Truthy(rawData) then Some(Str(sid))
    else if !rawData.Obj? then (if platform == JiraPlatform then None else Some(Str(sid)))
    else if platform != JiraPlatform then Some(Str(sid))
    else
      var issue := Or(Get(rawData.fields, "issue"), EmptyObj);
      if !issue.Obj? then None
      else
        var fields := Or(Get(issue.fields, "fields"), EmptyObj);
        if !fields.Obj? then None
        else
          var summary := Get(fields.fields, "summary");
          if Truthy(summary) then Some(summary) else Some(Str(sid))
  }

  /** A Jira record whose issue carries a summary is listed under it. */
  lemma JiraTitleIsSummary(issue: map<string, Value>, fields: map<string, Value>, sid: string, rest: map<string, Value>)
    requires "fields" in issue && issue["fields"] == Obj(fields)
    requires "summary" in fields && Truthy(fields["summary"])
    ensures DisplayTitle(Obj(rest["issue" := Obj(issue)]), sid, JiraPlatform) == Some(fields["summary"])
  {
  }

  /** `get_attachment_count`: the length of the payload's `attachments`
      when it is a list, else 0; `None` when the payload is set but is not
      an object. */
  function AttachmentCount(rawData: Value): (r: Option<nat>)
    ensures r.None? <==> Truthy(rawData) && !rawData.Obj?
    ensures r.Some? && Field(rawData, "attachments").List? ==> r.value == |Field(rawData, "attachments").items|
    ensures r.Some? && !Field(rawData, "attachments").List? ==> r.value == 0
  {
    if !Truthy(rawData) then Some(0)
    else if !rawData.Obj? then None
    else
      var attachments := Get(rawData.fields, "attachments");
      if attachments.List? then Some(|attachments.items|) else Some(0)
  }

  /** The backfill of a run picks a record exactly when the list view would
      show more attachments than the record has rows, and the run did not
      write it. */
  lemma BackfillMatchesCount(rec: Record, key: RecordKey, written: set<RecordKey>)
    requires rec.rawData.Obj?
    ensures CollectRun.NeedsBackfill(rec, key, written)
            <==> AttachmentCount(rec.rawData).value > |rec.attachments| && key !in written
  {
  }
}

=== FILE: retention.dfy ===
/** `run_cleanup` and `run_validate` (data_collector/tasks.py): retention
    deletes records not seen within the retention period, and validation
    tombstones the records the platform no longer has. */
module Retention {
  import opened Wrappers
  import opened Json
  import opened CollectorModel
  import opened AttachmentSync
  import opened Stamps
  import CollectRun
  import Providers
  import Jira
  import TaskLock

  const ConfigNotFound: string := "Config not found"
  const DefaultRetentionDays: int := 180
  const CleanupLockBaseName: string := "data_collector_run_cleanup"

  /** The instants Python's `datetime` can hold, in seconds since the epoch:
      0001-01-01T00:00:00 up to, not including, 10000-01-01T00:00:00. */
  const MinInstant: int := -62135596800
  const EndOfTime: int := 253402300800

  datatype CleanupResult = CleanupFailed(error: string) | Cleaned(deleted: nat)

  datatype ValidateResult = ValidateFailed(error: string) | Validated(validated: nat, marked: nat)

  // ---- cleanup -------------------------------------------------------------

  /** `value.get("retention_days") or 180` as a length in seconds; `None`
      where `timedelta(days=...)` raises. A boolean `True` counts as one
      day, because Python's `bool` is an `int`. */
  function RetentionSeconds(v: Value): (r: Option<real>)
    ensures !Truthy(v) ==> r == Some(Days(DefaultRetentionDays) as real)
    ensures v.Int? && v.i != 0 ==> r == Some(Days(v.i) as real)
    ensures r.None? <==> Truthy(v) && (v.Str? || v.List? || v.Obj?)
  {
    if !Truthy(v) then Some(Days(DefaultRetentionDays) as real)
    else match v
      case Int(n) => Some(Days(n) as real)
      case Bool(_) => Some(Days(1) as real)
      case Num(x) => Some(x * Days(1) as real)
      case _ => None
  }

  /** `timezone.now() - timedelta(days=retention)`; `None` when the
      subtraction leaves the range of `datetime` or the retention is not a
      number. */
  function Cutoff(value: map<string, Value>, now: int): (r: Option<real>)
    ensures r.Some? ==> RetentionSeconds(Get(value, "retention_days")).Some?
                        && r.value == now as real - RetentionSeconds(Get(value, "retention_days")).value
                        && MinInstant as real <= r.value < EndOfTime as real
  {
    match RetentionSeconds(Get(value, "retention_days"))
    case None => None
    case Some(s) =>
      var c := now as real - s;
      if c < MinInstant as real || c >= EndOfTime as real then None else Some(c)
  }

  /** A record of this config last seen before the cutoff. A record never
      seen (null `last_collected_at`) never matches the filter. */
  predicate Expired(k: RecordKey, r: Record, user: int, platform: string, cutoff: real) {
    k.user == user && k.platform == platform && r.lastCollectedAt.Some?
    && (r.lastCollectedAt.value as real) < cutoff
  }

  function Survivors(records: Records, user: int, platform: string, cutoff: real): (rs: Records)
    ensures forall k :: k in rs <==> k in records && !Expired(k, records[k], user, platform, cutoff)
    ensures forall k :: k in rs ==> rs[k] == records[k]
  {
    map k | k in records && !Expired(k, records[k], user, platform, cutoff) :: records[k]
  }

  /** The non-empty file paths of the expired records' attachments. */
  function DoomedPaths(records: Records, user: int, platform: string, cutoff: real): set<string> {
    set k, i | k in records && Expired(k, records[k], user, platform, cutoff)
                && 0 <= i < |records[k].attachments| && |records[k].attachments[i].filePath| > 0
      :: records[k].attachments[i].filePath
  }

  /** A file is doomed exactly when some expired record of this config has
      an attachment stored at that non-empty path. */
  lemma DoomedPathsAreExpiredFiles(records: Records, user: int, platform: string, cutoff: real, p: string)
    ensures p in DoomedPaths(records, user, platform, cutoff) <==>
              |p| > 0 && exists k, i :: k in records && Expired(k, records[k], user, platform, cutoff)
                                        && 0 <= i < |records[k].attachments| && records[k].attachments[i].filePath == p
  {
  }

  /** Best-effort removal: a doomed file goes when the filesystem allows. */
  function RemovePaths(disk: Disk, doomed: set<string>, canRemove: string -> bool): (d: Disk)
    ensures d.dirs == disk.dirs
    ensures forall p :: p in d.files <==> p in disk.files && !(p in doomed && canRemove(p))
    ensures forall p :: p in d.files ==> d.files[p] == disk.files[p]
  {
    Disk(disk.dirs, map p | p in disk.files && !(p in doomed && canRemove(p)) :: disk.files[p])
  }

  /** The deletion itself: the surviving records, the disk after the
      best-effort file removal, and the number of records deleted. */
  function Sweep(records: Records, disk: Disk, user: int, platform: string, cutoff: real,
                 canRemove: string -> bool): (r: (Records, Disk, nat))
    ensures r.0 == Survivors(records, user, platform, cutoff)
    ensures r.2 == |records| - |r.0|
    ensures r.1 == RemovePaths(disk, DoomedPaths(records, user, platform, cutoff), canRemove)
  {
    var survivors := Survivors(records, user, platform, cutoff);
    SurvivorsCount(records, user, platform, cutoff);
    (survivors, RemovePaths(disk, DoomedPaths(records, user, platform, cutoff), canRemove),
     |records| - |survivors|)
  }

  /** `run_cleanup`. The second component is the returned dict, or `None`
      when the job raises. A `runtime_state` that is set but not an object
      raises inside the atomic block, after the files were removed: the rows
      roll back but the removals do not. */
  function RunCleanup(st: CollectRun.Store, configUuid: string, now: int, canRemove: string -> bool)
    : (r: (CollectRun.Store, Option<CleanupResult>))
    ensures configUuid !in st.configs ==> r == (st, Some(CleanupFailed(ConfigNotFound)))
    ensures r.1.None? ==> r.0.records == st.records && r.0.configs == st.configs && r.0.drawn == st.drawn
    ensures r.0.configs.Keys == st.configs.Keys
    ensures forall u :: u in st.configs && u != configUuid ==> r.0.configs[u] == st.configs[u]
  {
    if configUuid !in st.configs then (st, Some(CleanupFailed(ConfigNotFound)))
    else
      var config := st.configs[configUuid];
      var value := Or(config.value, EmptyObj);
      if !value.Obj? then (st, None)
      else match Cutoff(value.fields, now)
        case None => (st, None)
        case Some(cutoff) => CleanupAt(st, configUuid, value.fields, cutoff, now, canRemove)
  }

  /** The atomic block of `run_cleanup`, once the cutoff is known. */
  function CleanupAt(st: CollectRun.Store, configUuid: string, value: map<string, Value>, cutoff: real,
                     now: int, canRemove: string -> bool): (r: (CollectRun.Store, Option<CleanupResult>))
    requires configUuid in st.configs
    ensures r.1.None? ==> r.0.records == st.records && r.0.configs == st.configs && r.0.drawn == st.drawn
    ensures r.1.Some? ==> r.1.value.Cleaned?
    ensures r.0.configs.Keys == st.configs.Keys
    ensures forall u :: u in st.configs && u != configUuid ==> r.0.configs[u] == st.configs[u]
  {
    var config := st.configs[configUuid];
    var (survivors, disk, count) := Sweep(st.records, st.disk, config.user, config.platform, cutoff, canRemove);
    var runtime := Or(Get(value, "runtime_state"), EmptyObj);
    if !runtime.Obj? then (st.(disk := disk), None)
    else
      var runtime' := runtime.fields["last_cleanup_at" := Str(StampText(now))];
      var config' := config.(value := Obj(value["runtime_state" := Obj(runtime')]));
      (CollectRun.Store(st.configs[configUuid := config'], survivors, disk, st.drawn), Some(Cleaned(count)))
  }

  /** A successful cleanup deletes exactly the expired records of this
      config, reports how many, and removes their files where it can. */
  lemma CleanupDeletesExpired(st: CollectRun.Store, configUuid: string, now: int, canRemove: string -> bool)
    requires var r := RunCleanup(st, configUuid, now, canRemove); r.1.Some? && r.1.value.Cleaned?
    ensures configUuid in st.configs
    ensures var config := st.configs[configUuid];
            var value := Or(config.value, EmptyObj);
            value.Obj? && Cutoff(value.fields, now).Some?
            && var cutoff := Cutoff(value.fields, now).value;
               var r := RunCleanup(st, configUuid, now, canRemove);
               r.0.records == Survivors(st.records, config.user, config.platform, cutoff)
               && r.1.value.deleted == |st.records| - |r.0.records|
               && r.0.disk == RemovePaths(st.disk, DoomedPaths(st.records, config.user, config.platform, cutoff),
                                          canRemove)
  {
  }

  /** The survivors are a sub-map, so the deleted count is their difference
      in size. */
  lemma SurvivorsCount(records: Records, user: int, platform: string, cutoff: real)
    ensures |Survivors(records, user, platform, cutoff)| <= |records|
  {
    var s := Survivors(records, user, platform, cutoff);
    assert s.Keys <= records.Keys;
    SubsetCard(s.Keys, records.Keys);
  }

  lemma {:induction false} SubsetCard<T>(a: set<T>, b: set<T>)
    requires a <= b
    ensures |a| <= |b|
    decreases |b|
  {
    if b != {} {
      var x :| x in b;
      SubsetCard(a - {x}, b - {x});
    }
  }

  /** A successful cleanup stamps `last_cleanup_at` and keeps every other
      key of the value and of `runtime_state`. */
  lemma CleanupStampsRuntime(st: CollectRun.Store, configUuid: string, value: map<string, Value>, cutoff: real,
                             now: int, canRemove: string -> bool)
    requires configUuid in st.configs
    requires CleanupAt(st, configUuid, value, cutoff, now, canRemove).1.Some?
    ensures var after := CleanupAt(st, configUuid, value, cutoff, now, canRemove).0.configs[configUuid].value;
            var rtBefore := Or(Get(value, "runtime_state"), EmptyObj).fields;
            after.Obj? && after.fields.Keys == value.Keys + {"runtime_state"}
            && (forall k :: k in value && k != "runtime_state" ==> after.fields[k] == value[k])
            && after.fields["runtime_state"].Obj?
            && Get(after.fields["runtime_state"].fields, "last_cleanup_at") == Str(StampText(now))
            && (forall k :: k in rtBefore && k != "last_cleanup_at" ==>
                  after.fields["runtime_state"].fields[k] == rtBefore[k])
  {
    var config := st.configs[configUuid];
    var runtime := Or(Get(value, "runtime_state"), EmptyObj);
    assert runtime.Obj?;
    var runtime' := runtime.fields["last_cleanup_at" := Str(StampText(now))];
    assert CleanupAt(st, configUuid, value, cutoff, now, canRemove).0.configs[configUuid].value
           == Obj(value["runtime_state" := Obj(runtime')]);
    StampedValue(value, runtime.fields, now);
  }

  /** The value with `last_cleanup_at` stamped into its runtime state. */
  lemma StampedValue(value: map<string, Value>, runtime: map<string, Value>, now: int)
    ensures var after := value["runtime_state" := Obj(runtime["last_cleanup_at" := Str(StampText(now))])];
            after.Keys == value.Keys + {"runtime_state"}
            && (forall k :: k in value && k != "runtime_state" ==> after[k] == value[k])
            && Get(after["runtime_state"].fields, "last_cleanup_at") == Str(StampText(now))
            && (forall k :: k in runtime && k != "last_cleanup_at" ==> after["runtime_state"].fields[k] == runtime[k])
  {
  }

  /** Cleanup touches only this config's records, and keeps every record
      never seen or seen at or after the cutoff. */
  lemma CleanupKeepsOthers(st: CollectRun.Store, configUuid: string, now: int, canRemove: string -> bool,
                           k: RecordKey)
    requires var r := RunCleanup(st, configUuid, now, canRemove); r.1.Some? && r.1.value.Cleaned?
    requires k in st.records
    requires k.user != st.configs[configUuid].user || k.platform != st.configs[configUuid].platform
             || st.records[k].lastCollectedAt.None?
    ensures var r := RunCleanup(st, configUuid, now, canRemove);
            k in r.0.records && r.0.records[k] == st.records[k]
  {
  }

  /** With the default retention of 180 days, a record is deleted exactly
      when this config last saw it more than 180 days before now. */
  lemma DefaultRetention(st: CollectRun.Store, configUuid: string, now: int, canRemove: string -> bool,
                         k: RecordKey)
    requires var r := RunCleanup(st, configUuid, now, canRemove); r.1.Some? && r.1.value.Cleaned?
    requires !Truthy(Get(Or(st.configs[configUuid].value, EmptyObj).fields, "retention_days"))
    requires k in st.records
    ensures var config := st.configs[configUuid];
            k !in RunCleanup(st, configUuid, now, canRemove).0.records
            <==> k.user == config.user && k.platform == config.platform
                 && st.records[k].lastCollectedAt.Some?
                 && st.records[k].lastCollectedAt.value < now - Days(DefaultRetentionDays)
  {
  }

  /** `run_cleanup` behind its duplicate-run guard, locked per config uuid. */
  function GuardedRunCleanup(cache: TaskLock.Cache, health: TaskLock.CacheHealth, md5: string -> string,
                             st: CollectRun.Store, configUuid: string, now: int, canRemove: string -> bool)
    : (r: (TaskLock.Cache, CollectRun.Store, TaskLock.Guarded<CleanupResult>))
    ensures r.2.Skipped? ==> r.1 == st && r.0 == cache
  {
    var call := TaskLock.Call([], false, map[CollectRun.LockParam := Str(configUuid)]);
    var name := TaskLock.GuardName(CleanupLockBaseName, CollectRun.LockParam, call, md5);
    TaskLock.Guard(cache, health, name, (s: CollectRun.Store) => RunCleanup(s, configUuid, now, canRemove), st)
  }

  // ---- validate ------------------------------------------------------------

  /** A live record of this config last seen within [start, end]. */
  predicate Candidate(k: RecordKey, r: Record, user: int, platform: string, start: int, end: int) {
    k.user == user && k.platform == platform && !r.isDeleted
    && r.lastCollectedAt.Some? && start <= r.lastCollectedAt.value <= end
  }

  /** The ids the validation asks about, in the database's order `scan`. */
  function CandidateIds(records: Records, user: int, platform: string, start: int, end: int,
                        scan: seq<RecordKey>): (ids: seq<Value>)
    ensures |ids| <= |scan|
    ensures forall x :: x in ids <==>
              exists i :: 0 <= i < |scan| && scan[i] in records
                          && Candidate(scan[i], records[scan[i]], user, platform, start, end) && scan[i].sid == x
  {
    if |scan| == 0 then []
    else
      var rest := CandidateIds(records, user, platform, start, end, scan[1..]);
      assert forall i :: 1 <= i < |scan| ==> scan[i] == scan[1..][i - 1];
      if scan[0] in records && Candidate(scan[0], records[scan[0]], user, platform, start, end)
      then [scan[0].sid] + rest
      else rest
  }

  /** Sets `is_deleted` on this config's records whose id is in `missing`. */
  function MarkDeleted(records: Records, user: int, platform: string, missing: seq<Value>): (rs: Records)
    ensures rs.Keys == records.Keys
    ensures forall k :: k in rs ==>
              rs[k] == records[k].(isDeleted := records[k].isDeleted
                                    || (k.user == user && k.platform == platform && k.sid in missing))
  {
    map k | k in records ::
      if k.user == user && k.platform == platform && k.sid in missing then records[k].(isDeleted := true)
      else records[k]
  }

  /** `run_validate`. Bounds `parse_datetime` cannot read make the query
      raise; a platform without a provider reports nothing missing. */
  function RunValidate(st: CollectRun.Store, configUuid: string, startText: string, endText: string,
                       server: Jira.Server, scan: seq<RecordKey>)
    : (r: (CollectRun.Store, Option<ValidateResult>))
    ensures configUuid !in st.configs ==> r == (st, Some(ValidateFailed(ConfigNotFound)))
    ensures !(r.1.Some? && r.1.value.Validated?) ==> r.0 == st
    ensures r.0.configs == st.configs && r.0.disk == st.disk && r.0.drawn == st.drawn
    ensures r.0.records.Keys == st.records.Keys
    ensures r.1.Some? && r.1.value.Validated? ==> r.1.value.marked <= r.1.value.validated <= |scan|
  {
    if configUuid !in st.configs then (st, Some(ValidateFailed(ConfigNotFound)))
    else if ParseStamp(startText).None? || ParseStamp(endText).None? then (st, None)
    else
        var start := ParseStamp(startText).value;
        var end := ParseStamp(endText).value;
        var config := st.configs[configUuid];
        var ids := CandidateIds(st.records, config.user, config.platform, start, end, scan);
        match Reported(config, ids, server)
        case None => (st, None)
        case Some(missing) =>
          (st.(records := MarkDeleted(st.records, config.user, config.platform, missing)),
           Some(Validated(|ids|, |missing|)))
  }

  /** The provider's answer: `None` when reading the config raises, `[]`
      when the platform has no provider or its auth is not an object. */
  function Reported(config: Config, ids: seq<Value>, server: Jira.Server): (r: Option<seq<Value>>)
    ensures r.Some? ==> |r.value| <= |ids| && forall x :: x in r.value ==> x in ids
    ensures Providers.GetProvider(config.platform).None? ==> r == Some([])
  {
    match Providers.GetProvider(config.platform)
    case None => Some([])
    case Some(kind) =>
      var value := Or(config.value, EmptyObj);
      if !value.Obj? then None
      else
        var auth := Or(Get(value.fields, "auth"), EmptyObj);
        if !auth.Obj? then Some([])
        else
          var missing := Providers.Validate(kind, auth.fields, ids, server);
          ValidateLength(kind, auth.fields, ids, server);
          Some(missing)
  }

  lemma ValidateLength(kind: Providers.Kind, auth: map<string, Value>, ids: seq<Value>, server: Jira.Server)
    ensures |Providers.Validate(kind, auth, ids, server)| <= |ids|
  {
  }

  /** For Jira with usable credentials, and a scan that lists the store,
      validation tombstones exactly the live records of this config last
      seen within the range whose issue lookup fails, and changes nothing
      else. */
  lemma ValidateTombstonesMissing(st: CollectRun.Store, configUuid: string, startText: string, endText: string,
                                  server: Jira.Server, scan: seq<RecordKey>, k: RecordKey)
    requires configUuid in st.configs
    requires Providers.GetProvider(st.configs[configUuid].platform) == Some(Providers.JiraProvider)
    requires var value := Or(st.configs[configUuid].value, EmptyObj);
             value.Obj? && Or(Get(value.fields, "auth"), EmptyObj).Obj?
             && Jira.Client(Or(Get(value.fields, "auth"), EmptyObj).fields).Ok?
    requires ParseStamp(startText).Some? && ParseStamp(endText).Some?
    requires forall k' :: k' in st.records ==> k' in scan
    requires k in st.records
    ensures var config := st.configs[configUuid];
            var creds := Jira.Client(Or(Get(Or(config.value, EmptyObj).fields, "auth"), EmptyObj).fields).value;
            var r := RunValidate(st, configUuid, startText, endText, server, scan);
            r.1.Some? && r.1.value.Validated?
            && r.0.records[k].isDeleted
               == (st.records[k].isDeleted
                   || (k.user == config.user && k.platform == config.platform
                       && exists k' :: k' in st.records && k'.sid == k.sid
                                       && Candidate(k', st.records[k'], config.user, config.platform,
                                                    ParseStamp(startText).value, ParseStamp(endText).value)
                                       && !server.exists_(creds, k.sid)))
  {
    var config := st.configs[configUuid];
    var start := ParseStamp(startText).value;
    var end := ParseStamp(endText).value;
    var ids := CandidateIds(st.records, config.user, config.platform, start, end, scan);
    var creds := Jira.Client(Or(Get(Or(config.value, EmptyObj).fields, "auth"), EmptyObj).fields).value;
    JiraReportsMissing(config, ids, server);
    var missing := Reported(config, ids, server).value;
    assert RunValidate(st, configUuid, startText, endText, server, scan)
           == (st.(records := MarkDeleted(st.records, config.user, config.platform, missing)),
               Some(Validated(|ids|, |missing|)));
    MarkedIffMissing(st.records, config.user, config.platform, start, end, scan, missing, creds, server, k);
  }

  /** A record is marked exactly when it was already deleted or it is a
      candidate's id that the server no longer has. */
  lemma MarkedIffMissing(records: Records, user: int, platform: string, start: int, end: int,
                         scan: seq<RecordKey>, missing: seq<Value>, creds: Jira.Creds, server: Jira.Server,
                         k: RecordKey)
    requires forall k' :: k' in records ==> k' in scan
    requires forall x :: x in missing <==>
               x in CandidateIds(records, user, platform, start, end, scan) && !server.exists_(creds, x)
    requires k in records
    ensures MarkDeleted(records, user, platform, missing)[k].isDeleted
            == (records[k].isDeleted
                || (k.user == user && k.platform == platform
                    && exists k' :: k' in records && k'.sid == k.sid
                                    && Candidate(k', records[k'], user, platform, start, end)
                                    && !server.exists_(creds, k.sid)))
  {
    var ids := CandidateIds(records, user, platform, start, end, scan);
    var inWindow := exists k' :: k' in records && k'.sid == k.sid
                                 && Candidate(k', records[k'], user, platform, start, end);
    if inWindow {
      var k' :| k' in records && k'.sid == k.sid && Candidate(k', records[k'], user, platform, start, end);
      var i :| 0 <= i < |scan| && scan[i] == k';
      assert k.sid in ids;
    }
  }

  /** For a Jira config with usable credentials, the reported ids are the
      asked ids whose issue lookup fails. */
  lemma JiraReportsMissing(config: Config, ids: seq<Value>, server: Jira.Server)
    requires Providers.GetProvider(config.platform) == Some(Providers.JiraProvider)
    requires var value := Or(config.value, EmptyObj);
             value.Obj? && Or(Get(value.fields, "auth"), EmptyObj).Obj?
             && Jira.Client(Or(Get(value.fields, "auth"), EmptyObj).fields).Ok?
    ensures var creds := Jira.Client(Or(Get(Or(config.value, EmptyObj).fields, "auth"), EmptyObj).fields).value;
            Reported(config, ids, server).Some?
            && forall x :: x in Reported(config, ids, server).value <==> x in ids && !server.exists_(creds, x)
  {
  }

  /** A platform without a provider tombstones nothing. */
  lemma NoProviderMarksNothing(st: CollectRun.Store, configUuid: string, startText: string, endText: string,
                               server: Jira.Server, scan: seq<RecordKey>)
    requires configUuid in st.configs
    requires Providers.GetProvider(st.configs[configUuid].platform).None?
    ensures RunValidate(st, configUuid, startText, endText, server, scan).0 == st
  {
    var config := st.configs[configUuid];
    MarkNothing(st.records, config.user, config.platform);
  }

  lemma MarkNothing(records: Records, user: int, platform: string)
    ensures MarkDeleted(records, user, platform, []) == records
  {
    var m := MarkDeleted(records, user, platform, []);
    assert forall k :: k in m ==> m[k] == records[k];
  }


}

=== FILE: stamps.dfy ===
/** Instants as the collector stores them in `runtime_state` and receives
    them as task arguments. An instant is an integer count of seconds since
    1970-01-01T00:00:00Z; its text form stands in for `isoformat()` and its
    reading for `parse_datetime`, a partial function that yields `None` on
    text it cannot read. */
module Stamps {
  import opened Wrappers
  import opened Text
  import Calendar

  /** `timedelta(days=n)` in seconds. */
  function Days(n: int): (s: int)
    ensures n > 0 ==> s >= Calendar.SecondsPerDay
    ensures s == n * Calendar.SecondsPerDay
  {
    n * Calendar.SecondsPerDay
  }

  /** `t.isoformat()`. */
  function StampText(t: int): (r: string)
    ensures |r| > 0
  {
    IntToStr(t)
  }

  /** `parse_datetime(s)`: the instant `s` names, or `None`. */
  function ParseStamp(s: string): Option<int> {
    ParseInt(s)
  }

  /** A stamp written by the collector reads back as the same instant. */
  lemma ParseStampText(t: int)
    ensures ParseStamp(StampText(t)) == Some(t)
  {
    ParseIntOfIntToStr(t);
  }
}

=== FILE: storage.dfy ===
/** Attachment storage layout of the data collector: files live under
    `{root}/raw_data/{record uuid}/{attachment uuid}` and are served from
    `/media/storage/data_collector/raw_data/{record uuid}/{attachment uuid}`.
    Only uuids appear in paths; the original file name is kept in the row. */
module Storage {
  import opened Text

  /** The storage root used when the settings do not name one. */
  const DefaultRoot: string := "/opt/storage/data_collector"

  const UrlBase: string := "/media/storage/data_collector/raw_data"

  /** `os.path.join(a, b)` for POSIX paths: an absolute `b` replaces `a`,
      otherwise a single `/` separates them unless `a` is empty or already
      ends with one. */
  function PathJoin(a: string, b: string): (r: string)
    ensures |b| > 0 && b[0] == '/' ==> r == b
    ensures (|b| == 0 || b[0] != '/') && |a| > 0 && a[|a| - 1] != '/' ==> r == a + "/" + b
  {
    if |b| > 0 && b[0] == '/' then b
    else if |a| == 0 || a[|a| - 1] == '/' then a + b
    else a + "/" + b
  }

  /** A uuid in text form: never empty, never containing a slash. */
  predicate UuidText(u: string) {
    |u| > 0 && '/' !in u
  }

  /** The storage root: the configured value, or the default. */
  function Root(configured: Wrappers.Option<string>): (r: string)
    ensures configured.None? ==> r == DefaultRoot
    ensures configured.Some? ==> r == configured.value
  {
    configured.GetOr(DefaultRoot)
  }

  /** `get_raw_data_attachment_dir`: `{root}/raw_data/{record uuid}`. */
  function AttachmentDir(root: string, recordUuid: string): (r: string)
    ensures UuidText(recordUuid) ==>
              |r| >= |recordUuid| + 9 && r[|r| - |recordUuid| - 9..] == "raw_data/" + recordUuid
  {
    var sub := PathJoin(root, "raw_data");
    var r := PathJoin(sub, recordUuid);
    if UuidText(recordUuid) then
      assert recordUuid[0] != '/' by { assert recordUuid[0] in recordUuid; }
      assert |sub| >= 8 && sub[|sub| - 8..] == "raw_data";
      assert sub[|sub| - 1] == 'a';
      assert r == sub + "/" + recordUuid;
      assert r[|r| - |recordUuid| - 9..] == sub[|sub| - 8..] + "/" + recordUuid;
      r
    else r
  }

  /** `attachment_file_path`: the directory joined with the attachment uuid. */
  function AttachmentFilePath(root: string, recordUuid: string, attUuid: string): (r: string)
    ensures UuidText(recordUuid) && UuidText(attUuid) ==> r == AttachmentDir(root, recordUuid) + "/" + attUuid
  {
    PathJoin(AttachmentDir(root, recordUuid), attUuid)
  }

  /** `attachment_file_url`: independent of the storage root. */
  function AttachmentFileUrl(recordUuid: string, attUuid: string): (r: string)
    ensures |r| == |UrlBase| + |recordUuid| + |attUuid| + 2
    ensures r[..|UrlBase| + 1] == UrlBase + "/" && r[|r| - |attUuid| - 1..] == "/" + attUuid
  {
    UrlBase + "/" + recordUuid + "/" + attUuid
  }

  /** For a root that does not end in a slash, the path is exactly
      `{root}/raw_data/{record uuid}/{attachment uuid}`. */
  lemma FilePathShape(root: string, recordUuid: string, attUuid: string)
    requires |root| > 0 && root[|root| - 1] != '/'
    requires UuidText(recordUuid) && UuidText(attUuid)
    ensures AttachmentFilePath(root, recordUuid, attUuid)
            == root + "/raw_data/" + recordUuid + "/" + attUuid
  {
    var sub := PathJoin(root, "raw_data");
    assert sub == root + "/" + "raw_data";
    assert sub[|sub| - 1] == 'a';
    var dir := PathJoin(sub, recordUuid);
    assert recordUuid[0] != '/' by { assert recordUuid[0] in recordUuid; }
    assert dir == sub + "/" + recordUuid;
    assert dir[|dir| - 1] == recordUuid[|recordUuid| - 1];
    assert recordUuid[|recordUuid| - 1] != '/' by { assert recordUuid[|recordUuid| - 1] in recordUuid; }
    assert attUuid[0] != '/' by { assert attUuid[0] in attUuid; }
  }

  /** Two attachments of one record never share a file: the path determines
      the attachment uuid. */
  lemma FilePathInjective(root: string, recordUuid: string, a1: string, a2: string)
    requires |root| > 0 && root[|root| - 1] != '/'
    requires UuidText(recordUuid) && UuidText(a1) && UuidText(a2)
    requires AttachmentFilePath(root, recordUuid, a1) == AttachmentFilePath(root, recordUuid, a2)
    ensures a1 == a2
  {
    FilePathShape(root, recordUuid, a1);
    FilePathShape(root, recordUuid, a2);
    var p := root + "/raw_data/" + recordUuid + "/";
    assert (p + a1)[|p|..] == a1;
    assert (p + a2)[|p|..] == a2;
  }

  /** The download URL names the record and the attachment: different pairs
      of slash-free uuids give different URLs. */
  lemma FileUrlInjective(r1: string, a1: string, r2: string, a2: string)
    requires UuidText(r1) && UuidText(a1) && UuidText(r2) && UuidText(a2)
    requires AttachmentFileUrl(r1, a1) == AttachmentFileUrl(r2, a2)
    ensures r1 == r2 && a1 == a2
  {
    var p := UrlBase + "/";
    var u1 := r1 + "/" + a1;
    var u2 := r2 + "/" + a2;
    assert AttachmentFileUrl(r1, a1) == p + u1;
    assert AttachmentFileUrl(r2, a2) == p + u2;
    assert (p + u1)[|p|..] == u1;
    assert (p + u2)[|p|..] == u2;
    assert u1 == u2;
    SlashSplit(r1, a1, r2, a2);
  }

  /** `r + "/" + a` with slash-free `r` can be cut at its first slash. */
  lemma SlashSplit(r1: string, a1: string, r2: string, a2: string)
    requires '/' !in r1 && '/' !in r2
    requires r1 + "/" + a1 == r2 + "/" + a2
    ensures r1 == r2 && a1 == a2
  {
    var u := r1 + "/" + a1;
    SlashAfter(r1, a1);
    SlashAfter(r2, a2);
    if |r1| < |r2| {
      assert false;
    } else if |r2| < |r1| {
      assert false;
    }
    assert r1 == u[..|r1|] == r2;
    assert a1 == u[|r1| + 1..] == a2;
  }

  lemma SlashAfter(r: string, a: string)
    ensures (r + "/" + a)[|r|] == '/'
    ensures forall i :: 0 <= i < |r| ==> (r + "/" + a)[i] == r[i]
  {
  }

  /** `ensure_attachment_dir`: creates the directory if needed (`makedirs`
      with `exist_ok=True`) and returns the same path as `AttachmentDir`. */
  function EnsureAttachmentDir(dirs: set<string>, root: string, recordUuid: string)
    : (r: (set<string>, string))
    ensures r.1 == AttachmentDir(root, recordUuid)
    ensures r.0 == dirs + {r.1}
  {
    var d := AttachmentDir(root, recordUuid);
    (dirs + {d}, d)
  }

  /** Ensuring the directory twice is the same as ensuring it once. */
  lemma EnsureAttachmentDirIdempotent(dirs: set<string>, root: string, recordUuid: string)
    ensures var (d1, p1) := EnsureAttachmentDir(dirs, root, recordUuid);
            EnsureAttachmentDir(d1, root, recordUuid) == (d1, p1)
  {
  }
}

=== FILE: task_lock.dfy ===
/** The duplicate-run guard (task_manager/task_lock.py): a task holds a
    cache key `task_manager_task_lock:{name}` while it runs; a second run
    under the same name is skipped. The cache is the set of keys present;
    each cache call may fail (`CacheHealth`), and a key expiring after its
    timeout is simply a key the environment removed from the set. */
module TaskLock {
  import opened Wrappers
  import opened Json
  import opened Text

  const DefaultTimeout: nat := 3600
  const LockKeyPrefix: string := "task_manager_task_lock"
  /** Parameter texts longer than this are replaced by a hash. */
  const MaxParamText: nat := 200
  const HashPrefixLength: nat := 16

  const ReasonRunning: string := "task_already_running"
  const ReasonAcquireFailed: string := "lock_acquisition_failed"

  type Cache = set<string>

  /** Whether the cache's `get`, `add` and `delete` calls succeed. */
  datatype CacheHealth = CacheHealth(getOk: bool, addOk: bool, deleteOk: bool)

  function LockKey(name: string): (k: string)
    ensures |k| > |LockKeyPrefix| && k[..|LockKeyPrefix|] == LockKeyPrefix && k[|LockKeyPrefix|] == ':'
    ensures k[|LockKeyPrefix| + 1..] == name
  {
    LockKeyPrefix + ":" + name
  }

  /** `is_task_locked`: false when the cache fails. */
  predicate IsLocked(cache: Cache, health: CacheHealth, name: string) {
    health.getOk && LockKey(name) in cache
  }

  /** `acquire_task_lock`: `cache.add` succeeds iff the key was absent; a
      cache error is a failure. */
  function Acquire(cache: Cache, health: CacheHealth, name: string): (r: (bool, Cache))
    ensures r.0 <==> health.addOk && LockKey(name) !in cache
    ensures r.0 ==> r.1 == cache + {LockKey(name)}
    ensures !r.0 ==> r.1 == cache
  {
    if health.addOk && LockKey(name) !in cache then (true, cache + {LockKey(name)}) else (false, cache)
  }

  /** `release_task_lock`: deletes the key unless the cache fails. */
  function Release(cache: Cache, health: CacheHealth, name: string): (r: (bool, Cache))
    ensures r.0 == health.deleteOk
    ensures r.0 ==> LockKey(name) !in r.1 && r.1 == cache - {LockKey(name)}
    ensures !r.0 ==> r.1 == cache
  {
    if health.deleteOk then (true, cache - {LockKey(name)}) else (false, cache)
  }

  /** A call's positional arguments; `firstIsTask` says `args[0]` has a
      `request` attribute (a bound Celery task). */
  datatype Call = Call(args: seq<Value>, firstIsTask: bool, kwargs: map<string, Value>)

  /** `_extract_lock_param_value`: the keyword argument; when that is falsy,
      the first real positional argument (skipping a bound task). */
  function ExtractLockParam(call: Call, param: string): (v: Value)
    ensures Truthy(Get(call.kwargs, param)) ==> v == Get(call.kwargs, param)
    ensures !Truthy(Get(call.kwargs, param)) && |call.args| == 0 ==> v == Get(call.kwargs, param)
    ensures !Truthy(Get(call.kwargs, param)) && |call.args| > 0 && !call.firstIsTask ==> v == call.args[0]
    ensures !Truthy(Get(call.kwargs, param)) && call.firstIsTask ==>
              v == (if |call.args| > 1 then call.args[1] else if |call.args| == 0 then Get(call.kwargs, param) else Null)
  {
    var v := Get(call.kwargs, param);
    if !Truthy(v) && |call.args| > 0 then
      if call.firstIsTask then (if |call.args| > 1 then call.args[1] else Null)
      else call.args[0]
    else v
  }

  /** `_build_task_lock_name`: the base name for a falsy value, otherwise
      `{base}_{value}`, with the first 16 hex digits of the MD5 of the text
      in place of a text longer than 200 characters. */
  function BuildLockName(base: string, v: Value, md5: string -> string): (name: string)
    ensures !Truthy(v) ==> name == base
    ensures Truthy(v) && |Show(v)| <= MaxParamText ==> name == base + "_" + Show(v)
    ensures Truthy(v) && |Show(v)| > MaxParamText ==> name == base + "_" + Take(md5(Show(v)), HashPrefixLength)
    ensures |name| <= |base| + 1 + MaxParamText
  {
    if !Truthy(v) then base
    else
      var text := Show(v);
      if |text| > MaxParamText then base + "_" + Take(md5(text), HashPrefixLength)
      else base + "_" + text
  }

  /** The name the guard locks: the base name unless a lock parameter is
      configured and found (not `None`). */
  function GuardName(base: string, lockParam: string, call: Call, md5: string -> string): (name: string)
    ensures lockParam == "" ==> name == base
  {
    if lockParam == "" then base
    else
      var v := ExtractLockParam(call, lockParam);
      if v == Null then base else BuildLockName(base, v, md5)
  }

  /** What the wrapper returns: a skip dict, the function's own result, or
      the exception propagated after the release. */
  datatype Guarded<R> = Skipped(reason: string, error: string) | Ran(result: R) | Raised

  /** `prevent_duplicate_task`'s wrapper around `run`, which maps a state to
      the new state and its result (`None` when it raises). */
  function Guard<S, R>(cache: Cache, health: CacheHealth, name: string, run: S -> (S, Option<R>), s: S)
    : (r: (Cache, S, Guarded<R>))
    ensures IsLocked(cache, health, name) ==>
              r == (cache, s, Skipped(ReasonRunning, "Task " + name + " is already running"))
    ensures !IsLocked(cache, health, name) && !Acquire(cache, health, name).0 ==>
              r == (cache, s, Skipped(ReasonAcquireFailed, "Failed to acquire lock for " + name))
    ensures !r.2.Skipped? ==>
              LockKey(name) !in cache && health.addOk
              && r.1 == run(s).0
              && (run(s).1.Some? ==> r.2 == Ran(run(s).1.value))
              && (run(s).1.None? ==> r.2 == Raised)
    ensures !r.2.Skipped? ==> r.0 == Release(cache + {LockKey(name)}, health, name).1
  {
    if IsLocked(cache, health, name) then
      (cache, s, Skipped(ReasonRunning, "Task " + name + " is already running"))
    else
      var (got, held) := Acquire(cache, health, name);
      if !got then (cache, s, Skipped(ReasonAcquireFailed, "Failed to acquire lock for " + name))
      else
        var (s', out) := run(s);
        var (_, released) := Release(held, health, name);
        (released, s', if out.Some? then Ran(out.value) else Raised)
  }

  /** The lock is released on every path on which it was taken: whether the
      function returns or raises, the key is gone afterwards unless the
      cache's delete itself fails, and every other key is as before. A
      skipped call leaves the cache and the state alone. */
  lemma LockReleasedOnEveryPath<S, R>(cache: Cache, health: CacheHealth, name: string, run: S -> (S, Option<R>), s: S)
    ensures var (c, s', g) := Guard(cache, health, name, run, s);
            (g.Skipped? ==> c == cache && s' == s)
            && (!g.Skipped? && health.deleteOk ==> c == cache)
            && (!g.Skipped? && !health.deleteOk ==> c == cache + {LockKey(name)})
  {
    var (c, s', g) := Guard(cache, health, name, run, s);
    if !g.Skipped? {
      assert LockKey(name) !in cache;
      if health.deleteOk {
        assert (cache + {LockKey(name)}) - {LockKey(name)} == cache;
      }
    }
  }

  /** At most one holder: while the key is held and the cache answers, a
      second call never runs the function. */
  lemma NoConcurrentRun<S, R>(cache: Cache, health: CacheHealth, name: string, run: S -> (S, Option<R>), s: S)
    requires LockKey(name) in cache
    ensures Guard(cache, health, name, run, s).2.Skipped?
    ensures Guard(cache, health, name, run, s).1 == s
  {
  }
}

=== FILE: task_tracker.dfy ===
/** Task execution tracking (task_manager): the six task statuses, the
    `TaskExecution` row and the tracker's register / update / sync-from-Celery
    operations over a store keyed by the unique `task_id`. Clock readings are
    parameters; Celery's result backend is a supplied reading. */
module TaskTracker {
  import opened Wrappers
  import opened Json

  const Pending: string := "PENDING"
  const Started: string := "STARTED"
  const Success: string := "SUCCESS"
  const Failure: string := "FAILURE"
  const Retry: string := "RETRY"
  const Revoked: string := "REVOKED"

  /** `get_all_statuses`, `get_completed_statuses`, `get_running_statuses`. */
  const AllStatuses: seq<string> := [Pending, Started, Success, Failure, Retry, Revoked]
  const CompletedStatuses: seq<string> := [Success, Failure, Revoked]
  const RunningStatuses: seq<string> := [Started, Retry]

  /** A value handed to the tracker as a task result: a JSON value (Python
      `None` is `Plain(Null)`), or an exception instance, which a JSON column
      cannot store. */
  datatype Payload = Plain(v: Value) | Raised(message: string)

  /** One `TaskExecution` row. The status column is free text: the tracker
      writes whatever status it is given. */
  datatype Execution = Execution(
    taskId: string,
    taskName: string,
    moduleName: string,
    status: string,
    createdAt: int,
    startedAt: Option<int>,
    finishedAt: Option<int>,
    taskArgs: Value,
    taskKwargs: Value,
    result: Value,
    error: Option<string>,
    traceback: Option<string>,
    createdBy: Option<int>,
    metadata: Value)

  /** The table, keyed by `task_id` (unique), so each id has one row. */
  type Store = map<string, Execution>

  /** A store in which every row sits under its own task id. */
  predicate WellKeyed(store: Store) {
    forall id :: id in store ==> store[id].taskId == id
  }

  predicate IsCompleted(e: Execution) {
    e.status in CompletedStatuses
  }

  predicate IsRunning(e: Execution) {
    e.status in RunningStatuses
  }

  /** There are six distinct statuses; completed and running are disjoint
      subsets of them, and PENDING lies in neither. */
  lemma StatusSets()
    ensures |AllStatuses| == 6
    ensures forall i, j :: 0 <= i < j < |AllStatuses| ==> AllStatuses[i] != AllStatuses[j]
    ensures forall s :: s in CompletedStatuses ==> s in AllStatuses && s !in RunningStatuses
    ensures forall s :: s in RunningStatuses ==> s in AllStatuses
    ensures Pending !in CompletedStatuses && Pending !in RunningStatuses
    ensures forall s :: s in AllStatuses ==>
              s == Pending || s in CompletedStatuses || s in RunningStatuses
  {
  }

  /** `TaskExecution.duration` in seconds: from start to finish when both are
      set, from start to `now` while unfinished, `None` before the start. */
  function Duration(e: Execution, now: int): (d: Option<int>)
    ensures d.Some? <==> e.startedAt.Some?
    ensures d.Some? && e.finishedAt.Some? ==> e.startedAt.value + d.value == e.finishedAt.value
    ensures d.Some? && e.finishedAt.None? ==> e.startedAt.value + d.value == now
  {
    match (e.startedAt, e.finishedAt)
    case (Some(s), Some(f)) => Some(f - s)
    case (Some(s), None) => Some(now - s)
    case _ => None
  }

  /** `register_task`: `get_or_create` on the Celery id. A new row is PENDING
      with empty args, kwargs and metadata in place of falsy ones; an
      existing row is returned as it is. */
  function Register(store: Store, taskId: string, taskName: string, moduleName: string,
                    taskArgs: Value, taskKwargs: Value, createdBy: Option<int>,
                    metadata: Value, now: int): (r: (Store, Execution))
    ensures taskId in store ==> r == (store, store[taskId])
    ensures taskId !in store ==> r.0 == store[taskId := r.1]
    ensures taskId !in store ==>
              r.1.taskId == taskId && r.1.status == Pending
              && r.1.startedAt.None? && r.1.finishedAt.None? && r.1.createdAt == now
              && r.1.taskArgs == Or(taskArgs, List([])) && r.1.metadata == Or(metadata, EmptyObj)
              && r.1.result == Null && r.1.error.None? && r.1.traceback.None?
  {
    if taskId in store then (store, store[taskId])
    else
      var e := Execution(taskId, taskName, moduleName, Pending, now, None, None,
                         Or(taskArgs, List([])), Or(taskKwargs, EmptyObj), Null, None, None,
                         createdBy, Or(metadata, EmptyObj));
      (store[taskId := e], e)
  }

  /** Registering an id twice is registering it once, whatever the second
      call's arguments. */
  lemma RegisterIdempotent(store: Store, taskId: string, n1: string, m1: string, a1: Value,
                           k1: Value, c1: Option<int>, md1: Value, t1: int,
                           n2: string, m2: string, a2: Value, k2: Value, c2: Option<int>,
                           md2: Value, t2: int)
    ensures var (s1, e1) := Register(store, taskId, n1, m1, a1, k1, c1, md1, t1);
            Register(s1, taskId, n2, m2, a2, k2, c2, md2, t2) == (s1, e1)
  {
  }

  /** Registering keeps every row under its own id. */
  lemma RegisterKeepsWellKeyed(store: Store, taskId: string, taskName: string, moduleName: string,
                               taskArgs: Value, taskKwargs: Value, createdBy: Option<int>,
                               metadata: Value, now: int)
    requires WellKeyed(store)
    ensures WellKeyed(Register(store, taskId, taskName, moduleName, taskArgs, taskKwargs,
                               createdBy, metadata, now).0)
  {
  }

  datatype UpdateOutcome =
    | NotFound
    | Updated(store: Store, exec: Execution)
    /** An exception escaped before the row was saved. */
    | Crash

  /** The timestamps after a status change: `started_at` is stamped the first
      time STARTED is written, `finished_at` the first time a completed
      status is written; a set timestamp is never moved. */
  function Stamp(e: Execution, status: string, now: int): (r: Execution)
    ensures r == e.(startedAt := r.startedAt, finishedAt := r.finishedAt)
    ensures e.startedAt.Some? ==> r.startedAt == e.startedAt
    ensures e.finishedAt.Some? ==> r.finishedAt == e.finishedAt
    ensures r.startedAt != e.startedAt <==> status == Started && e.startedAt.None?
    ensures r.finishedAt != e.finishedAt <==> status in CompletedStatuses && e.finishedAt.None?
    ensures r.startedAt != e.startedAt ==> r.startedAt == Some(now)
    ensures r.finishedAt != e.finishedAt ==> r.finishedAt == Some(now)
  {
    if status == Started && e.startedAt.None? then e.(startedAt := Some(now))
    else if status in CompletedStatuses && e.finishedAt.None? then e.(finishedAt := Some(now))
    else e
  }

  /** `metadata.update(extra)` on the stored metadata, read as `{}` when it
      is null; any other non-dict value has no `update` and raises. */
  function MergeMetadata(stored: Value, extra: map<string, Value>): (r: Option<Value>)
    ensures r.Some? <==> stored.Null? || stored.Obj?
    ensures stored.Obj? ==> r == Some(Obj(Merge(stored.fields, extra)))
    ensures stored.Null? ==> r == Some(Obj(extra))
  {
    match stored
    case Null => Some(Obj(extra))
    case Obj(m) => Some(Obj(Merge(m, extra)))
    case _ => None
  }

  /** `update_task_status`: an unknown id gives `None` and writes nothing.
      Otherwise the status is written as given, the timestamps are stamped
      once, `result`, `error` and `traceback` are overwritten only by
      non-`None` values, and `metadata` is merged in. A result the JSON
      column cannot hold, or stored metadata that is not a dict, raises
      before the save. */
  function Update(store: Store, taskId: string, status: string, result: Payload,
                  error: Option<string>, traceback: Option<string>,
                  metadata: Option<map<string, Value>>, now: int): (r: UpdateOutcome)
    ensures taskId !in store <==> r.NotFound?
    ensures r.Crash? <==>
              taskId in store && (result.Raised? || (metadata.Some? && MergeMetadata(store[taskId].metadata, metadata.value).None?))
    ensures r.Updated? ==> r.store == store[taskId := r.exec]
    ensures r.Updated? ==>
              var e := store[taskId];
              r.exec.taskId == e.taskId && r.exec.taskName == e.taskName && r.exec.moduleName == e.moduleName
              && r.exec.createdAt == e.createdAt && r.exec.taskArgs == e.taskArgs
              && r.exec.taskKwargs == e.taskKwargs && r.exec.createdBy == e.createdBy
              && r.exec.status == status
              && r.exec.result == (if result == Plain(Null) then e.result else result.v)
              && r.exec.error == (if error.Some? then error else e.error)
              && r.exec.traceback == (if traceback.Some? then traceback else e.traceback)
              && (metadata.None? ==> r.exec.metadata == e.metadata)
              && (metadata.Some? ==> Some(r.exec.metadata) == MergeMetadata(e.metadata, metadata.value))
    ensures r.Updated? ==>
              r.exec.startedAt == Stamp(store[taskId], status, now).startedAt
              && r.exec.finishedAt == Stamp(store[taskId], status, now).finishedAt
  {
    if taskId !in store then NotFound
    else
      var e := Stamp(store[taskId], status, now).(status := status);
      if result.Raised? then Crash
      else
        var e := if result == Plain(Null) then e else e.(result := result.v);
        var e := if error.Some? then e.(error := error) else e;
        var e := if traceback.Some? then e.(traceback := traceback) else e;
        match metadata
        case None => Updated(store[taskId := e], e)
        case Some(extra) =>
          match MergeMetadata(e.metadata, extra)
          case None => Crash
          case Some(md) =>
            var e := e.(metadata := md);
            Updated(store[taskId := e], e)
  }

  /** Updating keeps every row under its own id. */
  lemma UpdateKeepsWellKeyed(store: Store, taskId: string, status: string, result: Payload,
                             error: Option<string>, traceback: Option<string>,
                             metadata: Option<map<string, Value>>, now: int)
    requires WellKeyed(store)
    ensures var r := Update(store, taskId, status, result, error, traceback, metadata, now);
            r.Updated? ==> WellKeyed(r.store)
  {
  }

  /** `started_at` is set once: after a first STARTED at `t1`, any later
      update leaves it at `t1`; likewise `finished_at` after a first
      completed status. */
  lemma TimestampsSetOnce(store: Store, taskId: string, s1: string, s2: string,
                          t1: int, t2: int, md: Option<map<string, Value>>)
    requires taskId in store && store[taskId].startedAt.None? && store[taskId].finishedAt.None?
    ensures var r1 := Update(store, taskId, s1, Plain(Null), None, None, None, t1);
            r1.Updated? &&
            var r2 := Update(r1.store, taskId, s2, Plain(Null), None, None, md, t2);
            r2.Updated? ==>
              (s1 == Started ==> r2.exec.startedAt == Some(t1))
              && (s1 in CompletedStatuses ==> r2.exec.finishedAt == Some(t1))
              && (s1 != Started && s1 !in CompletedStatuses ==>
                    r2.exec == Update(store, taskId, s2, Plain(Null), None, None, md, t2).exec)
  {
    var r1 := Update(store, taskId, s1, Plain(Null), None, None, None, t1);
    var r2 := Update(r1.store, taskId, s2, Plain(Null), None, None, md, t2);
    assert r1.Updated?;
    if r2.Updated? && s1 != Started && s1 !in CompletedStatuses {
      var r3 := Update(store, taskId, s2, Plain(Null), None, None, md, t2);
      assert r1.exec == store[taskId].(status := s1);
      assert r3.Updated?;
      assert r2.exec == r3.exec;
    }
  }

  /** A task registered, started at `t1` and finished with SUCCESS at `t2`
      is completed, not running, and lasted `t2 - t1` seconds at any later
      reading of the clock. */
  lemma LifecycleDuration(store: Store, taskId: string, taskName: string, moduleName: string,
                          t0: int, t1: int, t2: int, now: int)
    requires taskId !in store
    ensures var (s0, _) := Register(store, taskId, taskName, moduleName, Null, Null, None, Null, t0);
            var r1 := Update(s0, taskId, Started, Plain(Null), None, None, None, t1);
            r1.Updated? &&
            var r2 := Update(r1.store, taskId, Success, Plain(Null), None, None, None, t2);
            r2.Updated? && IsCompleted(r2.exec) && !IsRunning(r2.exec)
            && Duration(r2.exec, now) == Some(t2 - t1)
  {
    var (s0, e0) := Register(store, taskId, taskName, moduleName, Null, Null, None, Null, t0);
    var r1 := Update(s0, taskId, Started, Plain(Null), None, None, None, t1);
    assert r1.exec.startedAt == Some(t1) && r1.exec.finishedAt.None?;
    var r2 := Update(r1.store, taskId, Success, Plain(Null), None, None, None, t2);
    assert r2.exec.startedAt == Some(t1) && r2.exec.finishedAt == Some(t2);
  }

  /** The status names Celery reports, mapped to the tracker's statuses. */
  const CeleryStatusMap: map<string, string> :=
    map[Pending := Pending, Started := Started, Success := Success,
        Failure := Failure, Retry := Retry, Revoked := Revoked]

  /** `status_mapping.get(name, PENDING)`: every name lands on one of the six
      statuses; the six map to themselves and anything else to PENDING. */
  function CeleryStatus(name: string): (s: string)
    ensures s in AllStatuses
    ensures name in AllStatuses ==> s == name
    ensures name !in AllStatuses ==> s == Pending
  {
    if name in CeleryStatusMap then CeleryStatusMap[name] else Pending
  }

  /** What reading `AsyncResult.result` gives: a payload, or an exception
      raised by the read itself (with the text of its traceback). */
  datatype CeleryResult = Readable(payload: Payload) | Unreadable(message: string, trace: string)

  /** One reading of the Celery result backend for a task id, or a backend
      that raises on the status read. */
  datatype Reading =
    | Reading(state: string, ready: bool, result: CeleryResult)
    | BackendDown

  /** `sync_task_from_celery` returns `None` both for an unknown id and for
      any exception; the model keeps the two apart. */
  datatype SyncOutcome = Missing | Synced(store: Store, exec: Execution) | SyncFailed

  /** The (result, error, traceback) arguments the sync passes on: the
      result of a finished SUCCESS; for a finished FAILURE the result, with
      its text as the error when it is an exception, or the read's own error
      when reading it raised. `None` means the read itself raised. */
  function CeleryArguments(r: Reading): (a: Option<(Payload, Option<string>, Option<string>)>)
    requires r.Reading?
    ensures a.None? <==> r.ready && r.state == Success && r.result.Unreadable?
    ensures a.Some? ==> a.value.2.None?
    ensures a.Some? && a.value.0 != Plain(Null) ==> r.ready && r.result == Readable(a.value.0)
    ensures a.Some? && a.value.1.Some? ==> r.ready && r.state == Failure
  {
    if !r.ready then Some((Plain(Null), None, None))
    else if r.state == Success then
      match r.result
      case Readable(p) => Some((p, None, None))
      case Unreadable(_, _) => None
    else if r.state == Failure then
      match r.result
      case Readable(p) => Some((p, if p.Raised? then Some(p.message) else None, None))
      // The handler reads `__traceback__` from the unassigned `result`
      // (still `None`), so no traceback is ever passed.
      case Unreadable(m, _) => Some((Plain(Null), Some(m), None))
    else Some((Plain(Null), None, None))
  }

  /** `sync_task_from_celery`: an unknown id gives nothing; a status equal to
      the stored one writes nothing; otherwise the mapped status is written
      through `update_task_status`, and any exception on the way leaves the
      store as it was. */
  function Sync(store: Store, taskId: string, reading: Reading, now: int): (r: SyncOutcome)
    ensures taskId !in store <==> r.Missing?
    ensures r.Synced? ==> reading.Reading? && r.exec.status == CeleryStatus(reading.state)
    ensures r.Synced? && store[taskId].status == CeleryStatus(reading.state) ==>
              r.store == store && r.exec == store[taskId]
    ensures r.Synced? ==> r.store == store[taskId := r.exec]
    ensures r.Synced? ==> r.exec.traceback == store[taskId].traceback
    ensures taskId in store && reading.Reading? && store[taskId].status != CeleryStatus(reading.state) ==>
              (r.Synced? <==> CeleryArguments(reading).Some? && CeleryArguments(reading).value.0.Plain?)
  {
    if taskId !in store then Missing
    else if reading.BackendDown? then SyncFailed
    else
      var status := CeleryStatus(reading.state);
      if store[taskId].status == status then Synced(store, store[taskId])
      else
        match CeleryArguments(reading)
        case None => SyncFailed
        case Some((result, error, traceback)) =>
          match Update(store, taskId, status, result, error, traceback, None, now)
          case Updated(s, e) => Synced(s, e)
          case _ => SyncFailed
  }

  /** As written, a finished FAILURE whose result is the job's exception
      (what Celery reports for a failed task) never reaches the store: the
      exception object is handed on as `result`, the JSON column rejects it,
      and the sync returns nothing with the row still in its old status. */
  lemma FailedTaskNeverSynced(store: Store, taskId: string, message: string, now: int)
    requires taskId in store && store[taskId].status != Failure
    ensures Sync(store, taskId, Reading(Failure, true, Readable(Raised(message))), now) == SyncFailed
  {
  }

  /** The arguments the failure branch evidently means to pass: the error
      text without the unstorable exception object, and the traceback of a
      read that raised. */
  function IntendedArguments(r: Reading): (a: Option<(Payload, Option<string>, Option<string>)>)
    requires r.Reading?
    ensures a.None? <==> CeleryArguments(r).None?
    ensures a.Some? ==> a.value.0.Plain?
    ensures a.Some? && r.ready && r.state == Failure ==>
              a.value.1 == CeleryArguments(r).value.1
    ensures a.Some? && r.ready && r.state == Failure && r.result.Unreadable? && r.result.trace != "" ==>
              a.value.2 == Some(r.result.trace)
  {
    if r.ready && r.state == Failure then
      match r.result
      case Readable(p) =>
        if p.Raised? then Some((Plain(Null), Some(p.message), None)) else Some((p, None, None))
      case Unreadable(m, t) => Some((Plain(Null), Some(m), if t == "" then None else Some(t)))
    else if r.ready && r.state == Success && r.result.Readable? && r.result.payload.Raised? then
      Some((Plain(Null), None, None))
    else CeleryArguments(r)
  }

  /** The corrected sync: the same steps with `IntendedArguments`. */
  function SyncIntended(store: Store, taskId: string, reading: Reading, now: int): (r: SyncOutcome)
    ensures taskId !in store <==> r.Missing?
    ensures r.Synced? ==> reading.Reading? && r.exec.status == CeleryStatus(reading.state)
    ensures r.Synced? ==> r.store == store[taskId := r.exec]
    ensures taskId in store && reading.Reading? ==>
              (r.SyncFailed? <==> store[taskId].status != CeleryStatus(reading.state)
                                  && CeleryArguments(reading).None?)
  {
    if taskId !in store then Missing
    else if reading.BackendDown? then SyncFailed
    else
      var status := CeleryStatus(reading.state);
      if store[taskId].status == status then Synced(store, store[taskId])
      else
        match IntendedArguments(reading)
        case None => SyncFailed
        case Some((result, error, traceback)) =>
          match Update(store, taskId, status, result, error, traceback, None, now)
          case Updated(s, e) => Synced(s, e)
          case _ => SyncFailed
  }

  /** Corrected, a failed task's sync records FAILURE, its error text and
      its finishing time. */
  lemma FailedTaskSyncedWhenIntended(store: Store, taskId: string, message: string, now: int)
    requires taskId in store && store[taskId].status != Failure
    ensures var r := SyncIntended(store, taskId, Reading(Failure, true, Readable(Raised(message))), now);
            r.Synced? && r.exec.status == Failure && r.exec.error == Some(message) && IsCompleted(r.exec)
            && r.exec.finishedAt == (if store[taskId].finishedAt.Some? then store[taskId].finishedAt else Some(now))
  {
  }
}

=== FILE: text.dfy ===
/** The Python string operations the code relies on: `strip`, `split`,
    `split(sep)`, `lower`, `in`, slicing, `int(...)` parsing and decimal
    formatting, stated over `seq<char>`. */
module Text {
  import opened Wrappers

  /** `str.isspace()` for one character: the ASCII whitespace and separator
      controls plus the Unicode space characters Python recognises. */
  predicate IsSpace(c: char) {
    c == ' ' || ('\t' <= c <= '\r') || ('\U{1c}' <= c <= '\U{1f}')
    || c == '\U{85}' || c == '\U{a0}' || c == '\U{1680}'
    || ('\U{2000}' <= c <= '\U{200a}') || c == '\U{2028}' || c == '\U{2029}'
    || c == '\U{202f}' || c == '\U{205f}' || c == '\U{3000}'
  }

  predicate NoSpace(s: string) {
    forall i :: 0 <= i < |s| ==> !IsSpace(s[i])
  }

  predicate AllSpace(s: string) {
    forall i :: 0 <= i < |s| ==> IsSpace(s[i])
  }

  predicate IsDigit(c: char) {
    '0' <= c <= '9'
  }

  /** `s.lstrip()`: drops the leading whitespace run. */
  function StripLeft(s: string): (r: string)
    ensures |r| <= |s| && r == s[|s| - |r|..]
    ensures AllSpace(s[..|s| - |r|])
    ensures |r| == 0 || !IsSpace(r[0])
  {
    if |s| > 0 && IsSpace(s[0]) then StripLeft(s[1..]) else s
  }

  /** `s.rstrip()`: drops the trailing whitespace run. */
  function StripRight(s: string): (r: string)
    ensures |r| <= |s| && r == s[..|r|]
    ensures AllSpace(s[|r|..])
    ensures |r| == 0 || !IsSpace(r[|r| - 1])
  {
    if |s| > 0 && IsSpace(s[|s| - 1]) then StripRight(s[..|s| - 1]) else s
  }

  /** `s.rstrip(c)`: drops the trailing run of `c`. */
  function TrimRightChar(s: string, c: char): (r: string)
    ensures |r| <= |s| && r == s[..|r|]
    ensures forall i :: |r| <= i < |s| ==> s[i] == c
    ensures |r| == 0 || r[|r| - 1] != c
  {
    if |s| > 0 && s[|s| - 1] == c then TrimRightChar(s[..|s| - 1], c) else s
  }

  /** `s.strip()`: the middle of `s` once both whitespace runs are removed. */
  function Strip(s: string): (r: string)
    ensures |r| <= |s|
    ensures |r| == 0 || (!IsSpace(r[0]) && !IsSpace(r[|r| - 1]))
  {
    StripRight(StripLeft(s))
  }

  /** `r` is a slice of `s` with only whitespace on either side of it. */
  predicate SpaceFramed(r: string, s: string) {
    exists i :: 0 <= i <= i + |r| <= |s| && r == s[i..i + |r|]
                && AllSpace(s[..i]) && AllSpace(s[i + |r|..])
  }

  /** What `strip` removes is whitespace on both sides of the result. */
  lemma StripShape(s: string)
    ensures SpaceFramed(Strip(s), s)
  {
    var l := StripLeft(s);
    StripMiddle(s, l, StripRight(l));
  }

  lemma StripMiddle(s: string, l: string, r: string)
    requires |l| <= |s| && l == s[|s| - |l|..] && AllSpace(s[..|s| - |l|])
    requires |r| <= |l| && r == l[..|r|] && AllSpace(l[|r|..])
    ensures SpaceFramed(r, s)
  {
    var i := |s| - |l|;
    assert s[i + |r|..] == l[|r|..];
    assert r == s[i..i + |r|];
  }

  /** Stripping leaves nothing exactly when the text is all whitespace. */
  lemma StripEmptyIffAllSpace(s: string)
    ensures Strip(s) == "" <==> AllSpace(s)
  {
    var l := StripLeft(s);
    if l == [] {
      assert s[..|s| - |l|] == s;
    } else {
      assert l[0] == s[|s| - |l|];
    }
  }

  /** `s[:n]`: the first `n` characters, or all of them. */
  function Take(s: string, n: nat): (r: string)
    ensures |r| == if |s| <= n then |s| else n
    ensures r == s[..|r|]
  {
    if |s| <= n then s else s[..n]
  }

  /** ASCII case folding; `str.lower()` on the identifiers and keywords the
      code lower-cases. */
  function LowerChar(c: char): char {
    if 'A' <= c <= 'Z' then (c as int + 32) as char else c
  }

  function Lower(s: string): (r: string)
    ensures |r| == |s|
    ensures forall i :: 0 <= i < |s| ==> r[i] == LowerChar(s[i])
  {
    if |s| == 0 then [] else [LowerChar(s[0])] + Lower(s[1..])
  }

  /** `needle` occurs in `hay` starting at index `i`. */
  predicate OccursAt(hay: string, needle: string, i: int) {
    0 <= i && i + |needle| <= |hay| && hay[i..i + |needle|] == needle
  }

  /** Python's `needle in hay` for strings. */
  ghost predicate Contains(hay: string, needle: string) {
    exists i :: OccursAt(hay, needle, i)
  }

  /** A decidable `Contains`, by scanning the start positions from `from`. */
  function ContainsFrom(hay: string, needle: string, from: nat): (r: bool)
    ensures r <==> exists i :: from <= i && OccursAt(hay, needle, i)
    decreases |hay| - from
  {
    if from + |needle| > |hay| then false
    else if hay[from..from + |needle|] == needle then
      assert OccursAt(hay, needle, from);
      true
    else ContainsFrom(hay, needle, from + 1)
  }

  function Has(hay: string, needle: string): (r: bool)
    ensures r <==> Contains(hay, needle)
  {
    ContainsFrom(hay, needle, 0)
  }

  /** The length of the leading run of non-whitespace characters. */
  function WordEnd(s: string): (k: nat)
    ensures k <= |s| && NoSpace(s[..k])
    ensures k == |s| || IsSpace(s[k])
  {
    if |s| == 0 || IsSpace(s[0]) then 0 else 1 + WordEnd(s[1..])
  }

  /** `s.split()`: the maximal runs of non-whitespace characters, in order. */
  function Words(s: string): (r: seq<string>)
    ensures forall j :: 0 <= j < |r| ==> |r[j]| > 0 && NoSpace(r[j])
    decreases |s|
  {
    var t := StripLeft(s);
    if |t| == 0 then []
    else
      var k := WordEnd(t);
      var rest := Words(t[k..]);
      WordsPrepend(t[..k], rest);
      [t[..k]] + rest
  }

  /** Putting a non-empty, space-free word in front of a list of such words
      gives a list of such words. */
  lemma WordsPrepend(w: string, rest: seq<string>)
    requires |w| > 0 && NoSpace(w)
    requires forall j :: 0 <= j < |rest| ==> |rest[j]| > 0 && NoSpace(rest[j])
    ensures forall j :: 0 <= j < |[w] + rest| ==> |([w] + rest)[j]| > 0 && NoSpace(([w] + rest)[j])
  {
    forall j | 0 <= j < |[w] + rest|
      ensures |([w] + rest)[j]| > 0 && NoSpace(([w] + rest)[j])
    {
      if j > 0 {
        assert ([w] + rest)[j] == rest[j - 1];
      }
    }
  }

  /** `s.split(None, 1)`: the first word and, when anything but whitespace
      follows it, the rest with its leading whitespace removed. */
  function SplitOnce(s: string): (r: seq<string>)
    ensures |r| <= 2
    ensures |r| == 0 <==> AllSpace(s)
    ensures |r| >= 1 ==> |r[0]| > 0 && NoSpace(r[0])
    ensures |r| == 2 ==> |r[1]| > 0 && !IsSpace(r[1][0])
  {
    var t := StripLeft(s);
    if |t| == 0 then []
    else
      var k := WordEnd(t);
      var rest := StripLeft(t[k..]);
      if |rest| == 0 then [t[..k]] else [t[..k], rest]
  }

  /** `s.split(sep)` for a one-character separator: the pieces between
      separators, including empty ones. */
  function SplitOn(s: string, sep: char): (r: seq<string>)
    ensures |r| >= 1
    ensures forall j :: 0 <= j < |r| ==> sep !in r[j]
    decreases |s|
  {
    if sep !in s then [s]
    else
      var k := IndexOf(s, sep);
      [s[..k]] + SplitOn(s[k + 1..], sep)
  }

  /** The index of the first `c` in `s`. */
  function IndexOf(s: string, c: char): (k: nat)
    requires c in s
    ensures k < |s| && s[k] == c && c !in s[..k]
  {
    if s[0] == c then 0 else 1 + IndexOf(s[1..], c)
  }

  /** `sep.join(parts)`. */
  function Join(parts: seq<string>, sep: string): string {
    if |parts| == 0 then ""
    else if |parts| == 1 then parts[0]
    else parts[0] + sep + Join(parts[1..], sep)
  }

  /** Splitting on a separator and joining with it again gives back the text. */
  lemma {:induction false} SplitJoin(s: string, sep: char)
    ensures Join(SplitOn(s, sep), [sep]) == s
    decreases |s|
  {
    if sep in s {
      var k := IndexOf(s, sep);
      var parts := SplitOn(s, sep);
      var rest := SplitOn(s[k + 1..], sep);
      assert parts == [s[..k]] + rest;
      assert parts[1..] == rest;
      assert Join(parts, [sep]) == s[..k] + [sep] + Join(rest, [sep]);
      SplitJoin(s[k + 1..], sep);
      assert s == s[..k] + [sep] + s[k + 1..];
    }
  }

  /** Text made of two separator-free halves around one separator splits
      into exactly those halves. */
  lemma SplitOnTwo(a: string, b: string, sep: char)
    requires sep !in a && sep !in b
    ensures SplitOn(a + [sep] + b, sep) == [a, b]
  {
    var s := a + [sep] + b;
    var k := IndexOf(s, sep);
    assert forall i :: 0 <= i < |a| ==> s[i] == a[i];
    assert k >= |a|;
    assert k == |a|;
    assert s[..k] == a;
    assert s[k + 1..] == b;
  }

  // ---- decimal numbers ---------------------------------------------------

  function DigitChar(d: nat): char
    requires d < 10
  {
    ('0' as int + d) as char
  }

  function DigitValue(c: char): nat
    requires IsDigit(c)
  {
    c as int - '0' as int
  }

  predicate AllDigits(s: string) {
    forall i :: 0 <= i < |s| ==> IsDigit(s[i])
  }

  /** `str(n)` for a natural number: decimal digits, no leading zero. */
  function NatToStr(n: nat): (r: string)
    ensures |r| >= 1 && AllDigits(r)
    ensures |r| > 1 ==> r[0] != '0'
  {
    if n < 10 then [DigitChar(n)] else NatToStr(n / 10) + [DigitChar(n % 10)]
  }

  /** The number a run of decimal digits denotes. */
  function DigitsValue(s: string): nat
    requires AllDigits(s)
  {
    if |s| == 0 then 0 else DigitsValue(s[..|s| - 1]) * 10 + DigitValue(s[|s| - 1])
  }

  /** Reading back a formatted number gives the number. */
  lemma {:induction false} DigitsOfNatToStr(n: nat)
    ensures DigitsValue(NatToStr(n)) == n
  {
    var s := NatToStr(n);
    if n >= 10 {
      DigitsOfNatToStr(n / 10);
      assert s[..|s| - 1] == NatToStr(n / 10);
    }
  }

  /** Distinct numbers format to distinct strings. */
  lemma NatToStrInjective(a: nat, b: nat)
    requires NatToStr(a) == NatToStr(b)
    ensures a == b
  {
    DigitsOfNatToStr(a);
    DigitsOfNatToStr(b);
  }

  /** `f"{n:0{w}d}"` for a natural number: left-padded with zeros to at least
      `w` characters. */
  function PadNat(n: nat, w: nat): (r: string)
    ensures |r| == if |NatToStr(n)| >= w then |NatToStr(n)| else w
    ensures AllDigits(r)
    decreases w
  {
    var s := NatToStr(n);
    if |s| >= w then s else "0" + PadNat(n, w - 1)
  }

  function Pow10(w: nat): (p: nat)
    ensures p >= 1
  {
    if w == 0 then 1 else 10 * Pow10(w - 1)
  }

  /** A number below 10^w has at most w digits (and at least one). */
  lemma {:induction false} NatToStrShort(n: nat, w: nat)
    requires n < Pow10(w) && w >= 1
    ensures |NatToStr(n)| <= w
  {
    if n >= 10 {
      NatToStrShort(n / 10, w - 1);
    }
  }

  /** Zero-padding a number below 10^w gives exactly w digits. */
  lemma PadNatWidth(n: nat, w: nat)
    requires n < Pow10(w) && w >= 1
    ensures |PadNat(n, w)| == w
  {
    NatToStrShort(n, w);
  }

  /** `str(i)` for any integer. */
  function IntToStr(i: int): (r: string)
    ensures |r| >= 1
  {
    if i < 0 then "-" + NatToStr(-i) else NatToStr(i)
  }

  // ---- Python int(text) ---------------------------------------------------

  /** Digits with single underscores between them, as `int()` accepts. */
  predicate DigitGroups(s: string) {
    |s| > 0 && IsDigit(s[0]) && IsDigit(s[|s| - 1])
    && (forall i :: 0 <= i < |s| ==> IsDigit(s[i]) || s[i] == '_')
    && (forall i | 0 <= i < |s| :: !DoubleUnderscoreAt(s, i))
  }

  predicate DoubleUnderscoreAt(s: string, i: int) {
    0 <= i < |s| - 1 && s[i] == '_' && s[i + 1] == '_'
  }

  /** The digits of `s` with the underscores removed. */
  function DropUnderscores(s: string): (r: string)
    requires forall i :: 0 <= i < |s| ==> IsDigit(s[i]) || s[i] == '_'
    ensures AllDigits(r)
    ensures AllDigits(s) ==> r == s
  {
    if |s| == 0 then ""
    else if s[0] == '_' then DropUnderscores(s[1..])
    else [s[0]] + DropUnderscores(s[1..])
  }

  /** `int(s)` for a text: optional surrounding whitespace, an optional sign
      and base-10 digit groups; `None` where Python raises ValueError. */
  function ParseInt(s: string): (r: Option<int>)
    ensures r.Some? ==> |Strip(s)| > 0
  {
    ParseSigned(Strip(s))
  }

  /** `int(t)` for a text without surrounding whitespace. */
  function ParseSigned(t: string): (r: Option<int>)
    ensures r.Some? ==> |t| > 0
  {
    if |t| == 0 then None
    else
      var neg := t[0] == '-';
      var body := if t[0] == '-' || t[0] == '+' then t[1..] else t;
      if !DigitGroups(body) then None
      else
        var v := DigitsValue(DropUnderscores(body));
        Some(if neg then -(v as int) else v as int)
  }

  lemma StripOfNoSpace(s: string)
    requires NoSpace(s)
    ensures Strip(s) == s
  {
    if |s| > 0 {
      assert !IsSpace(s[0]);
      assert StripLeft(s) == s;
      assert !IsSpace(s[|s| - 1]);
      assert StripRight(s) == s;
    }
  }

  lemma DigitsAreNotSpace(s: string)
    requires AllDigits(s)
    ensures NoSpace(s)
  {
  }

  lemma DigitsAreGroups(d: string)
    requires |d| > 0 && AllDigits(d)
    ensures DigitGroups(d) && DropUnderscores(d) == d
  {
    assert forall i :: 0 <= i < |d| ==> IsDigit(d[i]);
    assert forall i :: 0 <= i < |d| ==> d[i] != '_';
  }

  lemma ParseSignedDigits(d: string)
    requires |d| > 0 && AllDigits(d)
    ensures ParseSigned(d) == Some(DigitsValue(d))
  {
    DigitsAreGroups(d);
    assert IsDigit(d[0]);
  }

  lemma ParseSignedNegDigits(d: string, n: nat)
    requires |d| > 0 && AllDigits(d) && DigitsValue(d) == n
    ensures ParseSigned("-" + d) == Some(-(n as int))
  {
    DigitsAreGroups(d);
    ParseSignedMinus(d, n);
  }

  /** A leading minus negates the digit groups after it. */
  lemma ParseSignedMinus(d: string, v: nat)
    requires DigitGroups(d) && DigitsValue(DropUnderscores(d)) == v
    ensures ParseSigned("-" + d) == Some(-(v as int))
  {
    var t := "-" + d;
    assert t[0] == '-' && t[1..] == d;
  }

  /** `int(str(n)) == n` for every natural number. */
  lemma ParseIntOfNatToStr(n: nat)
    ensures ParseInt(NatToStr(n)) == Some(n)
  {
    var d := NatToStr(n);
    DigitsAreNotSpace(d);
    StripOfNoSpace(d);
    ParseSignedDigits(d);
    DigitsOfNatToStr(n);
  }

  lemma MinusDigitsNoSpace(d: string)
    requires AllDigits(d)
    ensures NoSpace("-" + d)
  {
    var s := "-" + d;
    forall j | 0 <= j < |s| ensures !IsSpace(s[j]) {
      if j > 0 { assert s[j] == d[j - 1]; }
    }
  }

  lemma ParseIntOfNegative(n: nat)
    ensures ParseInt("-" + NatToStr(n)) == Some(-(n as int))
  {
    var d := NatToStr(n);
    DigitsOfNatToStr(n);
    ParseIntNegDigits(d, n);
  }

  lemma ParseIntNegDigits(d: string, n: nat)
    requires |d| > 0 && AllDigits(d) && DigitsValue(d) == n
    ensures ParseInt("-" + d) == Some(-(n as int))
  {
    ParseSignedNegDigits(d, n);
    ParseIntMinus(d);
  }

  /** A minus sign followed by digits has no whitespace to strip. */
  lemma ParseIntMinus(d: string)
    requires AllDigits(d)
    ensures ParseInt("-" + d) == ParseSigned("-" + d)
  {
    MinusDigitsNoSpace(d);
    StripOfNoSpace("-" + d);
  }

  lemma ParseIntOfNegativeInt(i: int)
    requires i < 0
    ensures ParseInt(IntToStr(i)) == Some(i)
  {
    var n: nat := -i;
    assert IntToStr(i) == "-" + NatToStr(n);
    ParseIntOfNegative(n);
  }

  /** `int(str(i)) == i` for every integer. */
  lemma ParseIntOfIntToStr(i: int)
    ensures ParseInt(IntToStr(i)) == Some(i)
  {
    if i >= 0 {
      ParseIntOfNatToStr(i);
      assert IntToStr(i) == NatToStr(i);
    } else {
      ParseIntOfNegativeInt(i);
    }
  }
  /** Leading zeros do not change the value of a run of digits. */
  lemma {:induction false} DigitsValueLeadingZero(s: string)
    requires AllDigits(s)
    ensures AllDigits("0" + s) && DigitsValue("0" + s) == DigitsValue(s)
    decreases |s|
  {
    var t := "0" + s;
    assert AllDigits(t) by {
      forall i | 0 <= i < |t| ensures IsDigit(t[i]) {
        if i > 0 { assert t[i] == s[i - 1]; }
      }
    }
    if |s| > 0 {
      assert t[..|t| - 1] == "0" + s[..|s| - 1];
      DigitsValueLeadingZero(s[..|s| - 1]);
    }
  }

  /** `int(d)` of a non-empty run of digits, leading zeros allowed. */
  lemma ParseIntOfDigits(d: string)
    requires |d| > 0 && AllDigits(d)
    ensures ParseInt(d) == Some(DigitsValue(d) as int)
  {
    DigitsAreNotSpace(d);
    StripOfNoSpace(d);
    ParseSignedDigits(d);
  }

  /** The zero-padded text of a number reads back as the number. */
  lemma {:induction false} PadNatValue(n: nat, w: nat)
    ensures DigitsValue(PadNat(n, w)) == n
    decreases w
  {
    var s := NatToStr(n);
    if |s| >= w {
      DigitsOfNatToStr(n);
    } else {
      PadNatValue(n, w - 1);
      DigitsValueLeadingZero(PadNat(n, w - 1));
    }
  }

  /** `int(f"{n:0{w}d}") == n`. */
  lemma ParseIntOfPadNat(n: nat, w: nat)
    ensures ParseInt(PadNat(n, w)) == Some(n)
  {
    PadNatValue(n, w);
    ParseIntOfDigits(PadNat(n, w));
  }
  /** A run of `w` digits is below 10^w. */
  lemma {:induction false} DigitsValueBound(s: string)
    requires AllDigits(s)
    ensures DigitsValue(s) < Pow10(|s|)
    decreases |s|
  {
    if |s| > 0 {
      DigitsValueBound(s[..|s| - 1]);
    }
  }

  /** The value of two digits. */
  lemma TwoDigitsValue(s: string)
    requires |s| == 2 && AllDigits(s)
    ensures DigitsValue(s) == DigitValue(s[0]) * 10 + DigitValue(s[1])
  {
    var t := s[..1];
    assert t[..0] == [] && t[0] == s[0];
    assert DigitsValue(t) == DigitValue(s[0]);
  }
}

=== FILE: wrappers.dfy ===
/** Failure-compatible wrappers shared by every module: `Option` for Python's
    "value or None", `Result` for "value or raised error". */
module Wrappers {

  /** A value that may be absent (Python `None`). */
  datatype Option<+T> = None | Some(value: T) {

    predicate IsFailure() {
      None?
    }

    function PropagateFailure<U>(): Option<U>
      requires None?
    {
      None
    }

    function Extract(): T
      requires Some?
    {
      value
    }

    /** The value, or `default` when absent. */
    function GetOr(default: T): T {
      match this
      case Some(v) => v
      case None => default
    }
  }

  /** The outcome of an operation that may raise: `Ok` carries the value,
      `Err` the error text or error value. */
  datatype Result<+R, +E> = Ok(value: R) | Err(error: E) {

    predicate IsFailure() {
      Err?
    }

    function PropagateFailure<U>(): Result<U, E>
      requires Err?
    {
      Err(error)
    }

    function Extract(): R
      requires Ok?
    {
      value
    }
  }
}
